=== FILE: README.md ===
# A verified model of the supa self-tracker's core

The supa self-tracker is a React app. Each day it records habits, body and reading metrics, journal entries, reading and gaming sessions, money transactions, learning notes and goal lists. This project models the deterministic part of that app in Dafny. It covers the pure utilities and the calculations the pages write inline. Each becomes a pure function over immutable data, with contracts and lemmas that state what the app promises.

Conventions used throughout:

- A date `YYYY-MM-DD` is a day number (`Calendar.Day`), the days since 1970-01-01. ISO-string order is integer order, and "n days ago" is subtraction.
- The weekday is concrete: Sunday is 0, as in JavaScript's `getDay`. Months come from an abstract calendar that only has to be monotone, with no month longer than 31 days.
- Numbers are exact `real`s. `Math.round(x)` is `floor(x + 0.5)` (`Numeric.Round`), and `toFixed(0)` rounds halves away from zero (`Numeric.ToFixed0`).
- A metric value is `Option<real>`. `None` is a stored `null`; a key missing from the record's map is "not entered".
- Habits are booleans. A journal map holds `Option<Journal>`, so a stored `null` entry can be represented.
- Today's date, the record ids a page generates and the user's answers are parameters.

The modules follow the app's structure:

| module | models |
|---|---|
| `Score` | `calculateDailyScore` (src/utils/score.js): 78 raw points, the journal bonus, rescaling to 100, the grade ladder, the breakdown |
| `LegacyScore` | the older, unscaled score in progress-app.jsx |
| `Srs` | `calculateNextReview` (src/utils/srs.js) |
| `Learning` | the due queue, reviewing and note edits on the learning page |
| `Streaks` | `calculateStreak` (src/utils/streaks.js) and the best-streak fold |
| `Calendar` | `formatDate`, `getDaysAgo`, `getWeekStart`, `getMonthStart` (src/utils/date.js) and the older Sunday week start |
| `Records`, `Folds`, `Aggregates`, `Orders`, `Text`, `Numeric`, `Collections`, `Wrappers` | stored records and their lookups; `filter`/`reduce` folds; sparse averages; sorting; `trim`, `split`, word counts; rounding; edit/delete/add by id |
| `Review` | `getReviewStats`, the consistency figure, `promptSuggestions` and saving a review (ReviewPage.jsx) |
| `Analytics` | chart rows, averages, score summary, year-to-date totals, habit, money and media figures, the heatmap (AnalyticsPage.jsx) |
| `Today` | the today page: weekly averages, the scored pages, field updates, the journal, the day summary |
| `LogEdit` | the log page: the date strip, `getDateScore`, `saveEdits`, the pages editor |
| `Body`, `Mind` | the body and mind pages' weekly figures, the water toggle, `normalizeStatus`, `sessionBooks`, the pages input |
| `GoalLists` | goal status, item toggle, mark-all, skip, draft parsing, gaming minutes (CorePage.jsx) |
| `Money` | months, month and year statistics, categories, transaction edits (MoneyPage.jsx) |
| `App` | journal and goal normalisation, loaded-state defaults, recent pages, the week-key migration, the goals prompt (src/App.jsx) |
| `Journals`, `Library` | the journal and library pages |
| `ScoreCard`, `MetricInput` | the score card, the breakdown dialog and the metric input component |

The model follows the code. Points where the code does something a reader might not expect:

- The rescaled score is not confined to [0, 100]. The journal bonus lies outside the 78-point denominator, so a perfect day with the full bonus scores round(83 · 100 / 78) = 106 (`Score.ScoreBounds`).
- The review's consistency figure divides the logged days by a fixed 7 or 30 (ReviewPage.jsx:119, 254). It does not divide by the logged days or by the days elapsed. Habit percentages on the analytics page do divide by the logged days.
- Sparse averages skip days where the metric is zero as well as days where it is missing. The test is JavaScript truthiness, not presence.
- The review's average score is over days with a metrics or habits record, scored or not. Only the analytics page averages over days with a positive score.
- A zero goal needs no special guard: it falls back to its default.
- The scheduler puts no precondition on the interval or the ease. The model takes any values, and states its bounds under the conditions they need.
- The focus habit may be `nofap`, `workout`, `run`, `keptWord`, `hardThing` or `healthyEating` (src/App.jsx:152-159). `integrity` is not among them.
- The older copies of `calculateStreak`, `calculateNextReview` and `bestNoFapStreak` in progress-app.jsx (32-59, 2382-2397) are the same code as the current ones, and the same members model both. The older `habitStats` (2400-2429) divides by the days with a habits record, as the current one does (`Analytics.HabitPct`).

## Model

| member | source | states |
|---|---|---|
| Score.GradeOf | src/utils/score.js:79 | each grade holds exactly on its band: S from 90, A in [80, 90), B in [70, 80), C in [60, 70), D in [50, 60), F below 50 |
| Score.GradeMonotone | src/utils/score.js:79 | a higher score never earns a lower grade |
| Score.GoalFor | src/utils/score.js:34-41 | the goal used is never 0; an unset or zero goal falls back to the default, any other goal is used as set |
| Score.MetricPercent | src/utils/score.js:45-46 | the percentage is capped at 100, is non-negative for a non-negative value and positive goal, and is exactly 100 at or above the goal |
| Score.PointsForBounds | src/utils/score.js:47 | a metric earns between 0 and 8 points, all 8 at 100 percent and none at 0 percent |
| Score.MetricItems | src/utils/score.js:43-50 | one breakdown line per metric, in order, each built from that metric's value and goal |
| Score.JournalBonus | src/utils/score.js:52-53 | the bonus lies in 0..5, is 0 below 100 characters, 5 from 500, and min(5, length / 100) from 100 characters on |
| Score.BonusItems | src/utils/score.js:55-63 | the bonus line is present exactly when the bonus is positive |
| Score.ScaleItem | src/utils/score.js:69-73 | rescaling a line keeps its title, percent, bonus flag, value and goal |
| Score.Calculate | src/utils/score.js:1-81 | the maximum is always 100, the score is the raw score times 100 over 78, rounded, the grade is the ladder applied to the rounded scaled score, and there is one scaled line per raw line |
| Score.RawMaxIs78 | src/utils/score.js:6-44 | the raw denominator is 78: two habits and the activity slot at 10, six metrics at 8 |
| Score.BreakdownShape | src/utils/score.js:11-64 | the breakdown holds nine non-bonus lines, followed by the bonus line exactly when there is a bonus |
| Score.NonBonusMaxIsRawMax | src/utils/score.js:11-50 | the maxima of the nine non-bonus lines add up to the denominator 78, so the bonus is outside it |
| Score.HabitItemsSums | src/utils/score.js:11-33 | the three habit lines are worth 30 points and earn what the score adds for them |
| Score.MetricItemsMax | src/utils/score.js:43-50 | the metric lines are worth 8 points each |
| Score.RawScoreIsBreakdownSum | src/utils/score.js:11-64 | the unscaled score is the sum of what the breakdown lines earn |
| Score.ActivitySlot | src/utils/score.js:21-33 | workout or run earns the single 10-point slot; doing both earns the same as doing either alone |
| Score.MetricEarnedBounds | src/utils/score.js:43-50 | with non-negative values and goals each metric earns between 0 and 8 raw points |
| Score.MetricTotalBounds | src/utils/score.js:43-50 | the metrics together earn between 0 and 8 points per metric |
| Score.RawScoreBounds | src/utils/score.js:11-64 | with non-negative inputs the raw score lies between 0 and 78 plus the bonus |
| Score.ScoreBounds | src/utils/score.js:66-68 | with non-negative inputs the score is at least 0, at most 100 without a bonus, and at most 106 with one |
| Score.ScaledRoundBounds | src/utils/score.js:66-68 | rounding a scaled raw score of at most 78 plus a bonus of at most 5 gives 0..106, and 0..100 without a bonus |
| Score.PercentIsScore | src/utils/score.js:68-77 | the percent field always equals the score |
| Score.ShortJournalNoBonus | src/utils/score.js:52-63 | a journal of 51 to 99 characters passes the length test but earns no bonus and adds no line |
| Score.UnenteredMetricsEarnNothing | src/utils/score.js:45-48 | metrics with no value earn nothing, line by line and in total |
| Score.NoHabitsEarnNothing | src/utils/score.js:11-33 | with no habit ticked the three habit lines earn nothing |
| Score.UnloggedDayRaw | src/utils/score.js:11-64 | with nothing entered, nothing ticked and a short journal the raw score is 0 and the nine lines earn nothing |
| Score.ZeroRawScore | src/utils/score.js:66-79 | a raw score of 0 with lines that earn nothing gives score 0, grade F and scaled lines that earn nothing |
| Score.UnloggedDay | src/utils/score.js:1-81 | an unlogged day scores 0 with grade F and nine breakdown lines that all earn 0 |
| Score.EmptyDay | src/utils/score.js:1-81 | the day of a date with no records scores 0 with grade F and nine lines that earn 0 |
| Score.MetricAtGoal | src/utils/score.js:45-47 | a metric at or above its goal earns the full 8 points |
| Score.MetricTotalAtGoal | src/utils/score.js:43-50 | when every metric meets its goal the metrics earn 8 points each |
| Score.PerfectDayRaw | src/utils/score.js:11-64 | a day meeting every habit and goal earns 78 raw points plus its bonus |
| Score.ScoreMonotone | src/utils/score.js:66-69 | a day with at least as many raw points scores at least as high and grades at least as well: rescaling and rounding never reorder two days |
| Score.PerfectDayScore | src/utils/score.js:52-68 | a perfect day scores 100 without a bonus and 106 with a journal of 500 characters or more |
| Score.MetricTotalCongruent | src/utils/score.js:45 | the metric points depend on a metric only through `value \|\| 0` |
| Score.MetricItemsCongruent | src/utils/score.js:45-49 | the metric lines depend on a metric only through `value \|\| 0` |
| Score.CalculateCongruent | src/utils/score.js:45 | two metric records that agree on every `value \|\| 0` give the same score and breakdown |
| LegacyScore.HabitLines | progress-app.jsx:77-85 | one line per habit, worth 10 and earned exactly when the habit is done |
| LegacyScore.Calculate | progress-app.jsx:62-121 | the maximum is always 100 with no rescaling: the displayed score is the raw score rounded, which is the rounded sum of what the breakdown lines earn; the percent equals the score, the grade is read off the unrounded score, and the breakdown holds six habit lines, five metric lines and the bonus line exactly when there is a bonus |
| LegacyScore.HabitLinesMax | progress-app.jsx:77-85 | the habit lines are worth 10 points each |
| LegacyScore.NonBonusMaxIs100 | progress-app.jsx:67-103 | the six habit and five metric lines are worth exactly 100, so nothing is rescaled |
| LegacyScore.HabitTotalBounds | progress-app.jsx:77-85 | the habits earn between 0 and 10 points each |
| LegacyScore.RawScoreBounds | progress-app.jsx:96-112 | with non-negative inputs the raw score lies between 0 and 105 |
| LegacyScore.HabitTotalExpanded | progress-app.jsx:68-85 | the habit part of the score is the sum of the six habits' points |
| LegacyScore.WorkoutAndRunBothCount | progress-app.jsx:68-85 | workout and run are separate habits: doing both earns 10 points more than either alone |
| LegacyScore.RawScoreIsBreakdownSum | progress-app.jsx:66-112 | the raw score is exactly what the six habit lines, five metric lines and the bonus line earn |
| LegacyScore.GradeFromUnroundedScore | progress-app.jsx:114-120 | a raw score of 89.6 is shown as 90 but graded A, while the current ladder grades 90 as S |
| Srs.NextReview | src/utils/srs.js:1-9 | the new ease is at least 1.3 and at least the old ease plus the response's change; the new interval is at least 1 and at least the rounded scaled interval |
| Srs.EaseUpdate | src/utils/srs.js:3-6 | from an ease of at least 1.3: good keeps it, easy adds 0.15, hard and again subtract 0.15 and 0.2 with the 1.3 floor applied after |
| Srs.EaseFloorLifts | src/utils/srs.js:3-6 | an ease below the floor is lifted to 1.3 by a good answer |
| Srs.IntervalMonotone | src/utils/srs.js:2-7 | with interval and ease at least 1, hard, good and easy never shrink the interval and again never grows it |
| Srs.MultiplierUsesIncomingEase | src/utils/srs.js:2-7 | good and easy scale the interval by the ease the card had before the review |
| Srs.EasyExample | src/utils/srs.js:2-8 | (10, 2.0, easy) gives (26, 2.15): the multiplier is 2.0 * 1.3, not the new ease |
| Srs.GoodExample | src/utils/srs.js:2-8 | (4, 2.0, good) gives (8, 2.0) |
| Srs.AgainExample | src/utils/srs.js:2-8 | again halves the interval down to a floor of 1 and lowers the ease down to 1.3 |
| Streaks.MarkedUpToStep | src/utils/streaks.js:10-12 | stepping back one day removes that day from the marked days exactly when it is marked |
| Streaks.MaximalRunUnique | src/utils/streaks.js:7-18 | a maximal run of marked days ending on a given day has only one length |
| Streaks.CalculateStreak | src/utils/streaks.js:3-20 | the result is the length of the maximal run of marked days ending today, or yesterday when today is unmarked; it is at most the number of marked days, and 0 when neither today nor yesterday is marked |
| Streaks.RunEndIsLongestEndingAt | src/pages/AnalyticsPage.jsx:145-160 | the current run of the fold is the longest all-true block ending at that position |
| Streaks.LongestIsLongestBlock | src/pages/AnalyticsPage.jsx:145-160 | the best run up to a position is the length of some all-true block and no block is longer |
| Streaks.BestRun | src/pages/AnalyticsPage.jsx:148-158 | the fold's loop returns the longest all-true block of the flags |
| Streaks.BestStreak | src/pages/AnalyticsPage.jsx:145-160 | `bestNoFapStreak` is the longest block of consecutive logged dates with the habit done, at most the number of logged dates |
| Streaks.BestStreakIgnoresGaps | src/pages/AnalyticsPage.jsx:148-158 | when the habit is done on every logged date the best streak is the number of logged dates, however far apart they are |
| Streaks.BestStreakBrokenByLoggedMiss | src/pages/AnalyticsPage.jsx:148-158 | a logged date without the habit ends every block through it |
| Calendar.Weekday | src/utils/date.js:16 | the weekday is in 0..6 |
| Calendar.WeekdayNext | src/utils/date.js:16 | consecutive days have consecutive weekdays, wrapping from Saturday to Sunday |
| Calendar.DaysAgo | src/utils/date.js:8-12 | counting back a non-negative number of days never passes today |
| Calendar.DaysAgoFacts | src/utils/date.js:8-12 | zero days ago is today, n days ago is exactly n days before today, and one more day back is n + 1 days ago |
| Calendar.WeekStart | src/utils/date.js:14-20 | the week start is a Monday no later than the day and at most six days before it |
| Calendar.WeekStartUnique | src/utils/date.js:14-20 | any Monday at most six days back is the week start |
| Calendar.WeekStartIdempotent | src/utils/date.js:14-20 | the week start of a week start is itself |
| Calendar.SameWeek | src/utils/date.js:14-20 | two days share a week start exactly when the second lies in the first's Monday-to-Sunday week |
| Calendar.LegacyWeekStart | progress-app.jsx:21-25 | the older week start is a Sunday no later than the day and at most six days before it |
| Calendar.LegacyWeekStartDiffers | progress-app.jsx:21-25 | the Sunday key never equals the Monday key: it is the day before, except on a Sunday, where the Monday key is six days earlier |
| Calendar.MonthNumber | src/utils/date.js:24 | the month number is in 1..12 |
| Calendar.FirstOfMonthFrom | src/utils/date.js:22-25 | the backward walk stops within 30 days on the first day of the same month |
| Calendar.MonthStart | src/utils/date.js:22-25 | the month start is no later than the day, within 30 days of it, in the same year and month, and is the first of the month |
| Calendar.MonthStartUnique | src/utils/date.js:22-25 | a first-of-month day in the day's month, no later than it, is the month start |
| Calendar.MonthStartIdempotent | src/utils/date.js:22-25 | the month start of a month start is itself |
| Calendar.SameMonth | src/utils/date.js:22-25 | two days share a month start exactly when they are in the same month |
| Calendar.FormatDate | src/utils/date.js:1-4 | the result is a prefix of the ISO string without a `T` |
| Calendar.FormatDateOfTimestamp | src/utils/date.js:1-4 | on a full ISO timestamp the result is its 10-character `YYYY-MM-DD` prefix |
| Calendar.FormatDateIsFirstField | src/utils/date.js:3 | the result is the first field of `split('T')` |
| ScoreCard.MessageFor | src/components/DailyScoreCard.jsx:26-33 | the message bands are the grade ladder, so the card's message always matches its grade: legendary exactly from 90, the new-day message exactly below 50 |
| ScoreCard.DigitChar | src/components/DailyScoreCard.jsx:5 | a digit value 0..9 is written as the character that reads back as it |
| ScoreCard.NatDigits | src/components/DailyScoreCard.jsx:5 | a number is written as at least one decimal digit, with a leading 0 only for 0 itself |
| ScoreCard.DigitsRoundTrip | src/components/DailyScoreCard.jsx:5 | reading the written digits back gives the number |
| ScoreCard.DiffText | src/components/DailyScoreCard.jsx:4-5 | the difference text starts with `+` exactly when this week is ahead, with `-` exactly when it is behind, and is `0` exactly when they are level |
| ScoreCard.DiffTextReadsBack | src/components/DailyScoreCard.jsx:4-5 | reading the difference text as a signed number gives this week's average minus last week's |
| ScoreCard.DiffColor | src/components/DailyScoreCard.jsx:6 | the colour is green exactly when the text shows `+` and red exactly when it shows `-` |
| ScoreCard.ArcLength | src/components/DailyScoreCard.jsx:60 | the drawn arc is proportional to the percent: within the ring's 226 for 0..100 percent, the full ring at 100, and longer than the ring past 100 |
| ScoreCard.ShowBonus | src/components/ScoreBreakdownModal.jsx:62 | the bonus section is shown exactly when some line is a bonus line |
| ScoreCard.GroupsPartition | src/components/ScoreBreakdownModal.jsx:21-66 | the habit, metric and bonus sections are disjoint and between them show every well-formed line exactly once |
| ScoreCard.GroupCounts | src/components/ScoreBreakdownModal.jsx:21-66 | for habit lines followed by metric lines and bonus lines each section shows exactly its own lines |
| ScoreCard.CalculatedGroups | src/components/ScoreBreakdownModal.jsx:21-66 | for a calculated score the dialog shows three habit lines, six metric lines, and a bonus section exactly when there is a journal bonus |
| ScoreCard.TipOf | src/components/ScoreBreakdownModal.jsx:80 | a tip keeps the line's title and is marked low exactly below 50 percent |
| ScoreCard.Tips | src/components/ScoreBreakdownModal.jsx:79-80 | the tips are the first three non-bonus lines below 100 percent, in breakdown order; there are none exactly when no line needs work |
| ScoreCard.PerfectDayNoTips | src/components/ScoreBreakdownModal.jsx:79-80 | a day meeting every habit and goal gets no tip |
| MetricInput.Display | src/components/MetricInput.jsx:17 | a missing value shows a blank box and any number, 0 included, shows itself |
| MetricInput.Parse | src/components/MetricInput.jsx:18 | clearing the box stores no value, and what is stored displays as the box's content again |
| MetricInput.QuickAdd | src/components/MetricInput.jsx:32 | a quick-add always stores a value: the amount on an empty field, the value plus the amount otherwise |
| MetricInput.QuickAddTwice | src/components/MetricInput.jsx:32 | pressing two quick-add buttons in turn adds their sum, in either order |
| MetricInput.Progress | src/components/MetricInput.jsx:2 | the bar is at most 100, empty without a goal, and otherwise the same percentage the daily score gives the metric: full at the goal, never negative for non-negative input |
| MetricInput.ProgressLabel | src/components/MetricInput.jsx:49 | the label is a whole number in 0..100 for non-negative input, 100 at the goal and 0 without a goal |
| Money.AvailableMonths | src/pages/MoneyPage.jsx:15-25 | the month list holds the current month and the month of every transaction, nothing else, each once, latest first |
| Money.AddToNames | src/pages/MoneyPage.jsx:46 | adding to a breakdown keeps every entry of another name and introduces only the added name |
| Money.AddToDistinct | src/pages/MoneyPage.jsx:46 | adding to a breakdown keeps its names distinct |
| Money.AddToLookup | src/pages/MoneyPage.jsx:46 | adding changes what the added name looks up by the amount and no other name's total |
| Money.AddToSum | src/pages/MoneyPage.jsx:46 | adding raises the sum of the totals by the amount |
| Money.LookupMember | src/pages/MoneyPage.jsx:46 | in a breakdown with distinct names an entry's total is what its name looks up |
| Money.BreakdownFacts | src/pages/MoneyPage.jsx:41-47 | the breakdown has one entry per category that occurs, holding the total of that category, and the entries add up to the total of all transactions |
| Money.SortedCategories | src/pages/MoneyPage.jsx:41-61 | the sorted categories are largest first, each category once with its own total, every occurring category present, and they add up to the total |
| Money.SavingsRate | src/pages/MoneyPage.jsx:39 | the rate is 0 without income; with income it is the whole percentage within half a point of the kept share (income − expenses) / income · 100, a half rounded away from zero as `toFixed(0)` does; so it is 100 with no expenses, 0 when expenses equal income, and within 0..100 when expenses are within the income |
| Money.SavingsRateAntitone | src/pages/MoneyPage.jsx:39 | spending more out of the same income never raises the savings rate |
| Money.MonthTotal | src/pages/MoneyPage.jsx:28-36 | the month's total of a type is the sum over the transactions dated in that month with exactly that type |
| Money.MonthCategories | src/pages/MoneyPage.jsx:41-61 | the month's categories of a type are largest first, distinct, each with its category's total, covering every such transaction, and add up to the month's total of that type |
| Money.MonthStatsOf | src/pages/MoneyPage.jsx:27-72 | income and expenses are the month's sums of those two types only, the net is their difference, each breakdown adds up to its figure and is largest first, and the count is the number of the month's transactions |
| Money.AddChangesItsMonth | src/pages/MoneyPage.jsx:27-72 | adding a transaction changes only its own month, and there only the figure of its type and the count |
| Money.MonthList | src/pages/MoneyPage.jsx:108-112 | the month's list is a permutation of the month's transactions, latest date first, and transactions of the same date keep their stored order |
| Money.YearRows | src/pages/MoneyPage.jsx:78-93 | a year has twelve rows, January first, each the totals of its month |
| Money.YearStatsOf | src/pages/MoneyPage.jsx:74-106 | the year has twelve months with their keys in order, the net is income minus expenses, and the monthly averages are the totals over 12 |
| Money.MonthsSplit | src/pages/MoneyPage.jsx:78-93 | summing distinct months one by one counts each transaction of those months exactly once |
| Money.RowsAddUp | src/pages/MoneyPage.jsx:78-96 | the year's twelve monthly totals of a type add up to the year's total of that type |
| Money.RowsAreMonths | src/pages/MoneyPage.jsx:83-92 | the rows' income and expenses are the months' totals, month by month |
| Money.YearAddsUp | src/pages/MoneyPage.jsx:74-106 | the twelve months' income and expenses add up to the yearly totals |
| Money.YearRowTotals | src/pages/MoneyPage.jsx:81-84 | a year's bar holds its month's totals of the year's transactions |
| Money.YearThenMonth | src/pages/MoneyPage.jsx:76-81 | narrowing to the year first does not change any month of that year |
| Money.YearRowIsMonth | src/pages/MoneyPage.jsx:27-93 | the yearly chart's bar for a month shows the same income and expenses as that month's view |
| Money.AddTransaction | src/pages/MoneyPage.jsx:380-381 | adding appends one transaction with the caller's fresh id and the form's amount and type, dated today when no date was picked, and keeps the others |
| Money.EditTransaction | src/pages/MoneyPage.jsx:396-399 | editing replaces the form's fields in the transactions with the id, keeps their id, and changes no other transaction |
| Money.DeleteTransaction | src/pages/MoneyPage.jsx:122-125 | deleting removes every transaction with the id and keeps the rest in their stored order (an order-preserving filter) |
| Money.DeleteUndoesAdd | src/pages/MoneyPage.jsx:122-125 | a transaction added with a fresh id is removed again by deleting that id |
| Money.SubmitTransaction | src/components/forms/TransactionForm.jsx:81-85 | the form hands nothing over exactly when the amount box is empty; a typed amount, 0 included, is handed over with the kind, the category and the date box |
| Money.UntouchedEditRoundTrip | src/components/forms/TransactionForm.jsx:8-84 | saving the edit form untouched hands back the transaction's own date, amount, type and category, except that an amount of 0 opens as an empty box and the save does nothing |
| Money.SubmitThenAdd | src/pages/MoneyPage.jsx:380-383 | a submitted amount becomes exactly one new transaction at the end, dated the chosen day or today when the date was cleared |
| Aggregates.Average | src/pages/ReviewPage.jsx:89-91 | an average exists exactly when something was counted |
| Aggregates.AverageWithin | src/pages/ReviewPage.jsx:89-91 | an average lies between the least and the greatest value averaged |
| Aggregates.AverageOfConstant | src/pages/ReviewPage.jsx:89-91 | averaging a constant gives the constant back |
| Aggregates.NonZero | src/pages/ReviewPage.jsx:65-67 | the counted days are exactly the days with a non-zero value |
| Aggregates.SparseAverage | src/pages/ReviewPage.jsx:65-67 | a sparse average is missing exactly when every value is zero |
| Aggregates.SparseAverageWithin | src/pages/ReviewPage.jsx:65-67 | zero days do not pull a sparse average down: bounds on the non-zero values bound it |
| Aggregates.SparseAverageIgnoresZeros | src/pages/ReviewPage.jsx:65-67 | appending days without data leaves a sparse average unchanged |
| Aggregates.SparseAverageIsRatio | src/pages/ReviewPage.jsx:65-67 | a sparse average is the plain total over the number of non-zero values |
| Aggregates.SparseAverageReversed | src/pages/BodyPage.jsx:38-50 | a sparse average does not depend on the direction the days are walked |
| Aggregates.RoundedAverage | src/pages/ReviewPage.jsx:96 | a rounded average of nothing is 0 |
| Aggregates.RoundedAverageWithin | src/pages/ReviewPage.jsx:96 | a rounded average of values within whole-number bounds stays within them |
| Analytics.RangeDays | src/pages/AnalyticsPage.jsx:10-14 | a range covers 7, 30 or 90 days |
| Analytics.RowOn | src/pages/AnalyticsPage.jsx:37-56 | a chart row has its date, the day's pages with the session pages added, and the day's push-ups and distance with missing values read as 0 |
| Analytics.RowsFor | src/pages/AnalyticsPage.jsx:36-57 | one row per given day, in order |
| Analytics.ChartData | src/pages/AnalyticsPage.jsx:32-60 | the chart has one row per day of the window, dates strictly increasing, ending today |
| Analytics.ChartPagesMatchReview | src/pages/AnalyticsPage.jsx:40-50 | the window's pages equal the review's page total over the same days: both add the session pages to the manual pages |
| Analytics.ChartPushupsTotal | src/pages/AnalyticsPage.jsx:86 | the window's push-ups are the logged push-ups of its days |
| Analytics.ChartRunTotal | src/pages/AnalyticsPage.jsx:117 | the window's distance is the logged distance of its days |
| Analytics.ChartAverages | src/pages/AnalyticsPage.jsx:62-72 | without any logged row every average is 0; otherwise each figure is the mean over the rows with steps, water or sleep, with steps and pages rounded |
| Analytics.AverageWaterWithin | src/pages/AnalyticsPage.jsx:63-68 | bounds on the logged rows' water bound the average water |
| Analytics.AverageSleepWithin | src/pages/AnalyticsPage.jsx:63-69 | bounds on the logged rows' sleep bound the average sleep |
| Analytics.AveragePagesWithin | src/pages/AnalyticsPage.jsx:63-70 | integer bounds on the logged rows' pages bound the rounded average pages |
| Analytics.AveragesIgnoreUnloggedRow | src/pages/AnalyticsPage.jsx:63-70 | a row without steps, water or sleep changes no average, even when it has pages |
| Analytics.AverageStepsWithin | src/pages/AnalyticsPage.jsx:63-67 | bounds on the logged rows' steps bound the average steps |
| Analytics.MaxScore | src/pages/AnalyticsPage.jsx:79 | the maximum is at least every row's score and is some row's score |
| Analytics.FindScore | src/pages/AnalyticsPage.jsx:80 | the search finds nothing exactly when no row has the score, and otherwise finds the first row that has it |
| Analytics.FindAmongScored | src/pages/AnalyticsPage.jsx:75-80 | for a positive score, searching the scored rows finds what searching every row finds |
| Analytics.ScoreStatsIgnoreUnscored | src/pages/AnalyticsPage.jsx:74-78 | appending a row with a score of 0 or less changes neither the average, the best nor the best date |
| Analytics.ScoreStatsOf | src/pages/AnalyticsPage.jsx:74-83 | there is a best date exactly when some row has a positive score; the best is at least every score; the best date is that of the first row reaching it; the average is the rounded mean over the rows with a positive score only, between 1 and the best, and 0 with no such row |
| Analytics.StoredYtdDays | src/pages/AnalyticsPage.jsx:99-104 | the stored dates kept for the year are ascending and are exactly the year's days up to today with a value |
| Analytics.WalkedYtdDays | src/pages/AnalyticsPage.jsx:99-104 | walking the calendar days of the year and keeping those with a value gives the same days in ascending order |
| Analytics.YtdDaysAreTruthyDays | src/pages/AnalyticsPage.jsx:99-104 | the stored dates kept for the year are the calendar days of the year with a value |
| Analytics.PerDay | src/pages/AnalyticsPage.jsx:106 | a total spread over a positive number of days gives the total back when multiplied by the days; with no days it is 0 |
| Analytics.YtdAvgPerDay | src/pages/AnalyticsPage.jsx:96-106 | from the first day of the year on, the average times the calendar days so far is the year-to-date total; before the year starts it is 0 |
| Analytics.YtdTotalIsCalendarSum | src/pages/AnalyticsPage.jsx:92-104 | the year-to-date total is the sum of the metric over every calendar day of the year so far |
| Analytics.LoggedHabitDays | src/pages/AnalyticsPage.jsx:172-176 | no more days are logged than the window has |
| Analytics.HabitCount | src/pages/AnalyticsPage.jsx:175-181 | a habit is done on no more days than were logged |
| Analytics.HabitPct | src/pages/AnalyticsPage.jsx:186 | a habit percentage lies in 0..100 and is 0 when no day was logged |
| Analytics.HabitPctFull | src/pages/AnalyticsPage.jsx:172-186 | over a window of at most 90 days with a logged day, a habit shows 100 exactly when it was done on every logged day |
| Analytics.FocusPct | src/pages/AnalyticsPage.jsx:187 | the focus percentage is missing exactly without a focus habit and otherwise lies in 0..100 |
| Analytics.FocusPctAtMostHabitPct | src/pages/AnalyticsPage.jsx:186-187 | the focus figure divides by the window length and never exceeds the same habit's percentage over logged days |
| Analytics.HabitStatsOf | src/pages/AnalyticsPage.jsx:162-198 | the logged days fit in the window, every percentage lies in 0..100, and all are 0 when nothing was logged |
| Analytics.MoneyStatsOf | src/pages/AnalyticsPage.jsx:200-209 | the net is income minus expenses |
| Analytics.MoneyOtherKindsIgnored | src/pages/AnalyticsPage.jsx:204-206 | income, expenses and the transactions of any other type together make up every transaction since the window start |
| Analytics.ReadingMinutes | src/pages/AnalyticsPage.jsx:214-221 | with no session from the start date on the minutes are 0, and with non-negative durations they are never negative |
| Analytics.ReadingMinutesSnoc | src/pages/AnalyticsPage.jsx:214-221 | a new session adds its minutes exactly when it is dated on or after the start date |
| Analytics.PeriodReadingWithinYear | src/pages/AnalyticsPage.jsx:211-221 | when the window lies inside the year its reading minutes are within the year's |
| Analytics.LibraryById | src/pages/AnalyticsPage.jsx:16-22 | every id of the library is mapped, to an item carrying that id, and to the last item carrying it |
| Analytics.MediaStatsOf | src/pages/AnalyticsPage.jsx:226-256 | the year's tracked minutes are the minutes of the year's sessions on a series, course or podcast in the library |
| Analytics.MediaPeriodTotalIsTracked | src/pages/AnalyticsPage.jsx:229-253 | the period total is what the year-to-date rule gives from the window start: sessions on a missing item or of another type add nothing |
| Analytics.BandOf | src/pages/AnalyticsPage.jsx:276-280 | a cell is blank exactly when unlogged, and a logged cell's band is exactly its score band: from 80, 60 to 80, 40 to 60, below 40 |
| Analytics.WeeksCount | src/pages/AnalyticsPage.jsx:262-264 | the grid has 53 week columns whatever weekday the year starts on |
| Analytics.WeekdayShift | src/pages/AnalyticsPage.jsx:282-283 | shifting a day forward shifts its weekday forward modulo 7 |
| Analytics.CellAt | src/pages/AnalyticsPage.jsx:267-289 | a cell has its day, lies in the grid at the position of its offset from the start weekday, is logged exactly when the day has entries, and is blank and scored 0 otherwise |
| Analytics.Heatmap | src/pages/AnalyticsPage.jsx:258-293 | the 365 cells are in day order, each at its own grid position so none overwrites another, blank exactly when the day has no metrics or habits entry |
| App.NormalizeJournal | src/App.jsx:114-116 | a loaded entry keeps its text and lesson, takes its important text or else its legacy avoided text as important, and drops the avoided field |
| App.NormalizeJournals | src/App.jsx:110-119 | every date is kept, a `null` entry passes through, and every other entry is normalised |
| App.NormalizeJournalsIdempotent | src/App.jsx:110-119 | normalising loaded journals twice is the same as once |
| App.LegacyAvoidedKept | src/App.jsx:115 | a legacy entry without important text shows its avoided text as important and keeps its text |
| App.NormalizeGoal | src/App.jsx:125-142 | an entry always gets an items list: an existing one is kept, no text gives none, otherwise one item per non-blank trimmed line, each done exactly when the entry was completed; the other fields are kept |
| App.NormalizeGoals | src/App.jsx:121-145 | every period is kept, a `null` entry passes through, and every other entry is normalised |
| App.NormalizeGoalsIdempotent | src/App.jsx:121-145 | after normalising every entry has an items list, so normalising again changes nothing |
| App.LegacyGoalStatus | src/App.jsx:133-141 | a text-only entry keeps its meaning: completed when it was completed, active otherwise |
| App.FocusHabit | src/App.jsx:152-162 | the loaded focus habit is one of the six allowed names when the stored name is one of them, and workout otherwise |
| App.FocusRoundTrip | src/App.jsx:152-162 | an allowed focus habit survives a save and load, while integrity falls back to workout |
| App.ApplySettings | src/App.jsx:176-178 | the game limit is never 0: a stored non-zero limit is kept and a missing or zero one becomes 420; missing goals become the defaults; the focus habit goes through the whitelist |
| App.ApplySavedRoundTrip | src/App.jsx:147-183 | loading what was saved gives back the same settings |
| App.EmptySettingsLoadDefaults | src/App.jsx:147-183 | an empty remote state loads the default limit, goals and focus habit |
| App.Without | src/App.jsx:352 | removing a page keeps exactly the other pages, never lengthens the list, and keeps it free of duplicates |
| App.RecentPages | src/App.jsx:350-356 | the visited page comes first, followed by the earlier pages without it, in their order, cut to five entries; duplicates never appear, and revisiting a listed page of a short list keeps its length |
| App.RecentPagesRevisit | src/App.jsx:350-356 | revisiting the page just visited leaves the list as it is |
| App.MigrateLegacyWeek | src/App.jsx:293-306 | when the Monday-keyed week has no entry and the Sunday-keyed one exists and was not dismissed, it is copied to the Monday key; otherwise nothing changes |
| App.MigrateIdempotent | src/App.jsx:293-306 | after migrating the current week has an entry, so migrating again changes nothing |
| App.ShowGoalsPrompt | src/App.jsx:271-291 | the prompt only shows to a signed-in, loaded user, never when both periods have goals or were dismissed, and always when the weekly or the monthly period needs goals |
| App.PromptDraft | src/App.jsx:279-284 | without items with text the draft is the entry's legacy text, or empty without an entry |
| App.SkipForNow | src/App.jsx:724-738 | skipping dismisses a period exactly when it has no item with text and its draft is blank, and otherwise changes nothing |
| App.SkipForNowSettles | src/App.jsx:724-738 | after skipping with a blank draft the period no longer needs goals |
| App.PromptSave | src/App.jsx:744-779 | a period that already has items, or whose draft is blank, is left untouched; otherwise only the period changes, to the same items the goals page would save, stamped as saved and neither completed nor dismissed |
| App.PromptSaveSettles | src/App.jsx:744-761 | after saving a non-blank draft the period no longer needs goals, and is active when it had no items before |
| App.SaveEnabled | src/App.jsx:781-784 | the button is enabled exactly when each period either has items or has a draft with at least one non-blank line |
| App.PromptSaveGoals | src/App.jsx:741-780 | the handler saves the weekly period first; a blank draft of an itemless weekly period saves nothing at all, a blank one of an itemless monthly period keeps only the weekly save; with the button enabled both periods get their per-period save |
| App.PromptSaveGoalsSettles | src/App.jsx:741-784 | with the Save button enabled, saving settles both periods, so the prompt no longer shows |
| Body.WaterDays | src/pages/BodyPage.jsx:51-53 | at most seven water days, none exactly when the goal was met on no day of the week, seven exactly when it was met on every day |
| Body.WaterDaysAreDays | src/pages/BodyPage.jsx:31-53 | the water-day count is the number of calendar days from six days ago to today whose water value is present and non-zero |
| Body.WaterPct | src/pages/BodyPage.jsx:68 | the water percentage is the rounded share of those seven calendar days with water logged, and lies in 0..100 |
| Body.RoundedWeekAverage | src/pages/BodyPage.jsx:43-66 | the rounded week average is missing exactly when the metric is zero on every day of the week, and otherwise is the week average rounded |
| Body.WeekAverage | src/pages/BodyPage.jsx:43-50 | a week average is missing exactly when the metric is zero on every day of the week |
| Body.WeekStatsOf | src/pages/BodyPage.jsx:26-75 | steps and sleep are missing exactly when zero all week, the water percentage is the rounded share of the seven days with water logged (`Body.WaterPct`), and the training day counts are at most 7 |
| Body.WaterPctIff | src/pages/BodyPage.jsx:68 | the water percentage is 100 exactly when the goal was met on all seven days and 0 exactly when on none |
| Body.WeekMatchesReview | src/pages/BodyPage.jsx:38-66 | the page's week totals, day counts and sleep average are those of a review range of the same seven days, and its step average is that range's step average rounded |
| Body.AvgStepsWithin | src/pages/BodyPage.jsx:43-46 | with every non-zero step count within whole-number bounds, the rounded average is within them too |
| Body.ToggleWater | src/pages/BodyPage.jsx:112-114 | after a toggle the toggle shows what was chosen: on stores the water goal, or 1.5 without one; off stores `null`; nothing else of any day changes |
| Body.ToggleWaterCounts | src/pages/BodyPage.jsx:51-53 | toggling today on adds one water day unless today already had water, and toggling it off removes one exactly when today had water |
| Body.ToggledDays | src/pages/BodyPage.jsx:112-114 | after a toggle the week's water days are those before with today added (on) or removed (off) |
| Collections.EditById | src/pages/MoneyPage.jsx:397-399 | an edit updates exactly the records with the id, keeping the others and the length |
| Collections.DeleteById | src/pages/MoneyPage.jsx:123 | a delete keeps exactly the records of other ids, in their order, shortened by the number of records with the id |
| Collections.Add | src/pages/MoneyPage.jsx:381 | an add appends the record and keeps the others |
| Collections.DeleteOneOfUnique | src/pages/MoneyPage.jsx:123 | with unique ids, deleting a present id removes exactly one record |
| Collections.DeleteAfterEdit | src/pages/MoneyPage.jsx:122-125 | an id-preserving edit does not change what deleting that id leaves |
| Collections.EditAbsent | src/pages/MoneyPage.jsx:397-399 | an edit of an absent id changes nothing |
| Collections.DeleteAfterAdd | src/pages/MoneyPage.jsx:122-125 | deleting the id of a record just added with a fresh id gives back the list before |
| Learning.DueNotes | src/pages/LearningPage.jsx:13-19 | the due notes are exactly the notes without a schedule or whose next review is today or earlier, in list order, so the session's first note is the first due note of the list |
| Learning.CurrentSchedule | src/pages/LearningPage.jsx:22 | a review starts from the stored schedule, or from interval 1 and ease 2.5 for a new note |
| Learning.Review | src/pages/LearningPage.jsx:21-37 | a review changes only the reviewed note's entry, to the next schedule, due that many days after today and reviewed today |
| Learning.NewNoteIsDue | src/pages/LearningPage.jsx:16 | a note without a schedule is due |
| Learning.ReviewedNotDue | src/pages/LearningPage.jsx:21-37 | a note just reviewed is due strictly after today, so it leaves today's queue |
| Learning.ReviewKeepsOthersDue | src/pages/LearningPage.jsx:28-36 | a review does not change whether any other note is due |
| Learning.ReviewShrinksQueue | src/pages/LearningPage.jsx:13-37 | reviewing a due note removes from the queue exactly the notes with its id |
| Learning.ReviewShrinksByOne | src/pages/LearningPage.jsx:13-37 | with unique ids each review of a due note shrinks the queue by exactly one |
| Learning.ReviewSession | src/pages/LearningPage.jsx:39-70 | answering the head of the queue until it is empty always ends with nothing due, keeps every schedule's key, and with unique ids takes exactly one review per note that was due |
| Learning.EditNote | src/pages/LearningPage.jsx:148 | editing merges the form into the notes with the id only, keeping every id |
| Learning.AddNote | src/pages/LearningPage.jsx:150 | adding appends the note with the caller's fresh id, keeping ids unique |
| Learning.DeleteNote | src/pages/LearningPage.jsx:156 | deleting keeps exactly the notes of other ids, in their order |
| Learning.DeleteNoteRemovesOne | src/pages/LearningPage.jsx:156 | with unique ids deleting a present id removes one note |
| Learning.SaveNote | src/components/forms/LearningNoteForm.jsx:65-66 | nothing is stored unless both title and body are filled in; then the edited note takes the form's four fields and keeps its id while every other note stays, or a note with the fresh id is appended; unique ids stay unique |
| Learning.DeleteUndoesSave | src/pages/LearningPage.jsx:146-157 | a note just saved with a fresh id is removed again by deleting that id |
| LogEdit.LogDates | src/pages/LogPage.jsx:41-51 | the date strip lists exactly the last 30 days that fall in the current year, newest first, starting today |
| LogEdit.DateScore | src/pages/LogPage.jsx:58-68 | a date has no score exactly when it has no metrics record, no habits record and no session pages |
| LogEdit.HasData | src/pages/LogPage.jsx:53-56 | a date has data exactly when it has a score, a journal that is not a stored `null`, or a reading session |
| LogEdit.ScoredDatesHaveData | src/pages/LogPage.jsx:53-68 | every scored date shows as having data; a date with only a journal has data but no score; a date whose only record is a stored `null` journal has neither |
| LogEdit.DateScoreWithoutSessions | src/pages/LogPage.jsx:58-68 | without reading sessions the log's score of a recorded date is the score the review averages |
| LogEdit.JournalFormOf | src/pages/LogPage.jsx:19-23 | the form keeps the text and lesson and shows the legacy avoided text when the important text is empty |
| LogEdit.CleanMetrics | src/pages/LogPage.jsx:71-76 | the cleaned metrics keep exactly the fields with a value, dropping the distance without a run, with their values unchanged |
| LogEdit.CleanHabits | src/pages/LogPage.jsx:77-79 | the cleaned habits keep exactly the habits set to `true` |
| LogEdit.CleanJournal | src/pages/LogPage.jsx:80-84 | the journal is dropped exactly when its three fields together are blank, and is kept with those three fields otherwise |
| LogEdit.BlankConcat | src/pages/LogPage.jsx:80-81 | a concatenation is blank exactly when each part is |
| LogEdit.JournalKeptIff | src/pages/LogPage.jsx:80-84 | the journal survives the save exactly when one of its three fields is not blank |
| LogEdit.Place | src/pages/LogPage.jsx:106-114 | a present record is stored at the date, an absent one removes the date, and no other date changes |
| LogEdit.PlaceRecord | src/pages/LogPage.jsx:86-104 | a record is stored only when it has a field, reading the date back gives the record, and no other date changes |
| LogEdit.SaveMetrics | src/pages/LogPage.jsx:86-94 | the date holds the cleaned metrics, is removed when none are left, and no other date changes |
| LogEdit.SaveHabits | src/pages/LogPage.jsx:96-104 | the date holds the habits set to `true`, is removed when there are none, and no other date changes |
| LogEdit.SaveJournal | src/pages/LogPage.jsx:106-114 | the date holds the cleaned journal, is removed (not set to `null`) when blank, and no other date changes |
| LogEdit.PlaceRecordTwice | src/pages/LogPage.jsx:86-104 | placing the same record twice is placing it once |
| LogEdit.CleanMetricsTwice | src/pages/LogPage.jsx:71-76 | cleaning metrics twice is cleaning them once |
| LogEdit.CleanHabitsTwice | src/pages/LogPage.jsx:77-79 | cleaning habits keeps which habits are done, and cleaning twice is cleaning once |
| LogEdit.ReloadMetrics | src/pages/LogPage.jsx:17-34 | saving the reloaded metrics of a saved date changes nothing |
| LogEdit.ReloadHabits | src/pages/LogPage.jsx:17-34 | saving the reloaded habits of a saved date changes nothing |
| LogEdit.ReloadJournal | src/pages/LogPage.jsx:17-34 | saving the reloaded journal of a saved date changes nothing |
| LogEdit.SaveEdits | src/pages/LogPage.jsx:70-117 | the date reads back the cleaned metrics and habits, holds a journal exactly when the form's journal is not blank and then exactly its three fields, and no other date of any store changes |
| LogEdit.SaveReloadSave | src/pages/LogPage.jsx:17-117 | saving is a fixed point: reopening the saved date and saving the unchanged form leaves every store as it was |
| LogEdit.ZeroAsNull | src/pages/LogPage.jsx:328-332 | a page count is stored as `null` exactly when it is 0 |
| LogEdit.PagesEdit | src/pages/LogPage.jsx:321-333 | the sessions view changes nothing and every other view makes a change; a stored count is positive unless typed in the manual view |
| LogEdit.PagesEditRoundTrip | src/pages/LogPage.jsx:314-333 | the input reads back what was typed in the manual view, and in the total view whenever the total covers the session pages; a smaller total clears the manual pages |
| LogEdit.ApplyPagesEdit | src/pages/LogPage.jsx:321-333 | an edit touches only the pages field, and the sessions view touches nothing |
| Journals.SaveText | src/pages/JournalPage.jsx:14-19 | the date's entry takes the new text and keeps its other fields, and no other date changes |
| Journals.SaveLoadedAndTwice | src/pages/JournalPage.jsx:8-24 | saving the loaded text changes no entry's content, and a second save overrides the first, so the debounced autosave may fire any number of times |
| Journals.WordsOn | src/pages/JournalPage.jsx:50 | the word count is 0 exactly when the text is blank |
| Journals.JournalDates | src/pages/JournalPage.jsx:26 | the listed dates are exactly the dates whose entry has text, latest first |
| Journals.PastEntries | src/pages/JournalPage.jsx:57 | at most ten dates with text, latest first; a date with text is left out only when ten later ones are shown |
| Journals.SaveListsDate | src/pages/JournalPage.jsx:14-26 | writing text on a date lists it and emptying it unlists it, without changing whether any other date is listed |
| Library.FilterItems | src/pages/LibraryPage.jsx:13-15 | the all tab shows every item and any other tab exactly the items of that type |
| Library.FilterItemsSnoc | src/pages/LibraryPage.jsx:13-15 | an item appended to the library is appended to a tab's list when the tab shows it and nowhere else, so each tab keeps the library's order and multiplicity |
| Folds.FilterSnoc | src/pages/LibraryPage.jsx:13-15 | `filter` of nothing is empty, and an appended element is appended to the result exactly when it passes, which fixes the order of what is kept |
| Library.TabsSplit | src/pages/LibraryPage.jsx:11-15 | distinct type tabs show disjoint lists that together show each item of their types once |
| Library.ItemTypesDistinct | src/pages/LibraryPage.jsx:11 | the six type tabs differ from each other and from the all tab |
| Library.TabsCoverLibrary | src/pages/LibraryPage.jsx:11-15 | when every item has one of the six types the six tabs list each item exactly once |
| Library.ItemPages | src/pages/LibraryPage.jsx:17-21 | an item without sessions shows 0 pages |
| Library.ItemPagesNonNegative | src/pages/LibraryPage.jsx:17-21 | with no negative session no item shows negative pages |
| Library.ItemPagesAdd | src/pages/LibraryPage.jsx:17-21 | logging a session adds its pages to its own item and to no other |
| Library.RatingDisplay | src/pages/LibraryPage.jsx:80-84 | as written: a rating of 0 renders the text "0"; 1 to 5 show five characters, stars exactly up to the rating and dots after; anything else makes the repeat throw |
| Library.UnratedItemShowsZero | src/pages/LibraryPage.jsx:80-84 | the value 0, which the library form stores for an unrated item, renders a stray "0" on the page, where the corrected line shows nothing |
| Library.RatingLine | src/pages/LibraryPage.jsx:80-84 | corrected: an unrated item shows nothing, never the text "0", and every other rating shows what the page shows |
| Library.StarsReadBack | src/pages/LibraryPage.jsx:80-84 | counting the stars of the display gives the rating back |
| Library.SaveItem | src/pages/LibraryPage.jsx:104-112 | nothing is saved without a title; an edit replaces the fields of the items with the id and changes no other; an add appends a new item with the caller's fresh id |
| Library.DeleteItem | src/pages/LibraryPage.jsx:113-116 | deleting keeps exactly the items of other ids, in their order |
| Library.DeleteUndoesAdd | src/pages/LibraryPage.jsx:104-116 | an item added with a fresh id is removed again by deleting that id |
| Library.DeleteAfterEdit | src/pages/LibraryPage.jsx:104-116 | editing an item does not change what deleting it leaves |
| GoalLists.StatusOf | src/pages/CorePage.jsx:90-99 | a period is completed when it has items and all are done, skipped when dismissed with no items, active when some item is open, and not set otherwise; exactly one holds |
| GoalLists.Flip | src/pages/CorePage.jsx:196-199 | checking an item flips whether it is done, marking it done today, and keeps its id and text |
| GoalLists.FlipWhere | src/pages/CorePage.jsx:196-199 | only the items with the id flip; every other item stays as it was |
| GoalLists.ToggleItem | src/pages/CorePage.jsx:196-206 | only the toggled item's done state flips, the period is completed today exactly when every item is then done, it is no longer dismissed, its other fields are kept, and no other period changes |
| GoalLists.DoneFlags | src/pages/CorePage.jsx:199 | one flag per item, set exactly when the item is done |
| GoalLists.ToggleTwice | src/pages/CorePage.jsx:196-206 | toggling the same item twice restores which items are done and every text |
| GoalLists.ToggleTwiceToday | src/pages/CorePage.jsx:196-206 | an item that was open, or checked off today, comes back exactly after two toggles |
| GoalLists.ToggleStatus | src/pages/CorePage.jsx:90-99 | after a toggle a period with items is completed or active, and it is completed exactly when its completion date is today |
| GoalLists.MarkAll | src/pages/CorePage.jsx:225-241 | when every item is done all are reopened and the completion date cleared; otherwise all are marked done today and so is the period; no other period changes |
| GoalLists.SetAll | src/pages/CorePage.jsx:226-229 | every item gets the same done date and keeps its other fields |
| GoalLists.MarkAllFlipsStatus | src/pages/CorePage.jsx:225-241 | on a non-empty list mark-all turns a completed period active and any other period completed |
| GoalLists.MarkAllTwiceReopens | src/pages/CorePage.jsx:225-241 | marking all twice on a list with an open item leaves every item open and the period not completed |
| GoalLists.Skip | src/pages/CorePage.jsx:244-250 | skipping stores an empty item list dismissed today for the period and changes no other period |
| GoalLists.SkipIsSkipped | src/pages/CorePage.jsx:90-99 | a skipped period has the skipped status |
| GoalLists.NewItems | src/pages/CorePage.jsx:572-576 | one item per text, in order, each with its fresh id and the given done date |
| GoalLists.TextsOfNewItems | src/pages/CorePage.jsx:572-576 | the new items carry exactly the texts they were made from |
| GoalLists.Texts | src/pages/CorePage.jsx:29-33 | the texts of the items, one per item, in order |
| GoalLists.SaveDraft | src/pages/CorePage.jsx:568-584 | a blank draft changes nothing; otherwise the period's items become one open item per non-blank trimmed line, it is stamped saved today and undismissed, its completion date is kept, and no other period changes |
| GoalLists.SavedEntry | src/pages/CorePage.jsx:578-583 | the saved entry holds open items with the draft's lines, is stamped saved today, is not dismissed and keeps the old completion date |
| GoalLists.SavedDraftIsActive | src/pages/CorePage.jsx:568-584 | saving a non-blank draft always leaves the period active |
| GoalLists.DraftRoundTrip | src/pages/CorePage.jsx:29-33 | filling the draft with the items' texts joined by newlines and saving it back gives items with the same texts, when the texts are trimmed, non-empty and free of newlines |
| GoalLists.WeekSessions | src/pages/CorePage.jsx:120-124 | exactly the sessions dated within the seven days from the week's start |
| GoalLists.WeeklyMinutesAppend | src/pages/CorePage.jsx:120-125 | a new session adds its minutes to the weekly total exactly when it falls in the week |
| GoalLists.WeeklyMinutesNonNegative | src/pages/CorePage.jsx:125 | with no negative session length the weekly total is not negative |
| GoalLists.GamePercent | src/pages/CorePage.jsx:127-129 | the share of the limit played is capped at 100, reaches 100 once the limit is used up, is not negative for non-negative minutes, and is 0 without a limit |
| GoalLists.ShareFacts | src/pages/CorePage.jsx:128 | the rounded share is not negative for non-negative minutes and at least 100 once the limit is used up |
| GoalLists.LimitFromHours | src/pages/CorePage.jsx:399 | the stored limit is never negative, and a non-negative number of hours is stored as that many times sixty minutes |
| GoalLists.LimitDisplayRoundTrip | src/pages/CorePage.jsx:398-399 | a whole number of hours typed into the limit input is shown back |
| GoalLists.AddGameSession | src/pages/CorePage.jsx:647-656 | a session of zero total minutes adds nothing; otherwise one session with the total is appended |
| GoalLists.AddedSessionCounts | src/pages/CorePage.jsx:120-125 | a session added on a day of the week raises that week's total by its hours times sixty plus its minutes |
| GoalLists.WeekCount | src/pages/CorePage.jsx:61-67 | the count is at most 7, is 7 exactly when the habit was done on each of the last seven days and 0 exactly when on none |
| GoalLists.WeekCountMatchesReview | src/pages/CorePage.jsx:61-67 | the seven-day count is the review's habit-day count over the range from six days ago to today, and the number of those days with the habit done |
| GoalLists.WeekStats | src/pages/CorePage.jsx:54-70 | each count is at most 7, the focus count is 0 without a focus habit and equals the nofap count when nofap is the focus |
| Mind.SaveJournal | src/pages/MindPage.jsx:34-39 | today's entry becomes exactly the text, lesson and important fields, dropping an avoided field, and no other date changes |
| Mind.NoneDatedInEmpty | src/pages/MindPage.jsx:57-67 | no session is dated on an empty list of days |
| Mind.DatedInSplit | src/pages/MindPage.jsx:57-67 | with distinct days, a session dated on the list is dated on its first day or on exactly one of the rest |
| Mind.PerDaySum | src/pages/MindPage.jsx:57-67 | walking distinct days and adding each day's sessions counts every session dated on them exactly once |
| Mind.WeekStatsOf | src/pages/MindPage.jsx:51-79 | the journal-day count is at most 7, 0 exactly when no day of the week has any of the three fields written and 7 exactly when every day has |
| Mind.WeekJournalDays | src/pages/MindPage.jsx:51-79 | the journal-day count is the number of calendar days from six days ago to today with any of the three fields written |
| Mind.AddSession | src/components/forms/ReadingSessionForm.jsx:39-40 | nothing is stored without a page count and a book; otherwise exactly one session is appended, with the fresh id, the book, today's date, the pages and no duration |
| Mind.AddSessionPages | src/pages/MindPage.jsx:330-332 | a saved session adds its pages to today's session pages and to no other day's |
| Mind.WeekDistinct | src/utils/date.js:8-12 | the seven days of the week are distinct |
| Mind.WeekSessions | src/pages/MindPage.jsx:51-79 | the week's session minutes and count are those of the sessions dated within the last seven days, each counted once |
| Mind.WeekPagesMatchReview | src/pages/MindPage.jsx:51-79 | the week's pages equal the review's page total over the same seven days |
| Mind.TodayWithinWeek | src/pages/MindPage.jsx:46-49 | with no negative page counts, today's pages are part of the week's pages |
| Mind.NormalizeStatus | src/pages/MindPage.jsx:93-96 | an empty status stays empty; the result has no capitals, white space or hyphens and uses only underscores and the status's own lower-cased characters |
| Mind.ToLowerOfLower | src/pages/MindPage.jsx:95 | lower-casing text without capitals changes nothing |
| Mind.NormalizeIdempotent | src/pages/MindPage.jsx:93-96 | normalising twice is normalising once |
| Mind.NormalFormKept | src/pages/MindPage.jsx:93-96 | a status already in normal form is kept as it is |
| Mind.SeparatorsAgree | src/pages/MindPage.jsx:93-98 | two words joined by a space or by a hyphen normalise to the words joined by an underscore, so both spellings select the same books |
| Mind.SessionBooks | src/pages/MindPage.jsx:97-100 | only books are offered: the books in progress when there is one, otherwise the planned books and the books without a status |
| Mind.OnPagesChange | src/pages/MindPage.jsx:148-159 | the sessions view changes nothing; a cleared input stores `null`; the input reads back what was typed in the manual view and in the total view when the total covers the day's sessions; no other field or day changes |
| Review.LoggedDays | src/pages/ReviewPage.jsx:58-63 | the logged count never exceeds the days of the range |
| Review.HabitDays | src/pages/ReviewPage.jsx:75-77 | a habit's day count never exceeds the days of the range |
| Review.FocusPct | src/pages/ReviewPage.jsx:104 | there is a focus percentage exactly when a focus habit is set, and it lies in 0 to 100 |
| Review.ReviewStats | src/pages/ReviewPage.jsx:33-106 | the range has its calendar length, every day count stays within it, net is income minus expenses, the focus figure exists exactly with a focus habit and lies in 0 to 100, and no logged day gives an average of 0 |
| Review.DayInRange | src/pages/ReviewPage.jsx:52-80 | a day within the range is listed, at its offset from the start |
| Review.LoggedDaysAreRecordDays | src/pages/ReviewPage.jsx:58-59 | a day is logged exactly when it lies in the range and has a metrics or habits record |
| Review.LoggedIgnoresJournalsAndSessions | src/pages/ReviewPage.jsx:58-59 | journals, reading sessions and transactions do not change the logged count |
| Review.AllDaysLogged | src/pages/ReviewPage.jsx:58-59 | with every day of the range recorded, the logged count is the range's length |
| Review.AvgScoreBounds | src/pages/ReviewPage.jsx:58-63 | with non-negative metrics and goals the average score lies between 0 and 106 |
| Review.AvgScoreOfSteadyRange | src/pages/ReviewPage.jsx:58-96 | when every logged day of the range scores the same whole number, the average score is that number |
| Review.AvgScoreIgnoresUnloggedDay | src/pages/ReviewPage.jsx:58-96 | extending the range by a day with no metrics or habits record leaves the average score unchanged |
| Review.MetricAverageNone | src/pages/ReviewPage.jsx:65-67 | a sparse average is missing exactly when the metric is zero or missing on every day of the range |
| Review.MetricAverageWithin | src/pages/ReviewPage.jsx:65-67 | bounds on the non-zero daily values bound the average |
| Review.TotalPagesSplits | src/pages/ReviewPage.jsx:68-69 | the page total is the manual pages plus the session pages of the range |
| Review.IncomeExpensesPartition | src/pages/ReviewPage.jsx:81-86 | every in-range transaction that is not income counts as an expense, so income plus expenses is the sum of all in-range amounts |
| Review.FocusPctFull | src/pages/ReviewPage.jsx:104 | the focus percentage is 100 when the focus habit was done on every day of the range |
| Review.LegacyAvgScoreBounds | progress-app.jsx:2679-2731 | the older review's average score lies between 0 and 105 for non-negative metrics and goals |
| Review.PagesTotalVersusLegacy | progress-app.jsx:2709 | the current page total exceeds the older one, which counted manual pages only, by exactly the session pages of the range |
| Review.LegacyPeriodStart | progress-app.jsx:21-30 | the older weekly review starts on the Sunday of the current week; the monthly one on the month's first day, as now |
| Review.PeriodStart | src/utils/date.js:14-25 | the review period starts on or before today: the week on its Monday at most six days back, the month on a day of the same month |
| Review.PeriodStats | src/pages/ReviewPage.jsx:108-109 | a weekly review covers 1 to 7 days and a monthly one 1 to 31 |
| Review.ConsistencyAsWritten | src/pages/ReviewPage.jsx:254 | the consistency figure as shown is never negative and stays at most 100 while the logged days do not exceed 7 or 30 |
| Review.ConsistencyExceeds100 | src/pages/ReviewPage.jsx:254 | on the 31st of a month logged every day the monthly figure reads 103 |
| Review.Consistency | src/pages/ReviewPage.jsx:118-119 | the corrected figure lies in 0 to 100, agrees with the shown one whenever the period is not longer than 7 or 30 days, and is 100 for a fully logged period |
| Review.Prompts | src/pages/ReviewPage.jsx:127-145 | between one and three prompts are suggested |
| Review.PromptsContent | src/pages/ReviewPage.jsx:127-145 | the blocker, focus and spending prompts appear exactly when their conditions hold; the logging prompt when its condition holds and it is not fourth; the generic one exactly when fewer than three fired; and the order is fixed |
| Review.SaveReview | src/pages/ReviewPage.jsx:359-368 | saving writes the period's key and keeps every other review |
| Review.SaveThenLoad | src/pages/ReviewPage.jsx:113-114 | after saving, the period's review reads back as the form tagged with its period and save date, and every other period reads as before |
| Review.SaveKeepsTags | src/pages/ReviewPage.jsx:359-368 | when every review is tagged with the key it is stored under, it stays so after a save |
| Today.UpdateMetric | src/pages/TodayPage.jsx:38-43 | today's field takes the value, every other field and day is kept |
| Today.UpdateHabit | src/pages/TodayPage.jsx:45-50 | today's habit takes the value, every other habit and day is kept |
| Today.SaveJournal | src/pages/TodayPage.jsx:52-58 | today's entry becomes exactly the text, lesson and avoided fields, dropping an important field, and no other date changes |
| Today.TodayMoneyPartition | src/pages/TodayPage.jsx:67-72 | today's spend, today's income and today's transactions of any other type together make up every amount dated today |
| Today.TodaySpend | src/pages/TodayPage.jsx:67-69 | with no expense dated today the spend is 0, and with non-negative amounts it is never negative |
| Today.TodayIncome | src/pages/TodayPage.jsx:70-72 | with no income dated today the income is 0, and with non-negative amounts it is never negative |
| Today.TodayMoneySnoc | src/pages/TodayPage.jsx:67-72 | a new transaction adds its amount to today's spend exactly when it is an expense dated today, and to today's income exactly when it is income dated today |
| Today.ScoredMetrics | src/pages/TodayPage.jsx:79 | the scored pages are the session pages when non-zero and the manual entry otherwise; every other field is kept |
| Today.ScoredPagesNotSummed | src/pages/TodayPage.jsx:74-80 | with both manual and session pages, the today page scores fewer pages than the day's total |
| Today.WeekBack | src/pages/TodayPage.jsx:89-90 | seven days, exactly those from `from` days back to six days before that |
| Today.WeekAverage | src/pages/TodayPage.jsx:83-112 | a week without a non-empty record averages 0 |
| Today.WeeklyAvg | src/pages/TodayPage.jsx:83-109 | with no non-empty record in the last seven days, today included, the average is 0 |
| Today.LastWeekAvg | src/pages/TodayPage.jsx:83-110 | with no non-empty record in the seven days before those, the average is 0 |
| Today.LastWeekWasThisWeek | src/pages/TodayPage.jsx:83-110 | seven days later, this week's average is the one shown as last week's |
| Today.WeekAverageBounds | src/pages/TodayPage.jsx:83-112 | with non-negative metrics and goals a weekly average lies between 0 and 106 |
| Today.WeekAverageOfSteadyWeek | src/pages/TodayPage.jsx:83-112 | when every recorded day of the week scores the same, the average is that score |
| Today.BodyParts | src/pages/TodayPage.jsx:117-120 | the body section has no parts exactly when sleep, steps and water are all unset or zero |
| Today.MindParts | src/pages/TodayPage.jsx:123-125 | the mind section has no parts exactly when no session pages and no lesson were logged |
| Today.RunPart | src/pages/TodayPage.jsx:131-135 | the run is reported exactly when it was done |
| Today.DisciplineParts | src/pages/TodayPage.jsx:128-137 | the discipline section has no parts exactly when none of the five habits was done |
| Today.Section | src/pages/TodayPage.jsx:121 | a section is produced exactly when it has parts, and it starts with its heading's first letter |
| Today.Summary | src/pages/TodayPage.jsx:114-141 | anything but the placeholder ends with a full stop |
| Today.SummaryPlaceholderIff | src/pages/TodayPage.jsx:114-141 | the summary is the placeholder exactly when nothing of the body, mind or discipline sections was logged; otherwise it is the sections joined by `. ` with a closing full stop |
| Text.Trim | src/pages/CorePage.jsx:569-574 | the trimmed text is empty exactly when the text is blank and otherwise begins and ends with a non-space character |
| Text.TrimIdempotent | src/pages/CorePage.jsx:573 | trimming twice is trimming once |
| Text.SplitJoinRoundTrip | src/pages/CorePage.jsx:29-33 | splitting and joining with the same separator gives back the original text |
| Text.JoinSplitRoundTrip | src/pages/CorePage.jsx:29-33 | joining parts free of the separator and splitting again gives back the parts |
| Text.NonBlankLines | src/pages/CorePage.jsx:570-574 | every parsed line is non-empty, trimmed and free of newlines |
| Text.NonBlankLinesOfJoin | src/pages/CorePage.jsx:29-33 | lines that are non-empty, trimmed and free of newlines survive joining with a newline and parsing back |
| Text.NonBlankLinesEmptyIffBlank | src/pages/CorePage.jsx:569-574 | a draft yields at least one line exactly when it is not blank |
| Text.WordCount | src/pages/JournalPage.jsx:50 | the word count is the number of places where a word begins, and is 0 exactly when the text is blank |
| Text.WordCountIsWordStarts | src/pages/JournalPage.jsx:50 | the words split out of a text are as many as the places where a word begins |
| Records.SetField | src/pages/BodyPage.jsx:12-17 | one field of one day's record is set, creating the record when the day has none; every other field and day is kept |
| Records.SetFieldOverwrites | src/pages/BodyPage.jsx:12-17 | setting a field twice keeps only the second value |
| Records.SetFieldUnchanged | src/pages/BodyPage.jsx:12-17 | setting a field to the value it holds changes nothing |
| Records.WeekCountIsDays | src/utils/date.js:8-12 | counting over the last seven days is counting the calendar days from six days ago to today that qualify |
| Records.RangeCountIsDays | src/pages/ReviewPage.jsx:49-53 | counting over a day range is counting the days of the range that qualify |
| Folds.CountIsCardinality | src/pages/CorePage.jsx:61-67 | over a list without repeats, the count is the number of distinct elements that qualify |
| Records.DaysBack | src/utils/date.js:8-12 | the listed days run newest first from `from` days back, exactly covering that many days |
| Numeric.Round | src/utils/score.js:77 | the rounded value is the integer within half a unit below or at the number, halves going up |
| Numeric.ToFixed0VersusRound | src/pages/ReviewPage.jsx:123 | the fixed-point display agrees with rounding on non-negative numbers and parts from it on negative halves |
| Orders.SortedDesc | src/pages/JournalPage.jsx:26 | the listing holds exactly the set's elements, strictly descending |
| Orders.SortDescBy | src/pages/MoneyPage.jsx:50 | the sorted list is a permutation of the input with the largest key first, and elements with equal keys keep their input order (a stable sort) |

## Left out

- Rendering, React hooks and the debounced autosaves: the 500 ms timers only decide when a save runs. `Journals.SaveLoadedAndTwice` shows that the number of saves does not matter.
- Storage and sync: localStorage, the remote store, sign-in and the import/export in the settings page are I/O. A loaded state is given data (`App.ApplySettings`), and the `isHydrated` and signed-in flags of the goals prompt are parameters.
- `generateId` is random. Ids are opaque values the caller supplies, as `idFor` or `freshId`.
- Time zones and `Date` objects: days are day numbers, so the UTC/local mismatch between `formatDate` and `getDay` is not modelled. Locale formatting (`toLocaleString`, `toLocaleDateString`) is not modelled either.
- Floating point: numbers are exact reals, so `NaN`, `Infinity` and rounding error are not modelled. `toFixed(1)` and other display-only formatting are left out; `toFixed(0)` is modelled where a figure depends on it.
- Object key order: records are maps, and lists built from `Object.keys` are modelled by the order they are sorted into.
- Charts, buttons, cards, dialogs, the tab bar and colour classes are rendering only. Exceptions: the colour bands that carry meaning (`ScoreCard.DiffColor`, `Analytics.BandOf`) and the score card's arc length.
- The grade colours, emoji and message wording are text only; the model keeps the band each message belongs to.
- The breakdown dialog's headings "Habits (60 pts max)" and "Metrics (40 pts max)" are fixed labels that do not match the score's 30 + 48 raw split. They are text only.
- The form components are otherwise UI. Their save guards are modelled: the library form's title (`Library.SaveItem`), the note form's title and body (`Learning.SaveNote`), the transaction form's amount (`Money.SubmitTransaction`) and the reading-session form's pages and book (`Mind.AddSession`). The library's tags and notes fields and the transaction's note are carried by the forms and not modelled.
- Money.EditTransaction: the edit form's date box can be cleared, and the page then stores the empty string as the date (src/components/forms/TransactionForm.jsx:26-36, 83; src/pages/MoneyPage.jsx:396-399), which puts the transaction in no month. The model's transactions always carry a day, so an edit that clears the date is not modelled.
- The history date pickers are not modelled: they show the same per-day figures for another date. Status label formatting on the goal cards is not modelled either.
- Score.JournalBonus: measures the journal in characters (`|text|`), while `journal.text.length` counts UTF-16 code units. A journal with characters outside the Basic Multilingual Plane, such as emoji, reaches the 100- and 500-character thresholds sooner in the app than in the model; `Score.ShortJournalNoBonus` and `Score.PerfectDayScore` measure length the same way.
- Text.ToLower: lower-cases ASCII letters only. Text.IsSpace covers the ASCII white space, the no-break space and the byte-order mark, not every Unicode space that `\s` matches.
- MetricInput.Display: keeps the number a box shows; how the browser spells it is not modelled.
- The goals prompt's close handler (src/App.jsx:676-690) is not modelled separately. It makes the same update as "Skip for now" (`App.SkipForNow`), except that it ignores the drafts and skips periods already dismissed.
- Analytics.MaxScore: requires a non-empty list. The page returns early before calling `Math.max` on no scores, so the `-Infinity` of an empty spread is never reached.
- Review.ReviewStats: requires the range to start no later than it ends. Every caller passes a period start on or before today. A reversed range would give a day count of zero or less, which the model's `nat` day count does not represent.
- Review.FocusPct: requires the range to start no later than it ends, for the same reason as Review.ReviewStats.
- Calendar.MonthStart: requires a valid month calendar, one that is monotone and has no month longer than 31 days. This stands in for the real calendar behind `Date`; the source itself demands nothing.
- Calendar.FirstOfMonthFrom: the source writes the `-01` date directly. The model reaches that day by walking back at most 30 days, a bound a valid calendar never exhausts.
- Review.PeriodStart: requires a valid month calendar, as Calendar.MonthStart does.
- Review.LegacyPeriodStart: requires a valid month calendar, as Calendar.MonthStart does.
- Review.PeriodStats: requires a valid month calendar, as Calendar.MonthStart does.
- Today.TodayScore: the score of today's records with the scored pages. Its contract states only the fixed maximum; what is scored is stated by `Today.ScoredMetrics` and `Today.ScoredPagesNotSummed`.

## Findings

| source | as written | input that shows it | evidently intended | confidence | as-written member | corrected member |
|---|---|---|---|---|---|---|
| src/pages/ReviewPage.jsx:118-119, 254 | the monthly consistency figure and the summary's logged share divide the logged days by a fixed 30 | the 31st of a 31-day month with every day logged: 31 / 30 reads 103% | a percentage of the period that never exceeds 100% | medium, not executed | Review.ConsistencyExceeds100 | Review.Consistency |
| src/pages/LibraryPage.jsx:80 | the rating line is guarded by `item.rating && ...`, and React renders the number 0 that this yields as text | an unrated item, whose rating the library form stores as 0 (src/components/forms/LibraryForm.jsx:9, 73), shows a stray "0" under its title | an unrated item shows no rating line | high, not executed | Library.UnratedItemShowsZero | Library.RatingLine |

=== FILE: aggregates.dfy ===
/**
 * Averages as the pages compute them: a running total divided by a running count, with a
 * fallback when the count is zero. A "sparse" average only counts the days where the
 * value is present and non-zero, so a day without data does not pull the mean down.
 */
module Aggregates {
  import opened Wrappers
  import opened Numeric
  import opened Folds

  /** `total / count`, or `None` when nothing was counted. */
  function Average<T>(xs: seq<T>, f: T -> real): (r: Option<real>)
    ensures r.None? <==> xs == []
  {
    if xs == [] then None else Some(Sum(xs, f) / |xs| as real)
  }

  /** An average lies between the least and the greatest value averaged. */
  lemma AverageWithin<T>(xs: seq<T>, f: T -> real, lo: real, hi: real)
    requires forall x :: x in xs ==> lo <= f(x) <= hi
    ensures Average(xs, f).Some? ==> lo <= Average(xs, f).value <= hi
  {
    if xs != [] {
      var n := |xs| as real;
      SumBounded(xs, f, hi);
      SumAtLeast(xs, f, lo);
      QuotientWithin(Sum(xs, f), n, lo, hi);
    }
  }

  lemma QuotientWithin(s: real, n: real, lo: real, hi: real)
    requires n > 0.0 && n * lo <= s <= n * hi
    ensures lo <= s / n <= hi
  {
    assert s / n * n == s;
  }

  /** Averaging a constant gives the constant back. */
  lemma AverageOfConstant<T>(xs: seq<T>, f: T -> real, c: real)
    requires xs != [] && forall x :: x in xs ==> f(x) == c
    ensures Average(xs, f) == Some(c)
  {
    AverageWithin(xs, f, c, c);
  }

  /** `if (value)`: the value is present and non-zero. */
  function IsNonZero<T>(f: T -> real): T -> bool {
    (x: T) => f(x) != 0.0
  }

  /** The elements where `f` is non-zero (`if (value) { total += value; count++ }`). */
  function NonZero<T>(xs: seq<T>, f: T -> real): (r: seq<T>)
    ensures forall x :: x in r ==> x in xs && f(x) != 0.0
    ensures forall x :: x in xs && f(x) != 0.0 ==> x in r
    ensures |r| <= |xs|
  {
    Filter(xs, IsNonZero(f))
  }

  /** The sparse average: over the non-zero values only; `None` when every value is zero. */
  function SparseAverage<T>(xs: seq<T>, f: T -> real): (r: Option<real>)
    ensures r.None? <==> forall i :: 0 <= i < |xs| ==> f(xs[i]) == 0.0
  {
    var nz := NonZero(xs, f);
    NoNonZero(xs, f);
    Average(nz, f)
  }

  lemma NoNonZero<T>(xs: seq<T>, f: T -> real)
    ensures NonZero(xs, f) == [] <==> forall i :: 0 <= i < |xs| ==> f(xs[i]) == 0.0
  {
    if NonZero(xs, f) == [] {
      forall i | 0 <= i < |xs|
        ensures f(xs[i]) == 0.0
      {
        assert xs[i] in xs;
      }
    } else {
      var x := NonZero(xs, f)[0];
      assert x in NonZero(xs, f);
      var i :| 0 <= i < |xs| && xs[i] == x;
    }
  }

  /**
   * Zero days do not pull a sparse average down: with positive values no larger than
   * `hi`, the sparse average lies between the smallest non-zero value and `hi`, whatever
   * number of zero days there are.
   */
  lemma SparseAverageWithin<T>(xs: seq<T>, f: T -> real, lo: real, hi: real)
    requires forall x :: x in xs && f(x) != 0.0 ==> lo <= f(x) <= hi
    ensures SparseAverage(xs, f).Some? ==> lo <= SparseAverage(xs, f).value <= hi
  {
    AverageWithin(NonZero(xs, f), f, lo, hi);
  }

  /** Adding days without data leaves a sparse average unchanged. */
  lemma {:induction false} SparseAverageIgnoresZeros<T>(xs: seq<T>, ys: seq<T>, f: T -> real)
    requires forall y :: y in ys ==> f(y) == 0.0
    ensures SparseAverage(xs + ys, f) == SparseAverage(xs, f)
  {
    NonZeroAppendZeros(xs, ys, f);
  }

  lemma {:induction false} NonZeroAppendZeros<T>(xs: seq<T>, ys: seq<T>, f: T -> real)
    requires forall y :: y in ys ==> f(y) == 0.0
    ensures NonZero(xs + ys, f) == NonZero(xs, f)
  {
    if xs == [] {
      assert xs + ys == ys;
      NonZeroOfZeros(ys, f);
    } else {
      assert (xs + ys)[1..] == xs[1..] + ys;
      NonZeroAppendZeros(xs[1..], ys, f);
    }
  }

  lemma {:induction false} NonZeroOfZeros<T>(ys: seq<T>, f: T -> real)
    requires forall y :: y in ys ==> f(y) == 0.0
    ensures NonZero(ys, f) == []
  {
    if ys != [] {
      assert ys[0] in ys;
      NonZeroOfZeros(ys[1..], f);
    }
  }

  /**
   * A sparse average is the plain total over the number of non-zero values: the zero
   * values add nothing to the total.
   */
  lemma SparseAverageIsRatio<T>(xs: seq<T>, f: T -> real)
    ensures SparseAverage(xs, f).Some? ==> Count(xs, IsNonZero(f)) > 0
    ensures SparseAverage(xs, f).Some? ==> SparseAverage(xs, f).value == Sum(xs, f) / Count(xs, IsNonZero(f)) as real
  {
    SumDropZeros(xs, f, IsNonZero(f));
    CountIsFilterLength(xs, IsNonZero(f));
  }

  /** A sparse average does not depend on the direction the days are walked. */
  lemma SparseAverageReversed<T>(xs: seq<T>, ys: seq<T>, f: T -> real)
    requires |ys| == |xs|
    requires forall i :: 0 <= i < |xs| ==> ys[i] == xs[|xs| - 1 - i]
    ensures SparseAverage(ys, f) == SparseAverage(xs, f)
  {
    SparseAverageIsRatio(xs, f);
    SparseAverageIsRatio(ys, f);
    SumReversed(xs, ys, f);
    CountReversed(xs, ys, IsNonZero(f));
    CountIsFilterLength(xs, IsNonZero(f));
    CountIsFilterLength(ys, IsNonZero(f));
  }

  /** `Math.round(total / count)`, 0 when nothing was counted. */
  function RoundedAverage<T>(xs: seq<T>, f: T -> real): (r: int)
    ensures xs == [] ==> r == 0
  {
    if xs == [] then 0 else Round(Average(xs, f).value)
  }

  /** A rounded average of values in `[lo, hi]` (whole numbers) stays in `[lo, hi]`. */
  lemma RoundedAverageWithin<T>(xs: seq<T>, f: T -> real, lo: int, hi: int)
    requires xs != []
    requires forall x :: x in xs ==> lo as real <= f(x) <= hi as real
    ensures lo <= RoundedAverage(xs, f) <= hi
  {
    AverageWithin(xs, f, lo as real, hi as real);
    RoundWithin(Average(xs, f).value, lo, hi);
  }
}

=== FILE: analytics.dfy ===
/**
 * The analytics page (AnalyticsPage.jsx): the per-day chart rows over a 7, 30 or 90 day
 * window, their averages and score summary, year-to-date totals, habit percentages,
 * money, reading and media totals, and the one-year heatmap grid.
 */
module Analytics {
  import opened Wrappers
  import opened Numeric
  import opened Folds
  import opened Calendar
  import opened Records
  import opened Orders
  import opened Aggregates
  import Score
  import Review

  datatype Range = Week | Month | Quarter

  /** `rangeConfig[range].days`. */
  function RangeDays(r: Range): (n: nat)
    ensures 7 <= n <= 90
  {
    match r
    case Week => 7
    case Month => 30
    case Quarter => 90
  }

  /** The first day of the window: `getDaysAgo(days - 1)`. */
  function WindowStart(today: Day, r: Range): Day {
    DaysAgo(today, RangeDays(r) - 1)
  }

  // ---------------------------------------------------------------------------
  // Chart rows

  datatype Row = Row(
    date: Day,
    steps: real,
    water: real,
    sleep: real,
    pages: real,
    pushups: real,
    runDistance: real,
    nofap: bool,
    workout: bool,
    score: int)

  /** The day's score with the session pages counted and without the journal bonus. */
  function ChartScore(store: Store, d: Day): int {
    var m := RecordOn(store.metrics, d);
    Score.Calculate(WithPages(m, TotalPages(store.metrics, store.sessions, d)), RecordOn(store.habits, d), store.goals, EmptyJournal).score
  }

  /**
   * One chart row: the day's metrics with missing values read as 0, the pages with the
   * session pages added, and the score of the metrics with those pages and no journal.
   */
  function RowOn(store: Store, d: Day): (r: Row)
    ensures r.date == d
    ensures r.pages == TotalPages(store.metrics, store.sessions, d)
    ensures r.pushups == MetricValue(store.metrics, Pushups)(d)
    ensures r.runDistance == MetricValue(store.metrics, RunDistance)(d)
  {
    var m := RecordOn(store.metrics, d);
    var h := RecordOn(store.habits, d);
    Row(d, ValueOr0(m, Steps), ValueOr0(m, Water), ValueOr0(m, Sleep), TotalPages(store.metrics, store.sessions, d),
      ValueOr0(m, Pushups), ValueOr0(m, RunDistance), Done(h, NoFap), Done(h, Workout), ChartScore(store, d))
  }

  /** The chart rows of the given days, in their order. */
  function RowsFor(store: Store, days: seq<Day>): (rows: seq<Row>)
    ensures |rows| == |days|
    ensures forall i :: 0 <= i < |days| ==> rows[i] == RowOn(store, days[i])
  {
    seq(|days|, (i: int) requires 0 <= i < |days| => RowOn(store, days[i]))
  }

  /** `chartData`: one row per day of the window, oldest first, ending today. */
  function ChartData(store: Store, today: Day, n: nat): (rows: seq<Row>)
    ensures |rows| == n
    ensures forall i :: 0 <= i < n ==> rows[i].date == LastDays(today, n)[i]
    ensures forall i, j :: 0 <= i < j < n ==> rows[i].date < rows[j].date
    ensures n > 0 ==> rows[n - 1].date == today
  {
    RowsFor(store, LastDays(today, n))
  }

  function StepsOf(r: Row): real { r.steps }
  function WaterOf(r: Row): real { r.water }
  function SleepOf(r: Row): real { r.sleep }
  function PagesOf(r: Row): real { r.pages }
  function PushupsOf(r: Row): real { r.pushups }
  function RunDistanceOf(r: Row): real { r.runDistance }
  function ScoreOf(r: Row): real { r.score as real }

  /**
   * The window's pages agree with the review's page total over the same days: both add
   * the session pages to the manual pages.
   */
  lemma ChartPagesMatchReview(store: Store, today: Day, n: nat)
    ensures Sum(ChartData(store, today, n), PagesOf) == Review.PagesTotal(store, today - n + 1, today)
  {
    SumPointwise(ChartData(store, today, n), PagesOf, DaysFrom(today - n + 1, today), Review.PagesOn(store));
  }

  /** `pushupStats.periodTotal`: the window's pushups are the logged pushups of its days. */
  lemma ChartPushupsTotal(store: Store, today: Day, n: nat)
    ensures Sum(ChartData(store, today, n), PushupsOf) == Sum(LastDays(today, n), MetricValue(store.metrics, Pushups))
  {
    SumPointwise(ChartData(store, today, n), PushupsOf, LastDays(today, n), MetricValue(store.metrics, Pushups));
  }

  /** `runStats.periodTotal`: the window's distance is the logged distance of its days. */
  lemma ChartRunTotal(store: Store, today: Day, n: nat)
    ensures Sum(ChartData(store, today, n), RunDistanceOf) == Sum(LastDays(today, n), MetricValue(store.metrics, RunDistance))
  {
    SumPointwise(ChartData(store, today, n), RunDistanceOf, LastDays(today, n), MetricValue(store.metrics, RunDistance));
  }

  // ---------------------------------------------------------------------------
  // Averages and score summary

  /** A row counts for the averages when its steps, water or sleep is non-zero. */
  predicate RowLogged(r: Row) {
    r.steps != 0.0 || r.water != 0.0 || r.sleep != 0.0
  }

  datatype Averages = Averages(steps: int, water: real, sleep: real, pages: int)

  const NoAverages := Averages(0, 0.0, 0.0, 0)

  lemma FilterEmptyIff<T>(xs: seq<T>, p: T -> bool)
    ensures Filter(xs, p) == [] <==> forall i :: 0 <= i < |xs| ==> !p(xs[i])
  {
    CountIsFilterLength(xs, p);
  }

  /** `averages`: the means over logged rows (steps and pages rounded), all zero without any. */
  function ChartAverages(rows: seq<Row>): (a: Averages)
    ensures a == NoAverages <== forall i :: 0 <= i < |rows| ==> !RowLogged(rows[i])
    ensures var logged := Filter(rows, RowLogged);
            logged != [] ==>
              && a.steps == RoundedAverage(logged, StepsOf)
              && a.water == Average(logged, WaterOf).value
              && a.sleep == Average(logged, SleepOf).value
              && a.pages == RoundedAverage(logged, PagesOf)
  {
    var logged := Filter(rows, RowLogged);
    FilterEmptyIff(rows, RowLogged);
    if logged == [] then NoAverages
    else
      Averages(
        Round(Average(logged, StepsOf).value),
        Average(logged, WaterOf).value,
        Average(logged, SleepOf).value,
        Round(Average(logged, PagesOf).value))
  }

  /**
   * A row without steps, water or sleep changes none of the averages, even when it has
   * pages: the pages mean is taken over the same rows as the others.
   */
  lemma AveragesIgnoreUnloggedRow(rows: seq<Row>, r: Row)
    requires !RowLogged(r)
    ensures ChartAverages(rows + [r]) == ChartAverages(rows)
  {
    FilterAppend(rows, [r], RowLogged);
    assert Filter([r], RowLogged) == [];
    assert Filter(rows, RowLogged) + [] == Filter(rows, RowLogged);
  }

  /** Bounds on the logged rows' steps bound the average steps. */
  lemma AverageStepsWithin(rows: seq<Row>, lo: int, hi: int)
    requires forall r :: r in rows && RowLogged(r) ==> lo as real <= r.steps <= hi as real
    ensures ChartAverages(rows) == NoAverages || lo <= ChartAverages(rows).steps <= hi
  {
    var logged := Filter(rows, RowLogged);
    if logged != [] {
      AverageWithin(logged, StepsOf, lo as real, hi as real);
      RoundWithin(Average(logged, StepsOf).value, lo, hi);
    }
  }

  /** Bounds on the logged rows' water bound the average water. */
  lemma AverageWaterWithin(rows: seq<Row>, lo: real, hi: real)
    requires forall r :: r in rows && RowLogged(r) ==> lo <= r.water <= hi
    ensures ChartAverages(rows) == NoAverages || lo <= ChartAverages(rows).water <= hi
  {
    var logged := Filter(rows, RowLogged);
    if logged != [] {
      AverageWithin(logged, WaterOf, lo, hi);
    }
  }

  /** Bounds on the logged rows' sleep bound the average sleep. */
  lemma AverageSleepWithin(rows: seq<Row>, lo: real, hi: real)
    requires forall r :: r in rows && RowLogged(r) ==> lo <= r.sleep <= hi
    ensures ChartAverages(rows) == NoAverages || lo <= ChartAverages(rows).sleep <= hi
  {
    var logged := Filter(rows, RowLogged);
    if logged != [] {
      AverageWithin(logged, SleepOf, lo, hi);
    }
  }

  /** Bounds on the logged rows' pages bound the rounded average pages. */
  lemma AveragePagesWithin(rows: seq<Row>, lo: int, hi: int)
    requires forall r :: r in rows && RowLogged(r) ==> lo as real <= r.pages <= hi as real
    ensures ChartAverages(rows) == NoAverages || lo <= ChartAverages(rows).pages <= hi
  {
    var logged := Filter(rows, RowLogged);
    if logged != [] {
      AverageWithin(logged, PagesOf, lo as real, hi as real);
      RoundWithin(Average(logged, PagesOf).value, lo, hi);
    }
  }

  /** `Math.max(...scores)`. */
  function MaxScore(rows: seq<Row>): (m: int)
    requires rows != []
    ensures forall i :: 0 <= i < |rows| ==> rows[i].score <= m
    ensures exists i :: 0 <= i < |rows| && rows[i].score == m
  {
    if |rows| == 1 then rows[0].score
    else
      var rest := MaxScore(rows[1..]);
      assert exists i :: 0 <= i < |rows[1..]| && rows[1..][i].score == rest;
      var i :| 0 <= i < |rows[1..]| && rows[1..][i].score == rest;
      assert rows[i + 1].score == rest;
      MaxInt(rows[0].score, rest)
  }

  /** Row `i` is the first row whose score is `best`. */
  predicate FirstReaching(rows: seq<Row>, i: int, best: int) {
    0 <= i < |rows| && rows[i].score == best && forall j :: 0 <= j < i ==> rows[j].score != best
  }

  /** `rows.find(d => d.score === best)`. */
  function FindScore(rows: seq<Row>, best: int): (r: Option<Row>)
    ensures r.None? <==> forall i :: 0 <= i < |rows| ==> rows[i].score != best
    ensures r.Some? ==> exists i :: FirstReaching(rows, i, best) && rows[i] == r.value
  {
    if rows == [] then None
    else if rows[0].score == best then Some(rows[0])
    else
      var r := FindScore(rows[1..], best);
      assert r.Some? ==> exists i :: FirstReaching(rows, i, best) && rows[i] == r.value by {
        if r.Some? {
          var i :| FirstReaching(rows[1..], i, best) && rows[1..][i] == r.value;
          assert rows[i + 1] == r.value;
          assert FirstReaching(rows, i + 1, best) by {
            forall j | 0 <= j < i + 1
              ensures rows[j].score != best
            {
              if j > 0 {
                assert rows[1..][j - 1] == rows[j];
              }
            }
          }
        }
      }
      r
  }

  predicate Scored(r: Row) { r.score > 0 }

  /** Finding a positive score among the scored rows finds what searching every row finds. */
  lemma {:induction false} FindAmongScored(rows: seq<Row>, best: int)
    requires best > 0
    ensures FindScore(Filter(rows, Scored), best) == FindScore(rows, best)
  {
    if rows != [] {
      FindAmongScored(rows[1..], best);
    }
  }

  datatype ScoreStats = ScoreStats(avg: int, best: int, bestDate: Option<Day>)

  /**
   * `scoreStats`: the rounded mean and the maximum over rows with a positive score, and the
   * date of the first row that reaches the maximum.
   */
  function ScoreStatsOf(rows: seq<Row>): (s: ScoreStats)
    ensures s.bestDate.None? <==> forall i :: 0 <= i < |rows| ==> rows[i].score <= 0
    ensures forall i :: 0 <= i < |rows| ==> rows[i].score <= s.best
    ensures s.bestDate.Some? ==> exists i :: FirstReaching(rows, i, s.best) && rows[i].date == s.bestDate.value
    ensures s.avg == RoundedAverage(Filter(rows, Scored), ScoreOf)
    ensures s.bestDate.None? ==> s.avg == 0 && s.best == 0
    ensures s.bestDate.Some? ==> 1 <= s.avg <= s.best
  {
    var scored := Filter(rows, Scored);
    FilterEmptyIff(rows, Scored);
    if scored == [] then StatsOfScored(scored)
    else
      var best := MaxScore(scored);
      assert forall i :: 0 <= i < |rows| ==> rows[i].score <= best by {
        forall i | 0 <= i < |rows|
          ensures rows[i].score <= best
        {
          if Scored(rows[i]) {
            assert rows[i] in rows;
            var k :| 0 <= k < |scored| && scored[k] == rows[i];
          }
        }
      }
      FindAmongScored(rows, best);
      assert forall x :: x in scored ==> 1.0 <= ScoreOf(x) <= best as real by {
        forall x | x in scored
          ensures 1.0 <= ScoreOf(x) <= best as real
        {
          var k :| 0 <= k < |scored| && scored[k] == x;
        }
      }
      RoundedAverageWithin(scored, ScoreOf, 1, best);
      StatsOfScored(scored)
  }

  /** The figures over the rows already known to have a positive score. */
  function StatsOfScored(scored: seq<Row>): ScoreStats {
    if scored == [] then ScoreStats(0, 0, None)
    else
      var best := MaxScore(scored);
      var found := FindScore(scored, best);
      ScoreStats(RoundedAverage(scored, ScoreOf), best, Some(found.value.date))
  }

  /** A day without a positive score changes none of the score figures. */
  lemma ScoreStatsIgnoreUnscored(rows: seq<Row>, r: Row)
    requires r.score <= 0
    ensures ScoreStatsOf(rows + [r]) == ScoreStatsOf(rows)
  {
    FilterSnoc(rows, r, Scored);
    assert !Scored(r);
    var scored := Filter(rows, Scored);
    assert Filter(rows + [r], Scored) == scored + [];
    assert scored + [] == scored;
    assert ScoreStatsOf(rows + [r]) == StatsOfScored(scored);
  }

  // ---------------------------------------------------------------------------
  // Year to date

  /** The year's days up to today on which the metric has a non-zero value. */
  function YtdKeep(metrics: MetricLog, k: Metric, yearStart: Day, today: Day): Day -> bool {
    (d: Day) => yearStart <= d <= today && Truthy(RecordOn(metrics, d), k)
  }

  function TruthyOn(metrics: MetricLog, k: Metric): Day -> bool {
    (d: Day) => Truthy(RecordOn(metrics, d), k)
  }

  /** The stored dates from `yearStart` to today with a non-zero value of the metric. */
  function YtdDays(metrics: MetricLog, k: Metric, yearStart: Day, today: Day): seq<Day> {
    Filter(SortedAsc(metrics.Keys), YtdKeep(metrics, k, yearStart, today))
  }

  /** `ytdTotal`: the sum of the metric over those dates. */
  function YtdTotal(metrics: MetricLog, k: Metric, yearStart: Day, today: Day): real {
    Sum(YtdDays(metrics, k, yearStart, today), MetricValue(metrics, k))
  }

  /** `daysInYearSoFar`. */
  function DaysInYearSoFar(yearStart: Day, today: Day): int {
    today - yearStart + 1
  }

  /** `avg` is `total` spread evenly over `n` days: multiplied back by `n` it gives the total. */
  predicate SpreadOver(avg: real, n: int, total: real) {
    avg * n as real == total
  }

  /** The total spread over `n` days, 0 when there are no days. */
  function PerDay(total: real, n: int): (avg: real)
    ensures n > 0 ==> SpreadOver(avg, n, total)
    ensures n <= 0 ==> avg == 0.0
  {
    if n > 0 then total / n as real else 0.0
  }

  /**
   * `ytdAvgPerDay`: the year's total spread evenly over the calendar days so far, 0 when
   * there are none.
   */
  function YtdAvgPerDay(metrics: MetricLog, k: Metric, yearStart: Day, today: Day): (avg: real)
    ensures today >= yearStart ==> SpreadOver(avg, DaysInYearSoFar(yearStart, today), YtdTotal(metrics, k, yearStart, today))
    ensures today < yearStart ==> avg == 0.0
  {
    PerDay(YtdTotal(metrics, k, yearStart, today), DaysInYearSoFar(yearStart, today))
  }

  /** The dates of the year so far with a value of the metric. */
  function YtdSet(metrics: MetricLog, k: Metric, yearStart: Day, today: Day): set<Day> {
    set d | d in metrics && YtdKeep(metrics, k, yearStart, today)(d)
  }

  lemma StoredYtdDays(metrics: MetricLog, k: Metric, yearStart: Day, today: Day)
    ensures StrictlyAscending(YtdDays(metrics, k, yearStart, today))
    ensures forall d :: d in YtdDays(metrics, k, yearStart, today) <==> d in YtdSet(metrics, k, yearStart, today)
  {
    FilterAscending(SortedAsc(metrics.Keys), YtdKeep(metrics, k, yearStart, today));
  }

  lemma WalkedYtdDays(metrics: MetricLog, k: Metric, yearStart: Day, today: Day)
    ensures StrictlyAscending(Filter(DaysFrom(yearStart, today), TruthyOn(metrics, k)))
    ensures forall d :: d in Filter(DaysFrom(yearStart, today), TruthyOn(metrics, k)) <==> d in YtdSet(metrics, k, yearStart, today)
  {
    FilterAscending(DaysFrom(yearStart, today), TruthyOn(metrics, k));
    forall d
      ensures d in Filter(DaysFrom(yearStart, today), TruthyOn(metrics, k)) <==> d in YtdSet(metrics, k, yearStart, today)
    {
      InDaysFrom(yearStart, today, d);
      if d !in metrics {
        assert !TruthyOn(metrics, k)(d);
      }
    }
  }

  /** The stored dates kept for the year are the calendar days of the year with a value. */
  lemma YtdDaysAreTruthyDays(metrics: MetricLog, k: Metric, yearStart: Day, today: Day)
    ensures YtdDays(metrics, k, yearStart, today) == Filter(DaysFrom(yearStart, today), TruthyOn(metrics, k))
  {
    StoredYtdDays(metrics, k, yearStart, today);
    WalkedYtdDays(metrics, k, yearStart, today);
    AscendingUnique(YtdSet(metrics, k, yearStart, today), YtdDays(metrics, k, yearStart, today));
    AscendingUnique(YtdSet(metrics, k, yearStart, today), Filter(DaysFrom(yearStart, today), TruthyOn(metrics, k)));
  }

  /**
   * Walking the stored dates and keeping the year's days with data sums the same as walking
   * every calendar day of the year so far.
   */
  lemma YtdTotalIsCalendarSum(metrics: MetricLog, k: Metric, yearStart: Day, today: Day)
    ensures YtdTotal(metrics, k, yearStart, today) == Sum(DaysFrom(yearStart, today), MetricValue(metrics, k))
  {
    YtdDaysAreTruthyDays(metrics, k, yearStart, today);
    SumDropZeros(DaysFrom(yearStart, today), MetricValue(metrics, k), TruthyOn(metrics, k));
  }

  // ---------------------------------------------------------------------------
  // Habit percentages

  function HabitLogged(habits: HabitLog): Day -> bool {
    (d: Day) => d in habits
  }

  /** Days of the window with a habits record. */
  function LoggedHabitDays(habits: HabitLog, today: Day, n: nat): (c: nat)
    ensures c <= n
  {
    Count(LastDays(today, n), HabitLogged(habits))
  }

  /** Days of the window with the habit done; each is a logged day. */
  function HabitCount(habits: HabitLog, k: Habit, today: Day, n: nat): (c: nat)
    ensures c <= LoggedHabitDays(habits, today, n)
  {
    CountEqualIff(LastDays(today, n), HabitDone(habits, k), HabitLogged(habits));
    Count(LastDays(today, n), HabitDone(habits, k))
  }

  /** `pct(n)`: the habit's days over the logged days, 0 when no day was logged. */
  function HabitPct(habits: HabitLog, k: Habit, today: Day, n: nat): (pct: int)
    ensures 0 <= pct <= 100
    ensures LoggedHabitDays(habits, today, n) == 0 ==> pct == 0
  {
    var logged := LoggedHabitDays(habits, today, n);
    if logged == 0 then 0
    else
      PercentBounds(HabitCount(habits, k, today, n) as real, logged as real);
      Round(HabitCount(habits, k, today, n) as real / logged as real * 100.0)
  }

  /**
   * Over a window of at most 90 days with some day logged, a habit shows 100% exactly when
   * it was done on every logged day of the window.
   */
  lemma HabitPctFull(habits: HabitLog, k: Habit, today: Day, n: nat)
    requires n <= 90 && LoggedHabitDays(habits, today, n) > 0
    ensures HabitPct(habits, k, today, n) == 100
        <==> forall d :: today - n < d <= today && d in habits ==> Done(habits[d], k)
  {
    var days := LastDays(today, n);
    CountEqualIff(days, HabitDone(habits, k), HabitLogged(habits));
    PercentFullIff(HabitCount(habits, k, today, n), LoggedHabitDays(habits, today, n));
    if forall d :: today - n < d <= today && d in habits ==> Done(habits[d], k) {
      assert forall i :: 0 <= i < |days| && HabitLogged(habits)(days[i]) ==> HabitDone(habits, k)(days[i]);
    }
    if forall i :: 0 <= i < |days| && HabitLogged(habits)(days[i]) ==> HabitDone(habits, k)(days[i]) {
      forall d | today - n < d <= today && d in habits
        ensures Done(habits[d], k)
      {
        assert days[d - (today - n + 1)] == d;
      }
    }
  }

  /** `focusPct`: the focus habit's days over the whole window, `null` without a focus habit. */
  function FocusPct(habits: HabitLog, focus: Option<Habit>, today: Day, r: Range): (pct: Option<int>)
    ensures pct.None? <==> focus.None?
    ensures pct.Some? ==> 0 <= pct.value <= 100
  {
    if focus.None? then None
    else
      var n := RangeDays(r);
      PercentBounds(HabitCount(habits, focus.value, today, n) as real, n as real);
      Some(Round(HabitCount(habits, focus.value, today, n) as real / n as real * 100.0))
  }

  /**
   * The focus percentage divides by the window length and the habit percentage by the
   * logged days, so the focus figure never exceeds the same habit's percentage.
   */
  lemma FocusPctAtMostHabitPct(habits: HabitLog, h: Habit, today: Day, r: Range)
    ensures FocusPct(habits, Some(h), today, r).value <= HabitPct(habits, h, today, RangeDays(r))
  {
    var n := RangeDays(r);
    var c := HabitCount(habits, h, today, n) as real;
    var logged := LoggedHabitDays(habits, today, n);
    if logged > 0 {
      DivAntitone(c, n as real, logged as real);
      RoundMonotone(c / n as real * 100.0, c / logged as real * 100.0);
    } else {
      assert c == 0.0;
      RoundOfInteger(0);
    }
  }

  lemma DivAntitone(a: real, b: real, c: real)
    requires a >= 0.0 && 0.0 < c <= b
    ensures a / b <= a / c
  {
    var q := a / (b * c);
    assert a / b == q * c;
    assert a / c == q * b;
    assert q * b - q * c == q * (b - c);
  }

  datatype HabitStats = HabitStats(
    workout: int,
    run: int,
    keptWord: int,
    hardThing: int,
    healthyEating: int,
    focusPct: Option<int>,
    loggedDays: nat)

  /** `habitStats` for the window. */
  function HabitStatsOf(habits: HabitLog, focus: Option<Habit>, today: Day, r: Range): (s: HabitStats)
    ensures s.loggedDays <= RangeDays(r)
    ensures 0 <= s.workout <= 100 && 0 <= s.run <= 100 && 0 <= s.keptWord <= 100
    ensures 0 <= s.hardThing <= 100 && 0 <= s.healthyEating <= 100
    ensures s.loggedDays == 0 ==> s.workout == 0 && s.run == 0 && s.keptWord == 0 && s.hardThing == 0 && s.healthyEating == 0
  {
    var n := RangeDays(r);
    HabitStats(
      HabitPct(habits, Workout, today, n),
      HabitPct(habits, Run, today, n),
      HabitPct(habits, KeptWord, today, n),
      HabitPct(habits, HardThing, today, n),
      HabitPct(habits, HealthyEating, today, n),
      FocusPct(habits, focus, today, r),
      LoggedHabitDays(habits, today, n))
  }

  // ---------------------------------------------------------------------------
  // Money, reading time and media

  function IncomeSince(start: Day): Transaction -> bool {
    (t: Transaction) => t.date >= start && t.kind == Income
  }

  function ExpenseSince(start: Day): Transaction -> bool {
    (t: Transaction) => t.date >= start && t.kind == Expense
  }

  function IncomeOrExpenseSince(start: Day): Transaction -> bool {
    (t: Transaction) => t.date >= start && (t.kind == Income || t.kind == Expense)
  }

  function OtherSince(start: Day): Transaction -> bool {
    (t: Transaction) => t.date >= start && t.kind.OtherKind?
  }

  function Since(start: Day): Transaction -> bool {
    (t: Transaction) => t.date >= start
  }

  datatype MoneyStats = MoneyStats(income: real, expenses: real, net: real)

  /** `moneyStats`: transactions from the window's first day on, with no upper bound. */
  function MoneyStatsOf(txs: seq<Transaction>, today: Day, r: Range): (s: MoneyStats)
    ensures s.net == s.income - s.expenses
  {
    var start := WindowStart(today, r);
    var income := Sum(Filter(txs, IncomeSince(start)), AmountOf);
    var expenses := Sum(Filter(txs, ExpenseSince(start)), AmountOf);
    MoneyStats(income, expenses, income - expenses)
  }

  /**
   * Only `'expense'` transactions are expenses here: income, expenses and the transactions
   * of any other type together make up every transaction since the window start.
   */
  lemma MoneyOtherKindsIgnored(txs: seq<Transaction>, today: Day, r: Range)
    ensures MoneyStatsOf(txs, today, r).income + MoneyStatsOf(txs, today, r).expenses
          + Sum(Filter(txs, OtherSince(WindowStart(today, r))), AmountOf)
         == Sum(Filter(txs, Since(WindowStart(today, r))), AmountOf)
  {
    var start := WindowStart(today, r);
    SumDisjointFilters(txs, AmountOf, IncomeSince(start), ExpenseSince(start), IncomeOrExpenseSince(start));
    SumDisjointFilters(txs, AmountOf, IncomeOrExpenseSince(start), OtherSince(start), Since(start));
  }

  function DurationOf(s: ReadingSession): real { s.durationMinutes }

  function SessionSince(start: Day): ReadingSession -> bool {
    (s: ReadingSession) => s.date >= start
  }

  /** Reading minutes of the sessions dated `start` or later; 0 when there are none. */
  function ReadingMinutes(sessions: seq<ReadingSession>, start: Day): (minutes: real)
    ensures (forall s :: s in sessions ==> s.date < start) ==> minutes == 0.0
    ensures (forall s :: s in sessions ==> s.durationMinutes >= 0.0) ==> minutes >= 0.0
  {
    var since := Filter(sessions, SessionSince(start));
    assert (forall s :: s in sessions ==> s.date < start) ==> since == [] by {
      if since != [] {
        assert since[0] in since;
      }
    }
    assert (forall s :: s in sessions ==> s.durationMinutes >= 0.0) ==> Sum(since, DurationOf) >= 0.0 by {
      if forall s :: s in sessions ==> s.durationMinutes >= 0.0 {
        SumNonNegative(since, DurationOf);
      }
    }
    Sum(since, DurationOf)
  }

  /** A new session adds its minutes exactly when it is dated `start` or later. */
  lemma ReadingMinutesSnoc(sessions: seq<ReadingSession>, s: ReadingSession, start: Day)
    ensures ReadingMinutes(sessions + [s], start) == ReadingMinutes(sessions, start) + (if s.date >= start then s.durationMinutes else 0.0)
  {
    FilterSnoc(sessions, s, SessionSince(start));
    SumAppend(Filter(sessions, SessionSince(start)), if SessionSince(start)(s) then [s] else [], DurationOf);
    assert [s][1..] == [];
  }

  /** When the window lies inside the year, its reading minutes are within the year's. */
  lemma PeriodReadingWithinYear(sessions: seq<ReadingSession>, today: Day, r: Range, yearStart: Day)
    requires yearStart <= WindowStart(today, r)
    requires forall s :: s in sessions ==> s.durationMinutes >= 0.0
    ensures ReadingMinutes(sessions, WindowStart(today, r)) <= ReadingMinutes(sessions, yearStart)
  {
    SumFilterMonotone(sessions, DurationOf, SessionSince(WindowStart(today, r)), SessionSince(yearStart));
  }

  /** No later item of the library carries the id of item `i`. */
  predicate LastWithId(library: seq<LibraryItem>, i: int)
    requires 0 <= i < |library|
  {
    forall j :: i < j < |library| ==> library[j].id != library[i].id
  }

  /** `libraryById`: each id of the library maps to the last item carrying it, and nothing else is mapped. */
  function LibraryById(library: seq<LibraryItem>): (byId: map<Id, LibraryItem>)
    ensures forall i :: 0 <= i < |library| ==> library[i].id in byId
    ensures forall id :: id in byId ==> byId[id].id == id && byId[id] in library
    ensures forall i :: 0 <= i < |library| && LastWithId(library, i) ==> byId[library[i].id] == library[i]
  {
    if library == [] then map[]
    else
      var init := library[..|library| - 1];
      var last := library[|library| - 1];
      assert library == init + [last];
      var before := LibraryById(init);
      var after := before[last.id := last];
      LibraryByIdKeys(init, last, before, after);
      LibraryByIdValues(init, last, before, after);
      LibraryByIdLast(init, last, before, after);
      after
  }

  lemma LibraryByIdKeys(init: seq<LibraryItem>, last: LibraryItem, before: map<Id, LibraryItem>, after: map<Id, LibraryItem>)
    requires after == before[last.id := last]
    requires forall i :: 0 <= i < |init| ==> init[i].id in before
    ensures forall i :: 0 <= i < |init + [last]| ==> (init + [last])[i].id in after
  {
    forall i | 0 <= i < |init + [last]|
      ensures (init + [last])[i].id in after
    {
      if i < |init| {
        assert (init + [last])[i] == init[i];
      }
    }
  }

  lemma LibraryByIdValues(init: seq<LibraryItem>, last: LibraryItem, before: map<Id, LibraryItem>, after: map<Id, LibraryItem>)
    requires after == before[last.id := last]
    requires forall id :: id in before ==> before[id].id == id && before[id] in init
    ensures forall id :: id in after ==> after[id].id == id && after[id] in init + [last]
  {
  }

  lemma LibraryByIdLast(init: seq<LibraryItem>, last: LibraryItem, before: map<Id, LibraryItem>, after: map<Id, LibraryItem>)
    requires after == before[last.id := last]
    requires forall i :: 0 <= i < |init| ==> init[i].id in before
    requires forall i :: 0 <= i < |init| && LastWithId(init, i) ==> before[init[i].id] == init[i]
    ensures forall i :: 0 <= i < |init + [last]| && LastWithId(init + [last], i) ==> after[(init + [last])[i].id] == (init + [last])[i]
  {
    var library := init + [last];
    forall i | 0 <= i < |library| && LastWithId(library, i)
      ensures after[library[i].id] == library[i]
    {
      if i < |init| {
        assert library[i] == init[i];
        assert library[|init|] == last;
        assert LastWithId(init, i) by {
          forall j | i < j < |init|
            ensures init[j].id != init[i].id
          {
            assert library[j] == init[j];
          }
        }
      }
    }
  }

  function MinutesOf(s: MediaSession): real { s.durationMinutes }

  /** The library type of a session's item, if the item is in the library. */
  function ItemTypeOf(byId: map<Id, LibraryItem>, s: MediaSession): Option<string> {
    if s.itemId.Some? && s.itemId.value in byId then Some(byId[s.itemId.value].itemType) else None
  }

  function OfType(byId: map<Id, LibraryItem>, start: Day, t: string): MediaSession -> bool {
    (s: MediaSession) => s.date >= start && ItemTypeOf(byId, s) == Some(t)
  }

  function SeriesOrCourse(byId: map<Id, LibraryItem>, start: Day): MediaSession -> bool {
    (s: MediaSession) => s.date >= start && (ItemTypeOf(byId, s) == Some("series") || ItemTypeOf(byId, s) == Some("course"))
  }

  /** A session on a series, course or podcast in the library, dated `start` or later. */
  function Tracked(byId: map<Id, LibraryItem>, start: Day): MediaSession -> bool {
    (s: MediaSession) => s.date >= start
      && (ItemTypeOf(byId, s) == Some("series") || ItemTypeOf(byId, s) == Some("course") || ItemTypeOf(byId, s) == Some("podcast"))
  }

  function TypeMinutes(sessions: seq<MediaSession>, byId: map<Id, LibraryItem>, start: Day, t: string): real {
    Sum(Filter(sessions, OfType(byId, start, t)), MinutesOf)
  }

  datatype MediaStats = MediaStats(series: real, course: real, podcast: real, periodTotal: real, ytdTotal: real)

  /** `mediaStats`: per-type minutes in the window, their total, and the year's tracked minutes. */
  function MediaStatsOf(sessions: seq<MediaSession>, library: seq<LibraryItem>, today: Day, r: Range, yearStart: Day): (m: MediaStats)
    ensures m.ytdTotal == Sum(Filter(sessions, Tracked(LibraryById(library), yearStart)), MinutesOf)
  {
    var byId := LibraryById(library);
    var start := WindowStart(today, r);
    var series := TypeMinutes(sessions, byId, start, "series");
    var course := TypeMinutes(sessions, byId, start, "course");
    var podcast := TypeMinutes(sessions, byId, start, "podcast");
    MediaStats(series, course, podcast, series + course + podcast,
      Sum(Filter(sessions, Tracked(byId, yearStart)), MinutesOf))
  }

  /**
   * The period total is what the year-to-date rule gives from the window start: sessions
   * whose item is missing or of another type add nothing.
   */
  lemma MediaPeriodTotalIsTracked(sessions: seq<MediaSession>, library: seq<LibraryItem>, today: Day, r: Range, yearStart: Day)
    ensures MediaStatsOf(sessions, library, today, r, yearStart).periodTotal
         == Sum(Filter(sessions, Tracked(LibraryById(library), WindowStart(today, r))), MinutesOf)
  {
    var byId := LibraryById(library);
    var start := WindowStart(today, r);
    SumDisjointFilters(sessions, MinutesOf, OfType(byId, start, "series"), OfType(byId, start, "course"), SeriesOrCourse(byId, start));
    SumDisjointFilters(sessions, MinutesOf, SeriesOrCourse(byId, start), OfType(byId, start, "podcast"), Tracked(byId, start));
  }

  // ---------------------------------------------------------------------------
  // Heatmap

  datatype Band = Strong | Good | Fair | Low | Blank

  /** The cell colour: three score bands for logged days, a low shade, and blank when not logged. */
  function BandOf(logged: bool, score: int): (b: Band)
    ensures b == Blank <==> !logged
    ensures logged ==> (b == Strong <==> score >= 80)
    ensures logged ==> (b == Good <==> 60 <= score < 80)
    ensures logged ==> (b == Fair <==> 40 <= score < 60)
    ensures logged ==> (b == Low <==> score < 40)
  {
    if logged && score >= 80 then Strong
    else if logged && score >= 60 then Good
    else if logged && score >= 40 then Fair
    else if logged then Low
    else Blank
  }

  const HeatmapDays := 365

  /**
   * `weeksCount`: enough week columns for the leading offset and the 365 days, which is 53
   * whatever weekday the year starts on.
   */
  function WeeksCount(today: Day): (n: int)
    ensures n == 53
  {
    (Weekday(today - 364) + HeatmapDays + 6) / 7
  }

  datatype Cell = Cell(date: Day, week: int, dayIndex: int, score: int, logged: bool, band: Band)

  /** Shifting a day forward shifts its weekday forward, modulo 7. */
  lemma WeekdayShift(start: Day, i: int)
    ensures Weekday(start + i) == (Weekday(start) + i) % 7
  {
    var q := (start + 4) / 7;
    assert start + 4 == 7 * q + Weekday(start);
    assert start + i + 4 == 7 * q + (Weekday(start) + i);
  }

  /** Offset `w + i` lies in week column `(w + i) / 7` and row `(w + i) % 7` of a 53-column grid. */
  lemma GridPosition(w: int, i: int)
    requires 0 <= w < 7 && 0 <= i < HeatmapDays
    ensures 0 <= (w + i) / 7 < 53 && 0 <= (w + i) % 7 < 7
    ensures 7 * ((w + i) / 7) + (w + i) % 7 == w + i
  {
  }

  /** `calculateDailyScore(dayMetrics, dayHabits, goals, {})` for a logged day, 0 otherwise. */
  function CellScore(store: Store, date: Day, logged: bool): int {
    if logged then Score.Calculate(RecordOn(store.metrics, date), RecordOn(store.habits, date), store.goals, EmptyJournal).score else 0
  }

  /** The cell of day `i` of the year ending today. */
  function CellAt(store: Store, today: Day, i: int): (c: Cell)
    requires 0 <= i < HeatmapDays
    ensures c.date == today - 364 + i
    ensures 0 <= c.week < WeeksCount(today) && 0 <= c.dayIndex < 7
    ensures 7 * c.week + c.dayIndex == Weekday(today - 364) + i
    ensures c.logged == HasEntries(store.metrics, store.habits, c.date)
    ensures c.band == BandOf(c.logged, c.score) && (!c.logged ==> c.score == 0)
  {
    var start := today - 364;
    var date := start + i;
    var logged := HasEntries(store.metrics, store.habits, date);
    var score := CellScore(store, date, logged);
    WeekdayShift(start, i);
    GridPosition(Weekday(start), i);
    Cell(date, (Weekday(start) + i) / 7, Weekday(date), score, logged, BandOf(logged, score))
  }

  /**
   * `heatmapWeeks`, as the list of its 365 filled cells in day order: every day gets its own
   * position in the 53 by 7 grid, so no cell overwrites another, and a cell is blank exactly
   * when its day has no metrics or habits entry.
   */
  function Heatmap(store: Store, today: Day): (cells: seq<Cell>)
    ensures |cells| == HeatmapDays
    ensures forall i :: 0 <= i < HeatmapDays ==> cells[i].date == today - 364 + i
    ensures forall i :: 0 <= i < HeatmapDays ==> 0 <= cells[i].week < 53 && 0 <= cells[i].dayIndex < 7
    ensures forall i, j :: 0 <= i < j < HeatmapDays ==> (cells[i].week, cells[i].dayIndex) != (cells[j].week, cells[j].dayIndex)
    ensures forall i :: 0 <= i < HeatmapDays ==> (cells[i].band == Blank <==> !HasEntries(store.metrics, store.habits, cells[i].date))
    ensures forall i :: 0 <= i < HeatmapDays && cells[i].band == Blank ==> cells[i].score == 0
  {
    seq(HeatmapDays, (i: int) requires 0 <= i < HeatmapDays => CellAt(store, today, i))
  }
}

=== FILE: app.dfy ===
/**
 * The shell's data handling in src/App.jsx: normalising journals and goal lists loaded
 * from the remote store, the defaults applied to a loaded state, the list of recently
 * visited pages, moving a weekly goal from the old Sunday key to the Monday key, and the
 * "set your goals" prompt with its "Skip for now".
 */
module App {
  import opened Wrappers
  import opened Calendar
  import opened Text
  import opened Records
  import opened GoalLists
  import Numeric

  // ---------------------------------------------------------------------------
  // Journals

  /** `important: entry.important || entry.avoided || ''`, with `avoided` dropped. */
  function NormalizeJournal(j: Journal): (r: Journal)
    ensures r.text == j.text && r.til == j.til && r.avoided == ""
    ensures j.important != "" ==> r.important == j.important
    ensures j.important == "" ==> r.important == j.avoided
  {
    j.(important := if j.important != "" then j.important else j.avoided, avoided := "")
  }

  /** `normalizeJournals`: every date is kept and a `null` entry passes through. */
  function NormalizeJournals(log: JournalLog): (r: JournalLog)
    ensures r.Keys == log.Keys
    ensures forall d :: d in log && log[d].None? ==> r[d].None?
    ensures forall d :: d in log && log[d].Some? ==> r[d] == Some(NormalizeJournal(log[d].value))
  {
    map d | d in log :: if log[d].Some? then Some(NormalizeJournal(log[d].value)) else None
  }

  /** Normalising loaded journals twice is the same as once. */
  lemma NormalizeJournalsIdempotent(log: JournalLog)
    ensures NormalizeJournals(NormalizeJournals(log)) == NormalizeJournals(log)
  {
  }

  /** A legacy entry keeps its "avoided" text as "important" unless it already had one. */
  lemma LegacyAvoidedKept(log: JournalLog, d: Day)
    requires d in log && log[d].Some? && log[d].value.important == ""
    ensures JournalOn(NormalizeJournals(log), d).important == log[d].value.avoided
    ensures JournalOn(NormalizeJournals(log), d).text == JournalOn(log, d).text
  {
  }

  // ---------------------------------------------------------------------------
  // Goal lists

  /**
   * One period's entry: an items array is kept; with no text the items are empty;
   * otherwise one item per non-blank trimmed line of the text, done when the entry was
   * completed (`doneAt: entry.completedAt || null`).
   */
  function NormalizeGoal(e: GoalEntry, idFor: nat -> Id): (r: GoalEntry)
    ensures r.items.Some?
    ensures e.items.Some? ==> r == e
    ensures e.items.None? && e.text == "" ==> r == e.(items := Some([]))
    ensures e.items.None? ==> Texts(ItemsOf(r)) == NonBlankLines(e.text)
    ensures e.items.None? ==> forall i :: 0 <= i < |ItemsOf(r)| ==> ItemsOf(r)[i].doneAt == e.completedAt
    ensures r.text == e.text && r.completedAt == e.completedAt && r.dismissedAt == e.dismissedAt && r.savedAt == e.savedAt
  {
    if e.items.Some? then e
    else if e.text == "" then
      NonBlankLinesEmptyIffBlank("");
      e.(items := Some([]))
    else
      TextsOfNewItems(NonBlankLines(e.text), idFor, 0, e.completedAt);
      e.(items := Some(NewItems(NonBlankLines(e.text), idFor, 0, e.completedAt)))
  }

  /** `normalizeGoals`; `idFor(period, k)` is the generated id of the k-th item of a period. */
  function NormalizeGoals(log: GoalLog, idFor: (Day, nat) -> Id): (r: GoalLog)
    ensures r.Keys == log.Keys
    ensures forall p :: p in log && log[p].None? ==> r[p].None?
    ensures forall p :: p in log && log[p].Some? ==> r[p] == Some(NormalizeGoal(log[p].value, (k: nat) => idFor(p, k)))
  {
    map p | p in log :: if log[p].Some? then Some(NormalizeGoal(log[p].value, (k: nat) => idFor(p, k))) else None
  }

  /** After normalising, every entry has an items list, so normalising again changes nothing. */
  lemma NormalizeGoalsIdempotent(log: GoalLog, idFor: (Day, nat) -> Id, idFor2: (Day, nat) -> Id)
    ensures NormalizeGoals(NormalizeGoals(log, idFor), idFor2) == NormalizeGoals(log, idFor)
  {
  }

  /**
   * A text-only entry keeps its meaning: one item per non-blank line, all done when the
   * entry was completed and all open when it was not.
   */
  lemma LegacyGoalStatus(e: GoalEntry, idFor: nat -> Id)
    requires e.items.None? && !IsBlank(e.text)
    ensures e.completedAt.Some? ==> StatusOf(Some(NormalizeGoal(e, idFor))) == Completed
    ensures e.completedAt.None? ==> StatusOf(Some(NormalizeGoal(e, idFor))) == Active
  {
    NonBlankLinesEmptyIffBlank(e.text);
    var items := ItemsOf(NormalizeGoal(e, idFor));
    assert items[0].doneAt == e.completedAt;
  }

  // ---------------------------------------------------------------------------
  // Defaults of a loaded state

  /** The stored name of a habit. */
  function HabitKey(h: Habit): string {
    match h
    case NoFap => "nofap"
    case Workout => "workout"
    case Run => "run"
    case KeptWord => "keptWord"
    case HardThing => "hardThing"
    case Integrity => "integrity"
    case HealthyEating => "healthyEating"
  }

  /** The habits a weekly focus may be: every habit but integrity. */
  predicate AllowedFocus(h: Habit) {
    h != Integrity
  }

  /** The loaded focus habit: one of the six allowed names, otherwise `'workout'`. */
  function FocusHabit(name: string): (h: Habit)
    ensures AllowedFocus(h)
    ensures (exists k :: AllowedFocus(k) && HabitKey(k) == name) ==> HabitKey(h) == name
    ensures (forall k :: AllowedFocus(k) ==> HabitKey(k) != name) ==> h == Workout
  {
    if name == "nofap" then NoFap
    else if name == "run" then Run
    else if name == "keptWord" then KeptWord
    else if name == "hardThing" then HardThing
    else if name == "healthyEating" then HealthyEating
    else Workout
  }

  /** An allowed focus habit survives a save and load; integrity falls back to workout. */
  lemma FocusRoundTrip(h: Habit)
    ensures AllowedFocus(h) ==> FocusHabit(HabitKey(h)) == h
    ensures FocusHabit(HabitKey(Integrity)) == Workout
  {
  }

  const DefaultGameLimit := 420.0

  /** The default metric goals; squats have none (the score falls back to 50). */
  const DefaultGoals: Goals := map[Steps := 10000.0, Water := 1.5, Sleep := 7.5, Pages := 20.0, Pushups := 50.0]

  /** The settings part of a loaded state; `None` is a missing or `null` field. */
  datatype Settings = Settings(gameLimitMinutes: Option<real>, goals: Option<Goals>, focusHabit: string)

  /** The settings the app runs with. */
  datatype Applied = Applied(gameLimitMinutes: real, goals: Goals, focusHabit: Habit)

  /**
   * `applyRemoteState` for the settings: `gameLimitMinutes || 420` (0 is falsy),
   * `goals || defaultState.goals` and the focus whitelist.
   */
  function ApplySettings(s: Settings): (a: Applied)
    ensures a.gameLimitMinutes != 0.0
    ensures s.gameLimitMinutes.Some? && s.gameLimitMinutes.value != 0.0 ==> a.gameLimitMinutes == s.gameLimitMinutes.value
    ensures s.gameLimitMinutes.None? || s.gameLimitMinutes == Some(0.0) ==> a.gameLimitMinutes == DefaultGameLimit
    ensures a.goals == s.goals.GetOr(DefaultGoals)
    ensures a.focusHabit == FocusHabit(s.focusHabit)
  {
    Applied(
      if s.gameLimitMinutes.Some? && s.gameLimitMinutes.value != 0.0 then s.gameLimitMinutes.value else DefaultGameLimit,
      s.goals.GetOr(DefaultGoals),
      FocusHabit(s.focusHabit))
  }

  /** What the app saves back from applied settings. */
  function Saved(a: Applied): Settings {
    Settings(Some(a.gameLimitMinutes), Some(a.goals), HabitKey(a.focusHabit))
  }

  /** Loading what was saved gives back the same settings. */
  lemma ApplySavedRoundTrip(a: Applied)
    requires a.gameLimitMinutes != 0.0 && AllowedFocus(a.focusHabit)
    ensures ApplySettings(Saved(a)) == a
  {
    FocusRoundTrip(a.focusHabit);
  }

  /** An empty remote state loads the defaults. */
  lemma EmptySettingsLoadDefaults(name: string)
    requires forall k :: AllowedFocus(k) ==> HabitKey(k) != name
    ensures ApplySettings(Settings(None, None, name)) == Applied(DefaultGameLimit, DefaultGoals, Workout)
  {
  }

  // ---------------------------------------------------------------------------
  // Recently visited pages

  predicate NoDuplicates(xs: seq<string>) {
    forall i, j :: 0 <= i < j < |xs| ==> xs[i] != xs[j]
  }

  function Without(xs: seq<string>, x: string): (r: seq<string>)
    ensures forall y :: y in r <==> y in xs && y != x
    ensures |r| <= |xs|
    ensures NoDuplicates(xs) ==> NoDuplicates(r)
  {
    if xs == [] then []
    else if xs[0] == x then Without(xs[1..], x)
    else
      var rest := Without(xs[1..], x);
      NoDuplicatesTail(xs);
      [xs[0]] + rest
  }

  lemma NoDuplicatesTail(xs: seq<string>)
    requires xs != []
    ensures NoDuplicates(xs) ==> xs[0] !in xs[1..] && NoDuplicates(xs[1..])
  {
  }

  /** `[page, ...prev.filter(id => id !== page)].slice(0, 5)`. */
  function RecentPages(prev: seq<string>, page: string): (r: seq<string>)
    ensures 1 <= |r| <= 5
    ensures r[0] == page
    ensures forall i :: 1 <= i < |r| ==> r[i] != page && r[i] in prev
    ensures NoDuplicates(prev) ==> NoDuplicates(r)
    ensures NoDuplicates(prev) && |prev| < 5 && page in prev ==> |r| == |prev|
    ensures |r| == Numeric.MinInt(5, 1 + |Without(prev, page)|)
    ensures r[1..] == Without(prev, page)[..|r| - 1]
  {
    var rest := Without(prev, page);
    var all := [page] + rest;
    assert forall i :: 1 <= i < |all| ==> all[i] in rest;
    WithoutPresent(prev, page);
    all[..if |all| < 5 then |all| else 5]
  }

  lemma {:induction false} WithoutPresent(xs: seq<string>, x: string)
    ensures x in xs ==> |Without(xs, x)| < |xs|
    ensures NoDuplicates(xs) && x in xs ==> |Without(xs, x)| == |xs| - 1
  {
    if xs != [] {
      NoDuplicatesTail(xs);
      WithoutPresent(xs[1..], x);
      if xs[0] == x && NoDuplicates(xs) {
        WithoutAbsent(xs[1..], x);
      }
    }
  }

  /** Revisiting the page just visited leaves the list as it is. */
  lemma RecentPagesRevisit(prev: seq<string>, page: string)
    ensures RecentPages(RecentPages(prev, page), page) == RecentPages(prev, page)
  {
    var r := RecentPages(prev, page);
    WithoutAbsent(r[1..], page);
    assert Without(r, page) == r[1..];
  }

  lemma {:induction false} WithoutAbsent(xs: seq<string>, x: string)
    requires x !in xs
    ensures Without(xs, x) == xs
  {
    if xs != [] {
      WithoutAbsent(xs[1..], x);
    }
  }

  // ---------------------------------------------------------------------------
  // Sunday-keyed weekly goals

  /**
   * Weeks used to start on Sunday. When the current Monday-keyed week has no entry and the
   * Sunday-keyed one exists and was not dismissed, it is copied to the Monday key.
   */
  function MigrateLegacyWeek(log: GoalLog, today: Day): (r: GoalLog)
    ensures var ws := WeekStart(today);
      var legacy := EntryAt(log, LegacyWeekStart(today));
      if EntryAt(log, ws).None? && legacy.Some? && legacy.value.dismissedAt.None?
      then r == log[ws := legacy]
      else r == log
  {
    LegacyWeekStartDiffers(today);
    var ws := WeekStart(today);
    if EntryAt(log, ws).Some? then log
    else
      var lws := LegacyWeekStart(today);
      if lws == ws then log
      else
        var legacy := EntryAt(log, lws);
        if legacy.None? || legacy.value.dismissedAt.Some? then log
        else log[ws := legacy]
  }

  /** Once migrated the current week has an entry, so migrating again changes nothing. */
  lemma MigrateIdempotent(log: GoalLog, today: Day)
    ensures MigrateLegacyWeek(MigrateLegacyWeek(log, today), today) == MigrateLegacyWeek(log, today)
    ensures StatusOf(EntryAt(MigrateLegacyWeek(log, today), WeekStart(today))) != NotSet
         || StatusOf(EntryAt(log, WeekStart(today))) == NotSet
  {
    LegacyWeekStartDiffers(today);
  }

  // ---------------------------------------------------------------------------
  // Goals prompt

  /** `(entry?.items || []).some(item => item?.text)`. */
  predicate HasItems(entry: Option<GoalEntry>) {
    entry.Some? && exists i :: 0 <= i < |ItemsOf(entry.value)| && ItemsOf(entry.value)[i].text != ""
  }

  /** A period needs goals when it has no item with text and was not dismissed. */
  predicate Missing(entry: Option<GoalEntry>) {
    !HasItems(entry) && !(entry.Some? && entry.value.dismissedAt.Some?)
  }

  /** The prompt shows for a signed-in, loaded user when either period needs goals. */
  function ShowGoalsPrompt(signedIn: bool, hydrated: bool, weekly: Option<GoalEntry>, monthly: Option<GoalEntry>): (show: bool)
    ensures show ==> signedIn && hydrated
    ensures !Missing(weekly) && !Missing(monthly) ==> !show
    ensures signedIn && hydrated && Missing(weekly) ==> show
    ensures signedIn && hydrated && Missing(monthly) ==> show
  {
    signedIn && hydrated && (Missing(weekly) || Missing(monthly))
  }

  /** The draft the prompt opens with: the item texts one per line, else the legacy text. */
  function PromptDraft(entry: Option<GoalEntry>): (draft: string)
    ensures !HasItems(entry) ==> draft == (if entry.Some? then entry.value.text else "")
  {
    if HasItems(entry) then Join(Texts(ItemsOf(entry.value)), "\n")
    else if entry.Some? then entry.value.text
    else ""
  }

  /**
   * "Skip for now" for one period: dismisses it only when it has no item with text and
   * its draft is blank.
   */
  function SkipForNow(log: GoalLog, period: Day, draft: string, today: Day): (r: GoalLog)
    ensures !HasItems(EntryAt(log, period)) && IsBlank(draft) ==> r == Skip(log, period, today)
    ensures HasItems(EntryAt(log, period)) || !IsBlank(draft) ==> r == log
  {
    if !HasItems(EntryAt(log, period)) && Trim(draft) == "" then Skip(log, period, today) else log
  }

  /** After "Skip for now" with a blank draft the period no longer needs goals. */
  lemma SkipForNowSettles(log: GoalLog, period: Day, draft: string, today: Day)
    requires IsBlank(draft)
    ensures !Missing(EntryAt(SkipForNow(log, period, draft, today), period))
  {
  }

  /**
   * "Save Goals" in the prompt, for one period: a period that already has an item with
   * text is left untouched, and so is one whose draft is blank; otherwise the period's
   * entry is replaced by fresh open items, stamped as saved and neither completed nor
   * dismissed. Unlike the goals page's save, nothing of the old entry survives, not even
   * its completion date.
   */
  function PromptSave(log: GoalLog, period: Day, draft: string, today: Day, idFor: nat -> Id): (r: GoalLog)
    ensures HasItems(EntryAt(log, period)) ==> r == log
    ensures IsBlank(draft) ==> r == log
    ensures !HasItems(EntryAt(log, period)) && !IsBlank(draft) ==>
      && r.Keys == log.Keys + {period}
      && (forall p :: p in log && p != period ==> r[p] == log[p])
      && r[period].Some?
      && ItemsOf(r[period].value) == ItemsOf(SaveDraft(log, period, draft, today, idFor)[period].value)
      && r[period].value.savedAt == Some(today)
      && r[period].value.completedAt.None? && r[period].value.dismissedAt.None?
  {
    if HasItems(EntryAt(log, period)) || Trim(draft) == "" then log
    else log[period := Some(GoalEntry(Some(NewItems(NonBlankLines(draft), idFor, 0, None)), "", None, None, Some(today)))]
  }

  /** Saving from the prompt settles the period: it has an item to show, and is active when it had none before. */
  lemma PromptSaveSettles(log: GoalLog, period: Day, draft: string, today: Day, idFor: nat -> Id)
    requires !IsBlank(draft)
    ensures !Missing(EntryAt(PromptSave(log, period, draft, today, idFor), period))
    ensures !HasItems(EntryAt(log, period)) ==> StatusOf(EntryAt(PromptSave(log, period, draft, today, idFor), period)) == Active
  {
    if !HasItems(EntryAt(log, period)) {
      NonBlankLinesEmptyIffBlank(draft);
      var items := ItemsOf(PromptSave(log, period, draft, today, idFor)[period].value);
      assert Texts(items)[0] == items[0].text;
      assert !IsDone(items[0]);
    }
  }

  /**
   * The "Save Goals" button is enabled unless an itemless period has a blank draft: each
   * period either has items already or has a draft that yields at least one goal line.
   */
  function SaveEnabled(weekly: Option<GoalEntry>, monthly: Option<GoalEntry>, weeklyDraft: string, monthlyDraft: string): (r: bool)
    ensures r <==> ((HasItems(weekly) || NonBlankLines(weeklyDraft) != [])
                    && (HasItems(monthly) || NonBlankLines(monthlyDraft) != []))
  {
    NonBlankLinesEmptyIffBlank(weeklyDraft);
    NonBlankLinesEmptyIffBlank(monthlyDraft);
    !(!HasItems(weekly) && IsBlank(weeklyDraft)) && !(!HasItems(monthly) && IsBlank(monthlyDraft))
  }

  /** The weekly and the monthly goal logs, which the prompt's handlers update together. */
  datatype GoalLogs = GoalLogs(weekly: GoalLog, monthly: GoalLog)

  /**
   * The whole "Save Goals" handler on the weekly and the monthly goal logs: the weekly
   * period is saved first; an itemless period with a blank draft returns early, so a blank
   * weekly draft saves nothing and a blank monthly draft keeps the weekly save only.
   */
  function PromptSaveGoals(weeklyLog: GoalLog, monthlyLog: GoalLog, weekStart: Day, monthStart: Day,
                           weeklyDraft: string, monthlyDraft: string, today: Day,
                           weeklyIds: nat -> Id, monthlyIds: nat -> Id): (r: GoalLogs)
    ensures var weekly := EntryAt(weeklyLog, weekStart);
            var monthly := EntryAt(monthlyLog, monthStart);
            && (!HasItems(weekly) && IsBlank(weeklyDraft) ==> r == GoalLogs(weeklyLog, monthlyLog))
            && (!(!HasItems(weekly) && IsBlank(weeklyDraft)) ==> r.weekly == PromptSave(weeklyLog, weekStart, weeklyDraft, today, weeklyIds))
            && (!HasItems(monthly) && IsBlank(monthlyDraft) ==> r.monthly == monthlyLog)
            && (SaveEnabled(weekly, monthly, weeklyDraft, monthlyDraft) ==>
                  r.monthly == PromptSave(monthlyLog, monthStart, monthlyDraft, today, monthlyIds))
  {
    if !HasItems(EntryAt(weeklyLog, weekStart)) && Trim(weeklyDraft) == "" then GoalLogs(weeklyLog, monthlyLog)
    else
      var savedWeekly := PromptSave(weeklyLog, weekStart, weeklyDraft, today, weeklyIds);
      if !HasItems(EntryAt(monthlyLog, monthStart)) && Trim(monthlyDraft) == "" then GoalLogs(savedWeekly, monthlyLog)
      else GoalLogs(savedWeekly, PromptSave(monthlyLog, monthStart, monthlyDraft, today, monthlyIds))
  }

  /** With the button enabled, saving settles both periods, so the prompt does not show again. */
  lemma PromptSaveGoalsSettles(weeklyLog: GoalLog, monthlyLog: GoalLog, weekStart: Day, monthStart: Day,
                               weeklyDraft: string, monthlyDraft: string, today: Day,
                               weeklyIds: nat -> Id, monthlyIds: nat -> Id, signedIn: bool, hydrated: bool)
    requires SaveEnabled(EntryAt(weeklyLog, weekStart), EntryAt(monthlyLog, monthStart), weeklyDraft, monthlyDraft)
    ensures var r := PromptSaveGoals(weeklyLog, monthlyLog, weekStart, monthStart, weeklyDraft, monthlyDraft, today, weeklyIds, monthlyIds);
            !ShowGoalsPrompt(signedIn, hydrated, EntryAt(r.weekly, weekStart), EntryAt(r.monthly, monthStart))
  {
    var r := PromptSaveGoals(weeklyLog, monthlyLog, weekStart, monthStart, weeklyDraft, monthlyDraft, today, weeklyIds, monthlyIds);
    if HasItems(EntryAt(weeklyLog, weekStart)) {
      assert r.weekly == weeklyLog;
    } else {
      PromptSaveSettles(weeklyLog, weekStart, weeklyDraft, today, weeklyIds);
    }
    if HasItems(EntryAt(monthlyLog, monthStart)) {
      assert r.monthly == monthlyLog;
    } else {
      PromptSaveSettles(monthlyLog, monthStart, monthlyDraft, today, monthlyIds);
    }
  }
}

=== FILE: body.dfy ===
/**
 * The body page (src/pages/BodyPage.jsx): the last seven days' steps, sleep and water
 * figures and training totals, and the water toggle that stores the water goal.
 */
module Body {
  import opened Wrappers
  import opened Numeric
  import opened Folds
  import opened Calendar
  import opened Records
  import opened Aggregates
  import Score
  import Review

  /** `weekStats`: `avgSleep` is kept exact; its `toFixed(1)` string is display only. */
  datatype WeekStats = WeekStats(
    avgSteps: Option<int>,
    avgSleep: Option<real>,
    waterPct: int,
    pushupsTotal: real,
    squatsTotal: real,
    workoutDays: nat,
    runDays: nat,
    runDistanceTotal: real)

  /** `if (dayMetrics.water)`: the day's water value is present and non-zero. */
  function WaterOn(metrics: MetricLog): Day -> bool {
    (d: Day) => Truthy(RecordOn(metrics, d), Water)
  }

  /** The number of the last seven days whose water goal was met. */
  function WaterDays(metrics: MetricLog, today: Day): (n: nat)
    ensures n <= 7
    ensures n == 0 <==> forall d :: today - 6 <= d <= today ==> !Truthy(RecordOn(metrics, d), Water)
    ensures n == 7 <==> forall d :: today - 6 <= d <= today ==> Truthy(RecordOn(metrics, d), Water)
  {
    var dry := (d: Day) => !WaterOn(metrics)(d);
    WeekEvery(today, WaterOn(metrics));
    WeekEvery(today, dry);
    assert forall d :: dry(d) == !Truthy(RecordOn(metrics, d), Water);
    Count(Week(today), WaterOn(metrics))
  }

  /** The water days are exactly the days from six days ago to today with water logged. */
  lemma WaterDaysAreDays(metrics: MetricLog, today: Day)
    ensures WaterDays(metrics, today) == |DaysWhere(today - 6, today, WaterOn(metrics))|
  {
    WeekCountIsDays(today, WaterOn(metrics));
  }

  /** A metric's average over the week's days where it is non-zero; `null` when there is none. */
  function WeekAverage(metrics: MetricLog, k: Metric, today: Day): (avg: Option<real>)
    ensures avg.None? <==> forall d :: today - 6 <= d <= today ==> ValueOr0(RecordOn(metrics, d), k) == 0.0
  {
    var zero := (d: Day) => ValueOr0(RecordOn(metrics, d), k) == 0.0;
    WeekEvery(today, zero);
    assert forall d :: zero(d) == (ValueOr0(RecordOn(metrics, d), k) == 0.0);
    assert forall d :: zero(d) == (MetricValue(metrics, k)(d) == 0.0);
    SparseAverage(Week(today), MetricValue(metrics, k))
  }

  /**
   * `Math.round(waterDays / 7 * 100)`: the share of the seven calendar days from six days
   * ago to today with water logged, as a rounded percentage.
   */
  function WaterPct(metrics: MetricLog, today: Day): (p: int)
    ensures p == Percent(|DaysWhere(today - 6, today, WaterOn(metrics))| as real, 7.0)
    ensures p == Percent(WaterDays(metrics, today) as real, 7.0)
    ensures 0 <= p <= 100
  {
    WaterDaysAreDays(metrics, today);
    Percent(WaterDays(metrics, today) as real, 7.0)
  }

  /** The week's average of a metric rounded to a whole number, `null` when there is none. */
  function RoundedWeekAverage(metrics: MetricLog, k: Metric, today: Day): (avg: Option<int>)
    ensures avg.None? <==> forall d :: today - 6 <= d <= today ==> ValueOr0(RecordOn(metrics, d), k) == 0.0
    ensures avg.Some? ==> avg.value == Round(WeekAverage(metrics, k, today).value)
  {
    var a := WeekAverage(metrics, k, today);
    if a.Some? then Some(Round(a.value)) else None
  }

  /**
   * `weekStats` over the last seven days. Steps and sleep are averaged over the days where
   * they are non-zero and are `null` when there is none; the water percentage divides by
   * the seven calendar days; the training figures are plain totals and day counts.
   */
  function WeekStatsOf(metrics: MetricLog, habits: HabitLog, today: Day): (s: WeekStats)
    ensures s.avgSteps.None? <==> forall d :: today - 6 <= d <= today ==> ValueOr0(RecordOn(metrics, d), Steps) == 0.0
    ensures s.avgSleep.None? <==> forall d :: today - 6 <= d <= today ==> ValueOr0(RecordOn(metrics, d), Sleep) == 0.0
    ensures s.waterPct == WaterPct(metrics, today)
    ensures 0 <= s.waterPct <= 100
    ensures s.workoutDays <= 7 && s.runDays <= 7
  {
    var days := Week(today);
    WeekStats(
      RoundedWeekAverage(metrics, Steps, today),
      WeekAverage(metrics, Sleep, today),
      WaterPct(metrics, today),
      Sum(days, MetricValue(metrics, Pushups)),
      Sum(days, MetricValue(metrics, Squats)),
      Count(days, HabitDone(habits, Workout)),
      Count(days, HabitDone(habits, Run)),
      Sum(days, MetricValue(metrics, RunDistance)))
  }

  /**
   * The water percentage is 100 exactly when the goal was met on all seven days, and 0
   * exactly when it was met on none: a single day already rounds to 14.
   */
  lemma WaterPctIff(metrics: MetricLog, habits: HabitLog, today: Day)
    ensures WeekStatsOf(metrics, habits, today).waterPct == 100
      <==> forall d :: today - 6 <= d <= today ==> Truthy(RecordOn(metrics, d), Water)
    ensures WeekStatsOf(metrics, habits, today).waterPct == 0
      <==> forall d :: today - 6 <= d <= today ==> !Truthy(RecordOn(metrics, d), Water)
  {
    var n := WaterDays(metrics, today);
    PercentFullIff(n, 7);
    if n > 0 {
      assert n as real / 7.0 * 100.0 >= 14.0;
      RoundMonotone(14.0, n as real / 7.0 * 100.0);
      RoundOfInteger(14);
    }
  }

  /**
   * The page's week is the last seven days of a review range ending today: its totals,
   * day counts and sleep average are those of `getReviewStats(getDaysAgo(6), today)`,
   * and its step average is that range's step average rounded to a whole number.
   * The run distance in particular is summed whether or not the run habit was set.
   */
  lemma WeekMatchesReview(store: Store, today: Day)
    ensures WeekStatsOf(store.metrics, store.habits, today).pushupsTotal == Review.MetricTotal(store, Pushups, today - 6, today)
    ensures WeekStatsOf(store.metrics, store.habits, today).squatsTotal == Review.MetricTotal(store, Squats, today - 6, today)
    ensures WeekStatsOf(store.metrics, store.habits, today).runDistanceTotal == Review.MetricTotal(store, RunDistance, today - 6, today)
    ensures WeekStatsOf(store.metrics, store.habits, today).workoutDays == Review.HabitDays(store, Workout, today - 6, today)
    ensures WeekStatsOf(store.metrics, store.habits, today).runDays == Review.HabitDays(store, Run, today - 6, today)
    ensures WeekStatsOf(store.metrics, store.habits, today).avgSleep == Review.MetricAverage(store, Sleep, today - 6, today)
    ensures WeekStatsOf(store.metrics, store.habits, today).avgSteps.None? <==> Review.MetricAverage(store, Steps, today - 6, today).None?
    ensures WeekStatsOf(store.metrics, store.habits, today).avgSteps.Some?
      ==> WeekStatsOf(store.metrics, store.habits, today).avgSteps.value == Round(Review.MetricAverage(store, Steps, today - 6, today).value)
  {
    var days := Week(today);
    var range := DaysFrom(today - 6, today);
    assert forall i :: 0 <= i < 7 ==> days[i] == range[6 - i];
    SumReversed(range, days, MetricValue(store.metrics, Pushups));
    SumReversed(range, days, MetricValue(store.metrics, Squats));
    SumReversed(range, days, MetricValue(store.metrics, RunDistance));
    CountReversed(range, days, HabitDone(store.habits, Workout));
    CountReversed(range, days, HabitDone(store.habits, Run));
    SparseAverageReversed(range, days, MetricValue(store.metrics, Sleep));
    SparseAverageReversed(range, days, MetricValue(store.metrics, Steps));
  }

  /** With every non-zero step count within `[lo, hi]`, the rounded average is too. */
  lemma AvgStepsWithin(metrics: MetricLog, habits: HabitLog, today: Day, lo: int, hi: int)
    requires forall d :: (today - 6 <= d <= today && ValueOr0(RecordOn(metrics, d), Steps) != 0.0
      ==> lo as real <= ValueOr0(RecordOn(metrics, d), Steps) <= hi as real)
    ensures WeekStatsOf(metrics, habits, today).avgSteps.Some? ==> lo <= WeekStatsOf(metrics, habits, today).avgSteps.value <= hi
  {
    var days := Week(today);
    var f := MetricValue(metrics, Steps);
    SparseAverageWithin(days, f, lo as real, hi as real);
    if SparseAverage(days, f).Some? {
      RoundWithin(SparseAverage(days, f).value, lo, hi);
    }
  }

  /** `goals?.water || 1.5`. */
  const WaterSpec := Score.MetricSpec(Water, "Water", 1.5)

  /**
   * The water toggle: on stores the water goal (1.5 when unset or zero), off stores `null`.
   * The toggle shows `Boolean(todayMetrics.water)`, so after a toggle it shows what was
   * chosen. Only today's water field changes.
   */
  function ToggleWater(metrics: MetricLog, goals: Goals, today: Day, on: bool): (r: MetricLog)
    ensures Truthy(RecordOn(r, today), Water) <==> on
    ensures on && Water in goals && goals[Water] != 0.0 ==> ValueOr0(RecordOn(r, today), Water) == goals[Water]
    ensures on && (Water !in goals || goals[Water] == 0.0) ==> ValueOr0(RecordOn(r, today), Water) == 1.5
    ensures !on ==> Water in RecordOn(r, today) && RecordOn(r, today)[Water].None?
    ensures forall k :: k != Water ==> (k in RecordOn(r, today) <==> k in RecordOn(metrics, today))
    ensures forall k :: k != Water && k in RecordOn(r, today) ==> RecordOn(r, today)[k] == RecordOn(metrics, today)[k]
    ensures forall d :: d != today ==> RecordOn(r, d) == RecordOn(metrics, d)
  {
    SetField(metrics, today, Water, if on then Some(Score.GoalFor(goals, WaterSpec)) else None)
  }

  /**
   * Toggling today's water on adds today to the week's water days unless it was already
   * there; toggling it off removes today if it was there. The other six days are untouched.
   */
  lemma ToggleWaterCounts(metrics: MetricLog, goals: Goals, today: Day)
    ensures WaterDays(ToggleWater(metrics, goals, today, true), today)
      == WaterDays(metrics, today) + (if WaterOn(metrics)(today) then 0 else 1)
    ensures WaterDays(ToggleWater(metrics, goals, today, false), today)
      == WaterDays(metrics, today) - (if WaterOn(metrics)(today) then 1 else 0)
  {
    WaterDaysAreDays(metrics, today);
    WaterDaysAreDays(ToggleWater(metrics, goals, today, true), today);
    WaterDaysAreDays(ToggleWater(metrics, goals, today, false), today);
    ToggledDays(metrics, goals, today, true);
    ToggledDays(metrics, goals, today, false);
  }

  /** The week's water days after a toggle: today joins or leaves, the rest stay. */
  lemma ToggledDays(metrics: MetricLog, goals: Goals, today: Day, on: bool)
    ensures DaysWhere(today - 6, today, WaterOn(ToggleWater(metrics, goals, today, on)))
      == if on then DaysWhere(today - 6, today, WaterOn(metrics)) + {today}
         else DaysWhere(today - 6, today, WaterOn(metrics)) - {today}
  {
    var after := ToggleWater(metrics, goals, today, on);
    forall d | d != today
      ensures WaterOn(after)(d) == WaterOn(metrics)(d)
    {
      assert RecordOn(after, d) == RecordOn(metrics, d);
    }
    assert WaterOn(after)(today) == on;
  }
}

=== FILE: calendar.dfy ===
/**
 * Calendar helpers over day numbers. A date `YYYY-MM-DD` is the number of days since
 * 1970-01-01, so ISO-string order is integer order and "n days before" is subtraction.
 * The weekday is concrete (1970-01-01 was a Thursday); months are an abstract calendar
 * that only has to be monotone, with no month longer than 31 days.
 */
module Calendar {
  import Text

  /** A calendar day: days since 1970-01-01. */
  type Day = int

  const Sunday := 0
  const Monday := 1

  /** `Date.prototype.getDay()`: 0 is Sunday, 6 is Saturday. */
  function Weekday(d: Day): (w: int)
    ensures 0 <= w < 7
  {
    (d + 4) % 7
  }

  /** Consecutive days have consecutive weekdays, wrapping from Saturday to Sunday. */
  lemma WeekdayNext(d: Day)
    ensures Weekday(d + 1) == (Weekday(d) + 1) % 7
  {
  }

  /** `getDaysAgo(n)` relative to the day passed in as today. */
  function DaysAgo(today: Day, n: int): (d: Day)
    ensures n >= 0 ==> d <= today
  {
    today - n
  }

  /** Zero days ago is today, and counting back n days and then forward n days is the identity. */
  lemma DaysAgoFacts(today: Day, n: int)
    ensures DaysAgo(today, 0) == today
    ensures DaysAgo(today, n) + n == today
    ensures DaysAgo(DaysAgo(today, n), 1) == DaysAgo(today, n + 1)
  {
  }

  /** `getWeekStart`: the Monday of the week containing `d` (weeks run Monday to Sunday). */
  function WeekStart(d: Day): (w: Day)
    ensures Weekday(w) == Monday
    ensures d - 6 <= w <= d
  {
    d - (Weekday(d) + 6) % 7
  }

  /** The Monday at most six days back is unique: any such Monday is the week start. */
  lemma WeekStartUnique(d: Day, m: Day)
    requires Weekday(m) == Monday && d - 6 <= m <= d
    ensures m == WeekStart(d)
  {
    var w := WeekStart(d);
    assert (m + 4) % 7 == (w + 4) % 7;
  }

  lemma WeekStartIdempotent(d: Day)
    ensures WeekStart(WeekStart(d)) == WeekStart(d)
  {
    WeekStartUnique(WeekStart(d), WeekStart(d));
  }

  /** Two days share a week start exactly when they lie in the same Monday-to-Sunday week. */
  lemma SameWeek(d: Day, e: Day)
    ensures WeekStart(d) == WeekStart(e) <==> WeekStart(d) <= e <= WeekStart(d) + 6
  {
    if WeekStart(d) <= e <= WeekStart(d) + 6 {
      WeekStartUnique(e, WeekStart(d));
    }
  }

  /** The older `getWeekStart`: the Sunday of the week containing `d`. */
  function LegacyWeekStart(d: Day): (w: Day)
    ensures Weekday(w) == Sunday
    ensures d - 6 <= w <= d
  {
    d - Weekday(d)
  }

  /**
   * The Sunday key and the Monday key of a day never coincide: the Sunday key is the day
   * before the Monday key, except on a Sunday, which is its own Sunday key and the last
   * day of the Monday-based week.
   */
  lemma LegacyWeekStartDiffers(d: Day)
    ensures LegacyWeekStart(d) != WeekStart(d)
    ensures Weekday(d) == Sunday ==> LegacyWeekStart(d) == d && WeekStart(d) == d - 6
    ensures Weekday(d) != Sunday ==> LegacyWeekStart(d) == WeekStart(d) - 1
  {
  }

  /**
   * An abstract month calendar: `monthOf(d)` is `12 * year + (month - 1)` of day `d`.
   * Valid calendars never go backwards, and no month is longer than 31 days.
   */
  datatype MonthCalendar = MonthCalendar(monthOf: Day -> int)

  ghost predicate ValidCalendar(cal: MonthCalendar) {
    && (forall d: Day, e: Day :: d <= e ==> cal.monthOf(d) <= cal.monthOf(e))
    && (forall d: Day, e: Day :: d <= e && cal.monthOf(d) == cal.monthOf(e) ==> e - d < 31)
  }

  /** `d.getFullYear()` and `d.getMonth() + 1`. */
  function Year(cal: MonthCalendar, d: Day): int {
    cal.monthOf(d) / 12
  }

  function MonthNumber(cal: MonthCalendar, d: Day): (m: int)
    ensures 1 <= m <= 12
  {
    cal.monthOf(d) % 12 + 1
  }

  /** `d` is the first day of its month. */
  predicate IsFirstOfMonth(cal: MonthCalendar, d: Day) {
    cal.monthOf(d - 1) != cal.monthOf(d)
  }

  /** Walks back from `start` while the previous day is still in the month of `d`. */
  function FirstOfMonthFrom(cal: MonthCalendar, d: Day, start: Day, fuel: nat): (s: Day)
    requires ValidCalendar(cal)
    requires cal.monthOf(start) == cal.monthOf(d) && start <= d && d - start == 30 - fuel
    ensures s <= start && d - s <= 30
    ensures cal.monthOf(s) == cal.monthOf(d)
    ensures IsFirstOfMonth(cal, s)
    decreases fuel
  {
    if IsFirstOfMonth(cal, start) then start
    else if fuel == 0 then
      assert false;
      start
    else FirstOfMonthFrom(cal, d, start - 1, fuel - 1)
  }

  /** `getMonthStart`: day 1 of the month of `d`, as `YYYY-MM-01`. */
  function MonthStart(cal: MonthCalendar, d: Day): (s: Day)
    requires ValidCalendar(cal)
    ensures s <= d && d - s <= 30
    ensures Year(cal, s) == Year(cal, d) && MonthNumber(cal, s) == MonthNumber(cal, d)
    ensures IsFirstOfMonth(cal, s)
  {
    FirstOfMonthFrom(cal, d, d, 30)
  }

  /** There is only one first-of-month day in a month, so `MonthStart` is characterised by it. */
  lemma MonthStartUnique(cal: MonthCalendar, d: Day, s: Day)
    requires ValidCalendar(cal)
    requires cal.monthOf(s) == cal.monthOf(d) && IsFirstOfMonth(cal, s)
    ensures s == MonthStart(cal, d)
  {
    var t := MonthStart(cal, d);
    assert cal.monthOf(t) == cal.monthOf(d);
  }

  lemma MonthStartIdempotent(cal: MonthCalendar, d: Day)
    requires ValidCalendar(cal)
    ensures MonthStart(cal, MonthStart(cal, d)) == MonthStart(cal, d)
  {
    var s := MonthStart(cal, d);
    MonthStartUnique(cal, s, s);
  }

  /** Two days share a month start exactly when they are in the same month. */
  lemma SameMonth(cal: MonthCalendar, d: Day, e: Day)
    requires ValidCalendar(cal)
    ensures MonthStart(cal, d) == MonthStart(cal, e) <==> cal.monthOf(d) == cal.monthOf(e)
  {
    if cal.monthOf(d) == cal.monthOf(e) {
      MonthStartUnique(cal, e, MonthStart(cal, d));
    }
  }

  /** A full ISO timestamp `YYYY-MM-DDTHH:MM:SS.sssZ`: ten date characters, then `T`. */
  predicate IsIsoTimestamp(s: string) {
    |s| > 10 && s[10] == 'T' && 'T' !in s[..10]
  }

  /** `formatDate`: the part of the ISO string before the first `T`. */
  function FormatDate(iso: string): (r: string)
    ensures |r| <= |iso| && r == iso[..|r|]
    ensures 'T' !in r
  {
    if 'T' in iso then iso[..Text.IndexOf(iso, 'T')] else iso
  }

  /** On a full ISO timestamp, `formatDate` keeps exactly the ten characters `YYYY-MM-DD`. */
  lemma FormatDateOfTimestamp(iso: string)
    requires IsIsoTimestamp(iso)
    ensures FormatDate(iso) == iso[..10]
    ensures |FormatDate(iso)| == 10
  {
    var i := Text.IndexOf(iso, 'T');
    assert i == 10;
  }

  /** `formatDate` is the first field of `split('T')`. */
  lemma FormatDateIsFirstField(iso: string)
    ensures FormatDate(iso) == Text.Split(iso, 'T')[0]
  {
  }
}

=== FILE: collections.dfy ===
/**
 * Edit, delete and add by id over a list of records, the pattern every page with a list
 * uses (`prev.map(x => x.id === id ? { ...x, ...patch } : x)`,
 * `prev.filter(x => x.id !== id)`, `[...prev, { ...item, id }]`). The record type stays
 * generic; `idOf` reads a record's id.
 */
module Collections {
  import opened Folds

  type Id = string

  /** Merges `update` into every record whose id is `id`; the others are kept as they are. */
  function EditById<T>(xs: seq<T>, idOf: T -> Id, id: Id, update: T -> T): (ys: seq<T>)
    ensures |ys| == |xs|
    ensures forall i :: 0 <= i < |xs| && idOf(xs[i]) != id ==> ys[i] == xs[i]
    ensures forall i :: 0 <= i < |xs| && idOf(xs[i]) == id ==> ys[i] == update(xs[i])
  {
    if xs == [] then []
    else [if idOf(xs[0]) == id then update(xs[0]) else xs[0]] + EditById(xs[1..], idOf, id, update)
  }

  /** The records whose id is not `id`. */
  function OtherId<T>(idOf: T -> Id, id: Id): T -> bool {
    (x: T) => idOf(x) != id
  }

  /** Removes every record whose id is `id`, keeping the order of the rest. */
  function DeleteById<T>(xs: seq<T>, idOf: T -> Id, id: Id): (ys: seq<T>)
    ensures forall y :: y in ys ==> y in xs && idOf(y) != id
    ensures forall x :: x in xs && idOf(x) != id ==> x in ys
    ensures |ys| == |xs| - Count(xs, (x: T) => idOf(x) == id)
    ensures ys == Filter(xs, OtherId(idOf, id))
  {
    if xs == [] then []
    else if idOf(xs[0]) == id then DeleteById(xs[1..], idOf, id)
    else [xs[0]] + DeleteById(xs[1..], idOf, id)
  }

  /** Appends a new record; the id is supplied by the caller. */
  function Add<T>(xs: seq<T>, x: T): (ys: seq<T>)
    ensures |ys| == |xs| + 1 && ys[..|xs|] == xs && ys[|xs|] == x
  {
    xs + [x]
  }

  /** Ids are unique in the list. */
  predicate UniqueIds<T>(xs: seq<T>, idOf: T -> Id) {
    forall i, j :: 0 <= i < j < |xs| ==> idOf(xs[i]) != idOf(xs[j])
  }

  /** With unique ids, deleting an id that is present removes exactly one record. */
  lemma {:induction false} DeleteOneOfUnique<T>(xs: seq<T>, idOf: T -> Id, id: Id)
    requires UniqueIds(xs, idOf)
    requires exists i :: 0 <= i < |xs| && idOf(xs[i]) == id
    ensures |DeleteById(xs, idOf, id)| == |xs| - 1
  {
    var p := (x: T) => idOf(x) == id;
    var i :| 0 <= i < |xs| && idOf(xs[i]) == id;
    CountSingle(xs, p, i);
  }

  /** Editing with an id-preserving update does not change what deleting that id leaves. */
  lemma {:induction false} DeleteAfterEdit<T>(xs: seq<T>, idOf: T -> Id, id: Id, update: T -> T)
    requires forall x :: idOf(update(x)) == idOf(x)
    ensures DeleteById(EditById(xs, idOf, id, update), idOf, id) == DeleteById(xs, idOf, id)
  {
    if xs != [] {
      assert EditById(xs, idOf, id, update)[1..] == EditById(xs[1..], idOf, id, update);
      DeleteAfterEdit(xs[1..], idOf, id, update);
    }
  }

  /** An edit whose id is absent leaves the list unchanged. */
  lemma EditAbsent<T>(xs: seq<T>, idOf: T -> Id, id: Id, update: T -> T)
    requires forall i :: 0 <= i < |xs| ==> idOf(xs[i]) != id
    ensures EditById(xs, idOf, id, update) == xs
  {
  }

  /** Deleting the id of a record just added with a fresh id gives back the list before. */
  lemma {:induction false} DeleteAfterAdd<T>(xs: seq<T>, idOf: T -> Id, x: T)
    requires forall y :: y in xs ==> idOf(y) != idOf(x)
    ensures DeleteById(Add(xs, x), idOf, idOf(x)) == xs
  {
    if xs == [] {
      assert Add(xs, x)[1..] == [];
    } else {
      assert Add(xs, x)[1..] == Add(xs[1..], x);
      assert xs[0] in xs;
      DeleteAfterAdd(xs[1..], idOf, x);
    }
  }
}

=== FILE: folds.dfy ===
/** Sequence folds used by the aggregations: `filter`, `reduce((s, x) => s + f(x), 0)` and counting. */
module Folds {

  /** `xs.filter(p)`: the elements satisfying `p`, in their original order. */
  function Filter<T>(xs: seq<T>, p: T -> bool): (ys: seq<T>)
    ensures |ys| <= |xs|
    ensures forall y :: y in ys ==> y in xs && p(y)
    ensures forall x :: x in xs && p(x) ==> x in ys
  {
    if xs == [] then []
    else if p(xs[0]) then [xs[0]] + Filter(xs[1..], p)
    else Filter(xs[1..], p)
  }

  /** The number of elements satisfying `p` (a counter incremented inside a loop). */
  function Count<T>(xs: seq<T>, p: T -> bool): (n: nat)
    ensures n <= |xs|
    ensures n == 0 <==> forall i :: 0 <= i < |xs| ==> !p(xs[i])
    ensures n == |xs| <==> forall i :: 0 <= i < |xs| ==> p(xs[i])
  {
    if xs == [] then 0
    else (if p(xs[0]) then 1 else 0) + Count(xs[1..], p)
  }

  /** `xs.reduce((sum, x) => sum + f(x), 0)`. */
  function Sum<T>(xs: seq<T>, f: T -> real): real
  {
    if xs == [] then 0.0 else f(xs[0]) + Sum(xs[1..], f)
  }

  lemma SumThree<T>(a: T, b: T, c: T, f: T -> real)
    ensures Sum([a, b, c], f) == f(a) + f(b) + f(c)
  {
    assert [c][1..] == [];
    assert Sum([c], f) == f(c) + Sum([], f);
    assert [b, c][1..] == [c];
    assert Sum([b, c], f) == f(b) + Sum([c], f);
    assert [a, b, c][1..] == [b, c];
    assert Sum([a, b, c], f) == f(a) + Sum([b, c], f);
  }

  lemma {:induction false} CountIsFilterLength<T>(xs: seq<T>, p: T -> bool)
    ensures Count(xs, p) == |Filter(xs, p)|
  {
    if xs != [] {
      CountIsFilterLength(xs[1..], p);
    }
  }

  /** A weaker predicate counts at least as many elements. */
  lemma {:induction false} CountMonotone<T>(xs: seq<T>, p: T -> bool, q: T -> bool)
    requires forall x :: x in xs && p(x) ==> q(x)
    ensures Count(xs, p) <= Count(xs, q)
  {
    if xs != [] {
      CountMonotone(xs[1..], p, q);
    }
  }

  lemma {:induction false} SumNonNegative<T>(xs: seq<T>, f: T -> real)
    requires forall x :: x in xs ==> f(x) >= 0.0
    ensures Sum(xs, f) >= 0.0
  {
    if xs != [] {
      SumNonNegative(xs[1..], f);
    }
  }

  /** Every element contributes at most `bound`, so the sum is at most `|xs| * bound`. */
  lemma {:induction false} SumBounded<T>(xs: seq<T>, f: T -> real, bound: real)
    requires forall x :: x in xs ==> f(x) <= bound
    ensures Sum(xs, f) <= |xs| as real * bound
  {
    if xs != [] {
      SumBounded(xs[1..], f, bound);
    }
  }

  /** Every element contributes at least `bound`, so the sum is at least `|xs| * bound`. */
  lemma {:induction false} SumAtLeast<T>(xs: seq<T>, f: T -> real, bound: real)
    requires forall x :: x in xs ==> f(x) >= bound
    ensures Sum(xs, f) >= |xs| as real * bound
  {
    if xs != [] {
      SumAtLeast(xs[1..], f, bound);
    }
  }

  lemma {:induction false} SumAppend<T>(xs: seq<T>, ys: seq<T>, f: T -> real)
    ensures Sum(xs + ys, f) == Sum(xs, f) + Sum(ys, f)
  {
    if xs == [] {
      assert xs + ys == ys;
    } else {
      assert (xs + ys)[1..] == xs[1..] + ys;
      SumAppend(xs[1..], ys, f);
    }
  }

  /** Splitting a sum by a predicate: the two filtered sums add up to the whole. */
  lemma {:induction false} SumPartition<T>(xs: seq<T>, f: T -> real, p: T -> bool)
    ensures Sum(Filter(xs, p), f) + Sum(Filter(xs, x => !p(x)), f) == Sum(xs, f)
  {
    if xs != [] {
      SumPartition(xs[1..], f, p);
    }
  }

  /** Two disjoint filters that together select what `r` selects split the sum over `r`. */
  lemma {:induction false} SumDisjointFilters<T>(xs: seq<T>, f: T -> real, p: T -> bool, q: T -> bool, r: T -> bool)
    requires forall x :: x in xs ==> (r(x) <==> p(x) || q(x)) && !(p(x) && q(x))
    ensures Sum(Filter(xs, p), f) + Sum(Filter(xs, q), f) == Sum(Filter(xs, r), f)
  {
    if xs != [] {
      assert xs[0] in xs;
      SumDisjointFilters(xs[1..], f, p, q, r);
    }
  }

  /** A sum of a pointwise sum of two functions is the sum of the two sums. */
  lemma {:induction false} SumSplit<T>(xs: seq<T>, h: T -> real, f: T -> real, g: T -> real)
    requires forall x :: x in xs ==> h(x) == f(x) + g(x)
    ensures Sum(xs, h) == Sum(xs, f) + Sum(xs, g)
  {
    if xs != [] {
      assert xs[0] in xs;
      SumSplit(xs[1..], h, f, g);
    }
  }

  /** Summing `f` over the elements satisfying `p` equals summing `p ? f : 0` over all. */
  lemma {:induction false} SumFilter<T>(xs: seq<T>, f: T -> real, p: T -> bool)
    ensures Sum(Filter(xs, p), f) == Sum(xs, x => if p(x) then f(x) else 0.0)
  {
    if xs != [] {
      SumFilter(xs[1..], f, p);
    }
  }

  /** Sums of pointwise-equal functions agree. */
  lemma {:induction false} SumCongruent<T>(xs: seq<T>, f: T -> real, g: T -> real)
    requires forall x :: x in xs ==> f(x) == g(x)
    ensures Sum(xs, f) == Sum(xs, g)
  {
    if xs != [] {
      SumCongruent(xs[1..], f, g);
    }
  }

  /** The sum of two functions is the sum of the two sums. */
  lemma {:induction false} SumAdd<T>(xs: seq<T>, f: T -> real, g: T -> real)
    ensures Sum(xs, x => f(x) + g(x)) == Sum(xs, f) + Sum(xs, g)
  {
    if xs != [] {
      SumAdd(xs[1..], f, g);
    }
  }

  /** A predicate that holds at exactly one index counts one. */
  lemma {:induction false} CountSingle<T>(xs: seq<T>, p: T -> bool, i: nat)
    requires i < |xs| && p(xs[i])
    requires forall j :: 0 <= j < |xs| && j != i ==> !p(xs[j])
    ensures Count(xs, p) == 1
  {
    if i == 0 {
      assert forall j :: 0 <= j < |xs[1..]| ==> !p(xs[1..][j]) by {
        forall j | 0 <= j < |xs[1..]|
          ensures !p(xs[1..][j])
        {
          assert xs[1..][j] == xs[j + 1];
        }
      }
    } else {
      assert xs[1..][i - 1] == xs[i];
      CountSingle(xs[1..], p, i - 1);
    }
  }

  /** An element satisfying the predicate counts at least once. */
  lemma {:induction false} CountAtLeastOne<T>(xs: seq<T>, p: T -> bool, i: nat)
    requires i < |xs| && p(xs[i])
    ensures Count(xs, p) >= 1
  {
    if i > 0 {
      assert xs[1..][i - 1] == xs[i];
      CountAtLeastOne(xs[1..], p, i - 1);
    }
  }

  /** Filtering distributes over concatenation. */
  lemma {:induction false} FilterAppend<T>(xs: seq<T>, ys: seq<T>, p: T -> bool)
    ensures Filter(xs + ys, p) == Filter(xs, p) + Filter(ys, p)
  {
    if xs == [] {
      assert xs + ys == ys;
    } else {
      assert (xs + ys)[1..] == xs[1..] + ys;
      FilterAppend(xs[1..], ys, p);
    }
  }

  /**
   * The append law that pins `Filter` down: with `Filter([], p) == []` it fixes the
   * order and the multiplicity of what is kept, one element at a time from the front.
   */
  lemma FilterSnoc<T>(xs: seq<T>, x: T, p: T -> bool)
    ensures Filter([], p) == []
    ensures Filter(xs + [x], p) == Filter(xs, p) + (if p(x) then [x] else [])
  {
    FilterAppend(xs, [x], p);
    assert [x][1..] == [];
  }

  /** Sums over two lists that agree position by position are equal. */
  lemma {:induction false} SumPointwise<T, U>(xs: seq<T>, f: T -> real, ys: seq<U>, g: U -> real)
    requires |xs| == |ys|
    requires forall i :: 0 <= i < |xs| ==> f(xs[i]) == g(ys[i])
    ensures Sum(xs, f) == Sum(ys, g)
  {
    if xs != [] {
      assert f(xs[0]) == g(ys[0]);
      SumPointwise(xs[1..], f, ys[1..], g);
    }
  }

  /** Dropping elements that contribute nothing does not change a sum. */
  lemma {:induction false} SumDropZeros<T>(xs: seq<T>, f: T -> real, p: T -> bool)
    requires forall x :: x in xs && !p(x) ==> f(x) == 0.0
    ensures Sum(Filter(xs, p), f) == Sum(xs, f)
  {
    if xs != [] {
      assert xs[0] in xs;
      SumDropZeros(xs[1..], f, p);
    }
  }

  /** With non-negative terms, a weaker filter sums to at least as much. */
  lemma {:induction false} SumFilterMonotone<T>(xs: seq<T>, f: T -> real, p: T -> bool, q: T -> bool)
    requires forall x :: x in xs && p(x) ==> q(x)
    requires forall x :: x in xs ==> f(x) >= 0.0
    ensures Sum(Filter(xs, p), f) <= Sum(Filter(xs, q), f)
  {
    if xs != [] {
      assert xs[0] in xs;
      SumFilterMonotone(xs[1..], f, p, q);
    }
  }

  /**
   * When `p` implies `q`, the two counts agree exactly when every element satisfying `q`
   * also satisfies `p`.
   */
  lemma {:induction false} CountEqualIff<T>(xs: seq<T>, p: T -> bool, q: T -> bool)
    requires forall x :: x in xs && p(x) ==> q(x)
    ensures Count(xs, p) <= Count(xs, q)
    ensures Count(xs, p) == Count(xs, q) <==> forall i :: 0 <= i < |xs| && q(xs[i]) ==> p(xs[i])
  {
    if xs != [] {
      assert xs[0] in xs;
      CountEqualIff(xs[1..], p, q);
      if forall i :: 0 <= i < |xs| && q(xs[i]) ==> p(xs[i]) {
        assert forall i :: 0 <= i < |xs[1..]| && q(xs[1..][i]) ==> p(xs[1..][i]) by {
          forall i | 0 <= i < |xs[1..]| && q(xs[1..][i])
            ensures p(xs[1..][i])
          {
            assert xs[1..][i] == xs[i + 1];
          }
        }
      } else {
        var i :| 0 <= i < |xs| && q(xs[i]) && !p(xs[i]);
        if i > 0 {
          assert xs[1..][i - 1] == xs[i];
        }
      }
    }
  }

  /** A sum does not depend on the direction the list is walked. */
  lemma {:induction false} SumReversed<T>(xs: seq<T>, ys: seq<T>, f: T -> real)
    requires |ys| == |xs|
    requires forall i :: 0 <= i < |xs| ==> ys[i] == xs[|xs| - 1 - i]
    ensures Sum(ys, f) == Sum(xs, f)
  {
    if xs != [] {
      var n := |xs|;
      var init := ys[..n - 1];
      forall i | 0 <= i < n - 1
        ensures init[i] == xs[1..][n - 2 - i]
      {
        assert init[i] == ys[i] == xs[n - 1 - i];
      }
      SumReversed(xs[1..], init, f);
      assert ys == init + [xs[0]];
      SumAppend(init, [xs[0]], f);
      assert [xs[0]][1..] == [];
    }
  }

  /** A count does not depend on the direction the list is walked. */
  lemma {:induction false} CountReversed<T>(xs: seq<T>, ys: seq<T>, p: T -> bool)
    requires |ys| == |xs|
    requires forall i :: 0 <= i < |xs| ==> ys[i] == xs[|xs| - 1 - i]
    ensures Count(ys, p) == Count(xs, p)
  {
    if xs != [] {
      var n := |xs|;
      var init := ys[..n - 1];
      forall i | 0 <= i < n - 1
        ensures init[i] == xs[1..][n - 2 - i]
      {
        assert init[i] == ys[i] == xs[n - 1 - i];
      }
      CountReversed(xs[1..], init, p);
      assert ys == init + [xs[0]];
      CountAppend(init, [xs[0]], p);
      assert [xs[0]][1..] == [];
    }
  }

  lemma {:induction false} CountAppend<T>(xs: seq<T>, ys: seq<T>, p: T -> bool)
    ensures Count(xs + ys, p) == Count(xs, p) + Count(ys, p)
  {
    if xs == [] {
      assert xs + ys == ys;
    } else {
      assert (xs + ys)[1..] == xs[1..] + ys;
      CountAppend(xs[1..], ys, p);
    }
  }

  /** Filters with predicates that agree on the list select the same elements. */
  lemma {:induction false} FilterCongruent<T>(xs: seq<T>, p: T -> bool, q: T -> bool)
    requires forall x :: x in xs ==> p(x) == q(x)
    ensures Filter(xs, p) == Filter(xs, q)
  {
    if xs != [] {
      assert xs[0] in xs;
      FilterCongruent(xs[1..], p, q);
    }
  }

  /** Two disjoint filters that together select what `r` selects split its length. */
  lemma {:induction false} FilterLengthDisjoint<T>(xs: seq<T>, p: T -> bool, q: T -> bool, r: T -> bool)
    requires forall x :: x in xs ==> (r(x) <==> p(x) || q(x)) && !(p(x) && q(x))
    ensures |Filter(xs, p)| + |Filter(xs, q)| == |Filter(xs, r)|
  {
    if xs != [] {
      assert xs[0] in xs;
      FilterLengthDisjoint(xs[1..], p, q, r);
    }
  }

  /** Filtering twice is filtering once by both predicates. */
  lemma {:induction false} FilterFilter<T>(xs: seq<T>, p: T -> bool, q: T -> bool, r: T -> bool)
    requires forall x :: x in xs ==> (r(x) <==> p(x) && q(x))
    ensures Filter(Filter(xs, p), q) == Filter(xs, r)
  {
    if xs != [] {
      assert xs[0] in xs;
      FilterFilter(xs[1..], p, q, r);
    }
  }

  /** A predicate no element satisfies selects nothing. */
  lemma {:induction false} FilterNone<T>(xs: seq<T>, p: T -> bool)
    requires forall x :: x in xs ==> !p(x)
    ensures Filter(xs, p) == []
  {
    if xs != [] {
      assert xs[0] in xs;
      assert forall x :: x in xs[1..] ==> x in xs;
      FilterNone(xs[1..], p);
    }
  }

  /** A predicate every element satisfies selects everything. */
  lemma {:induction false} FilterAll<T>(xs: seq<T>, p: T -> bool)
    requires forall x :: x in xs ==> p(x)
    ensures Filter(xs, p) == xs
  {
    if xs != [] {
      assert xs[0] in xs;
      assert forall x :: x in xs[1..] ==> x in xs;
      FilterAll(xs[1..], p);
    }
  }

  /** The distinct elements of the list that satisfy `p`. */
  function Matching<T>(xs: seq<T>, p: T -> bool): set<T>
  {
    set x | x in xs && p(x)
  }

  /** Over a list without repeats, the count is the number of distinct elements satisfying `p`. */
  lemma {:induction false} CountIsCardinality<T>(xs: seq<T>, p: T -> bool)
    requires forall i, j :: 0 <= i < j < |xs| ==> xs[i] != xs[j]
    ensures Count(xs, p) == |Matching(xs, p)|
  {
    if xs != [] {
      var tail := xs[1..];
      CountIsCardinality(tail, p);
      assert xs[0] !in tail by {
        forall k | 0 <= k < |tail|
          ensures tail[k] != xs[0]
        {
          assert tail[k] == xs[k + 1];
        }
      }
      assert forall x :: x in xs <==> x == xs[0] || x in tail by {
        assert xs == [xs[0]] + tail;
      }
      if p(xs[0]) {
        assert Matching(xs, p) == Matching(tail, p) + {xs[0]};
      } else {
        assert Matching(xs, p) == Matching(tail, p);
      }
    }
  }
}

=== FILE: goal_lists.dfy ===
/**
 * The weekly and monthly goal lists of src/pages/CorePage.jsx: how a period's entry is
 * classified, the single-item and mark-all toggles, skipping a period and saving a
 * one-goal-per-line draft; plus the page's weekly gaming budget and its seven-day habit
 * counts.
 */
module GoalLists {
  import opened Wrappers
  import opened Calendar
  import opened Numeric
  import opened Folds
  import opened Text
  import opened Records
  import Review

  /** One goal; `doneAt` is the day it was checked off, `None` while open. */
  datatype GoalItem = GoalItem(id: Id, text: string, doneAt: Option<Day>)

  /**
   * A period's entry. `items` is `None` for entries written before goals were lists (they
   * only have `text`); a missing text reads as the empty string.
   */
  datatype GoalEntry = GoalEntry(
    items: Option<seq<GoalItem>>,
    text: string,
    completedAt: Option<Day>,
    dismissedAt: Option<Day>,
    savedAt: Option<Day>)

  /** Entries by period start (a Monday or a first of the month); an entry may be `null`. */
  type GoalLog = map<Day, Option<GoalEntry>>

  /** `{}`: the entry a write starts from when the period has none. */
  const EmptyEntry := GoalEntry(None, "", None, None, None)

  /** `entry.items || []`. */
  function ItemsOf(e: GoalEntry): seq<GoalItem> {
    if e.items.Some? then e.items.value else []
  }

  /** `log[period]`, with a missing or `null` entry as `None`. */
  function EntryAt(log: GoalLog, period: Day): Option<GoalEntry> {
    if period in log then log[period] else None
  }

  /** `prev?.[period] || {}`. */
  function BaseEntry(log: GoalLog, period: Day): GoalEntry {
    EntryAt(log, period).GetOr(EmptyEntry)
  }

  predicate IsDone(item: GoalItem) {
    item.doneAt.Some?
  }

  /** `items.every(item => item.doneAt)`; true of the empty list. */
  predicate AllDone(items: seq<GoalItem>) {
    forall i :: 0 <= i < |items| ==> IsDone(items[i])
  }

  // ---------------------------------------------------------------------------
  // Status

  datatype Status = NotSet | Completed | Skipped | Active

  /** `goalStatus(entry)`. */
  function StatusOf(entry: Option<GoalEntry>): (st: Status)
    ensures st == Completed <==> entry.Some? && |ItemsOf(entry.value)| > 0 && AllDone(ItemsOf(entry.value))
    ensures st == Skipped <==> entry.Some? && ItemsOf(entry.value) == [] && entry.value.dismissedAt.Some?
    ensures st == Active <==> entry.Some? && |ItemsOf(entry.value)| > 0 && !AllDone(ItemsOf(entry.value))
    ensures st == NotSet <==> entry.None? || (ItemsOf(entry.value) == [] && entry.value.dismissedAt.None?)
  {
    if entry.None? then NotSet
    else
      var items := ItemsOf(entry.value);
      var hasItems := |items| > 0;
      if hasItems && AllDone(items) then Completed
      else if entry.value.dismissedAt.Some? && !hasItems then Skipped
      else if hasItems then Active
      else NotSet
  }

  // ---------------------------------------------------------------------------
  // Toggling one item

  /** `doneAt: it.doneAt ? null : today`. */
  function Flip(item: GoalItem, today: Day): (r: GoalItem)
    ensures r.id == item.id && r.text == item.text
    ensures IsDone(r) <==> !IsDone(item)
    ensures IsDone(r) ==> r.doneAt == Some(today)
  {
    item.(doneAt := if item.doneAt.Some? then None else Some(today))
  }

  function FlipWhere(items: seq<GoalItem>, id: Id, today: Day): (r: seq<GoalItem>)
    ensures |r| == |items|
    ensures forall i :: 0 <= i < |items| && items[i].id == id ==> r[i] == Flip(items[i], today)
    ensures forall i :: 0 <= i < |items| && items[i].id != id ==> r[i] == items[i]
  {
    if items == [] then []
    else [if items[0].id == id then Flip(items[0], today) else items[0]] + FlipWhere(items[1..], id, today)
  }

  /**
   * Checking or unchecking the item `id` of the entry for `period`: only that item's
   * `doneAt` flips, `completedAt` becomes today exactly when every item is then done, and
   * the period is no longer dismissed. Other periods are untouched.
   */
  function ToggleItem(log: GoalLog, period: Day, id: Id, today: Day): (r: GoalLog)
    ensures r.Keys == log.Keys + {period}
    ensures forall p :: p in log && p != period ==> r[p] == log[p]
    ensures r[period].Some?
    ensures var before := ItemsOf(BaseEntry(log, period));
      var after := ItemsOf(r[period].value);
      && |after| == |before|
      && (forall i :: 0 <= i < |before| ==> after[i].id == before[i].id && after[i].text == before[i].text)
      && (forall i :: 0 <= i < |before| ==> (IsDone(after[i]) <==> (IsDone(before[i]) != (before[i].id == id))))
      && (forall i :: 0 <= i < |before| && before[i].id != id ==> after[i] == before[i])
    ensures r[period].value.completedAt == (if AllDone(ItemsOf(r[period].value)) then Some(today) else None)
    ensures r[period].value.dismissedAt.None?
    ensures r[period].value.text == BaseEntry(log, period).text
    ensures r[period].value.savedAt == BaseEntry(log, period).savedAt
  {
    var base := BaseEntry(log, period);
    var next := FlipWhere(ItemsOf(base), id, today);
    log[period := Some(base.(items := Some(next), completedAt := if AllDone(next) then Some(today) else None,
                             dismissedAt := None))]
  }

  /** Which items are checked off. */
  function DoneFlags(items: seq<GoalItem>): (r: seq<bool>)
    ensures |r| == |items|
    ensures forall i :: 0 <= i < |items| ==> r[i] == IsDone(items[i])
  {
    if items == [] then [] else [IsDone(items[0])] + DoneFlags(items[1..])
  }

  /** Toggling the same item twice restores which items are done, and the texts. */
  lemma ToggleTwice(log: GoalLog, period: Day, id: Id, today: Day)
    ensures var twice := ToggleItem(ToggleItem(log, period, id, today), period, id, today);
      && DoneFlags(ItemsOf(twice[period].value)) == DoneFlags(ItemsOf(BaseEntry(log, period)))
      && |ItemsOf(twice[period].value)| == |ItemsOf(BaseEntry(log, period))|
      && forall i :: 0 <= i < |ItemsOf(BaseEntry(log, period))| ==>
           ItemsOf(twice[period].value)[i].text == ItemsOf(BaseEntry(log, period))[i].text
  {
  }

  /** An item checked off today comes back exactly after two toggles. */
  lemma ToggleTwiceToday(log: GoalLog, period: Day, id: Id, today: Day)
    requires forall i :: 0 <= i < |ItemsOf(BaseEntry(log, period))| && ItemsOf(BaseEntry(log, period))[i].id == id ==>
               (ItemsOf(BaseEntry(log, period))[i].doneAt.None? || ItemsOf(BaseEntry(log, period))[i].doneAt == Some(today))
    ensures ItemsOf(ToggleItem(ToggleItem(log, period, id, today), period, id, today)[period].value)
         == ItemsOf(BaseEntry(log, period))
  {
  }

  /** Checking off the last open item completes the period; unchecking any item reopens it. */
  lemma ToggleStatus(log: GoalLog, period: Day, id: Id, today: Day)
    requires |ItemsOf(BaseEntry(log, period))| > 0
    ensures var after := ToggleItem(log, period, id, today)[period];
      StatusOf(after) == Completed || StatusOf(after) == Active
    ensures var after := ToggleItem(log, period, id, today)[period];
      StatusOf(after) == Completed <==> after.value.completedAt == Some(today)
  {
  }

  // ---------------------------------------------------------------------------
  // Mark all

  /**
   * "Mark all done" / "Mark not done": when every item is done all are reopened and
   * `completedAt` cleared; otherwise all are marked done today and so is the period.
   */
  function MarkAll(log: GoalLog, period: Day, today: Day): (r: GoalLog)
    ensures r.Keys == log.Keys + {period}
    ensures forall p :: p in log && p != period ==> r[p] == log[p]
    ensures r[period].Some?
    ensures var before := ItemsOf(BaseEntry(log, period));
      var after := ItemsOf(r[period].value);
      var when := if AllDone(before) then None else Some(today);
      && |after| == |before|
      && (forall i :: 0 <= i < |before| ==> after[i] == before[i].(doneAt := when))
      && r[period].value.completedAt == when
    ensures r[period].value.dismissedAt.None?
  {
    var base := BaseEntry(log, period);
    var items := ItemsOf(base);
    var when := if AllDone(items) then None else Some(today);
    log[period := Some(base.(items := Some(SetAll(items, when)), completedAt := when, dismissedAt := None))]
  }

  function SetAll(items: seq<GoalItem>, when: Option<Day>): (r: seq<GoalItem>)
    ensures |r| == |items|
    ensures forall i :: 0 <= i < |items| ==> r[i] == items[i].(doneAt := when)
  {
    if items == [] then [] else [items[0].(doneAt := when)] + SetAll(items[1..], when)
  }

  /** On a non-empty list, mark-all switches a completed period to active and any other to completed. */
  lemma MarkAllFlipsStatus(log: GoalLog, period: Day, today: Day)
    requires |ItemsOf(BaseEntry(log, period))| > 0
    ensures var before := StatusOf(Some(BaseEntry(log, period)));
      var after := StatusOf(MarkAll(log, period, today)[period]);
      (before == Completed ==> after == Active) && (before != Completed ==> after == Completed)
  {
    var items := ItemsOf(BaseEntry(log, period));
    var after := ItemsOf(MarkAll(log, period, today)[period].value);
    if AllDone(items) {
      assert !IsDone(after[0]);
    }
  }

  /** Marking all twice on a non-empty list leaves every item open. */
  lemma MarkAllTwiceReopens(log: GoalLog, period: Day, today: Day)
    requires |ItemsOf(BaseEntry(log, period))| > 0
    requires !AllDone(ItemsOf(BaseEntry(log, period)))
    ensures var twice := MarkAll(MarkAll(log, period, today), period, today)[period].value;
      (forall i :: 0 <= i < |ItemsOf(twice)| ==> !IsDone(ItemsOf(twice)[i])) && twice.completedAt.None?
  {
  }

  // ---------------------------------------------------------------------------
  // Skip and save

  /** "Skip this week": the period's entry becomes `{ items: [], dismissedAt: today }`. */
  function Skip(log: GoalLog, period: Day, today: Day): (r: GoalLog)
    ensures r.Keys == log.Keys + {period}
    ensures forall p :: p in log && p != period ==> r[p] == log[p]
    ensures r[period] == Some(GoalEntry(Some([]), "", None, Some(today), None))
  {
    log[period := Some(GoalEntry(Some([]), "", None, Some(today), None))]
  }

  lemma SkipIsSkipped(log: GoalLog, period: Day, today: Day)
    ensures StatusOf(Skip(log, period, today)[period]) == Skipped
  {
  }

  /**
   * One item per text, each with the given `doneAt`; `idFor(k)` is the fresh id of the
   * k-th (ids are generated and opaque).
   */
  function NewItems(texts: seq<string>, idFor: nat -> Id, from: nat, doneAt: Option<Day>): (r: seq<GoalItem>)
    ensures |r| == |texts|
    ensures forall k :: 0 <= k < |texts| ==> r[k] == GoalItem(idFor(from + k), texts[k], doneAt)
    decreases |texts|
  {
    if texts == [] then [] else [GoalItem(idFor(from), texts[0], doneAt)] + NewItems(texts[1..], idFor, from + 1, doneAt)
  }

  lemma TextsOfNewItems(texts: seq<string>, idFor: nat -> Id, from: nat, doneAt: Option<Day>)
    ensures Texts(NewItems(texts, idFor, from, doneAt)) == texts
  {
  }

  /** The texts of a list of items. */
  function Texts(items: seq<GoalItem>): (r: seq<string>)
    ensures |r| == |items|
    ensures forall k :: 0 <= k < |items| ==> r[k] == items[k].text
  {
    if items == [] then [] else [items[0].text] + Texts(items[1..])
  }

  /**
   * "Save Goals" for one period: a draft that is not blank replaces the period's items with
   * one open item per non-blank trimmed line, stamps `savedAt` and clears `dismissedAt`; a
   * blank draft leaves the log as it was.
   */
  function SaveDraft(log: GoalLog, period: Day, draft: string, today: Day, idFor: nat -> Id): (r: GoalLog)
    ensures IsBlank(draft) ==> r == log
    ensures !IsBlank(draft) ==>
      && r.Keys == log.Keys + {period}
      && (forall p :: p in log && p != period ==> r[p] == log[p])
      && r[period].Some?
      && Texts(ItemsOf(r[period].value)) == NonBlankLines(draft)
      && (forall i :: 0 <= i < |ItemsOf(r[period].value)| ==> !IsDone(ItemsOf(r[period].value)[i]))
      && r[period].value.savedAt == Some(today)
      && r[period].value.dismissedAt.None?
      && r[period].value.completedAt == BaseEntry(log, period).completedAt
  {
    if Trim(draft) == "" then log
    else log[period := Some(SavedEntry(BaseEntry(log, period), draft, today, idFor))]
  }

  /** The entry a saved draft leaves: fresh open items, stamped as saved, no longer dismissed. */
  function SavedEntry(base: GoalEntry, draft: string, today: Day, idFor: nat -> Id): (e: GoalEntry)
    ensures e.items.Some? && Texts(e.items.value) == NonBlankLines(draft)
    ensures forall i :: 0 <= i < |e.items.value| ==> !IsDone(e.items.value[i])
    ensures e.savedAt == Some(today) && e.dismissedAt.None? && e.completedAt == base.completedAt
  {
    var items := NewItems(NonBlankLines(draft), idFor, 0, None);
    TextsOfNewItems(NonBlankLines(draft), idFor, 0, None);
    base.(items := Some(items), savedAt := Some(today), dismissedAt := None)
  }

  /** A saved non-blank draft always yields an active period: at least one open item. */
  lemma SavedDraftIsActive(log: GoalLog, period: Day, draft: string, today: Day, idFor: nat -> Id)
    requires !IsBlank(draft)
    ensures StatusOf(SaveDraft(log, period, draft, today, idFor)[period]) == Active
  {
    NonBlankLinesEmptyIffBlank(draft);
    var items := ItemsOf(SaveDraft(log, period, draft, today, idFor)[period].value);
    assert !IsDone(items[0]);
  }

  /**
   * The prompt fills the draft with the item texts joined by newlines; saving that draft
   * back gives items with the same texts, provided the texts are trimmed, non-empty and
   * free of newlines (as parsed items always are).
   */
  lemma DraftRoundTrip(texts: seq<string>, log: GoalLog, period: Day, today: Day, idFor: nat -> Id)
    requires |texts| > 0
    requires forall k :: 0 <= k < |texts| ==> texts[k] != [] && IsTrimmed(texts[k]) && '\n' !in texts[k]
    ensures var r := SaveDraft(log, period, Join(texts, "\n"), today, idFor);
      period in r && r[period].Some? && Texts(ItemsOf(r[period].value)) == texts
  {
    NonBlankLinesOfJoin(texts);
    NonBlankLinesEmptyIffBlank(Join(texts, "\n"));
  }

  // ---------------------------------------------------------------------------
  // Gaming budget

  datatype GameSession = GameSession(id: Id, date: Day, minutes: real)

  function MinutesOf(s: GameSession): real { s.minutes }

  predicate InWeek(weekStart: Day, d: Day) {
    weekStart <= d <= weekStart + 6
  }

  /** The sessions dated within the week starting `weekStart`, in list order. */
  function WeekSessions(sessions: seq<GameSession>, weekStart: Day): (r: seq<GameSession>)
    ensures forall s :: s in r <==> s in sessions && InWeek(weekStart, s.date)
  {
    Filter(sessions, (s: GameSession) => InWeek(weekStart, s.date))
  }

  /** `weeklyGameMinutes`: minutes of the sessions dated in `[weekStart, weekStart + 6]`. */
  function WeeklyGameMinutes(sessions: seq<GameSession>, weekStart: Day): real {
    Sum(WeekSessions(sessions, weekStart), MinutesOf)
  }

  /** The weekly total counts a new session's minutes exactly when it falls in the week. */
  lemma {:induction false} WeeklyMinutesAppend(sessions: seq<GameSession>, s: GameSession, weekStart: Day)
    ensures WeeklyGameMinutes(sessions + [s], weekStart)
         == WeeklyGameMinutes(sessions, weekStart) + (if InWeek(weekStart, s.date) then s.minutes else 0.0)
  {
    var p := (x: GameSession) => InWeek(weekStart, x.date);
    if sessions == [] {
      assert sessions + [s] == [s];
      assert [s][1..] == [];
    } else {
      assert (sessions + [s])[1..] == sessions[1..] + [s];
      WeeklyMinutesAppend(sessions[1..], s, weekStart);
    }
  }

  /** With non-negative session lengths the weekly total is non-negative. */
  lemma WeeklyMinutesNonNegative(sessions: seq<GameSession>, weekStart: Day)
    requires forall s :: s in sessions ==> s.minutes >= 0.0
    ensures WeeklyGameMinutes(sessions, weekStart) >= 0.0
  {
    SumNonNegative(WeekSessions(sessions, weekStart), MinutesOf);
  }

  /** `gameProgressPct`: the share of the weekly limit played, capped at 100; 0 with no limit. */
  function GamePercent(minutes: real, limit: real): (pct: int)
    ensures limit <= 0.0 ==> pct == 0
    ensures pct <= 100
    ensures minutes >= 0.0 ==> pct >= 0
    ensures limit > 0.0 && minutes >= limit ==> pct == 100
  {
    if limit > 0.0 then
      ShareFacts(minutes, limit);
      MinInt(100, Round(minutes / limit * 100.0))
    else 0
  }

  lemma ShareFacts(minutes: real, limit: real)
    requires limit > 0.0
    ensures minutes >= 0.0 ==> Round(minutes / limit * 100.0) >= 0
    ensures minutes >= limit ==> Round(minutes / limit * 100.0) >= 100
  {
    RoundOfInteger(0);
    RoundOfInteger(100);
    if minutes >= 0.0 {
      assert minutes / limit >= 0.0;
      RoundMonotone(0.0, minutes / limit * 100.0);
    }
    if minutes >= limit {
      assert minutes / limit >= 1.0 by {
        SelfDivision(limit);
        assert minutes / limit == (minutes - limit) / limit + limit / limit;
        assert (minutes - limit) / limit >= 0.0;
      }
      RoundMonotone(100.0, minutes / limit * 100.0);
    }
  }

  /** The limit input: hours, negative values clamped to 0, stored as minutes. */
  function LimitFromHours(hours: real): (minutes: real)
    ensures minutes >= 0.0
    ensures hours >= 0.0 ==> minutes == hours * 60.0
  {
    MaxReal(0.0, hours) * 60.0
  }

  /** The input shows `round(limit / 60)`, so a whole number of hours typed in is shown back. */
  lemma LimitDisplayRoundTrip(hours: nat)
    ensures Round(LimitFromHours(hours as real) / 60.0) == hours
  {
    RoundOfInteger(hours);
  }

  /**
   * Adding a gaming session: `hours * 60 + minutes` (empty inputs read as 0); nothing is
   * added when that total is 0.
   */
  function AddGameSession(sessions: seq<GameSession>, id: Id, date: Day, hours: real, minutes: real): (r: seq<GameSession>)
    ensures hours * 60.0 + minutes == 0.0 ==> r == sessions
    ensures hours * 60.0 + minutes != 0.0 ==> r == sessions + [GameSession(id, date, hours * 60.0 + minutes)]
  {
    var total := hours * 60.0 + minutes;
    if total == 0.0 then sessions else sessions + [GameSession(id, date, total)]
  }

  /** A session added for a day of the week raises that week's total by its length. */
  lemma AddedSessionCounts(sessions: seq<GameSession>, id: Id, date: Day, hours: real, minutes: real, weekStart: Day)
    requires InWeek(weekStart, date)
    ensures WeeklyGameMinutes(AddGameSession(sessions, id, date, hours, minutes), weekStart)
         == WeeklyGameMinutes(sessions, weekStart) + hours * 60.0 + minutes
  {
    if hours * 60.0 + minutes != 0.0 {
      WeeklyMinutesAppend(sessions, GameSession(id, date, hours * 60.0 + minutes), weekStart);
    }
  }

  // ---------------------------------------------------------------------------
  // Seven-day habit counts

  /** How many of the last seven days (today included) have `key` done. */
  function WeekCount(habits: HabitLog, key: Habit, today: Day): (n: nat)
    ensures n <= 7
    ensures n == 7 <==> forall i :: 0 <= i < 7 ==> Done(RecordOn(habits, DaysAgo(today, i)), key)
    ensures n == 0 <==> forall i :: 0 <= i < 7 ==> !Done(RecordOn(habits, DaysAgo(today, i)), key)
  {
    var days := LastDays(today, 7);
    assert forall i :: 0 <= i < 7 ==> days[6 - i] == DaysAgo(today, i);
    Count(days, HabitDone(habits, key))
  }

  /**
   * A seven-day count is the review's habit-day count over the range from six days ago to
   * today, and so the number of those days with the habit done.
   */
  lemma WeekCountMatchesReview(store: Store, key: Habit, today: Day)
    ensures WeekCount(store.habits, key, today) == Review.HabitDays(store, key, today - 6, today)
    ensures WeekCount(store.habits, key, today) == |DaysWhere(today - 6, today, HabitDone(store.habits, key))|
  {
    assert LastDays(today, 7) == DaysFrom(today - 6, today);
    RangeCountIsDays(today - 6, today, HabitDone(store.habits, key));
  }

  /** `weekStats`: the nofap, healthy-eating and focus-habit counts; focus is 0 without a focus habit. */
  datatype WeekCounts = WeekCounts(nofap: nat, healthyEating: nat, focus: nat)

  function WeekStats(habits: HabitLog, focus: Option<Habit>, today: Day): (c: WeekCounts)
    ensures c.nofap <= 7 && c.healthyEating <= 7 && c.focus <= 7
    ensures focus.None? ==> c.focus == 0
    ensures focus == Some(NoFap) ==> c.focus == c.nofap
  {
    WeekCounts(WeekCount(habits, NoFap, today), WeekCount(habits, HealthyEating, today),
               if focus.Some? then WeekCount(habits, focus.value, today) else 0)
  }
}

=== FILE: journal.dfy ===
/**
 * The journal page (src/pages/JournalPage.jsx): loading and saving the free text of the
 * selected date, the word count under the editor, and the list of past entries.
 */
module Journals {
  import opened Wrappers
  import opened Numeric
  import opened Text
  import opened Calendar
  import opened Records
  import opened Orders

  /** `journals[date]?.text || ''`: what the editor loads for a date. */
  function TextOf(journals: JournalLog, d: Day): string {
    JournalOn(journals, d).text
  }

  /**
   * `saveJournal`: `{ ...prev[date], text }`. The date's entry takes the new text and keeps
   * its other fields (a missing or `null` entry spreads to nothing); other dates stay.
   */
  function SaveText(journals: JournalLog, d: Day, text: string): (r: JournalLog)
    ensures TextOf(r, d) == text
    ensures d in r && r[d].Some?
    ensures JournalOn(r, d).til == JournalOn(journals, d).til
    ensures JournalOn(r, d).important == JournalOn(journals, d).important
    ensures JournalOn(r, d).avoided == JournalOn(journals, d).avoided
    ensures forall e :: e != d ==> (e in r <==> e in journals)
    ensures forall e :: e != d && e in r ==> r[e] == journals[e]
  {
    var current := JournalOn(journals, d);
    journals[d := Some(current.(text := text))]
  }

  /**
   * Saving the text the editor loaded changes no entry's content, and a second save
   * overrides the first: the debounced autosave may fire any number of times.
   */
  lemma SaveLoadedAndTwice(journals: JournalLog, d: Day, a: string, b: string)
    ensures forall e :: JournalOn(SaveText(journals, d, TextOf(journals, d)), e) == JournalOn(journals, e)
    ensures SaveText(SaveText(journals, d, a), d, b) == SaveText(journals, d, b)
  {
    var r := SaveText(journals, d, TextOf(journals, d));
    forall e
      ensures JournalOn(r, e) == JournalOn(journals, e)
    {
      if e == d {
        assert JournalOn(r, d) == JournalOn(journals, d).(text := TextOf(journals, d));
      }
    }
  }

  /** `text.split(/\s+/).filter(Boolean).length` of the loaded text. */
  function WordsOn(journals: JournalLog, d: Day): (n: nat)
    ensures n == 0 <==> IsBlank(TextOf(journals, d))
  {
    WordCount(TextOf(journals, d))
  }

  /** `journalDates`: the dates whose entry has text, latest first. */
  function JournalDates(journals: JournalLog): (dates: seq<int>)
    ensures forall d :: d in dates <==> d in journals && TextOf(journals, d) != ""
    ensures StrictlyDescending(dates)
  {
    SortedDesc(set d | d in journals && TextOf(journals, d) != "")
  }

  /** The listed past entries: `journalDates.slice(0, 10)`. */
  function PastEntries(journals: JournalLog): (shown: seq<int>)
    ensures |shown| <= 10
    ensures StrictlyDescending(shown)
    ensures forall d :: d in shown ==> d in journals && TextOf(journals, d) != ""
    ensures forall d :: (d in journals && TextOf(journals, d) != "" && d !in shown
      ==> |shown| == 10 && forall e :: e in shown ==> e > d)
  {
    var dates := JournalDates(journals);
    var n := MinInt(10, |dates|);
    DescendingPrefix(dates, n);
    dates[..n]
  }

  /** Writing text on a date lists it among the dates, and emptying it removes it. */
  lemma SaveListsDate(journals: JournalLog, d: Day, text: string)
    ensures d in JournalDates(SaveText(journals, d, text)) <==> text != ""
    ensures forall e :: e != d ==> (e in JournalDates(SaveText(journals, d, text)) <==> e in JournalDates(journals))
  {
    var r := SaveText(journals, d, text);
    forall e | e != d
      ensures TextOf(r, e) == TextOf(journals, e)
    {
    }
  }
}

=== FILE: learning.dfy ===
/**
 * The learning-notes review queue (src/pages/LearningPage.jsx): which notes are due,
 * what a review writes into the spaced-repetition state, and the note list's
 * edit/add/delete by id.
 */
module Learning {
  import opened Wrappers
  import opened Folds
  import opened Calendar
  import opened Srs
  import Collections

  type Id = string

  datatype Note = Note(id: Id, title: string, body: string, tags: string, source: string)

  /** The fields the note form edits; the id is not among them. */
  datatype NoteFields = NoteFields(title: string, body: string, tags: string, source: string)

  /** A note's stored schedule. */
  datatype SrsEntry = SrsEntry(interval: int, ease: real, nextReviewAt: Day, lastReviewedAt: Day)

  type SrsState = map<Id, SrsEntry>

  /** The schedule a never-reviewed note starts from. */
  const InitialSchedule := Schedule(1, 2.5)

  /** A note is due when it has no state yet or its next review date is today or earlier. */
  predicate IsDue(state: SrsState, today: Day, id: Id) {
    id !in state || state[id].nextReviewAt <= today
  }

  /** `note => !state || state.nextReviewAt <= today`. */
  function DueIn(state: SrsState, today: Day): Note -> bool {
    (n: Note) => IsDue(state, today, n.id)
  }

  /**
   * `learningNotes.filter(note => ...)`: the due notes in list order, so the review
   * session's `due[0]` is the first due note of the list.
   */
  function DueNotes(notes: seq<Note>, state: SrsState, today: Day): (due: seq<Note>)
    ensures |due| <= |notes|
    ensures forall n :: n in due <==> n in notes && IsDue(state, today, n.id)
    ensures due == Filter(notes, DueIn(state, today))
    ensures due != [] ==>
      exists i :: (0 <= i < |notes| && notes[i] == due[0] && IsDue(state, today, notes[i].id)
                   && forall j :: 0 <= j < i ==> !IsDue(state, today, notes[j].id))
  {
    if notes == [] then []
    else if IsDue(state, today, notes[0].id) then [notes[0]] + DueNotes(notes[1..], state, today)
    else DueNotes(notes[1..], state, today)
  }

  /** The schedule a review starts from: the stored one, or interval 1 and ease 2.5. */
  function CurrentSchedule(state: SrsState, id: Id): (s: Schedule)
    ensures id !in state ==> s == InitialSchedule
    ensures id in state ==> s == Schedule(state[id].interval, state[id].ease)
  {
    if id in state then Schedule(state[id].interval, state[id].ease) else InitialSchedule
  }

  /** `handleReview(noteId, response)` on day `today`. */
  function Review(state: SrsState, id: Id, response: Response, today: Day): (next: SrsState)
    ensures id in next
    ensures next.Keys == state.Keys + {id}
    ensures forall k :: k in state && k != id ==> next[k] == state[k]
    ensures var s := NextReview(CurrentSchedule(state, id).interval, CurrentSchedule(state, id).ease, response);
      next[id] == SrsEntry(s.interval, s.ease, today + s.interval, today)
  {
    var cur := CurrentSchedule(state, id);
    var s := NextReview(cur.interval, cur.ease, response);
    state[id := SrsEntry(s.interval, s.ease, today + s.interval, today)]
  }

  /** A note without state is due. */
  lemma NewNoteIsDue(state: SrsState, today: Day, id: Id)
    requires id !in state
    ensures IsDue(state, today, id)
  {
  }

  /** The interval is at least one day, so a note just reviewed is no longer due today. */
  lemma ReviewedNotDue(state: SrsState, id: Id, response: Response, today: Day)
    ensures !IsDue(Review(state, id, response, today), today, id)
    ensures Review(state, id, response, today)[id].nextReviewAt > today
  {
  }

  /** A review changes only the due status of the reviewed id. */
  lemma ReviewKeepsOthersDue(state: SrsState, id: Id, response: Response, today: Day, other: Id)
    requires other != id
    ensures IsDue(Review(state, id, response, today), today, other) == IsDue(state, today, other)
  {
  }

  /**
   * Reviewing a due id removes from the queue exactly the notes with that id and leaves
   * the rest of the queue as it was.
   */
  lemma {:induction false} ReviewShrinksQueue(notes: seq<Note>, state: SrsState, id: Id, response: Response, today: Day)
    requires IsDue(state, today, id)
    ensures |DueNotes(notes, Review(state, id, response, today), today)|
         == |DueNotes(notes, state, today)| - Count(notes, (n: Note) => n.id == id)
  {
    var after := Review(state, id, response, today);
    if notes != [] {
      ReviewShrinksQueue(notes[1..], state, id, response, today);
      ReviewedNotDue(state, id, response, today);
      if notes[0].id != id {
        ReviewKeepsOthersDue(state, id, response, today, notes[0].id);
      }
    }
  }

  predicate UniqueIds(notes: seq<Note>) {
    forall i, j :: 0 <= i < j < |notes| ==> notes[i].id != notes[j].id
  }

  /** With unique ids, each review of a due note shrinks the queue by exactly one. */
  lemma ReviewShrinksByOne(notes: seq<Note>, state: SrsState, n: Note, response: Response, today: Day)
    requires UniqueIds(notes)
    requires n in DueNotes(notes, state, today)
    ensures |DueNotes(notes, Review(state, n.id, response, today), today)| == |DueNotes(notes, state, today)| - 1
  {
    ReviewShrinksQueue(notes, state, n.id, response, today);
    var i :| 0 <= i < |notes| && notes[i] == n;
    CountSingle(notes, (m: Note) => m.id == n.id, i);
  }

  /**
   * A review session: answer the head of the queue until the queue is empty. The answers
   * come from the user and are a parameter. The session always ends with nothing due,
   * and with unique ids it takes exactly as many reviews as notes were due.
   */
  method ReviewSession(notes: seq<Note>, state: SrsState, today: Day, answer: Note -> Response)
    returns (final: SrsState, reviews: nat)
    ensures DueNotes(notes, final, today) == []
    ensures UniqueIds(notes) ==> reviews == |DueNotes(notes, state, today)|
    ensures state.Keys <= final.Keys
  {
    final := state;
    reviews := 0;
    while DueNotes(notes, final, today) != []
      invariant state.Keys <= final.Keys
      invariant UniqueIds(notes) ==> reviews + |DueNotes(notes, final, today)| == |DueNotes(notes, state, today)|
      decreases |DueNotes(notes, final, today)|
    {
      var due := DueNotes(notes, final, today);
      var n := due[0];
      ReviewShrinksQueue(notes, final, n.id, answer(n), today);
      assert n in notes;
      var i :| 0 <= i < |notes| && notes[i] == n;
      CountAtLeastOne(notes, (m: Note) => m.id == n.id, i);
      if UniqueIds(notes) {
        CountSingle(notes, (m: Note) => m.id == n.id, i);
      }
      final := Review(final, n.id, answer(n), today);
      reviews := reviews + 1;
    }
  }

  function NoteId(n: Note): Id { n.id }

  /** `n => n.id !== id`. */
  function NotId(id: Id): Note -> bool { (n: Note) => n.id != id }

  /** `{ ...n, ...note }`: the form's fields replace the note's, the id stays. */
  function Merge(n: Note, fields: NoteFields): (r: Note)
    ensures r.id == n.id
  {
    Note(n.id, fields.title, fields.body, fields.tags, fields.source)
  }

  /** Editing a note merges the form into the note with that id only. */
  function EditNote(notes: seq<Note>, id: Id, fields: NoteFields): (r: seq<Note>)
    ensures |r| == |notes|
    ensures forall i :: 0 <= i < |notes| ==> r[i].id == notes[i].id
    ensures forall i :: 0 <= i < |notes| && notes[i].id != id ==> r[i] == notes[i]
    ensures forall i :: 0 <= i < |notes| && notes[i].id == id ==> r[i] == Merge(notes[i], fields)
  {
    Collections.EditById(notes, NoteId, id, n => Merge(n, fields))
  }

  /** Adding a note appends it with the caller's fresh id. */
  function AddNote(notes: seq<Note>, fields: NoteFields, freshId: Id): (r: seq<Note>)
    ensures r == notes + [Note(freshId, fields.title, fields.body, fields.tags, fields.source)]
    ensures UniqueIds(notes) && (forall n :: n in notes ==> n.id != freshId) ==> UniqueIds(r)
  {
    Collections.Add(notes, Note(freshId, fields.title, fields.body, fields.tags, fields.source))
  }

  /**
   * The note form's save: nothing is stored unless both the title and the body are filled
   * in; then the note being edited takes the form's fields, or a new note with the
   * caller's fresh id is appended. Unique ids stay unique.
   */
  function SaveNote(notes: seq<Note>, editing: Option<Id>, fields: NoteFields, freshId: Id): (r: seq<Note>)
    ensures fields.title == "" || fields.body == "" ==> r == notes
    ensures fields.title != "" && fields.body != "" && editing.Some? ==> |r| == |notes|
    ensures fields.title != "" && fields.body != "" && editing.Some?
      ==> forall i :: 0 <= i < |notes| && notes[i].id != editing.value ==> r[i] == notes[i]
    ensures fields.title != "" && fields.body != "" && editing.Some?
      ==> forall i :: (0 <= i < |notes| && notes[i].id == editing.value
        ==> r[i] == Note(editing.value, fields.title, fields.body, fields.tags, fields.source))
    ensures fields.title != "" && fields.body != "" && editing.None?
      ==> r == notes + [Note(freshId, fields.title, fields.body, fields.tags, fields.source)]
    ensures UniqueIds(notes) && (editing.None? ==> forall n :: n in notes ==> n.id != freshId) ==> UniqueIds(r)
  {
    if fields.title == "" || fields.body == "" then notes
    else if editing.Some? then EditNote(notes, editing.value, fields)
    else AddNote(notes, fields, freshId)
  }

  /** Deleting a note removes exactly the notes with that id. */
  function DeleteNote(notes: seq<Note>, id: Id): (r: seq<Note>)
    ensures forall n :: n in r <==> n in notes && n.id != id
    ensures r == Filter(notes, NotId(id))
  {
    forall x | x in notes
      ensures Collections.OtherId(NoteId, id)(x) == NotId(id)(x)
    {
      assert NoteId(x) == x.id;
    }
    FilterCongruent(notes, Collections.OtherId(NoteId, id), NotId(id));
    Collections.DeleteById(notes, NoteId, id)
  }

  /** With unique ids, deleting a present id removes one note. */
  lemma DeleteNoteRemovesOne(notes: seq<Note>, id: Id)
    requires UniqueIds(notes)
    requires exists i :: 0 <= i < |notes| && notes[i].id == id
    ensures |DeleteNote(notes, id)| == |notes| - 1
  {
    Collections.DeleteOneOfUnique(notes, NoteId, id);
  }

  /** A note just added with a fresh id is removed again by deleting that id. */
  lemma DeleteUndoesSave(notes: seq<Note>, fields: NoteFields, freshId: Id)
    requires fields.title != "" && fields.body != ""
    requires forall n :: n in notes ==> n.id != freshId
    ensures DeleteNote(SaveNote(notes, None, fields, freshId), freshId) == notes
  {
    Collections.DeleteAfterAdd(notes, NoteId, Note(freshId, fields.title, fields.body, fields.tags, fields.source));
  }
}

=== FILE: legacy_score.dfy ===
/**
 * The older daily score of the single-file app (`calculateDailyScore` in progress-app.jsx):
 * six separate 10-point habits and five 8-point metrics make exactly 100 raw points, the
 * score is not rescaled, and the grade is read off the unrounded raw score.
 */
module LegacyScore {
  import opened Wrappers
  import opened Numeric
  import opened Folds
  import opened Records
  import Score

  /** A legacy habit: its key and its breakdown label. */
  datatype HabitSpec = HabitSpec(key: Habit, title: string)

  const Habits: seq<HabitSpec> := [
    HabitSpec(NoFap, "NoFap"),
    HabitSpec(Workout, "Workout"),
    HabitSpec(Run, "Run"),
    HabitSpec(KeptWord, "Kept Word"),
    HabitSpec(HardThing, "Hard Thing"),
    HabitSpec(Integrity, "Integrity")
  ]

  /** The same metrics as the current score, without squats. */
  const Metrics: seq<Score.MetricSpec> := Score.ScoredMetrics[..5]

  lemma MetricsArePositive()
    ensures Score.PositiveDefaults(Metrics)
    ensures |Metrics| == 5
  {
  }

  function HabitLines(h: DayHabits, specs: seq<HabitSpec>): (items: seq<Score.Item>)
    ensures |items| == |specs|
    ensures forall i :: 0 <= i < |specs| ==> items[i] == Score.HabitItem(specs[i].title, Done(h, specs[i].key))
  {
    if specs == [] then [] else [Score.HabitItem(specs[0].title, Done(h, specs[0].key))] + HabitLines(h, specs[1..])
  }

  /** Ten points for every habit done, accumulated as the score is. */
  function HabitTotal(h: DayHabits, specs: seq<HabitSpec>): real {
    if specs == [] then 0.0 else Score.HabitEarned(Done(h, specs[0].key)) + HabitTotal(h, specs[1..])
  }

  function RawScore(m: DayMetrics, h: DayHabits, goals: Goals, j: Journal): real {
    MetricsArePositive();
    HabitTotal(h, Habits) + Score.MetricTotal(m, goals, Metrics) + Score.JournalBonus(j.text) as real
  }

  function Breakdown(m: DayMetrics, h: DayHabits, goals: Goals, j: Journal): seq<Score.Item> {
    MetricsArePositive();
    HabitLines(h, Habits) + Score.MetricItems(m, goals, Metrics) + Score.BonusItems(Score.JournalBonus(j.text))
  }

  /**
   * The legacy `calculateDailyScore`: no rescaling, so the displayed score is the rounded
   * sum of what the breakdown lines earn, and the grade uses the unrounded score.
   */
  function Calculate(m: DayMetrics, h: DayHabits, goals: Goals, j: Journal): (r: Score.DailyScore)
    ensures r.maxScore == 100
    ensures r.percent == r.score
    ensures r.score == Round(RawScore(m, h, goals, j))
    ensures r.score == Round(Sum(r.breakdown, Score.EarnedOf))
    ensures r.grade == Score.GradeOf(RawScore(m, h, goals, j))
    ensures |r.breakdown| == 11 + (if Score.JournalBonus(j.text) > 0 then 1 else 0)
  {
    RawScoreIsBreakdownSum(m, h, goals, j);
    var raw := RawScore(m, h, goals, j);
    Score.DailyScore(Round(raw), 100, Round(raw / 100.0 * 100.0), Breakdown(m, h, goals, j), Score.GradeOf(raw))
  }

  // ---------------------------------------------------------------------------
  // Properties

  lemma {:induction false} HabitLinesMax(h: DayHabits, specs: seq<HabitSpec>)
    ensures Sum(HabitLines(h, specs), Score.MaxOf) == |specs| as real * Score.HabitPoints
  {
    if specs != [] {
      HabitLinesMax(h, specs[1..]);
      assert HabitLines(h, specs)[1..] == HabitLines(h, specs[1..]);
    }
  }

  /** The non-bonus lines are worth exactly 100 points, so the maximum needs no rescaling. */
  lemma NonBonusMaxIs100(m: DayMetrics, h: DayHabits, goals: Goals, j: Journal)
    ensures Sum(Breakdown(m, h, goals, j)[..11], Score.MaxOf) == 100.0
  {
    MetricsArePositive();
    var habits := HabitLines(h, Habits);
    var metrics := Score.MetricItems(m, goals, Metrics);
    assert Breakdown(m, h, goals, j)[..11] == habits + metrics;
    SumAppend(habits, metrics, Score.MaxOf);
    HabitLinesMax(h, Habits);
    Score.MetricItemsMax(m, goals, Metrics);
  }

  lemma {:induction false} HabitTotalBounds(h: DayHabits, specs: seq<HabitSpec>)
    ensures 0.0 <= HabitTotal(h, specs) <= |specs| as real * Score.HabitPoints
  {
    if specs != [] {
      HabitTotalBounds(h, specs[1..]);
    }
  }

  /** With non-negative inputs the raw score lies between 0 and 105 (100 plus a bonus of at most 5). */
  lemma RawScoreBounds(m: DayMetrics, h: DayHabits, goals: Goals, j: Journal)
    requires Score.NonNegativeMetrics(m) && Score.NonNegativeGoals(goals)
    ensures 0.0 <= RawScore(m, h, goals, j) <= 105.0
  {
    MetricsArePositive();
    HabitTotalBounds(h, Habits);
    Score.MetricTotalBounds(m, goals, Metrics);
  }

  /** The habit part of the legacy score, habit by habit. */
  lemma HabitTotalExpanded(h: DayHabits)
    ensures HabitTotal(h, Habits)
         == Score.HabitEarned(Done(h, NoFap)) + Score.HabitEarned(Done(h, Workout)) + Score.HabitEarned(Done(h, Run))
          + Score.HabitEarned(Done(h, KeptWord)) + Score.HabitEarned(Done(h, HardThing)) + Score.HabitEarned(Done(h, Integrity))
  {
    var hs := Habits;
    assert hs[1..][1..][1..][1..][1..][1..] == [];
    assert HabitTotal(h, hs[5..]) == Score.HabitEarned(Done(h, Integrity));
    assert HabitTotal(h, hs[4..]) == Score.HabitEarned(Done(h, HardThing)) + HabitTotal(h, hs[5..]);
    assert HabitTotal(h, hs[3..]) == Score.HabitEarned(Done(h, KeptWord)) + HabitTotal(h, hs[4..]);
    assert HabitTotal(h, hs[2..]) == Score.HabitEarned(Done(h, Run)) + HabitTotal(h, hs[3..]);
    assert HabitTotal(h, hs[1..]) == Score.HabitEarned(Done(h, Workout)) + HabitTotal(h, hs[2..]);
  }

  /** Workout and run are separate habits: doing both earns 10 points more than either alone. */
  lemma WorkoutAndRunBothCount(m: DayMetrics, h: DayHabits, goals: Goals, j: Journal)
    ensures RawScore(m, h[Workout := true][Run := true], goals, j) == RawScore(m, h[Workout := true][Run := false], goals, j) + 10.0
    ensures RawScore(m, h[Workout := true][Run := true], goals, j) == RawScore(m, h[Workout := false][Run := true], goals, j) + 10.0
  {
    HabitTotalExpanded(h[Workout := true][Run := true]);
    HabitTotalExpanded(h[Workout := true][Run := false]);
    HabitTotalExpanded(h[Workout := false][Run := true]);
  }

  lemma {:induction false} HabitLinesEarned(h: DayHabits, specs: seq<HabitSpec>)
    ensures Sum(HabitLines(h, specs), Score.EarnedOf) == HabitTotal(h, specs)
  {
    if specs != [] {
      HabitLinesEarned(h, specs[1..]);
      assert HabitLines(h, specs)[1..] == HabitLines(h, specs[1..]);
    }
  }

  /** The raw score is what the breakdown's lines earn, bonus line included. */
  lemma RawScoreIsBreakdownSum(m: DayMetrics, h: DayHabits, goals: Goals, j: Journal)
    ensures RawScore(m, h, goals, j) == Sum(Breakdown(m, h, goals, j), Score.EarnedOf)
  {
    MetricsArePositive();
    var habits := HabitLines(h, Habits);
    var metrics := Score.MetricItems(m, goals, Metrics);
    var bonus := Score.BonusItems(Score.JournalBonus(j.text));
    SumAppend(habits + metrics, bonus, Score.EarnedOf);
    SumAppend(habits, metrics, Score.EarnedOf);
    HabitLinesEarned(h, Habits);
    Score.MetricItemsEarned(m, goals, Metrics);
    if bonus != [] {
      assert bonus[1..] == [];
    }
  }

  /**
   * The grade is read off the unrounded score: a raw score in [89.5, 90), such as 89.6,
   * is displayed as 90 but graded A, not S.
   */
  lemma GradeFromUnroundedScore(m: DayMetrics, h: DayHabits, goals: Goals, j: Journal)
    requires 89.5 <= RawScore(m, h, goals, j) < 90.0
    ensures Calculate(m, h, goals, j).score == 90
    ensures Calculate(m, h, goals, j).grade == Score.A
    ensures Score.GradeOf(Calculate(m, h, goals, j).score as real) == Score.S
  {
  }
}

=== FILE: library.dfy ===
/**
 * The library page (src/pages/LibraryPage.jsx): the type tabs, the pages read per book,
 * the star display of a rating, and adding, editing and deleting items.
 */
module Library {
  import opened Wrappers
  import opened Folds
  import opened Text
  import opened Records
  import Collections

  // ---------------------------------------------------------------------------
  // Type tabs

  /** The tabs after `'all'`, one per item type. */
  const ItemTypes: seq<string> := ["book", "movie", "series", "article", "course", "podcast"]

  function OfType(t: string): LibraryItem -> bool {
    (x: LibraryItem) => x.itemType == t
  }

  /** `filteredItems`: `'all'` shows every item, any other tab the items of that type. */
  function FilterItems(library: seq<LibraryItem>, filter: string): (r: seq<LibraryItem>)
    ensures filter == "all" ==> r == library
    ensures forall x :: x in r <==> x in library && (filter == "all" || x.itemType == filter)
    ensures |r| <= |library|
  {
    if filter == "all" then library else Filter(library, OfType(filter))
  }

  /**
   * The tab's list grows with the library one item at a time: an item appended to the
   * library is appended to the tab's list when the tab shows it and nowhere else, so the
   * list keeps the library's order and holds each shown item as often as the library does.
   */
  lemma FilterItemsSnoc(library: seq<LibraryItem>, x: LibraryItem, filter: string)
    ensures FilterItems([], filter) == []
    ensures FilterItems(library + [x], filter)
         == FilterItems(library, filter) + (if filter == "all" || x.itemType == filter then [x] else [])
  {
    FilterSnoc(library, x, OfType(filter));
  }

  predicate DistinctTypes(types: seq<string>) {
    forall i, j :: 0 <= i < j < |types| ==> types[i] != types[j]
  }

  /** The items whose type is one of the listed ones. */
  function TypeIn(types: seq<string>): LibraryItem -> bool {
    (x: LibraryItem) => x.itemType in types
  }

  /** How many items the listed tabs show together. */
  function TabTotal(library: seq<LibraryItem>, types: seq<string>): nat {
    if types == [] then 0 else |FilterItems(library, types[0])| + TabTotal(library, types[1..])
  }

  /** Distinct type tabs show disjoint lists: together they show each item of their types once. */
  lemma {:induction false} TabsSplit(library: seq<LibraryItem>, types: seq<string>)
    requires DistinctTypes(types) && "all" !in types
    ensures TabTotal(library, types) == |Filter(library, TypeIn(types))|
  {
    if types == [] {
      FilterNone(library, TypeIn(types));
    } else {
      var t := types[0];
      var rest := types[1..];
      assert "all" !in rest && DistinctTypes(rest);
      TabsSplit(library, rest);
      assert t != "all" by {
        assert types[0] in types;
      }
      forall x | x in library
        ensures (TypeIn(types)(x) <==> OfType(t)(x) || TypeIn(rest)(x))
        ensures !(OfType(t)(x) && TypeIn(rest)(x))
      {
        assert x.itemType in types <==> x.itemType == t || x.itemType in rest;
        if x.itemType in rest {
          var j :| 0 <= j < |rest| && rest[j] == x.itemType;
          assert types[j + 1] != types[0];
        }
      }
      FilterLengthDisjoint(library, OfType(t), TypeIn(rest), TypeIn(types));
    }
  }

  /** The six types differ from each other and from `'all'`: their first letters do. */
  lemma ItemTypesDistinct()
    ensures DistinctTypes(ItemTypes) && "all" !in ItemTypes
  {
    var firsts := ['b', 'm', 's', 'a', 'c', 'p'];
    assert forall i :: 0 <= i < 6 ==> ItemTypes[i][0] == firsts[i];
    assert "article"[1] == 'r' && "all"[1] == 'l';
  }

  /** When every item has one of the six types, the six tabs list each item exactly once. */
  lemma TabsCoverLibrary(library: seq<LibraryItem>)
    requires forall x :: x in library ==> x.itemType in ItemTypes
    ensures TabTotal(library, ItemTypes) == |library|
  {
    ItemTypesDistinct();
    TabsSplit(library, ItemTypes);
    FilterAll(library, TypeIn(ItemTypes));
  }

  // ---------------------------------------------------------------------------
  // Pages per book

  function ForItem(id: Id): ReadingSession -> bool {
    (s: ReadingSession) => s.bookId == id
  }

  /** `getItemPages`: the pages of the sessions logged against the item. */
  function ItemPages(sessions: seq<ReadingSession>, id: Id): (pages: real)
    ensures (forall s :: s in sessions ==> s.bookId != id) ==> pages == 0.0
  {
    var mine := Filter(sessions, ForItem(id));
    assert mine != [] ==> mine[0] in mine;
    Sum(mine, SessionPagesOf)
  }

  /** With no negative session, no item shows negative pages. */
  lemma ItemPagesNonNegative(sessions: seq<ReadingSession>, id: Id)
    requires forall s :: s in sessions ==> s.pages >= 0.0
    ensures ItemPages(sessions, id) >= 0.0
  {
    SumNonNegative(Filter(sessions, ForItem(id)), SessionPagesOf);
  }

  /** Logging a session adds its pages to its own item and to no other. */
  lemma ItemPagesAdd(sessions: seq<ReadingSession>, s: ReadingSession, id: Id)
    ensures ItemPages(sessions + [s], id) == ItemPages(sessions, id) + (if s.bookId == id then s.pages else 0.0)
  {
    FilterAppend(sessions, [s], ForItem(id));
    SumAppend(Filter(sessions, ForItem(id)), Filter([s], ForItem(id)), SessionPagesOf);
    assert Filter([s], ForItem(id)) == if s.bookId == id then [s] else [];
  }

  // ---------------------------------------------------------------------------
  // Rating display

  /** What `{item.rating && ...}` renders. */
  datatype RatingView =
    | NoRating
      /** `0 && ...` is the number 0, which React prints: the text "0". */
    | ZeroText
    | Stars(text: string)
      /** `'.'.repeat(5 - rating)` or `'*'.repeat(rating)` with a negative count throws. */
    | RangeError

  function IsStar(c: char): bool { c == '*' }

  /**
   * The rating line as the page writes it: a rating of 0, which the form stores for an
   * unrated item, renders the text "0"; 1 to 5 show that many stars then dots up to five
   * characters; any other value makes `repeat` throw.
   */
  function RatingDisplay(rating: int): (v: RatingView)
    ensures v.ZeroText? <==> rating == 0
    ensures v.Stars? <==> 1 <= rating <= 5
    ensures v.RangeError? <==> rating < 0 || rating > 5
    ensures v.Stars? ==> |v.text| == 5
    ensures v.Stars? ==> forall i :: 0 <= i < 5 ==> (v.text[i] == '*' <==> i < rating)
    ensures v.Stars? ==> forall i :: 0 <= i < 5 ==> v.text[i] == '*' || v.text[i] == '.'
  {
    if rating == 0 then ZeroText
    else if rating < 0 || rating > 5 then RangeError
    else Stars(Repeat('*', rating) + Repeat('.', 5 - rating))
  }

  /** The form's default and its "clear" click both store 0, and that renders the text "0". */
  lemma UnratedItemShowsZero()
    ensures RatingDisplay(0) == ZeroText
    ensures RatingLine(0) == NoRating
  {
  }

  /**
   * The rating line as evidently intended (`item.rating > 0 && ...`): an unrated item shows
   * nothing, and every other rating shows what the page shows.
   */
  function RatingLine(rating: int): (v: RatingView)
    ensures v.NoRating? <==> rating == 0
    ensures !v.ZeroText?
    ensures rating != 0 ==> v == RatingDisplay(rating)
    ensures v.Stars? <==> 1 <= rating <= 5
  {
    if rating == 0 then NoRating else RatingDisplay(rating)
  }

  lemma {:induction false} CountRepeat(c: char, n: nat)
    ensures Count(Repeat(c, n), IsStar) == if IsStar(c) then n else 0
  {
    if n > 0 {
      CountRepeat(c, n - 1);
      assert Repeat(c, n)[1..] == Repeat(c, n - 1);
    }
  }

  /** Counting the stars of the display gives the rating back. */
  lemma StarsReadBack(rating: int)
    requires 1 <= rating <= 5
    ensures Count(RatingLine(rating).text, IsStar) == rating
  {
    CountRepeat('*', rating);
    CountRepeat('.', 5 - rating);
    CountAppend(Repeat('*', rating), Repeat('.', 5 - rating), IsStar);
  }

  // ---------------------------------------------------------------------------
  // Adding, editing and deleting

  /** What the item form saves: `{ type, title, status, rating, tags, notes }`. */
  datatype ItemFields = ItemFields(itemType: string, title: string, status: string, rating: int)

  function ItemId(x: LibraryItem): Id { x.id }

  /** `i => i.id !== id`. */
  function NotId(id: Id): LibraryItem -> bool { (x: LibraryItem) => x.id != id }

  /** `{ ...i, ...item }`: the form's fields replace the item's, the id stays. */
  function Merge(fields: ItemFields): LibraryItem -> LibraryItem {
    (x: LibraryItem) => LibraryItem(x.id, fields.itemType, fields.title, fields.status, fields.rating)
  }

  /**
   * The form's save: nothing happens without a title; when an item is being edited the
   * fields merge into the items with its id, otherwise a new item with the caller's
   * fresh id is appended.
   */
  function SaveItem(library: seq<LibraryItem>, editing: Option<Id>, fields: ItemFields, freshId: Id): (r: seq<LibraryItem>)
    ensures fields.title == "" ==> r == library
    ensures fields.title != "" && editing.Some? ==> |r| == |library|
    ensures fields.title != "" && editing.Some? ==> forall i :: 0 <= i < |library| && library[i].id != editing.value ==> r[i] == library[i]
    ensures fields.title != "" && editing.Some? ==> forall i :: (0 <= i < |library| && library[i].id == editing.value
      ==> r[i] == LibraryItem(editing.value, fields.itemType, fields.title, fields.status, fields.rating))
    ensures fields.title != "" && editing.None?
      ==> r == library + [LibraryItem(freshId, fields.itemType, fields.title, fields.status, fields.rating)]
  {
    if fields.title == "" then library
    else if editing.Some? then Collections.EditById(library, ItemId, editing.value, Merge(fields))
    else Collections.Add(library, LibraryItem(freshId, fields.itemType, fields.title, fields.status, fields.rating))
  }

  /** Deleting the edited item removes every item with its id and keeps the rest in order. */
  function DeleteItem(library: seq<LibraryItem>, id: Id): (r: seq<LibraryItem>)
    ensures forall x :: x in r <==> x in library && x.id != id
    ensures r == Filter(library, NotId(id))
  {
    forall x | x in library
      ensures Collections.OtherId(ItemId, id)(x) == NotId(id)(x)
    {
      assert ItemId(x) == x.id;
    }
    FilterCongruent(library, Collections.OtherId(ItemId, id), NotId(id));
    Collections.DeleteById(library, ItemId, id)
  }

  /** An item just added with a fresh id is removed again by deleting that id. */
  lemma DeleteUndoesAdd(library: seq<LibraryItem>, fields: ItemFields, freshId: Id)
    requires fields.title != ""
    requires forall x :: x in library ==> x.id != freshId
    ensures DeleteItem(SaveItem(library, None, fields, freshId), freshId) == library
  {
    Collections.DeleteAfterAdd(library, ItemId, LibraryItem(freshId, fields.itemType, fields.title, fields.status, fields.rating));
  }

  /** Editing an item does not change what deleting it leaves. */
  lemma DeleteAfterEdit(library: seq<LibraryItem>, id: Id, fields: ItemFields, freshId: Id)
    ensures DeleteItem(SaveItem(library, Some(id), fields, freshId), id) == DeleteItem(library, id)
  {
    if fields.title != "" {
      Collections.DeleteAfterEdit(library, ItemId, id, Merge(fields));
    }
  }
}

=== FILE: logedit.dfy ===
/**
 * The daily log (src/pages/LogPage.jsx): the strip of recent dates, which dates have data,
 * the score shown for a date, loading a date into the edit form, the pages input with its
 * three views (shared with src/pages/MindPage.jsx), and `saveEdits`, which cleans the form
 * and writes or deletes the date in each of the three stores.
 */
module LogEdit {
  import opened Wrappers
  import opened Numeric
  import opened Folds
  import opened Calendar
  import opened Records
  import opened Text
  import Score
  import Review

  // ---------------------------------------------------------------------------
  // Dates and scores

  function InYearOf(cal: MonthCalendar, today: Day): Day -> bool {
    (d: Day) => Year(cal, d) == Year(cal, today)
  }

  /** The last 30 days, newest first, keeping those in the current year. */
  function LogDates(cal: MonthCalendar, today: Day): (dates: seq<Day>)
    ensures forall d :: d in dates <==> today - 29 <= d <= today && Year(cal, d) == Year(cal, today)
    ensures |dates| > 0 && dates[0] == today
    ensures forall i, j :: 0 <= i < j < |dates| ==> dates[i] > dates[j]
  {
    var back := DaysBack(today, 0, 30);
    FilterKeepsDescending(back, InYearOf(cal, today));
    Filter(back, InYearOf(cal, today))
  }

  lemma {:induction false} FilterKeepsDescending(xs: seq<Day>, p: Day -> bool)
    requires forall i, j :: 0 <= i < j < |xs| ==> xs[i] > xs[j]
    ensures forall i, j :: 0 <= i < j < |Filter(xs, p)| ==> Filter(xs, p)[i] > Filter(xs, p)[j]
    ensures |xs| > 0 && p(xs[0]) ==> |Filter(xs, p)| > 0 && Filter(xs, p)[0] == xs[0]
  {
    if xs != [] {
      FilterKeepsDescending(xs[1..], p);
      var rest := Filter(xs[1..], p);
      if p(xs[0]) {
        forall y | y in rest
          ensures xs[0] > y
        {
          var k :| 0 <= k < |xs[1..]| && xs[1..][k] == y;
          assert xs[k + 1] == y;
        }
        assert Filter(xs, p) == [xs[0]] + rest;
        forall i, j | 0 <= i < j < |Filter(xs, p)|
          ensures Filter(xs, p)[i] > Filter(xs, p)[j]
        {
          if i == 0 {
            assert Filter(xs, p)[j] == rest[j - 1];
            assert rest[j - 1] in rest;
          } else {
            assert Filter(xs, p)[i] == rest[i - 1];
            assert Filter(xs, p)[j] == rest[j - 1];
          }
        }
      }
    }
  }

  /**
   * `hasData(date)`: a stored metrics or habits record, a journal that is not a stored
   * `null` (`journals[date]` is falsy then), or a reading session that day. A date has data
   * exactly when it has a score, a journal or a session.
   */
  function HasData(store: Store, d: Day): (b: bool)
    ensures b <==> DateScore(store, d).Some? || (d in store.journals && store.journals[d].Some?)
                   || exists s :: s in store.sessions && s.date == d
  {
    var hasSessions := exists s :: s in store.sessions && s.date == d;
    assert SessionPages(store.sessions, d) != 0.0 ==> hasSessions by {
      if SessionPages(store.sessions, d) != 0.0 {
        SessionPagesWitness(store.sessions, d);
      }
    }
    d in store.metrics || d in store.habits || (d in store.journals && store.journals[d].Some?) || hasSessions
  }

  /**
   * `getDateScore(date)`: no score for a date without a metrics record, a habits record or
   * session pages; otherwise the score with the manual and session pages added.
   */
  function DateScore(store: Store, d: Day): (score: Option<int>)
    ensures score.None? <==> d !in store.metrics && d !in store.habits && SessionPages(store.sessions, d) == 0.0
  {
    if d !in store.metrics && d !in store.habits && SessionPages(store.sessions, d) == 0.0 then None
    else
      var m := RecordOn(store.metrics, d);
      Some(Score.Calculate(WithPages(m, TotalPages(store.metrics, store.sessions, d)), RecordOn(store.habits, d),
        store.goals, JournalOn(store.journals, d)).score)
  }

  /** Session pages add up from the sessions on that day, so some session is dated there. */
  lemma {:induction false} SessionPagesWitness(sessions: seq<ReadingSession>, d: Day)
    requires SessionPages(sessions, d) != 0.0
    ensures exists s :: s in sessions && s.date == d
  {
    var on := SessionsOn(sessions, d);
    assert on != [];
    assert on[0] in on;
  }

  /**
   * Every scored date shows as having data; a date with only a journal has data but no
   * score; a date whose only record is a stored `null` journal has neither.
   */
  lemma ScoredDatesHaveData(store: Store, d: Day)
    ensures DateScore(store, d).Some? ==> HasData(store, d)
    ensures (d in store.journals && store.journals[d].Some? && d !in store.metrics && d !in store.habits
      && forall s :: s in store.sessions ==> s.date != d) ==> HasData(store, d) && DateScore(store, d).None?
    ensures (d in store.journals && store.journals[d].None? && d !in store.metrics && d !in store.habits
      && forall s :: s in store.sessions ==> s.date != d) ==> !HasData(store, d) && DateScore(store, d).None?
  {
    if DateScore(store, d).Some? && d !in store.metrics && d !in store.habits {
      SessionPagesWitness(store.sessions, d);
    }
    if forall s :: s in store.sessions ==> s.date != d {
      assert SessionsOn(store.sessions, d) == [];
    }
  }

  /**
   * Without reading sessions the log shows the score the review averages; with them the
   * log counts the session pages and the review does not.
   */
  lemma DateScoreWithoutSessions(store: Store, d: Day)
    requires HasRecord(store.metrics, store.habits, d) && SessionPages(store.sessions, d) == 0.0
    ensures DateScore(store, d) == Some(Review.DayScore(store, d) as int)
  {
    var m := RecordOn(store.metrics, d);
    Score.CalculateCongruent(WithPages(m, TotalPages(store.metrics, store.sessions, d)), m,
      RecordOn(store.habits, d), store.goals, JournalOn(store.journals, d));
  }

  // ---------------------------------------------------------------------------
  // The edit form

  /** The edit form's journal fields. */
  datatype JournalForm = JournalForm(text: string, til: string, important: string)

  /** The edit form: the date's records as loaded, then as edited. */
  datatype EditForm = EditForm(metrics: DayMetrics, habits: DayHabits, journal: JournalForm)

  /** A stored journal as the form shows it: a legacy `avoided` fills an empty `important`. */
  function JournalFormOf(j: Journal): (f: JournalForm)
    ensures f.text == j.text && f.til == j.til
    ensures f.important == if j.important != "" then j.important else j.avoided
  {
    JournalForm(j.text, j.til, if j.important != "" then j.important else j.avoided)
  }

  /** Selecting a date loads its records into the form. */
  function FormOf(metrics: MetricLog, habits: HabitLog, journals: JournalLog, d: Day): EditForm {
    EditForm(RecordOn(metrics, d), RecordOn(habits, d), JournalFormOf(JournalOn(journals, d)))
  }

  /** Fields that are `null`, `''` or missing (all `None` here) are dropped, and so is a distance without a run. */
  function CleanMetrics(m: DayMetrics, ran: bool): (r: DayMetrics)
    ensures forall k :: k in r <==> k in m && m[k].Some? && (k == RunDistance ==> ran)
    ensures forall k :: k in r ==> r[k] == m[k]
  {
    map k | k in m && m[k].Some? && (k == RunDistance ==> ran) :: m[k]
  }

  /** Only habits whose value is exactly `true` are kept. */
  function CleanHabits(h: DayHabits): (r: DayHabits)
    ensures forall k :: k in r <==> Done(h, k)
    ensures forall k :: k in r ==> r[k]
  {
    map k | k in h && h[k] :: true
  }

  /** A journal is kept only when its three fields together are not blank. */
  function CleanJournal(f: JournalForm): (r: Option<Journal>)
    ensures r.None? <==> IsBlank(f.text + f.til + f.important)
    ensures r.Some? ==> r.value == Journal(f.text, f.til, f.important, "")
  {
    if |Trim(f.text + f.til + f.important)| > 0 then Some(Journal(f.text, f.til, f.important, "")) else None
  }

  /** A concatenation is blank exactly when each part is. */
  lemma BlankConcat(a: string, b: string)
    ensures IsBlank(a + b) <==> IsBlank(a) && IsBlank(b)
  {
    if IsBlank(a + b) {
      forall i | 0 <= i < |a|
        ensures IsSpace(a[i])
      {
        assert (a + b)[i] == a[i];
      }
      forall i | 0 <= i < |b|
        ensures IsSpace(b[i])
      {
        assert (a + b)[|a| + i] == b[i];
      }
    }
    if IsBlank(a) && IsBlank(b) {
      forall i | 0 <= i < |a + b|
        ensures IsSpace((a + b)[i])
      {
        if i < |a| {
          assert (a + b)[i] == a[i];
        } else {
          assert (a + b)[i] == b[i - |a|];
        }
      }
    }
  }

  /** The journal survives the save exactly when one of its three fields is not blank. */
  lemma JournalKeptIff(f: JournalForm)
    ensures CleanJournal(f).Some? <==> !IsBlank(f.text) || !IsBlank(f.til) || !IsBlank(f.important)
  {
    BlankConcat(f.text + f.til, f.important);
    BlankConcat(f.text, f.til);
  }

  /** `next[date] = cleaned` for a non-empty record, `delete next[date]` otherwise. */
  function Place<V>(log: map<Day, V>, d: Day, v: Option<V>): (r: map<Day, V>)
    ensures v.Some? ==> d in r && r[d] == v.value
    ensures v.None? ==> d !in r
    ensures forall e :: e != d ==> (e in r <==> e in log) && (e in r ==> r[e] == log[e])
  {
    if v.Some? then log[d := v.value] else log - {d}
  }

  /** A per-date record is stored only when it has at least one field; reading a removed date gives `{}`. */
  function PlaceRecord<K, V>(log: map<Day, map<K, V>>, d: Day, m: map<K, V>): (r: map<Day, map<K, V>>)
    ensures d in r <==> |m| > 0
    ensures (if d in r then r[d] else map[]) == m
    ensures forall e :: e != d ==> (e in r <==> e in log) && (e in r ==> r[e] == log[e])
  {
    if |m| > 0 then Place(log, d, Some(m))
    else
      EmptyMapCard(m);
      Place(log, d, None)
  }

  datatype Logs = Logs(metrics: MetricLog, habits: HabitLog, journals: JournalLog)

  /** The date's metrics after the save: the cleaned fields, or no record when none is left. */
  function SaveMetrics(log: MetricLog, d: Day, form: EditForm): (r: MetricLog)
    ensures d in r <==> |CleanMetrics(form.metrics, Done(form.habits, Run))| > 0
    ensures RecordOn(r, d) == CleanMetrics(form.metrics, Done(form.habits, Run))
    ensures forall e :: e != d ==> (e in r <==> e in log) && (e in r ==> r[e] == log[e])
  {
    PlaceRecord(log, d, CleanMetrics(form.metrics, Done(form.habits, Run)))
  }

  /** The date's habits after the save: the habits set to `true`, or no record when none is. */
  function SaveHabits(log: HabitLog, d: Day, form: EditForm): (r: HabitLog)
    ensures d in r <==> |CleanHabits(form.habits)| > 0
    ensures RecordOn(r, d) == CleanHabits(form.habits)
    ensures forall e :: e != d ==> (e in r <==> e in log) && (e in r ==> r[e] == log[e])
  {
    PlaceRecord(log, d, CleanHabits(form.habits))
  }

  /** The date's journal after the save: the three fields, or no entry (not a `null` one) when blank. */
  function SaveJournal(log: JournalLog, d: Day, form: EditForm): (r: JournalLog)
    ensures d in r <==> CleanJournal(form.journal).Some?
    ensures d in r ==> r[d] == CleanJournal(form.journal)
    ensures forall e :: e != d ==> (e in r <==> e in log) && (e in r ==> r[e] == log[e])
  {
    var j := CleanJournal(form.journal);
    Place(log, d, if j.Some? then Some(j) else None)
  }

  /** `saveEdits`: the cleaned records replace the date in each store, or remove it when empty. */
  function SaveEdits(logs: Logs, d: Day, form: EditForm): (r: Logs)
    ensures RecordOn(r.metrics, d) == CleanMetrics(form.metrics, Done(form.habits, Run))
    ensures RecordOn(r.habits, d) == CleanHabits(form.habits)
    ensures d in r.journals <==> !IsBlank(form.journal.text + form.journal.til + form.journal.important)
    ensures d in r.journals ==> JournalOn(r.journals, d) == Journal(form.journal.text, form.journal.til, form.journal.important, "")
    ensures forall e :: e != d ==>
              && (e in r.metrics <==> e in logs.metrics) && (e in r.metrics ==> r.metrics[e] == logs.metrics[e])
              && (e in r.habits <==> e in logs.habits) && (e in r.habits ==> r.habits[e] == logs.habits[e])
              && (e in r.journals <==> e in logs.journals) && (e in r.journals ==> r.journals[e] == logs.journals[e])
  {
    Logs(SaveMetrics(logs.metrics, d, form), SaveHabits(logs.habits, d, form), SaveJournal(logs.journals, d, form))
  }

  lemma EmptyMapCard<K, V>(m: map<K, V>)
    requires |m| == 0
    ensures m == map[]
  {
  }

  /** Placing the same record twice is placing it once. */
  lemma PlaceRecordTwice<K, V>(log: map<Day, map<K, V>>, d: Day, m: map<K, V>)
    ensures PlaceRecord(PlaceRecord(log, d, m), d, m) == PlaceRecord(log, d, m)
  {
    var once := PlaceRecord(log, d, m);
    var twice := PlaceRecord(once, d, m);
    assert forall e :: e in twice <==> e in once;
  }

  lemma CleanMetricsTwice(m: DayMetrics, ran: bool)
    ensures CleanMetrics(CleanMetrics(m, ran), ran) == CleanMetrics(m, ran)
  {
  }

  lemma CleanHabitsTwice(h: DayHabits)
    ensures forall k :: Done(CleanHabits(h), k) <==> Done(h, k)
    ensures CleanHabits(CleanHabits(h)) == CleanHabits(h)
  {
  }

  lemma ReloadMetrics(log: MetricLog, d: Day, form: EditForm, again: EditForm)
    requires again.metrics == RecordOn(SaveMetrics(log, d, form), d)
    requires again.habits == CleanHabits(form.habits)
    ensures SaveMetrics(SaveMetrics(log, d, form), d, again) == SaveMetrics(log, d, form)
  {
    var ran := Done(form.habits, Run);
    CleanHabitsTwice(form.habits);
    assert Done(again.habits, Run) == ran;
    CleanMetricsTwice(form.metrics, ran);
    PlaceRecordTwice(log, d, CleanMetrics(form.metrics, ran));
  }

  lemma ReloadHabits(log: HabitLog, d: Day, form: EditForm, again: EditForm)
    requires again.habits == RecordOn(SaveHabits(log, d, form), d)
    ensures SaveHabits(SaveHabits(log, d, form), d, again) == SaveHabits(log, d, form)
  {
    CleanHabitsTwice(form.habits);
    PlaceRecordTwice(log, d, CleanHabits(form.habits));
  }

  lemma ReloadJournal(log: JournalLog, d: Day, form: EditForm, again: EditForm)
    requires again.journal == JournalFormOf(JournalOn(SaveJournal(log, d, form), d))
    ensures SaveJournal(SaveJournal(log, d, form), d, again) == SaveJournal(log, d, form)
  {
    var saved := SaveJournal(log, d, form);
    var j := CleanJournal(form.journal);
    if j.Some? {
      assert JournalOn(saved, d) == j.value;
      assert again.journal == form.journal;
    } else {
      assert again.journal == JournalForm("", "", "");
      assert IsBlank("" + "" + "");
      assert CleanJournal(again.journal).None?;
    }
    var twice := SaveJournal(saved, d, again);
    assert twice.Keys == saved.Keys;
    assert forall e :: e in twice ==> twice[e] == saved[e];
  }

  /**
   * Saving is a fixed point: reopening the saved date and saving the unchanged form leaves
   * every store as it was.
   */
  lemma SaveReloadSave(logs: Logs, d: Day, form: EditForm)
    ensures SaveEdits(SaveEdits(logs, d, form), d, FormOf(SaveEdits(logs, d, form).metrics,
      SaveEdits(logs, d, form).habits, SaveEdits(logs, d, form).journals, d)) == SaveEdits(logs, d, form)
  {
    var saved := SaveEdits(logs, d, form);
    var again := FormOf(saved.metrics, saved.habits, saved.journals, d);
    ReloadMetrics(logs.metrics, d, form, again);
    ReloadHabits(logs.habits, d, form, again);
    ReloadJournal(logs.journals, d, form, again);
  }

  // ---------------------------------------------------------------------------
  // The pages input

  datatype PagesView = TotalView | ManualView | SessionsView

  /** What the pages input shows in each view. */
  function PagesShown(view: PagesView, manual: Option<real>, sessionPages: real): real {
    var m := if manual.Some? then manual.value else 0.0;
    match view
    case ManualView => m
    case SessionsView => sessionPages
    case TotalView => m + sessionPages
  }

  /** A stored page count: 0 is stored as `null`. */
  function ZeroAsNull(v: real): (r: Option<real>)
    ensures r.None? <==> v == 0.0
  {
    if v == 0.0 then None else Some(v)
  }

  /**
   * The pages input's `onChange`: nothing in the sessions view, `null` for a cleared input,
   * the entered value in the manual view, and in the total view the part not covered by the
   * day's sessions, floored at 0. `None` is "no change", `Some(x)` stores `x` as the manual pages.
   */
  function PagesEdit(view: PagesView, input: Option<real>, sessionPages: real): (r: Option<Option<real>>)
    ensures view == SessionsView <==> r.None?
    ensures r.Some? && r.value.Some? ==> r.value.value > 0.0 || view == ManualView
  {
    if view == SessionsView then None
    else if input.None? then Some(None)
    else if view == ManualView then Some(ZeroAsNull(input.value))
    else Some(ZeroAsNull(MaxReal(0.0, input.value - sessionPages)))
  }

  /**
   * The input reads back what was typed: in the manual view always, and in the total view
   * whenever the typed total covers the day's (non-negative) session pages; a smaller total
   * clears the manual pages and the input then shows the session pages.
   */
  lemma PagesEditRoundTrip(view: PagesView, v: real, sessionPages: real)
    requires view != SessionsView && sessionPages >= 0.0
    ensures view == ManualView ==> PagesShown(view, PagesEdit(view, Some(v), sessionPages).value, sessionPages) == v
    ensures view == TotalView && v >= sessionPages ==> PagesShown(view, PagesEdit(view, Some(v), sessionPages).value, sessionPages) == v
    ensures view == TotalView && v < sessionPages ==> PagesEdit(view, Some(v), sessionPages) == Some(None)
  {
  }

  /** Applying an edit to a record of metrics: the pages field only, and only when there is a change. */
  function ApplyPagesEdit(m: DayMetrics, view: PagesView, input: Option<real>, sessionPages: real): (r: DayMetrics)
    ensures view == SessionsView ==> r == m
    ensures forall k :: k != Pages ==> (k in r <==> k in m) && (k in r ==> r[k] == m[k])
  {
    var e := PagesEdit(view, input, sessionPages);
    if e.Some? then m[Pages := e.value] else m
  }
}

=== FILE: metric_input.dfy ===
/**
 * One metric field on the today page (src/components/MetricInput.jsx): the number box,
 * the quick-add buttons and the progress bar under it.
 */
module MetricInput {
  import opened Wrappers
  import opened Numeric
  import opened Score

  /**
   * What the number box holds: nothing, or a number. How a number is spelled in the box
   * is the browser's business; the model keeps the number itself.
   */
  datatype FieldText = Blank | Numeral(n: real)

  /** `value ?? ''`: a missing value shows a blank box, any number (0 included) shows itself. */
  function Display(value: Option<real>): (t: FieldText)
    ensures t.Blank? <==> value.None?
    ensures t.Numeral? ==> t.n == value.value
  {
    match value
    case None => Blank
    case Some(v) => Numeral(v)
  }

  /**
   * `e.target.value ? Number(e.target.value) : null`: clearing the box stores `null`, and
   * what is stored shows up again as the box's content.
   */
  function Parse(t: FieldText): (value: Option<real>)
    ensures value.None? <==> t.Blank?
    ensures Display(value) == t
  {
    match t
    case Blank => None
    case Numeral(n) => Some(n)
  }

  /** `value || 0`: a missing value and a zero both count as nothing. */
  function ValueOrZero(value: Option<real>): real {
    if value.Some? then value.value else 0.0
  }

  /** A quick-add button: `onChange((value || 0) + amount)`. */
  function QuickAdd(value: Option<real>, amount: real): (r: Option<real>)
    ensures r.Some?
    ensures value.None? ==> r == Some(amount)
    ensures value.Some? ==> r == Some(value.value + amount)
  {
    Some(ValueOrZero(value) + amount)
  }

  /** Pressing two quick-add buttons in turn adds their sum, whatever was there before. */
  lemma QuickAddTwice(value: Option<real>, a: real, b: real)
    ensures QuickAdd(QuickAdd(value, a), b) == QuickAdd(value, a + b)
    ensures QuickAdd(QuickAdd(value, a), b) == QuickAdd(QuickAdd(value, b), a)
  {
  }

  /**
   * `goal && value ? Math.min(100, value / goal * 100) : 0`: the bar width. With a goal set
   * it is the same percentage the daily score gives the metric.
   */
  function Progress(value: Option<real>, goal: Option<real>): (p: real)
    ensures p <= 100.0
    ensures goal.None? || goal.value == 0.0 ==> p == 0.0
    ensures goal.Some? && goal.value != 0.0 ==> p == MetricPercent(ValueOrZero(value), goal.value)
    ensures goal.Some? && goal.value > 0.0 && ValueOrZero(value) >= 0.0 ==> p >= 0.0
    ensures goal.Some? && ValueOrZero(value) >= goal.value > 0.0 ==> p == 100.0
  {
    if goal.Some? && goal.value != 0.0 && value.Some? && value.value != 0.0 then
      MinReal(100.0, value.value / goal.value * 100.0)
    else 0.0
  }

  /** `Math.round(progress)%` under the bar: a whole number from 0 to 100 for non-negative input. */
  function ProgressLabel(value: Option<real>, goal: Option<real>): (n: int)
    ensures goal.Some? && goal.value > 0.0 && ValueOrZero(value) >= 0.0 ==> 0 <= n <= 100
    ensures goal.Some? && ValueOrZero(value) >= goal.value > 0.0 ==> n == 100
    ensures goal.None? || goal.value == 0.0 ==> n == 0
  {
    var p := Progress(value, goal);
    RoundOfInteger(0);
    RoundOfInteger(100);
    if goal.Some? && goal.value > 0.0 && ValueOrZero(value) >= 0.0 then
      RoundWithin(p, 0, 100);
      Round(p)
    else Round(p)
  }
}

=== FILE: mind.dfy ===
/**
 * The mind page (src/pages/MindPage.jsx): today's journal with its three fields, today's
 * and this week's reading, the status normalisation that picks the books a reading session
 * can be logged against, and the pages input.
 */
module Mind {
  import opened Wrappers
  import opened Folds
  import opened Text
  import opened Calendar
  import opened Records
  import LogEdit
  import Review
  import MetricInput

  // ---------------------------------------------------------------------------
  // Journal

  /**
   * `saveJournal`: today's entry becomes exactly `{ text, til, important }`; an `avoided`
   * field saved for today by another page does not survive.
   */
  function SaveJournal(journals: JournalLog, today: Day, text: string, til: string, important: string): (r: JournalLog)
    ensures JournalOn(r, today) == Journal(text, til, important, "")
    ensures forall d :: d != today ==> (d in r <==> d in journals) && (d in r ==> r[d] == journals[d])
  {
    journals[today := Some(Journal(text, til, important, ""))]
  }

  /** `dayJournal.text || dayJournal.til || dayJournal.important`. */
  predicate Written(j: Journal) {
    Present(j.text) || Present(j.til) || Present(j.important)
  }

  function WrittenOn(journals: JournalLog): Day -> bool {
    (d: Day) => Written(JournalOn(journals, d))
  }

  // ---------------------------------------------------------------------------
  // Reading sessions by day

  /** `s.durationMinutes || 0`. */
  function MinutesOf(s: ReadingSession): real { s.durationMinutes }

  /** The sessions dated on one of `days`. */
  function DatedIn(days: seq<Day>): ReadingSession -> bool {
    (s: ReadingSession) => s.date in days
  }

  /** The sessions dated within `[start, end]`. */
  function DatedBetween(start: Day, end: Day): ReadingSession -> bool {
    (s: ReadingSession) => start <= s.date <= end
  }

  /** `daySessions.reduce((sum, s) => sum + f(s), 0)` as a function of the day. */
  function PerDay(sessions: seq<ReadingSession>, f: ReadingSession -> real): Day -> real {
    (d: Day) => Sum(SessionsOn(sessions, d), f)
  }

  /** `sessionCount += daySessions.length` over a list of days. */
  function SessionCount(sessions: seq<ReadingSession>, days: seq<Day>): nat {
    if days == [] then 0 else |SessionsOn(sessions, days[0])| + SessionCount(sessions, days[1..])
  }

  lemma NoneDatedInEmpty(sessions: seq<ReadingSession>)
    ensures Filter(sessions, DatedIn([])) == []
  {
  }

  /** Splitting the days into the first and the rest splits the sessions dated on them. */
  lemma DatedInSplit(sessions: seq<ReadingSession>, days: seq<Day>)
    requires days != [] && Distinct(days)
    ensures forall s :: s in sessions ==>
      (DatedIn(days)(s) <==> DatedOn(days[0])(s) || DatedIn(days[1..])(s)) && !(DatedOn(days[0])(s) && DatedIn(days[1..])(s))
  {
    assert days == [days[0]] + days[1..];
    forall s | s in sessions && DatedIn(days[1..])(s)
      ensures s.date != days[0]
    {
      var k :| 0 <= k < |days[1..]| && days[1..][k] == s.date;
      assert days[k + 1] == s.date;
    }
  }

  /**
   * Walking the days and adding each day's sessions counts every session dated on one of
   * the days exactly once, when no day is listed twice.
   */
  lemma {:induction false} PerDaySum(sessions: seq<ReadingSession>, days: seq<Day>, f: ReadingSession -> real)
    requires Distinct(days)
    ensures Sum(days, PerDay(sessions, f)) == Sum(Filter(sessions, DatedIn(days)), f)
    ensures SessionCount(sessions, days) == |Filter(sessions, DatedIn(days))|
  {
    if days == [] {
      NoneDatedInEmpty(sessions);
    } else {
      PerDaySum(sessions, days[1..], f);
      DatedInSplit(sessions, days);
      SumDisjointFilters(sessions, f, DatedOn(days[0]), DatedIn(days[1..]), DatedIn(days));
      FilterLengthDisjoint(sessions, DatedOn(days[0]), DatedIn(days[1..]), DatedIn(days));
    }
  }

  // ---------------------------------------------------------------------------
  // Today and this week

  datatype WeekStats = WeekStats(pagesTotal: real, sessionMinutes: real, sessionCount: nat, journalDays: nat)

  /**
   * `weekStats` over the last seven days: pages (manual plus sessions), session minutes and
   * count, and the number of days with any of the three journal fields written.
   */
  function WeekStatsOf(metrics: MetricLog, journals: JournalLog, sessions: seq<ReadingSession>, today: Day): (s: WeekStats)
    ensures s.journalDays <= 7
    ensures s.journalDays == 0 <==> forall d :: today - 6 <= d <= today ==> !Written(JournalOn(journals, d))
    ensures s.journalDays == 7 <==> forall d :: today - 6 <= d <= today ==> Written(JournalOn(journals, d))
  {
    var days := Week(today);
    var dry := (d: Day) => !WrittenOn(journals)(d);
    WeekEvery(today, WrittenOn(journals));
    WeekEvery(today, dry);
    assert forall d :: dry(d) == !Written(JournalOn(journals, d));
    WeekStats(
      Sum(days, (d: Day) => TotalPages(metrics, sessions, d)),
      Sum(days, PerDay(sessions, MinutesOf)),
      SessionCount(sessions, days),
      Count(days, WrittenOn(journals)))
  }

  /**
   * The reading-session form's save (`pages && bookId && onSave(...)`): nothing is stored
   * without a page count and a book; otherwise the session is appended with the caller's
   * fresh id and today's date. The form asks for no duration, so the session has none.
   */
  function AddSession(sessions: seq<ReadingSession>, pages: MetricInput.FieldText, bookId: Id, freshId: Id, today: Day)
    : (r: seq<ReadingSession>)
    ensures pages.Blank? || bookId == "" ==> r == sessions
    ensures pages.Numeral? && bookId != "" ==> r == sessions + [ReadingSession(freshId, bookId, today, pages.n, 0.0)]
  {
    if pages.Numeral? && bookId != "" then sessions + [ReadingSession(freshId, bookId, today, pages.n, 0.0)]
    else sessions
  }

  /** A saved session adds its pages to today's session pages and to no other day's. */
  lemma AddSessionPages(sessions: seq<ReadingSession>, pages: MetricInput.FieldText, bookId: Id, freshId: Id, today: Day, d: Day)
    ensures SessionPages(AddSession(sessions, pages, bookId, freshId, today), d)
         == SessionPages(sessions, d) + (if pages.Numeral? && bookId != "" && d == today then pages.n else 0.0)
  {
    if pages.Numeral? && bookId != "" {
      var s := ReadingSession(freshId, bookId, today, pages.n, 0.0);
      FilterSnoc(sessions, s, DatedOn(d));
      SumAppend(SessionsOn(sessions, d), if d == today then [s] else [], SessionPagesOf);
    }
  }

  lemma WeekDistinct(today: Day)
    ensures Distinct(Week(today))
  {
  }

  /** The week's journal days are exactly the days from six days ago to today with a field written. */
  lemma WeekJournalDays(metrics: MetricLog, journals: JournalLog, sessions: seq<ReadingSession>, today: Day)
    ensures WeekStatsOf(metrics, journals, sessions, today).journalDays
         == |DaysWhere(today - 6, today, WrittenOn(journals))|
  {
    WeekCountIsDays(today, WrittenOn(journals));
  }

  /**
   * The week's session minutes and count are those of the sessions dated within the last
   * seven days, each counted once.
   */
  lemma WeekSessions(metrics: MetricLog, journals: JournalLog, sessions: seq<ReadingSession>, today: Day)
    ensures WeekStatsOf(metrics, journals, sessions, today).sessionMinutes
         == Sum(Filter(sessions, DatedBetween(today - 6, today)), MinutesOf)
    ensures WeekStatsOf(metrics, journals, sessions, today).sessionCount
         == |Filter(sessions, DatedBetween(today - 6, today))|
  {
    var days := Week(today);
    WeekDistinct(today);
    PerDaySum(sessions, days, MinutesOf);
    FilterCongruent(sessions, DatedIn(days), DatedBetween(today - 6, today));
  }

  /** The week's pages are the review's total pages over the same seven days. */
  lemma WeekPagesMatchReview(store: Store, today: Day)
    ensures WeekStatsOf(store.metrics, store.journals, store.sessions, today).pagesTotal
         == Review.PagesTotal(store, today - 6, today)
  {
    var days := Week(today);
    var range := DaysFrom(today - 6, today);
    assert forall i :: 0 <= i < 7 ==> days[i] == range[6 - i];
    SumReversed(range, days, Review.PagesOn(store));
    SumCongruent(days, (d: Day) => TotalPages(store.metrics, store.sessions, d), Review.PagesOn(store));
  }

  /**
   * `todayPagesTotal` is manual plus session pages, unlike the today page's `||`; with no
   * negative page counts it is part of the week's total.
   */
  lemma TodayWithinWeek(metrics: MetricLog, journals: JournalLog, sessions: seq<ReadingSession>, today: Day)
    requires forall d :: d in metrics ==> ValueOr0(metrics[d], Pages) >= 0.0
    requires forall s :: s in sessions ==> s.pages >= 0.0
    ensures TotalPages(metrics, sessions, today) <= WeekStatsOf(metrics, journals, sessions, today).pagesTotal
  {
    var days := Week(today);
    var f := (d: Day) => TotalPages(metrics, sessions, d);
    forall d | d in days
      ensures f(d) >= 0.0
    {
      SessionPagesNonNegative(sessions, d);
    }
    assert days == [today] + days[1..];
    SumNonNegative(days[1..], f);
  }

  // ---------------------------------------------------------------------------
  // Library status

  predicate IsHyphen(c: char) { c == '-' }

  /**
   * `normalizeStatus`: an empty status stays empty; otherwise the status is lower-cased and
   * every run of whitespace, then every run of hyphens, becomes one underscore.
   */
  function NormalizeStatus(status: string): (r: string)
    ensures r == [] <==> status == []
    ensures IsWord(r)
    ensures forall i :: 0 <= i < |r| ==> r[i] == '_' || r[i] in ToLower(status)
  {
    if status == [] then []
    else
      var lower := ToLower(status);
      assert forall c :: c in lower ==> !IsUpper(c);
      var spaced := CollapseRuns(lower, IsSpace, '_');
      assert forall c :: c in spaced ==> !IsUpper(c) && !IsSpace(c) && (c == '_' || c in lower);
      CollapseRuns(spaced, IsHyphen, '_')
  }

  /** Lower-casing text without capitals changes nothing. */
  lemma ToLowerOfLower(s: string)
    requires forall i :: 0 <= i < |s| ==> !IsUpper(s[i])
    ensures ToLower(s) == s
  {
  }

  /** Normalising twice is normalising once. */
  lemma NormalizeIdempotent(status: string)
    ensures NormalizeStatus(NormalizeStatus(status)) == NormalizeStatus(status)
  {
    var r := NormalizeStatus(status);
    if r != [] {
      ToLowerOfLower(r);
      assert CollapseRuns(r, IsSpace, '_') == r;
    }
  }

  /** A status already written in the normal form is kept as it is. */
  lemma NormalFormKept(status: string)
    requires IsWord(status)
    ensures NormalizeStatus(status) == status
  {
    if status != [] {
      ToLowerOfLower(status);
    }
  }

  /** A status word: no capitals, white space or hyphens. */
  predicate IsWord(w: string) {
    forall i :: 0 <= i < |w| ==> !IsUpper(w[i]) && !IsSpace(w[i]) && !IsHyphen(w[i])
  }

  lemma JoinedIsWord(a: string, b: string)
    requires IsWord(a) && IsWord(b)
    ensures IsWord(a + "_" + b)
  {
    var joined := a + "_" + b;
    forall i | 0 <= i < |joined|
      ensures !IsUpper(joined[i]) && !IsSpace(joined[i]) && !IsHyphen(joined[i])
    {
      if i > |a| {
        assert joined[i] == b[i - |a| - 1];
      }
    }
  }

  /** Collapsing one separator between two words gives the underscore-joined words. */
  lemma CollapseSeparator(a: string, b: string, sep: char, p: char -> bool)
    requires IsWord(a) && IsWord(b) && p(sep) && !p('_')
    requires forall c :: p(c) ==> IsSpace(c) || IsHyphen(c)
    ensures CollapseRuns(a + [sep] + b, p, '_') == a + "_" + b
  {
    WordHasNoSeparator(a, p);
    WordHasNoSeparator(b, p);
    CollapseRunsSingle(sep, b, p, '_');
    CollapseRunsClean(a, [sep] + b, p, '_');
    Regroup(a, b, sep);
  }

  lemma Regroup(a: string, b: string, sep: char)
    ensures a + [sep] + b == a + ([sep] + b)
    ensures a + "_" + b == a + (['_'] + b)
  {
  }

  lemma WordHasNoSeparator(w: string, p: char -> bool)
    requires IsWord(w) && !p('_')
    requires forall c :: p(c) ==> IsSpace(c) || IsHyphen(c)
    ensures forall i :: 0 <= i < |w| ==> !p(w[i])
    ensures CollapseRuns(w, p, '_') == w
  {
    assert forall i :: 0 <= i < |w| ==> !IsSpace(w[i]) && !IsHyphen(w[i]);
  }

  /**
   * Two words joined by a space or by a hyphen normalise to the two words joined by an
   * underscore: `in progress` and `in-progress` both select the `in_progress` books.
   */
  lemma SeparatorsAgree(a: string, b: string)
    requires IsWord(a) && IsWord(b)
    ensures NormalizeStatus(a + " " + b) == a + "_" + b
    ensures NormalizeStatus(a + "-" + b) == a + "_" + b
  {
    JoinedIsWord(a, b);
    var joined := a + "_" + b;
    assert CollapseRuns(joined, IsHyphen, '_') == joined;
    var spaced := a + " " + b;
    assert forall i :: 0 <= i < |spaced| ==> !IsUpper(spaced[i]);
    ToLowerOfLower(spaced);
    CollapseSeparator(a, b, ' ', IsSpace);
    var hyphened := a + "-" + b;
    assert forall i :: 0 <= i < |hyphened| ==> !IsUpper(hyphened[i]) && !IsSpace(hyphened[i]);
    ToLowerOfLower(hyphened);
    assert CollapseRuns(hyphened, IsSpace, '_') == hyphened;
    CollapseSeparator(a, b, '-', IsHyphen);
  }

  const Book := "book"
  const InProgress := "in_progress"
  const Planned := "planned"

  function IsBookItem(i: LibraryItem): bool { i.itemType == Book }

  function InProgressBook(i: LibraryItem): bool {
    i.itemType == Book && NormalizeStatus(i.status) == InProgress
  }

  function PlannedBook(i: LibraryItem): bool {
    i.itemType == Book && (NormalizeStatus(i.status) == Planned || i.status == [])
  }

  /**
   * `sessionBooks`: the books in progress when there is one, otherwise the planned books
   * and the books with no status; the library's order is kept. (The source filters the
   * books first and then by status, which selects the same items in the same order.)
   */
  function SessionBooks(library: seq<LibraryItem>): (r: seq<LibraryItem>)
    ensures forall i :: i in r ==> i in library && i.itemType == Book
    ensures (exists i :: i in library && InProgressBook(i)) ==> forall i :: i in r <==> i in library && InProgressBook(i)
    ensures (forall i :: i in library ==> !InProgressBook(i)) ==> forall i :: i in r <==> i in library && PlannedBook(i)
  {
    var inProgress := Filter(library, InProgressBook);
    assert |inProgress| > 0 ==> inProgress[0] in inProgress;
    if |inProgress| > 0 then inProgress else Filter(library, PlannedBook)
  }

  // ---------------------------------------------------------------------------
  // Pages input

  /**
   * The pages input's `onChange` on today's record: the sessions view changes nothing,
   * otherwise the manual pages are set by the same rule as the log page's editor. The
   * input then reads back what was typed, in the total view as long as the total covers
   * the day's session pages.
   */
  function OnPagesChange(metrics: MetricLog, view: LogEdit.PagesView, input: Option<real>, sessions: seq<ReadingSession>, today: Day): (r: MetricLog)
    ensures view == LogEdit.SessionsView ==> r == metrics
    ensures view != LogEdit.SessionsView && input.None? ==> Pages in RecordOn(r, today) && RecordOn(r, today)[Pages].None?
    ensures view == LogEdit.ManualView && input.Some?
      ==> Pages in RecordOn(r, today) && LogEdit.PagesShown(view, RecordOn(r, today)[Pages], SessionPages(sessions, today)) == input.value
    ensures view == LogEdit.TotalView && input.Some? && input.value >= SessionPages(sessions, today) >= 0.0
      ==> Pages in RecordOn(r, today) && LogEdit.PagesShown(view, RecordOn(r, today)[Pages], SessionPages(sessions, today)) == input.value
    ensures forall k :: k != Pages ==> (k in RecordOn(r, today) <==> k in RecordOn(metrics, today))
    ensures forall k :: k != Pages && k in RecordOn(r, today) ==> RecordOn(r, today)[k] == RecordOn(metrics, today)[k]
    ensures forall d :: d != today ==> RecordOn(r, d) == RecordOn(metrics, d)
  {
    var sessionPages := SessionPages(sessions, today);
    var e := LogEdit.PagesEdit(view, input, sessionPages);
    if e.None? then metrics
    else SetField(metrics, today, Pages, e.value)
  }
}

=== FILE: money.dfy ===
/**
 * The money page (src/pages/MoneyPage.jsx): the months that can be picked, a month's
 * income, expenses, savings rate and category breakdowns, the twelve-month view of the
 * current year, the month's transaction list, and adding, editing and deleting
 * transactions. Months are `12 * year + (month - 1)` numbers from a month calendar; a
 * `YYYY-MM` prefix test is a comparison of those numbers.
 */
module Money {
  import opened Wrappers
  import opened Numeric
  import opened Folds
  import opened Calendar
  import opened Records
  import opened Orders
  import Collections
  import MetricInput

  // ---------------------------------------------------------------------------
  // Months

  /** `t.date?.startsWith(selectedMonth)`. */
  function InMonth(cal: MonthCalendar, month: int): Transaction -> bool {
    (t: Transaction) => cal.monthOf(t.date) == month
  }

  /**
   * `availableMonths`: the current month and every month with a transaction, each once,
   * latest first.
   */
  function AvailableMonths(cal: MonthCalendar, txs: seq<Transaction>, today: Day): (r: seq<int>)
    ensures cal.monthOf(today) in r
    ensures forall t :: t in txs ==> cal.monthOf(t.date) in r
    ensures forall m :: m in r ==> m == cal.monthOf(today) || exists t :: t in txs && cal.monthOf(t.date) == m
    ensures StrictlyDescending(r)
  {
    SortedDesc({cal.monthOf(today)} + set t | t in txs :: cal.monthOf(t.date))
  }

  // ---------------------------------------------------------------------------
  // Category breakdown

  /** `t.type === kind`. */
  function OfKind(kind: TxKind): Transaction -> bool {
    (t: Transaction) => t.kind == kind
  }

  /** The total amount of the transactions of one type. */
  function KindTotal(txs: seq<Transaction>, kind: TxKind): real {
    Sum(Filter(txs, OfKind(kind)), AmountOf)
  }

  /** `t.category || 'Other'`. */
  function CategoryOf(t: Transaction): string {
    if t.category == "" then "Other" else t.category
  }

  function InCategory(name: string): Transaction -> bool {
    (t: Transaction) => CategoryOf(t) == name
  }

  /** One `[category, total]` entry of a breakdown. */
  datatype CategoryTotal = CategoryTotal(name: string, total: real)

  function NameOf(e: CategoryTotal): string { e.name }
  function TotalOf(e: CategoryTotal): real { e.total }

  predicate HasName(es: seq<CategoryTotal>, name: string) {
    exists e :: e in es && e.name == name
  }

  /** `breakdown[name] || 0`. */
  function Lookup(es: seq<CategoryTotal>, name: string): real {
    if es == [] then 0.0
    else if es[0].name == name then es[0].total
    else Lookup(es[1..], name)
  }

  /**
   * `breakdown[cat] = (breakdown[cat] || 0) + amount`: adds to the entry of `name`, or
   * appends a new entry at the end, which is where a new key goes in insertion order.
   */
  function AddTo(es: seq<CategoryTotal>, name: string, amount: real): (r: seq<CategoryTotal>)
    ensures |r| == |es| || |r| == |es| + 1
  {
    if es == [] then [CategoryTotal(name, amount)]
    else if es[0].name == name then [CategoryTotal(name, es[0].total + amount)] + es[1..]
    else [es[0]] + AddTo(es[1..], name, amount)
  }

  /** Past the first entry of a breakdown with distinct names, no entry shares its name. */
  lemma DistinctHead(es: seq<CategoryTotal>)
    requires DistinctBy(es, NameOf) && es != []
    ensures DistinctBy(es[1..], NameOf)
    ensures forall z :: z in es[1..] ==> z.name != es[0].name
  {
    forall z | z in es[1..]
      ensures z.name != es[0].name
    {
      var k :| 0 <= k < |es| - 1 && es[1..][k] == z;
      assert es[k + 1] == z;
    }
  }

  /** Adding to a breakdown keeps every entry of another name and adds only the given name. */
  lemma {:induction false} AddToNames(es: seq<CategoryTotal>, name: string, amount: real)
    ensures forall e :: e in AddTo(es, name, amount) ==> e in es || e.name == name
    ensures forall e :: e in es && e.name != name ==> e in AddTo(es, name, amount)
    ensures forall m :: HasName(AddTo(es, name, amount), m) <==> HasName(es, m) || m == name
  {
    var r := AddTo(es, name, amount);
    if es == [] {
      assert r[0] in r;
    } else if es[0].name == name {
      assert r[0] in r && r[0].name == name;
      assert forall e :: e in r <==> e == r[0] || e in es[1..];
      assert forall e :: e in es <==> e == es[0] || e in es[1..];
    } else {
      AddToNames(es[1..], name, amount);
      assert forall e :: e in r <==> e == es[0] || e in AddTo(es[1..], name, amount);
      assert forall e :: e in es <==> e == es[0] || e in es[1..];
      assert HasName(AddTo(es[1..], name, amount), name);
      var e :| e in AddTo(es[1..], name, amount) && e.name == name;
      assert e in r;
    }
    forall m
      ensures HasName(r, m) <==> HasName(es, m) || m == name
    {
      if HasName(es, m) && m != name {
        var e :| e in es && e.name == m;
        assert e in r;
      }
    }
  }

  /** Adding to a breakdown whose names are distinct keeps them distinct. */
  lemma {:induction false} AddToDistinct(es: seq<CategoryTotal>, name: string, amount: real)
    requires DistinctBy(es, NameOf)
    ensures DistinctBy(AddTo(es, name, amount), NameOf)
  {
    if es != [] {
      var tail := es[1..];
      DistinctHead(es);
      if es[0].name == name {
        PrependDistinct(CategoryTotal(name, es[0].total + amount), tail, NameOf);
      } else {
        AddToDistinct(tail, name, amount);
        AddToNames(tail, name, amount);
        PrependDistinct(es[0], AddTo(tail, name, amount), NameOf);
      }
    }
  }

  /** Adding to a breakdown changes what the added name looks up, by the amount, and nothing else. */
  lemma {:induction false} AddToLookup(es: seq<CategoryTotal>, name: string, amount: real)
    ensures forall m :: Lookup(AddTo(es, name, amount), m) == Lookup(es, m) + (if m == name then amount else 0.0)
  {
    if es != [] && es[0].name != name {
      AddToLookup(es[1..], name, amount);
    }
  }

  /** Adding to a breakdown adds the amount to the sum of its totals. */
  lemma {:induction false} AddToSum(es: seq<CategoryTotal>, name: string, amount: real)
    ensures Sum(AddTo(es, name, amount), TotalOf) == Sum(es, TotalOf) + amount
  {
    var r := AddTo(es, name, amount);
    if es == [] {
      assert r[1..] == [];
    } else if es[0].name == name {
      assert r[1..] == es[1..];
    } else {
      AddToSum(es[1..], name, amount);
      assert r[1..] == AddTo(es[1..], name, amount);
    }
  }

  /** In a breakdown with distinct names, an entry's total is what its name looks up. */
  lemma {:induction false} LookupMember(es: seq<CategoryTotal>, e: CategoryTotal)
    requires DistinctBy(es, NameOf) && e in es
    ensures Lookup(es, e.name) == e.total
  {
    if es[0] != e {
      var k :| 0 <= k < |es| && es[k] == e;
      assert k > 0;
      assert es[0].name != e.name;
      assert es[1..][k - 1] == e;
      assert DistinctBy(es[1..], NameOf);
      LookupMember(es[1..], e);
    }
  }

  /** The `forEach` over the transactions, in order: each one adds to its category. */
  function Breakdown(txs: seq<Transaction>): seq<CategoryTotal>
    decreases |txs|
  {
    if txs == [] then []
    else
      var last := txs[|txs| - 1];
      AddTo(Breakdown(txs[..|txs| - 1]), CategoryOf(last), last.amount)
  }

  /**
   * The breakdown has one entry per category that occurs, each holding the total of that
   * category's transactions, and the entries add up to the total of all of them.
   */
  lemma {:induction false} BreakdownFacts(txs: seq<Transaction>)
    ensures DistinctBy(Breakdown(txs), NameOf)
    ensures forall m :: Lookup(Breakdown(txs), m) == Sum(Filter(txs, InCategory(m)), AmountOf)
    ensures forall m :: HasName(Breakdown(txs), m) <==> exists t :: t in txs && CategoryOf(t) == m
    ensures Sum(Breakdown(txs), TotalOf) == Sum(txs, AmountOf)
  {
    if txs == [] {
      forall m
        ensures Lookup(Breakdown(txs), m) == Sum(Filter(txs, InCategory(m)), AmountOf)
      {
      }
    } else {
      var init := txs[..|txs| - 1];
      var last := txs[|txs| - 1];
      assert txs == init + [last];
      BreakdownFacts(init);
      var b := Breakdown(init);
      AddToDistinct(b, CategoryOf(last), last.amount);
      AddToLookup(b, CategoryOf(last), last.amount);
      AddToNames(b, CategoryOf(last), last.amount);
      AddToSum(b, CategoryOf(last), last.amount);
      SumAppend(init, [last], AmountOf);
      assert Sum([last], AmountOf) == last.amount;
      forall m
        ensures Lookup(Breakdown(txs), m) == Sum(Filter(txs, InCategory(m)), AmountOf)
      {
        FilterAppend(init, [last], InCategory(m));
        SumAppend(Filter(init, InCategory(m)), Filter([last], InCategory(m)), AmountOf);
        assert Filter([last], InCategory(m)) == if CategoryOf(last) == m then [last] else [];
      }
      forall m
        ensures HasName(Breakdown(txs), m) <==> exists t :: t in txs && CategoryOf(t) == m
      {
        if exists t :: t in txs && CategoryOf(t) == m {
          var t :| t in txs && CategoryOf(t) == m;
          if t != last {
            assert t in init;
          }
        }
      }
    }
  }

  /**
   * `Object.entries(breakdown).sort((a, b) => b[1] - a[1])`: the categories of the given
   * transactions, largest total first, each once with its total; together they add up to
   * the total of the transactions.
   */
  function SortedCategories(txs: seq<Transaction>): (r: seq<CategoryTotal>)
    ensures DescendingBy(r, TotalOf)
    ensures DistinctBy(r, NameOf)
    ensures forall e :: e in r ==> e.total == Sum(Filter(txs, InCategory(e.name)), AmountOf)
    ensures forall t :: t in txs ==> exists e :: e in r && e.name == CategoryOf(t)
    ensures forall e :: e in r ==> exists t :: t in txs && CategoryOf(t) == e.name
    ensures Sum(r, TotalOf) == Sum(txs, AmountOf)
  {
    var b := Breakdown(txs);
    BreakdownFacts(txs);
    SortDescByDistinct(b, TotalOf, NameOf);
    SumSortDescBy(b, TotalOf, TotalOf);
    var r := SortDescBy(b, TotalOf);
    assert forall e :: e in r <==> e in b by {
      forall e
        ensures e in r <==> e in b
      {
        assert e in r <==> e in multiset(r);
        assert e in b <==> e in multiset(b);
      }
    }
    forall e | e in b
      ensures e.total == Sum(Filter(txs, InCategory(e.name)), AmountOf)
      ensures HasName(b, e.name)
    {
      LookupMember(b, e);
    }
    forall t | t in txs
      ensures exists e :: e in r && e.name == CategoryOf(t)
    {
      assert HasName(b, CategoryOf(t));
      var e :| e in b && e.name == CategoryOf(t);
      assert e in r;
    }
    r
  }

  // ---------------------------------------------------------------------------
  // A month

  datatype MonthStats = MonthStats(
    income: real,
    expenses: real,
    net: real,
    savingsRate: int,
    categories: seq<CategoryTotal>,
    incomeCategories: seq<CategoryTotal>,
    transactionCount: nat)

  /** The kept share of the income in percent, before `toFixed(0)`. */
  function KeptShare(income: real, expenses: real): real
    requires income > 0.0
  {
    (income - expenses) / income * 100.0
  }

  lemma KeptShareBounds(income: real, expenses: real)
    requires income > 0.0
    ensures expenses >= 0.0 ==> KeptShare(income, expenses) <= 100.0
    ensures expenses <= income ==> KeptShare(income, expenses) >= 0.0
    ensures expenses == 0.0 ==> KeptShare(income, expenses) == 100.0
    ensures expenses == income ==> KeptShare(income, expenses) == 0.0
  {
    SelfDivision(income);
    if expenses >= 0.0 {
      DivMonotone(income - expenses, income, income);
    }
  }

  /** The rounded share brackets the kept amount: within half a percent of the income. */
  lemma KeptShareBracket(income: real, expenses: real, r: int)
    requires income > 0.0 && r == ToFixed0(KeptShare(income, expenses))
    ensures (r as real - 0.5) * income <= (income - expenses) * 100.0 <= (r as real + 0.5) * income
    ensures expenses <= income ==> (income - expenses) * 100.0 < (r as real + 0.5) * income
    ensures expenses >= income ==> (r as real - 0.5) * income < (income - expenses) * 100.0
  {
    var x := KeptShare(income, expenses);
    assert x == (income - expenses) * 100.0 / income;
    if expenses <= income {
      assert x >= 0.0 by {
        KeptShareBounds(income, expenses);
      }
    }
    if expenses >= income {
      assert x <= 0.0;
    }
    QuotientBracket(x, (income - expenses) * 100.0, income, r as real - 0.5, r as real + 0.5);
  }

  /**
   * `savingsRate`: the share of the income kept, as `toFixed(0)`; 0 without income. The
   * rate is the whole percentage within half a percent of the kept share, a half rounded
   * away from zero.
   */
  function SavingsRate(income: real, expenses: real): (rate: int)
    ensures income <= 0.0 ==> rate == 0
    ensures income > 0.0 && expenses >= 0.0 ==> rate <= 100
    ensures income > 0.0 && expenses <= income ==> rate >= 0
    ensures income > 0.0 && expenses == 0.0 ==> rate == 100
    ensures income > 0.0 && expenses == income ==> rate == 0
    ensures income > 0.0 ==> (rate as real - 0.5) * income <= (income - expenses) * 100.0 <= (rate as real + 0.5) * income
    ensures income > 0.0 && expenses <= income ==> (income - expenses) * 100.0 < (rate as real + 0.5) * income
    ensures income > 0.0 && expenses >= income ==> (rate as real - 0.5) * income < (income - expenses) * 100.0
  {
    if income > 0.0 then
      var r := ToFixed0(KeptShare(income, expenses));
      KeptShareBounds(income, expenses);
      KeptShareBracket(income, expenses, r);
      r
    else 0
  }

  /** Spending more out of the same income never raises the savings rate. */
  lemma SavingsRateAntitone(income: real, expenses: real, more: real)
    requires expenses <= more
    ensures SavingsRate(income, more) <= SavingsRate(income, expenses)
  {
    if income > 0.0 {
      DivMonotone(income - more, income - expenses, income);
      ToFixed0Monotone(KeptShare(income, more), KeptShare(income, expenses));
    }
  }

  /**
   * The month's total of one type: the transactions dated in the month whose type is
   * exactly `kind`, filtered by month and then by type as the page does.
   */
  function MonthTotal(cal: MonthCalendar, txs: seq<Transaction>, month: int, kind: TxKind): (total: real)
    ensures total == Sum(Filter(txs, KindInMonth(cal, month, kind)), AmountOf)
  {
    FilterFilter(txs, InMonth(cal, month), OfKind(kind), KindInMonth(cal, month, kind));
    KindTotal(Filter(txs, InMonth(cal, month)), kind)
  }

  function KindCategory(kind: TxKind, name: string): Transaction -> bool {
    (t: Transaction) => t.kind == kind && CategoryOf(t) == name
  }

  /** A transaction of the month of one type in the named category. */
  function KindIn(cal: MonthCalendar, month: int, kind: TxKind, name: string): Transaction -> bool {
    (t: Transaction) => cal.monthOf(t.date) == month && t.kind == kind && CategoryOf(t) == name
  }

  /**
   * The month's category breakdown for one type, largest first: one entry per category of
   * the month's transactions of that type, each holding that category's total, together
   * adding up to the month's total of the type.
   */
  function MonthCategories(cal: MonthCalendar, txs: seq<Transaction>, month: int, kind: TxKind): (cats: seq<CategoryTotal>)
    ensures DescendingBy(cats, TotalOf) && DistinctBy(cats, NameOf)
    ensures Sum(cats, TotalOf) == MonthTotal(cal, txs, month, kind)
    ensures forall e :: e in cats ==> e.total == Sum(Filter(txs, KindIn(cal, month, kind, e.name)), AmountOf)
    ensures forall t :: (t in txs && cal.monthOf(t.date) == month && t.kind == kind
      ==> exists e :: e in cats && e.name == CategoryOf(t))
  {
    var monthTx := Filter(txs, InMonth(cal, month));
    var cats := SortedCategories(Filter(monthTx, OfKind(kind)));
    forall e | e in cats
      ensures e.total == Sum(Filter(txs, KindIn(cal, month, kind, e.name)), AmountOf)
    {
      FilterFilter(monthTx, OfKind(kind), InCategory(e.name), KindCategory(kind, e.name));
      FilterFilter(txs, InMonth(cal, month), KindCategory(kind, e.name), KindIn(cal, month, kind, e.name));
    }
    cats
  }

  /**
   * `monthlyStats` for one month: only `income` and `expense` transactions count (any
   * other type is in neither figure), the category breakdowns are those of the month's
   * expenses and income, and each breakdown adds up to its figure.
   */
  function MonthStatsOf(cal: MonthCalendar, txs: seq<Transaction>, month: int): (s: MonthStats)
    ensures s.income == Sum(Filter(txs, KindInMonth(cal, month, Income)), AmountOf)
    ensures s.expenses == Sum(Filter(txs, KindInMonth(cal, month, Expense)), AmountOf)
    ensures s.net == s.income - s.expenses
    ensures Sum(s.categories, TotalOf) == s.expenses
    ensures Sum(s.incomeCategories, TotalOf) == s.income
    ensures DescendingBy(s.categories, TotalOf) && DescendingBy(s.incomeCategories, TotalOf)
    ensures forall e :: e in s.categories ==> e.total == Sum(Filter(txs, KindIn(cal, month, Expense, e.name)), AmountOf)
    ensures s.transactionCount == Count(txs, InMonth(cal, month))
  {
    var income := MonthTotal(cal, txs, month, Income);
    var expenses := MonthTotal(cal, txs, month, Expense);
    CountIsFilterLength(txs, InMonth(cal, month));
    MonthStats(
      income,
      expenses,
      income - expenses,
      SavingsRate(income, expenses),
      MonthCategories(cal, txs, month, Expense),
      MonthCategories(cal, txs, month, Income),
      |Filter(txs, InMonth(cal, month))|)
  }

  /**
   * Adding a transaction changes only its own month, and there only the figure of its
   * type: an `income` adds to the income, an `expense` to the expenses, any other type to
   * neither; the month's count goes up by one.
   */
  lemma AddChangesItsMonth(cal: MonthCalendar, txs: seq<Transaction>, t: Transaction, month: int)
    ensures var before := MonthStatsOf(cal, txs, month);
            var after := MonthStatsOf(cal, txs + [t], month);
            && after.income == before.income + (if cal.monthOf(t.date) == month && t.kind == Income then t.amount else 0.0)
            && after.expenses == before.expenses + (if cal.monthOf(t.date) == month && t.kind == Expense then t.amount else 0.0)
            && after.transactionCount == before.transactionCount + (if cal.monthOf(t.date) == month then 1 else 0)
  {
    var inc := KindInMonth(cal, month, Income);
    var exp := KindInMonth(cal, month, Expense);
    FilterAppend(txs, [t], inc);
    FilterAppend(txs, [t], exp);
    SumAppend(Filter(txs, inc), Filter([t], inc), AmountOf);
    SumAppend(Filter(txs, exp), Filter([t], exp), AmountOf);
    assert Filter([t], inc) == if inc(t) then [t] else [];
    assert Filter([t], exp) == if exp(t) then [t] else [];
    CountAppend(txs, [t], InMonth(cal, month));
  }

  /**
   * The month's transaction list: the month's transactions, latest date first (ISO dates
   * compare like the days they name), ties in their stored order.
   */
  function MonthList(cal: MonthCalendar, txs: seq<Transaction>, month: int): (r: seq<Transaction>)
    ensures DescendingBy(r, DateKey)
    ensures multiset(r) == multiset(Filter(txs, InMonth(cal, month)))
    ensures forall t :: t in r <==> t in txs && cal.monthOf(t.date) == month
    ensures forall k :: Filter(r, KeyIs(DateKey, k)) == Filter(Filter(txs, InMonth(cal, month)), KeyIs(DateKey, k))
  {
    var m := Filter(txs, InMonth(cal, month));
    var r := SortDescBy(m, DateKey);
    assert forall t :: t in r <==> t in m by {
      forall t
        ensures t in r <==> t in m
      {
        assert t in r <==> t in multiset(r);
        assert t in m <==> t in multiset(m);
      }
    }
    r
  }

  function DateKey(t: Transaction): real { t.date as real }

  // ---------------------------------------------------------------------------
  // The year

  /** `t.date?.startsWith(String(currentYear))`. */
  function InYear(cal: MonthCalendar, year: int): Transaction -> bool {
    (t: Transaction) => Year(cal, t.date) == year
  }

  /** One bar of the yearly chart. */
  datatype MonthRow = MonthRow(monthKey: int, income: real, expenses: real, net: real)

  function RowIncome(r: MonthRow): real { r.income }
  function RowExpenses(r: MonthRow): real { r.expenses }

  datatype YearStats = YearStats(
    months: seq<MonthRow>,
    totalIncome: real,
    totalExpenses: real,
    totalNet: real,
    avgMonthlyIncome: real,
    avgMonthlyExpenses: real)

  /** The year's transactions of one type in one month, as a function of the month. */
  function MonthKindTotal(cal: MonthCalendar, txs: seq<Transaction>, kind: TxKind): int -> real {
    (k: int) => MonthTotal(cal, txs, k, kind)
  }

  function RowOf(cal: MonthCalendar, yearTx: seq<Transaction>, k: int): MonthRow {
    var income := MonthTotal(cal, yearTx, k, Income);
    var expenses := MonthTotal(cal, yearTx, k, Expense);
    MonthRow(k, income, expenses, income - expenses)
  }

  /** The twelve rows of a year, January first. */
  function YearRows(cal: MonthCalendar, yearTx: seq<Transaction>, year: int): (rows: seq<MonthRow>)
    ensures |rows| == 12
    ensures forall i :: 0 <= i < 12 ==> rows[i] == RowOf(cal, yearTx, 12 * year + i)
  {
    seq(12, (i: int) => RowOf(cal, yearTx, 12 * year + i))
  }

  /** `yearlyStats` for the given year: twelve months, January first. */
  function YearStatsOf(cal: MonthCalendar, txs: seq<Transaction>, year: int): (s: YearStats)
    ensures |s.months| == 12
    ensures forall i :: 0 <= i < 12 ==> s.months[i].monthKey == 12 * year + i
    ensures s.totalNet == s.totalIncome - s.totalExpenses
    ensures s.avgMonthlyIncome * 12.0 == s.totalIncome && s.avgMonthlyExpenses * 12.0 == s.totalExpenses
  {
    var yearTx := Filter(txs, InYear(cal, year));
    var income := KindTotal(yearTx, Income);
    var expenses := KindTotal(yearTx, Expense);
    YearStats(
      YearRows(cal, yearTx, year),
      income,
      expenses,
      income - expenses,
      income / 12.0,
      expenses / 12.0)
  }

  /** The transactions of one type dated in one of the listed months. */
  function KindInMonths(cal: MonthCalendar, months: seq<int>, kind: TxKind): Transaction -> bool {
    (t: Transaction) => cal.monthOf(t.date) in months && t.kind == kind
  }

  function KindInMonth(cal: MonthCalendar, k: int, kind: TxKind): Transaction -> bool {
    (t: Transaction) => cal.monthOf(t.date) == k && t.kind == kind
  }

  /** Adding up month by month counts each transaction of a listed month once. */
  lemma {:induction false} MonthsSplit(cal: MonthCalendar, txs: seq<Transaction>, months: seq<int>, kind: TxKind)
    requires Distinct(months)
    ensures Sum(months, MonthKindTotal(cal, txs, kind)) == Sum(Filter(txs, KindInMonths(cal, months, kind)), AmountOf)
  {
    if months == [] {
      FilterNone(txs, KindInMonths(cal, months, kind));
    } else {
      var k := months[0];
      var rest := months[1..];
      assert months == [k] + rest;
      MonthsSplit(cal, txs, rest, kind);
      forall t | t in txs
        ensures (KindInMonths(cal, months, kind)(t) <==> KindInMonth(cal, k, kind)(t) || KindInMonths(cal, rest, kind)(t))
        ensures !(KindInMonth(cal, k, kind)(t) && KindInMonths(cal, rest, kind)(t))
      {
        if cal.monthOf(t.date) in rest {
          var j :| 0 <= j < |rest| && rest[j] == cal.monthOf(t.date);
          assert months[j + 1] != months[0];
        }
      }
      SumDisjointFilters(txs, AmountOf, KindInMonth(cal, k, kind), KindInMonths(cal, rest, kind), KindInMonths(cal, months, kind));
    }
  }

  /** A month number lies in its year's twelve months. */
  lemma MonthOfYear(m: int, year: int)
    requires m / 12 == year
    ensures 12 * year <= m <= 12 * year + 11
  {
  }

  /** The `i`-th month of a year belongs to that year. */
  lemma MonthKeyYear(year: int, i: int)
    requires 0 <= i < 12
    ensures (12 * year + i) / 12 == year
  {
  }

  /** The twelve month numbers of a year, January first. */
  function YearKeys(year: int): (keys: seq<int>)
    ensures |keys| == 12
    ensures forall i :: 0 <= i < 12 ==> keys[i] == 12 * year + i
  {
    seq(12, (i: int) => 12 * year + i)
  }

  /** The year's twelve months of one type add up to the year's total of that type. */
  lemma RowsAddUp(cal: MonthCalendar, txs: seq<Transaction>, year: int, kind: TxKind)
    ensures Sum(YearKeys(year), MonthKindTotal(cal, Filter(txs, InYear(cal, year)), kind))
         == KindTotal(Filter(txs, InYear(cal, year)), kind)
  {
    var yearTx := Filter(txs, InYear(cal, year));
    var keys := YearKeys(year);
    MonthsSplit(cal, yearTx, keys, kind);
    forall t | t in yearTx
      ensures KindInMonths(cal, keys, kind)(t) == OfKind(kind)(t)
    {
      var m := cal.monthOf(t.date);
      MonthOfYear(m, year);
      assert keys[m - 12 * year] == m;
    }
    FilterCongruent(yearTx, KindInMonths(cal, keys, kind), OfKind(kind));
  }

  /** The rows of a year are its months' totals, month by month. */
  lemma RowsAreMonths(cal: MonthCalendar, yearTx: seq<Transaction>, year: int)
    ensures Sum(YearRows(cal, yearTx, year), RowIncome) == Sum(YearKeys(year), MonthKindTotal(cal, yearTx, Income))
    ensures Sum(YearRows(cal, yearTx, year), RowExpenses) == Sum(YearKeys(year), MonthKindTotal(cal, yearTx, Expense))
  {
    var rows := YearRows(cal, yearTx, year);
    var keys := YearKeys(year);
    forall i | 0 <= i < 12
      ensures RowIncome(rows[i]) == MonthKindTotal(cal, yearTx, Income)(keys[i])
      ensures RowExpenses(rows[i]) == MonthKindTotal(cal, yearTx, Expense)(keys[i])
    {
      assert rows[i] == RowOf(cal, yearTx, keys[i]);
    }
    SumPointwise(rows, RowIncome, keys, MonthKindTotal(cal, yearTx, Income));
    SumPointwise(rows, RowExpenses, keys, MonthKindTotal(cal, yearTx, Expense));
  }

  lemma YearParts(cal: MonthCalendar, txs: seq<Transaction>, year: int)
    ensures YearStatsOf(cal, txs, year).months == YearRows(cal, Filter(txs, InYear(cal, year)), year)
    ensures YearStatsOf(cal, txs, year).totalIncome == KindTotal(Filter(txs, InYear(cal, year)), Income)
    ensures YearStatsOf(cal, txs, year).totalExpenses == KindTotal(Filter(txs, InYear(cal, year)), Expense)
  {
  }

  /** The twelve months' income and expenses add up to the year's totals. */
  lemma YearAddsUp(cal: MonthCalendar, txs: seq<Transaction>, year: int)
    ensures Sum(YearStatsOf(cal, txs, year).months, RowIncome) == YearStatsOf(cal, txs, year).totalIncome
    ensures Sum(YearStatsOf(cal, txs, year).months, RowExpenses) == YearStatsOf(cal, txs, year).totalExpenses
  {
    YearParts(cal, txs, year);
    RowsAreMonths(cal, Filter(txs, InYear(cal, year)), year);
    RowsAddUp(cal, txs, year, Income);
    RowsAddUp(cal, txs, year, Expense);
  }

  /** A year's bars hold its months' totals of the year's transactions. */
  lemma YearRowTotals(cal: MonthCalendar, txs: seq<Transaction>, year: int, i: int)
    requires 0 <= i < 12
    ensures YearStatsOf(cal, txs, year).months[i].income == MonthTotal(cal, Filter(txs, InYear(cal, year)), 12 * year + i, Income)
    ensures YearStatsOf(cal, txs, year).months[i].expenses == MonthTotal(cal, Filter(txs, InYear(cal, year)), 12 * year + i, Expense)
  {
    YearParts(cal, txs, year);
  }

  /** Narrowing to the year first does not change a month of that year. */
  lemma YearThenMonth(cal: MonthCalendar, txs: seq<Transaction>, year: int, i: int, kind: TxKind)
    requires 0 <= i < 12
    ensures Filter(Filter(txs, InYear(cal, year)), KindInMonth(cal, 12 * year + i, kind))
         == Filter(txs, KindInMonth(cal, 12 * year + i, kind))
  {
    MonthKeyYear(year, i);
    FilterFilter(txs, InYear(cal, year), KindInMonth(cal, 12 * year + i, kind), KindInMonth(cal, 12 * year + i, kind));
  }

  /** The yearly chart's bar for a month shows the same figures as that month's view. */
  lemma YearRowIsMonth(cal: MonthCalendar, txs: seq<Transaction>, year: int, i: int)
    requires 0 <= i < 12
    ensures YearStatsOf(cal, txs, year).months[i].income == MonthStatsOf(cal, txs, 12 * year + i).income
    ensures YearStatsOf(cal, txs, year).months[i].expenses == MonthStatsOf(cal, txs, 12 * year + i).expenses
  {
    YearRowTotals(cal, txs, year, i);
    YearThenMonth(cal, txs, year, i, Income);
    YearThenMonth(cal, txs, year, i, Expense);
  }

  // ---------------------------------------------------------------------------
  // Adding, editing and deleting

  function IdOf(t: Transaction): Id { t.id }

  /** `t => t.id !== id`. */
  function NotId(id: Id): Transaction -> bool { (t: Transaction) => t.id != id }

  /** What the transaction form returns; an empty date is `None`. */
  datatype TxForm = TxForm(date: Option<Day>, amount: real, kind: TxKind, category: string)

  /** Adding a transaction: a new id from the caller, and today's date when none was picked. */
  function AddTransaction(txs: seq<Transaction>, form: TxForm, id: Id, today: Day): (r: seq<Transaction>)
    ensures |r| == |txs| + 1 && r[..|txs|] == txs
    ensures r[|txs|].id == id && r[|txs|].amount == form.amount && r[|txs|].kind == form.kind
    ensures r[|txs|].date == if form.date.Some? then form.date.value else today
  {
    Collections.Add(txs, Transaction(id, form.date.GetOr(today), form.amount, form.kind, form.category))
  }

  /** `{ ...tx, ...t }` with the edited fields of the form; the id is kept. */
  function Merge(form: Transaction): Transaction -> Transaction {
    (tx: Transaction) => Transaction(tx.id, form.date, form.amount, form.kind, form.category)
  }

  /** Editing: the form's fields replace those of the transaction with the id, and only of it. */
  function EditTransaction(txs: seq<Transaction>, id: Id, form: Transaction): (r: seq<Transaction>)
    ensures |r| == |txs|
    ensures forall i :: 0 <= i < |txs| && txs[i].id != id ==> r[i] == txs[i]
    ensures forall i :: (0 <= i < |txs| && txs[i].id == id
      ==> r[i] == Transaction(id, form.date, form.amount, form.kind, form.category))
  {
    Collections.EditById(txs, IdOf, id, Merge(form))
  }

  /** Deleting: every transaction with the id goes, the others stay in order. */
  function DeleteTransaction(txs: seq<Transaction>, id: Id): (r: seq<Transaction>)
    ensures forall t :: t in r <==> t in txs && t.id != id
    ensures |r| <= |txs|
    ensures r == Filter(txs, NotId(id))
  {
    forall x | x in txs
      ensures Collections.OtherId(IdOf, id)(x) == NotId(id)(x)
    {
      assert IdOf(x) == x.id;
    }
    FilterCongruent(txs, Collections.OtherId(IdOf, id), NotId(id));
    Collections.DeleteById(txs, IdOf, id)
  }

  /** A transaction added with a fresh id is removed again by deleting that id. */
  lemma DeleteUndoesAdd(txs: seq<Transaction>, form: TxForm, id: Id, today: Day)
    requires forall t :: t in txs ==> t.id != id
    ensures DeleteTransaction(AddTransaction(txs, form, id, today), id) == txs
  {
    Collections.DeleteAfterAdd(txs, IdOf, Transaction(id, form.date.GetOr(today), form.amount, form.kind, form.category));
  }

  /**
   * The transaction form's save (`amount && onSave(...)`): nothing is handed over while the
   * amount box is empty; a typed amount, 0 included, is handed over with the kind, the
   * category and the date box, which is `None` once cleared.
   */
  function SubmitTransaction(amount: MetricInput.FieldText, kind: TxKind, category: string, date: Option<Day>): (r: Option<TxForm>)
    ensures r.None? <==> amount.Blank?
    ensures r.Some? ==> r.value.amount == amount.n && r.value.kind == kind
    ensures r.Some? ==> r.value.category == category && r.value.date == date
  {
    match amount
    case Blank => None
    case Numeral(n) => Some(TxForm(date, n, kind, category))
  }

  /** `initial?.amount || ''`: the edit form shows the stored amount, but a 0 as an empty box. */
  function InitialAmount(t: Transaction): MetricInput.FieldText {
    if t.amount == 0.0 then MetricInput.Blank else MetricInput.Numeral(t.amount)
  }

  /** `initial?.type || 'expense'`: an empty type starts as an expense. */
  function InitialKind(t: Transaction): TxKind {
    if t.kind == OtherKind("") then Expense else t.kind
  }

  /**
   * Saving the edit form untouched hands back the transaction's own fields, except that a
   * transaction of amount 0 opens with an empty box, so its save does nothing.
   */
  lemma UntouchedEditRoundTrip(t: Transaction)
    ensures t.amount == 0.0 ==> SubmitTransaction(InitialAmount(t), InitialKind(t), t.category, Some(t.date)).None?
    ensures t.amount != 0.0 && t.kind != OtherKind("")
      ==> (SubmitTransaction(InitialAmount(t), InitialKind(t), t.category, Some(t.date))
           == Some(TxForm(Some(t.date), t.amount, t.kind, t.category)))
  {
  }

  /** A submitted amount is added as one new transaction, dated the chosen day or today. */
  lemma SubmitThenAdd(txs: seq<Transaction>, amount: MetricInput.FieldText, kind: TxKind, category: string,
                      date: Option<Day>, id: Id, today: Day)
    requires amount.Numeral?
    ensures SubmitTransaction(amount, kind, category, date).Some?
    ensures AddTransaction(txs, SubmitTransaction(amount, kind, category, date).value, id, today)
         == txs + [Transaction(id, date.GetOr(today), amount.n, kind, category)]
  {
  }
}

=== FILE: numeric.dfy ===
/** Arithmetic helpers shared by every aggregate: JavaScript's rounding and clamping. */
module Numeric {

  /** `Math.round(x)`: the nearest integer, halves rounded toward +infinity. */
  function Round(x: real): (r: int)
    ensures r as real - 0.5 <= x < r as real + 0.5
  {
    (x + 0.5).Floor
  }

  /** `Math.round(x * 10) / 10`: rounding to one decimal place. */
  function RoundTenth(x: real): (r: real)
    ensures r - 0.05 <= x < r + 0.05
  {
    Round(x * 10.0) as real / 10.0
  }

  function MinReal(a: real, b: real): (r: real)
    ensures r <= a && r <= b && (r == a || r == b)
  {
    if a <= b then a else b
  }

  function MaxReal(a: real, b: real): (r: real)
    ensures r >= a && r >= b && (r == a || r == b)
  {
    if a >= b then a else b
  }

  function MinInt(a: int, b: int): (r: int)
    ensures r <= a && r <= b && (r == a || r == b)
  {
    if a <= b then a else b
  }

  function MaxInt(a: int, b: int): (r: int)
    ensures r >= a && r >= b && (r == a || r == b)
  {
    if a >= b then a else b
  }

  lemma RoundMonotone(x: real, y: real)
    requires x <= y
    ensures Round(x) <= Round(y)
  {
  }

  lemma RoundOfInteger(n: int)
    ensures Round(n as real) == n
  {
  }

  /** Rounding never leaves an integer interval that contains the argument. */
  lemma RoundWithin(x: real, lo: int, hi: int)
    requires lo as real <= x <= hi as real
    ensures lo <= Round(x) <= hi
  {
    RoundMonotone(lo as real, x);
    RoundMonotone(x, hi as real);
    RoundOfInteger(lo);
    RoundOfInteger(hi);
  }

  /** `Math.round(100 * part / whole)` for a count within its whole lies in [0, 100]. */
  function Percent(part: real, whole: real): (r: int)
    requires whole > 0.0
    ensures 0.0 <= part <= whole ==> 0 <= r <= 100
    ensures part == whole ==> r == 100
    ensures part == 0.0 ==> r == 0
  {
    PercentBounds(part, whole);
    Round(part / whole * 100.0)
  }

  lemma PercentBounds(part: real, whole: real)
    requires whole > 0.0
    ensures 0.0 <= part <= whole ==> 0 <= Round(part / whole * 100.0) <= 100
    ensures part == whole ==> Round(part / whole * 100.0) == 100
  {
    if 0.0 <= part <= whole {
      DivBounded(part, whole);
      RoundWithin(part / whole * 100.0, 0, 100);
    }
    if part == whole {
      SelfDivision(whole);
      RoundOfInteger(100);
    }
  }

  /**
   * Out of a whole below 200, one short of the whole already rounds below 100, so the
   * rounded percentage is 100 exactly when the count is the whole.
   */
  lemma PercentFullIff(part: nat, whole: nat)
    requires 0 < whole < 200 && part <= whole
    ensures Round(part as real / whole as real * 100.0) == 100 <==> part == whole
  {
    PercentBounds(part as real, whole as real);
    if part < whole {
      var w := whole as real;
      var p := part as real;
      assert p / w <= (w - 1.0) / w by {
        assert p <= w - 1.0;
        DivMonotone(p, w - 1.0, w);
      }
      assert (w - 1.0) / w == 1.0 - 1.0 / w;
      assert 1.0 / w > 0.005 by {
        assert w * 0.005 < 1.0;
        assert 1.0 / w * w == 1.0;
      }
    }
  }

  lemma DivMonotone(a: real, b: real, c: real)
    requires a <= b && c > 0.0
    ensures a / c <= b / c
  {
    assert b / c - a / c == (b - a) / c;
  }

  lemma SelfDivision(y: real)
    requires y > 0.0
    ensures y / y == 1.0
  {
  }

  lemma DivBounded(part: real, whole: real)
    requires whole > 0.0 && 0.0 <= part <= whole
    ensures 0.0 <= part / whole <= 1.0
  {
  }

  /**
   * `x.toFixed(0)` read back as a number: the nearest integer, with halves rounded away
   * from zero (section 21.1.3.3 of ECMA-262 rounds the magnitude), so it agrees with
   * `Math.round` except on negative halves.
   */
  function ToFixed0(x: real): (r: int)
    ensures r as real - 0.5 <= x <= r as real + 0.5
    ensures x >= 0.0 ==> r >= 0 && x < r as real + 0.5
    ensures x <= 0.0 ==> r <= 0 && r as real - 0.5 < x
  {
    if x >= 0.0 then Round(x) else -Round(-x)
  }

  /** `toFixed(0)` never reverses the order of two numbers. */
  lemma ToFixed0Monotone(x: real, y: real)
    requires x <= y
    ensures ToFixed0(x) <= ToFixed0(y)
  {
    if x >= 0.0 {
      RoundMonotone(x, y);
    } else if y < 0.0 {
      RoundMonotone(-y, -x);
    }
  }

  /** A bracket around a quotient, multiplied back by a positive divisor. */
  lemma QuotientBracket(q: real, a: real, b: real, lo: real, hi: real)
    requires b > 0.0 && q == a / b && lo <= q <= hi
    ensures lo * b <= a <= hi * b
    ensures lo < q ==> lo * b < a
    ensures q < hi ==> a < hi * b
  {
    assert q * b == a;
  }

  /** `toFixed(0)` is symmetric about zero. */
  lemma ToFixed0Odd(x: real)
    ensures ToFixed0(-x) == -ToFixed0(x)
  {
    if x != 0.0 {
      assert -x != 0.0;
    }
  }

  /** On non-negative numbers `toFixed(0)` is `Math.round`; on a negative half they part. */
  lemma ToFixed0VersusRound(x: real)
    ensures x >= 0.0 ==> ToFixed0(x) == Round(x)
    ensures ToFixed0(-2.5) == -3 && Round(-2.5) == -2
  {
  }
}

=== FILE: orders.dfy ===
/**
 * Orders used by the lists: `Object.keys(...).sort()` on ISO date keys (ascending day
 * order), its reverse, and the stable descending sort by a numeric key used by the money
 * views (`Array.prototype.sort` is stable).
 */
module Orders {
  import opened Folds

  predicate StrictlyAscending(r: seq<int>) {
    forall i, j :: 0 <= i < j < |r| ==> r[i] < r[j]
  }

  predicate StrictlyDescending(r: seq<int>) {
    forall i, j :: 0 <= i < j < |r| ==> r[i] > r[j]
  }

  /** A non-empty set has an element. */
  lemma HasElement(s: set<int>)
    requires s != {}
    ensures exists x :: x in s
  {
    if forall x :: x !in s { assert false; }
  }

  lemma MinExists(s: set<int>)
    requires s != {}
    ensures exists m :: m in s && forall x :: x in s ==> m <= x
    decreases |s|
  {
    HasElement(s);
    var y :| y in s;
    var rest := s - {y};
    if forall x :: x in s ==> x == y {
      assert forall x :: x in s ==> y <= x;
    } else {
      var z :| z in s && z != y;
      assert z in rest;
      assert |rest| < |s| by { assert s == rest + {y}; }
      MinExists(rest);
      var m :| m in rest && forall x :: x in rest ==> m <= x;
      var least := if y < m then y else m;
      forall x | x in s
        ensures least <= x
      {
        if x != y {
          assert x in rest;
        }
      }
      assert least in s;
    }
  }

  /** The least element of a non-empty set. */
  function Least(s: set<int>): (m: int)
    requires s != {}
    ensures m in s && forall x :: x in s ==> m <= x
    ensures |s - {m}| == |s| - 1
  {
    MinExists(s);
    var m :| m in s && forall x :: x in s ==> m <= x;
    m
  }

  lemma PrependAscending(m: int, r: seq<int>)
    requires StrictlyAscending(r)
    requires forall x :: x in r ==> m < x
    ensures StrictlyAscending([m] + r)
  {
    var t := [m] + r;
    forall i, j | 0 <= i < j < |t| ensures t[i] < t[j] {
      assert t[j] == r[j - 1];
      if i > 0 { assert t[i] == r[i - 1]; } else { assert r[j - 1] in r; }
    }
  }

  /** The elements of `s` in ascending order. */
  function SortedAsc(s: set<int>): (r: seq<int>)
    ensures |r| == |s|
    ensures forall x :: x in r <==> x in s
    ensures StrictlyAscending(r)
    decreases |s|
  {
    if s == {} then []
    else
      var m := Least(s);
      var r := SortedAsc(s - {m});
      PrependLeast(s, m, r);
      [m] + r
  }

  /** Putting the least element in front of a sorted listing of the rest lists the whole set. */
  lemma PrependLeast(s: set<int>, m: int, r: seq<int>)
    requires m in s && forall x :: x in s ==> m <= x
    requires |r| == |s - {m}| && StrictlyAscending(r)
    requires forall x :: x in r <==> x in s - {m}
    ensures |[m] + r| == |s| && StrictlyAscending([m] + r)
    ensures forall x :: x in [m] + r <==> x in s
  {
    assert s == (s - {m}) + {m};
    PrependAscending(m, r);
  }

  function Reverse<T>(xs: seq<T>): (r: seq<T>)
    ensures |r| == |xs|
    ensures forall i :: 0 <= i < |xs| ==> r[i] == xs[|xs| - 1 - i]
  {
    if xs == [] then [] else Reverse(xs[1..]) + [xs[0]]
  }

  /** The elements of `s` in descending order (`.sort().reverse()`). */
  function SortedDesc(s: set<int>): (r: seq<int>)
    ensures |r| == |s|
    ensures forall x :: x in r <==> x in s
    ensures StrictlyDescending(r)
  {
    var a := SortedAsc(s);
    var r := Reverse(a);
    assert forall x :: x in r <==> x in a by {
      forall x
        ensures x in r <==> x in a
      {
        if x in a {
          var i :| 0 <= i < |a| && a[i] == x;
          assert r[|a| - 1 - i] == x;
        }
      }
    }
    r
  }

  /** A prefix of a descending list is descending and holds its largest elements. */
  lemma DescendingPrefix(xs: seq<int>, n: nat)
    requires StrictlyDescending(xs) && n <= |xs|
    ensures StrictlyDescending(xs[..n])
    ensures forall x :: x in xs && x !in xs[..n] ==> forall e :: e in xs[..n] ==> e > x
  {
    forall x | x in xs && x !in xs[..n]
      ensures forall e :: e in xs[..n] ==> e > x
    {
      var k :| 0 <= k < |xs| && xs[k] == x;
      assert k >= n;
      forall e | e in xs[..n]
        ensures e > x
      {
        var i :| 0 <= i < n && xs[..n][i] == e;
        assert xs[i] == e;
      }
    }
  }

  /** A strictly ascending listing of a set is the sorted listing: the order is unique. */
  lemma {:induction false} AscendingUnique(s: set<int>, r: seq<int>)
    requires StrictlyAscending(r)
    requires forall x :: x in r <==> x in s
    ensures r == SortedAsc(s)
    decreases |r|
  {
    if r != [] {
      var m := AscendingHead(s, r);
      AscendingTail(s, r, m);
      AscendingUnique(s - {m}, r[1..]);
      SortedAscUnfold(s);
      HeadTail(r);
    } else {
      assert forall x :: x !in s;
      assert s == {};
    }
  }

  lemma SortedAscUnfold(s: set<int>)
    requires s != {}
    ensures SortedAsc(s) == [Least(s)] + SortedAsc(s - {Least(s)})
  {
  }

  lemma HeadTail(r: seq<int>)
    requires r != []
    ensures r == [r[0]] + r[1..]
  {
  }

  /** The head of a strictly ascending listing of a set is its least element. */
  lemma AscendingHead(s: set<int>, r: seq<int>) returns (m: int)
    requires r != [] && StrictlyAscending(r)
    requires forall x :: x in r <==> x in s
    ensures s != {} && m == Least(s) && r[0] == m
  {
    assert r[0] in r;
    m := Least(s);
    var k :| 0 <= k < |r| && r[k] == m;
    assert r[0] <= m;
  }

  /** The tail of such a listing lists the rest of the set, still ascending. */
  lemma AscendingTail(s: set<int>, r: seq<int>, m: int)
    requires r != [] && StrictlyAscending(r) && r[0] == m
    requires forall x :: x in r <==> x in s
    ensures StrictlyAscending(r[1..])
    ensures forall x :: x in r[1..] <==> x in s - {m}
  {
    forall x
      ensures x in r[1..] <==> x in s - {m}
    {
      if x in r[1..] {
        var k :| 0 <= k < |r[1..]| && r[1..][k] == x;
        assert r[k + 1] == x;
      }
      if x in s - {m} {
        var k :| 0 <= k < |r| && r[k] == x;
        assert k != 0;
        assert r[1..][k - 1] == x;
      }
    }
  }

  /** Filtering keeps a strictly ascending list strictly ascending. */
  lemma {:induction false} FilterAscending(xs: seq<int>, p: int -> bool)
    requires StrictlyAscending(xs)
    ensures StrictlyAscending(Filter(xs, p))
  {
    if xs != [] {
      FilterAscending(xs[1..], p);
      if p(xs[0]) {
        forall x | x in Filter(xs[1..], p)
          ensures xs[0] < x
        {
          var k :| 0 <= k < |xs[1..]| && xs[1..][k] == x;
          assert xs[k + 1] == x;
        }
        PrependAscending(xs[0], Filter(xs[1..], p));
      }
    }
  }

  // ---------------------------------------------------------------------------
  // Stable sort by a key, largest first

  predicate DescendingBy<T>(xs: seq<T>, key: T -> real) {
    forall i, j :: 0 <= i < j < |xs| ==> key(xs[i]) >= key(xs[j])
  }

  lemma PrependDescending<T>(y: T, r: seq<T>, key: T -> real)
    requires DescendingBy(r, key)
    requires forall z :: z in r ==> key(y) >= key(z)
    ensures DescendingBy([y] + r, key)
  {
    var t := [y] + r;
    forall i, j | 0 <= i < j < |t|
      ensures key(t[i]) >= key(t[j])
    {
      assert t[j] == r[j - 1];
      if i > 0 {
        assert t[i] == r[i - 1];
      } else {
        assert r[j - 1] in r;
      }
    }
  }

  /** The head of a descending list stays ahead of anything inserted behind it. */
  lemma HeadAboveInserted<T>(x: T, xs: seq<T>, rest: seq<T>, key: T -> real)
    requires xs != [] && DescendingBy(xs, key) && key(xs[0]) > key(x)
    requires multiset(rest) == multiset(xs[1..]) + multiset{x}
    ensures forall z :: z in rest ==> key(xs[0]) >= key(z)
    ensures multiset([xs[0]] + rest) == multiset(xs) + multiset{x}
  {
    assert xs == [xs[0]] + xs[1..];
    forall z | z in rest
      ensures key(xs[0]) >= key(z)
    {
      assert z in multiset(rest);
      if z != x {
        assert z in multiset(xs[1..]);
        var k :| 0 <= k < |xs[1..]| && xs[1..][k] == z;
        assert xs[k + 1] == z;
      }
    }
  }

  /**
   * Inserts `x` in front of the first element whose key is not larger than its own, so
   * that `x` stays ahead of the equal keys that follow it.
   */
  function InsertDesc<T>(x: T, xs: seq<T>, key: T -> real): (r: seq<T>)
    requires DescendingBy(xs, key)
    ensures DescendingBy(r, key)
    ensures multiset(r) == multiset(xs) + multiset{x}
    ensures |r| == |xs| + 1
  {
    if xs == [] then [x]
    else if key(xs[0]) > key(x) then
      var rest := InsertDesc(x, xs[1..], key);
      HeadAboveInserted(x, xs, rest, key);
      PrependDescending(xs[0], rest, key);
      [xs[0]] + rest
    else
      PrependDescending(x, xs, key);
      [x] + xs
  }

  /** The elements whose key is `k`. */
  function KeyIs<T>(key: T -> real, k: real): T -> bool {
    (x: T) => key(x) == k
  }

  /**
   * Inserting `x` puts it ahead of every element with the same key: among the elements
   * with any one key, `x` is first when its key is that key, and the rest keep their order.
   */
  lemma {:induction false} InsertDescStable<T>(x: T, xs: seq<T>, key: T -> real, k: real)
    requires DescendingBy(xs, key)
    ensures Filter(InsertDesc(x, xs, key), KeyIs(key, k))
         == (if key(x) == k then [x] else []) + Filter(xs, KeyIs(key, k))
  {
    var p := KeyIs(key, k);
    if xs == [] {
      assert [x][1..] == [];
    } else if key(xs[0]) > key(x) {
      var rest := InsertDesc(x, xs[1..], key);
      InsertDescStable(x, xs[1..], key, k);
      assert ([xs[0]] + rest)[1..] == rest;
    } else {
      assert ([x] + xs)[1..] == xs;
    }
  }

  /**
   * `xs.sort((a, b) => key(b) - key(a))`: a permutation of `xs`, largest key first.
   * Elements with equal keys keep their relative order; the model sorts by inserting the
   * elements from last to first, which keeps earlier elements ahead of later equal ones.
   */
  function SortDescBy<T>(xs: seq<T>, key: T -> real): (r: seq<T>)
    ensures DescendingBy(r, key)
    ensures multiset(r) == multiset(xs)
    ensures |r| == |xs|
    ensures forall k :: Filter(r, KeyIs(key, k)) == Filter(xs, KeyIs(key, k))
  {
    if xs == [] then []
    else
      assert xs == [xs[0]] + xs[1..];
      var rest := SortDescBy(xs[1..], key);
      InsertDescStableAll(xs[0], rest, key);
      InsertDesc(xs[0], rest, key)
  }

  lemma InsertDescStableAll<T>(x: T, xs: seq<T>, key: T -> real)
    requires DescendingBy(xs, key)
    ensures forall k :: Filter(InsertDesc(x, xs, key), KeyIs(key, k))
                     == (if key(x) == k then [x] else []) + Filter(xs, KeyIs(key, k))
  {
    forall k
      ensures Filter(InsertDesc(x, xs, key), KeyIs(key, k))
           == (if key(x) == k then [x] else []) + Filter(xs, KeyIs(key, k))
    {
      InsertDescStable(x, xs, key, k);
    }
  }

  /** Inserting adds the inserted element's value to a sum. */
  lemma {:induction false} SumInsertDesc<T>(x: T, xs: seq<T>, key: T -> real, f: T -> real)
    requires DescendingBy(xs, key)
    ensures Sum(InsertDesc(x, xs, key), f) == f(x) + Sum(xs, f)
  {
    if xs != [] && key(xs[0]) > key(x) {
      SumInsertDesc(x, xs[1..], key, f);
      assert InsertDesc(x, xs, key)[1..] == InsertDesc(x, xs[1..], key);
    }
  }

  /** Sorting does not change a sum. */
  lemma {:induction false} SumSortDescBy<T>(xs: seq<T>, key: T -> real, f: T -> real)
    ensures Sum(SortDescBy(xs, key), f) == Sum(xs, f)
  {
    if xs != [] {
      SumSortDescBy(xs[1..], key, f);
      SumInsertDesc(xs[0], SortDescBy(xs[1..], key), key, f);
    }
  }

  /** No two elements share an identity. */
  predicate DistinctBy<T, K(==)>(xs: seq<T>, id: T -> K) {
    forall i, j :: 0 <= i < j < |xs| ==> id(xs[i]) != id(xs[j])
  }

  lemma PrependDistinct<T, K>(y: T, r: seq<T>, id: T -> K)
    requires DistinctBy(r, id)
    requires forall z :: z in r ==> id(z) != id(y)
    ensures DistinctBy([y] + r, id)
  {
    var t := [y] + r;
    forall i, j | 0 <= i < j < |t|
      ensures id(t[i]) != id(t[j])
    {
      assert t[j] == r[j - 1];
      if i > 0 {
        assert t[i] == r[i - 1];
      } else {
        assert r[j - 1] in r;
      }
    }
  }

  /** Inserting an element with a new identity keeps the identities distinct. */
  lemma {:induction false} InsertDescDistinct<T, K>(x: T, xs: seq<T>, key: T -> real, id: T -> K)
    requires DescendingBy(xs, key) && DistinctBy(xs, id)
    requires forall z :: z in xs ==> id(z) != id(x)
    ensures DistinctBy(InsertDesc(x, xs, key), id)
  {
    if xs == [] {
    } else if key(xs[0]) > key(x) {
      var tail := xs[1..];
      assert DescendingBy(tail, key) && DistinctBy(tail, id);
      InsertDescDistinct(x, tail, key, id);
      var rest := InsertDesc(x, tail, key);
      forall z | z in rest
        ensures id(z) != id(xs[0])
      {
        assert z in multiset(rest);
        if z != x {
          assert z in multiset(tail);
          var k :| 0 <= k < |tail| && tail[k] == z;
          assert xs[k + 1] == z;
        } else {
          assert xs[0] in xs;
        }
      }
      PrependDistinct(xs[0], rest, id);
    } else {
      PrependDistinct(x, xs, id);
    }
  }

  /** Sorting keeps distinct identities distinct. */
  lemma {:induction false} SortDescByDistinct<T, K>(xs: seq<T>, key: T -> real, id: T -> K)
    requires DistinctBy(xs, id)
    ensures DistinctBy(SortDescBy(xs, key), id)
  {
    if xs != [] {
      var tail := xs[1..];
      assert DistinctBy(tail, id);
      SortDescByDistinct(tail, key, id);
      var sorted := SortDescBy(tail, key);
      forall z | z in sorted
        ensures id(z) != id(xs[0])
      {
        assert z in multiset(sorted);
        assert z in multiset(tail);
        var k :| 0 <= k < |tail| && tail[k] == z;
        assert xs[k + 1] == z;
      }
      InsertDescDistinct(xs[0], sorted, key, id);
    }
  }
}

=== FILE: records.dfy ===
/**
 * The tracker's stored records: per-day habit and metric maps, journals, goals and
 * reading sessions, with the lookups every page performs on them
 * (`metrics[date] || {}`, `dayMetrics.key || 0`, `dayHabits?.[key]`).
 */
module Records {
  import opened Wrappers
  import opened Calendar
  import opened Folds

  /** Record ids are opaque strings supplied by the caller. */
  type Id = string

  datatype Habit = NoFap | Workout | Run | KeptWord | HardThing | Integrity | HealthyEating

  datatype Metric = Steps | Water | Sleep | Pages | Pushups | Squats | RunDistance

  /** One day's habit toggles; a missing key was never toggled. */
  type DayHabits = map<Habit, bool>

  /** One day's metric inputs; `None` is a cleared input (`null`), a missing key was never entered. */
  type DayMetrics = map<Metric, Option<real>>

  type HabitLog = map<Day, DayHabits>
  type MetricLog = map<Day, DayMetrics>

  /** A journal entry; a missing field reads as the empty string. */
  datatype Journal = Journal(text: string, til: string, important: string, avoided: string)

  const EmptyJournal := Journal("", "", "", "")

  /** Journals by date; an entry can be stored as `null` (`None`). */
  type JournalLog = map<Day, Option<Journal>>

  /** The user's metric goals; a missing key is an unset goal. */
  type Goals = map<Metric, real>

  datatype ReadingSession = ReadingSession(id: Id, bookId: Id, date: Day, pages: real, durationMinutes: real)

  /** A transaction's `type`: `'income'`, `'expense'`, or any other string the data may hold. */
  datatype TxKind = Income | Expense | OtherKind(name: string)

  /** A money transaction; an empty `category` is a missing one. */
  datatype Transaction = Transaction(id: Id, date: Day, amount: real, kind: TxKind, category: string)

  function AmountOf(t: Transaction): real { t.amount }

  /** A library item; an empty `status` is a missing one and a `rating` of 0 is no rating. */
  datatype LibraryItem = LibraryItem(id: Id, itemType: string, title: string, status: string, rating: int)

  /** A viewing or listening session on a library item; `itemId` may be missing. */
  datatype MediaSession = MediaSession(id: Id, itemId: Option<Id>, date: Day, durationMinutes: real)

  /** The stored data the statistics pages read. */
  datatype Store = Store(
    metrics: MetricLog,
    habits: HabitLog,
    journals: JournalLog,
    sessions: seq<ReadingSession>,
    transactions: seq<Transaction>,
    goals: Goals)

  /** `dayHabits?.[key]` is truthy. */
  predicate Done(h: DayHabits, k: Habit) {
    k in h && h[k]
  }

  /** `metrics[date] || {}` and `habits[date] || {}`: a date without a record reads as `{}`. */
  function RecordOn<K, V>(log: map<Day, map<K, V>>, d: Day): (r: map<K, V>)
    ensures d !in log ==> r == map[]
  {
    if d in log then log[d] else map[]
  }

  /** `journals[date] || {}`: a missing or `null` entry reads as an empty journal. */
  function JournalOn(log: JournalLog, d: Day): (j: Journal)
    ensures d !in log || log[d].None? ==> j == EmptyJournal
  {
    if d in log && log[d].Some? then log[d].value else EmptyJournal
  }

  /** `dayMetrics[key] || 0`. */
  function ValueOr0(m: DayMetrics, k: Metric): (v: real)
    ensures k !in m || m[k].None? ==> v == 0.0
  {
    if k in m && m[k].Some? then m[k].value else 0.0
  }

  /** `dayMetrics?.[key]` is truthy: present, not `null`, and not zero. */
  predicate Truthy(m: DayMetrics, k: Metric) {
    ValueOr0(m, k) != 0.0
  }

  /** A day has a stored metrics or habits record (`metrics[date] || habits[date]`). */
  predicate HasRecord(metrics: MetricLog, habits: HabitLog, d: Day) {
    d in metrics || d in habits
  }

  /** A day has a non-empty metrics or habits record (`Object.keys(...).length > 0`). */
  predicate HasEntries(metrics: MetricLog, habits: HabitLog, d: Day) {
    |RecordOn(metrics, d)| > 0 || |RecordOn(habits, d)| > 0
  }

  /** A day with entries has a record; the converse fails only for stored empty records. */
  lemma EntriesImplyRecord(metrics: MetricLog, habits: HabitLog, d: Day)
    ensures HasEntries(metrics, habits, d) ==> HasRecord(metrics, habits, d)
    ensures HasRecord(metrics, habits, d) && (d in metrics ==> |metrics[d]| > 0) && (d in habits ==> |habits[d]| > 0)
      ==> HasEntries(metrics, habits, d)
  {
  }

  function SessionPagesOf(s: ReadingSession): real { s.pages }

  /** The sessions dated `d`. */
  function SessionsOn(sessions: seq<ReadingSession>, d: Day): (r: seq<ReadingSession>)
    ensures forall s :: s in r <==> s in sessions && s.date == d
  {
    Filter(sessions, DatedOn(d))
  }

  /** `s => s.date === date`. */
  function DatedOn(d: Day): ReadingSession -> bool {
    (s: ReadingSession) => s.date == d
  }

  /** Pages read in reading sessions on day `d` (`sessionsByDate[date] || 0`). */
  function SessionPages(sessions: seq<ReadingSession>, d: Day): real {
    Sum(SessionsOn(sessions, d), SessionPagesOf)
  }

  /** Session pages are never negative when every session's page count is not. */
  lemma SessionPagesNonNegative(sessions: seq<ReadingSession>, d: Day)
    requires forall s :: s in sessions ==> s.pages >= 0.0
    ensures SessionPages(sessions, d) >= 0.0
  {
    SumNonNegative(SessionsOn(sessions, d), SessionPagesOf);
  }

  /** `{ ...dayMetrics, pages }`: the metrics with the pages field replaced. */
  function WithPages(m: DayMetrics, pages: real): (r: DayMetrics)
    ensures ValueOr0(r, Pages) == pages
    ensures forall k :: k != Pages ==> ValueOr0(r, k) == ValueOr0(m, k)
  {
    m[Pages := Some(pages)]
  }

  /** `date => (metrics[date] || {})[k] || 0`, the per-day reading of one metric. */
  function MetricValue(metrics: MetricLog, k: Metric): Day -> real {
    (d: Day) => ValueOr0(RecordOn(metrics, d), k)
  }

  /** `date => habits[date]?.[k]`, the per-day reading of one habit. */
  function HabitDone(habits: HabitLog, k: Habit): Day -> bool {
    (d: Day) => Done(RecordOn(habits, d), k)
  }

  /** Manual plus session pages: the total most pages show for a day. */
  function TotalPages(metrics: MetricLog, sessions: seq<ReadingSession>, d: Day): real {
    ValueOr0(RecordOn(metrics, d), Pages) + SessionPages(sessions, d)
  }

  /** The days `start, start + 1, ..., end`. */
  function DaysFrom(start: Day, end: Day): (r: seq<Day>)
    ensures |r| == if start <= end then end - start + 1 else 0
    ensures forall i :: 0 <= i < |r| ==> r[i] == start + i
    decreases end - start
  {
    if start > end then [] else [start] + DaysFrom(start + 1, end)
  }

  /** The `n` days ending today, oldest first: `getDaysAgo(n - 1), ..., getDaysAgo(0)`. */
  function LastDays(today: Day, n: nat): (r: seq<Day>)
    ensures |r| == n
    ensures forall i :: 0 <= i < n ==> r[i] == DaysAgo(today, n - 1 - i)
  {
    DaysFrom(today - n + 1, today)
  }

  /** Membership in a day range is the interval test. */
  lemma InDaysFrom(start: Day, end: Day, d: Day)
    ensures d in DaysFrom(start, end) <==> start <= d <= end
  {
    if start <= d <= end {
      assert DaysFrom(start, end)[d - start] == d;
    }
  }

  /**
   * `{ ...prev, [date]: { ...prev[date], [key]: value } }`: one field of one day's record is
   * set, creating the record when the day has none; every other field and day is kept.
   */
  function SetField<K(==,!new), V>(log: map<Day, map<K, V>>, d: Day, k: K, v: V): (r: map<Day, map<K, V>>)
    ensures r.Keys == log.Keys + {d}
    ensures k in r[d] && r[d][k] == v
    ensures forall k' :: k' != k ==> (k' in r[d] <==> d in log && k' in log[d])
    ensures forall k' :: k' != k && k' in r[d] ==> r[d][k'] == log[d][k']
    ensures forall e :: e != d && e in log ==> r[e] == log[e]
  {
    var day := if d in log then log[d] else map[];
    log[d := day[k := v]]
  }

  /** Setting a field twice keeps only the second value. */
  lemma SetFieldOverwrites<K(!new), V>(log: map<Day, map<K, V>>, d: Day, k: K, v: V, w: V)
    ensures SetField(SetField(log, d, k, v), d, k, w) == SetField(log, d, k, w)
  {
    assert SetField(SetField(log, d, k, v), d, k, w)[d] == SetField(log, d, k, w)[d];
  }

  /** Setting a field to the value it already holds changes nothing. */
  lemma SetFieldUnchanged<K(!new), V>(log: map<Day, map<K, V>>, d: Day, k: K)
    requires d in log && k in log[d]
    ensures SetField(log, d, k, log[d][k]) == log
  {
    assert SetField(log, d, k, log[d][k])[d] == log[d];
  }

  /** `getDaysAgo(from), getDaysAgo(from + 1), ..., getDaysAgo(from + n - 1)`: newest first. */
  function DaysBack(today: Day, from: nat, n: nat): (days: seq<Day>)
    ensures |days| == n
    ensures forall i :: 0 <= i < n ==> days[i] == DaysAgo(today, from + i)
    ensures forall d :: d in days <==> today - from - n < d <= today - from
    ensures forall i, j :: 0 <= i < j < n ==> days[i] > days[j]
  {
    var days := seq(n, (i: int) => DaysAgo(today, from + i));
    forall d | today - from - n < d <= today - from
      ensures d in days
    {
      var i := today - from - d;
      assert days[i] == DaysAgo(today, from + i);
    }
    assert forall d :: d in days ==> today - from - n < d <= today - from by {
      forall d | d in days
        ensures today - from - n < d <= today - from
      {
        var i :| 0 <= i < n && days[i] == d;
        assert days[i] == DaysAgo(today, from + i);
      }
    }
    days
  }

  /** No day (or month number) is listed twice. */
  predicate Distinct(days: seq<int>) {
    forall i, j :: 0 <= i < j < |days| ==> days[i] != days[j]
  }

  /** `getDaysAgo(0), ..., getDaysAgo(6)`: the last seven days, today first. */
  function Week(today: Day): (days: seq<Day>)
    ensures |days| == 7
    ensures forall i :: 0 <= i < 7 ==> days[i] == today - i
    ensures forall d :: d in days <==> today - 6 <= d <= today
  {
    DaysBack(today, 0, 7)
  }

  /** A property holds on each of the week's seven entries exactly when it holds on each day. */
  lemma WeekEvery(today: Day, p: Day -> bool)
    ensures (forall i :: 0 <= i < 7 ==> p(Week(today)[i])) <==> (forall d :: today - 6 <= d <= today ==> p(d))
  {
    var days := Week(today);
    if forall i :: 0 <= i < 7 ==> p(days[i]) {
      forall d | today - 6 <= d <= today
        ensures p(d)
      {
        assert days[today - d] == d;
      }
    }
  }

  /** The days from `start` to `end` on which `p` holds. */
  function DaysWhere(start: Day, end: Day, p: Day -> bool): set<Day>
  {
    set d | start <= d <= end && p(d)
  }

  /** Counting over the week is counting the days from six days ago to today that qualify. */
  lemma WeekCountIsDays(today: Day, p: Day -> bool)
    ensures Count(Week(today), p) == |DaysWhere(today - 6, today, p)|
  {
    var days := Week(today);
    CountIsCardinality(days, p);
    assert Matching(days, p) == DaysWhere(today - 6, today, p);
  }

  /** Counting over a day range is counting the days of the range that qualify. */
  lemma RangeCountIsDays(start: Day, end: Day, p: Day -> bool)
    ensures Count(DaysFrom(start, end), p) == |DaysWhere(start, end, p)|
  {
    var days := DaysFrom(start, end);
    CountIsCardinality(days, p);
    forall d
      ensures d in days <==> start <= d <= end
    {
      InDaysFrom(start, end, d);
    }
    assert Matching(days, p) == DaysWhere(start, end, p);
  }
}

=== FILE: review.dfy ===
/**
 * The weekly and monthly review (ReviewPage.jsx): statistics over a day range, the
 * reflection prompts they trigger, the consistency figure, and saving a review under its
 * `type:periodStart` key.
 */
module Review {
  import opened Wrappers
  import opened Numeric
  import opened Folds
  import opened Calendar
  import opened Records
  import opened Aggregates
  import Score
  import LegacyScore

  datatype Kind = Weekly | Monthly

  datatype Stats = Stats(
    totalDays: nat,
    avgSleep: Option<real>,
    avgSteps: Option<int>,
    avgWater: Option<real>,
    totalPages: real,
    totalPushups: real,
    totalSquats: real,
    totalRunDistance: real,
    avgScore: int,
    workoutDays: nat,
    runDays: nat,
    income: real,
    expenses: real,
    net: real,
    loggedDays: nat,
    focusHabitDays: nat,
    focusHabitPct: Option<int>)

  /** The day's score, from the day's records with missing ones read as empty. */
  function DayScore(store: Store, d: Day): real {
    Score.Calculate(RecordOn(store.metrics, d), RecordOn(store.habits, d), store.goals, JournalOn(store.journals, d)).score as real
  }

  function DayScores(store: Store): Day -> real {
    (d: Day) => DayScore(store, d)
  }

  function HasRecordOn(store: Store): Day -> bool {
    (d: Day) => HasRecord(store.metrics, store.habits, d)
  }

  function SessionPagesOn(store: Store): Day -> real {
    (d: Day) => SessionPages(store.sessions, d)
  }

  function PagesOn(store: Store): Day -> real {
    (d: Day) => TotalPages(store.metrics, store.sessions, d)
  }

  /** The days of the range that have a metrics or habits record. */
  function LoggedIn(store: Store, start: Day, end: Day): seq<Day> {
    Filter(DaysFrom(start, end), HasRecordOn(store))
  }

  function InRange(start: Day, end: Day): Transaction -> bool {
    (t: Transaction) => start <= t.date <= end
  }

  function IncomeIn(start: Day, end: Day): Transaction -> bool {
    (t: Transaction) => start <= t.date <= end && t.kind == Income
  }

  function NotIncomeIn(start: Day, end: Day): Transaction -> bool {
    (t: Transaction) => start <= t.date <= end && t.kind != Income
  }

  /** Days of the range with a metrics or habits record. */
  function LoggedDays(store: Store, start: Day, end: Day): (n: nat)
    ensures n <= |DaysFrom(start, end)|
  {
    |LoggedIn(store, start, end)|
  }

  /** Days of the range on which the habit is done. */
  function HabitDays(store: Store, h: Habit, start: Day, end: Day): (n: nat)
    ensures n <= |DaysFrom(start, end)|
  {
    Count(DaysFrom(start, end), HabitDone(store.habits, h))
  }

  /** `Math.round(scoreTotal / scoreCount)` over logged days, 0 when none. */
  function AvgScore(store: Store, start: Day, end: Day): int {
    RoundedAverage(LoggedIn(store, start, end), DayScores(store))
  }

  function IncomeTotal(store: Store, start: Day, end: Day): real {
    Sum(Filter(store.transactions, IncomeIn(start, end)), AmountOf)
  }

  function ExpenseTotal(store: Store, start: Day, end: Day): real {
    Sum(Filter(store.transactions, NotIncomeIn(start, end)), AmountOf)
  }

  /** `Math.round(focusHabitDays / totalDays * 100)`, `null` without a focus habit. */
  function FocusPct(store: Store, focus: Option<Habit>, start: Day, end: Day): (pct: Option<int>)
    requires start <= end
    ensures pct.None? <==> focus.None?
    ensures pct.Some? ==> 0 <= pct.value <= 100
  {
    if focus.None? then None
    else
      var days := HabitDays(store, focus.value, start, end);
      PercentBounds(days as real, (end - start + 1) as real);
      Some(Round(days as real / (end - start + 1) as real * 100.0))
  }

  /** The average of a metric over the days where it is non-zero. */
  function MetricAverage(store: Store, k: Metric, start: Day, end: Day): Option<real> {
    SparseAverage(DaysFrom(start, end), MetricValue(store.metrics, k))
  }

  /** Manual plus session pages over the range. */
  function PagesTotal(store: Store, start: Day, end: Day): real {
    Sum(DaysFrom(start, end), PagesOn(store))
  }

  function MetricTotal(store: Store, k: Metric, start: Day, end: Day): real {
    Sum(DaysFrom(start, end), MetricValue(store.metrics, k))
  }

  /** `getReviewStats(startDate, endDate)`. Callers pass a period start on or before today. */
  function ReviewStats(store: Store, focus: Option<Habit>, start: Day, end: Day): (s: Stats)
    requires start <= end
    ensures s.totalDays == end - start + 1
    ensures s.loggedDays <= s.totalDays && s.workoutDays <= s.totalDays && s.runDays <= s.totalDays
    ensures s.focusHabitDays <= s.totalDays
    ensures s.net == s.income - s.expenses
    ensures s.focusHabitPct.None? <==> focus.None?
    ensures s.focusHabitPct.Some? ==> 0 <= s.focusHabitPct.value <= 100
    ensures s.loggedDays == 0 ==> s.avgScore == 0
  {
    var steps := MetricAverage(store, Steps, start, end);
    var income := IncomeTotal(store, start, end);
    var expenses := ExpenseTotal(store, start, end);
    Stats(
      totalDays := end - start + 1,
      avgSleep := MetricAverage(store, Sleep, start, end),
      avgSteps := if steps.Some? then Some(Round(steps.value)) else None,
      avgWater := MetricAverage(store, Water, start, end),
      totalPages := PagesTotal(store, start, end),
      totalPushups := MetricTotal(store, Pushups, start, end),
      totalSquats := MetricTotal(store, Squats, start, end),
      totalRunDistance := MetricTotal(store, RunDistance, start, end),
      avgScore := AvgScore(store, start, end),
      workoutDays := HabitDays(store, Workout, start, end),
      runDays := HabitDays(store, Run, start, end),
      income := income,
      expenses := expenses,
      net := income - expenses,
      loggedDays := LoggedDays(store, start, end),
      focusHabitDays := if focus.Some? then HabitDays(store, focus.value, start, end) else 0,
      focusHabitPct := FocusPct(store, focus, start, end))
  }

  /** Membership in a day range, by index and by value. */
  lemma DayInRange(start: Day, end: Day, d: Day)
    requires start <= d <= end
    ensures d in DaysFrom(start, end) && DaysFrom(start, end)[d - start] == d
  {
  }

  /** A day is logged exactly when it lies in the range and has a metrics or habits record. */
  lemma LoggedDaysAreRecordDays(store: Store, start: Day, end: Day, d: Day)
    ensures d in LoggedIn(store, start, end) <==> start <= d <= end && HasRecord(store.metrics, store.habits, d)
  {
    InDaysFrom(start, end, d);
  }

  /**
   * Journal-only and session-only days are not logged days: the logged count does not
   * depend on the journals, the reading sessions or the transactions.
   */
  lemma LoggedIgnoresJournalsAndSessions(store: Store, journals: JournalLog, sessions: seq<ReadingSession>, txs: seq<Transaction>, start: Day, end: Day)
    ensures LoggedDays(store.(journals := journals, sessions := sessions, transactions := txs), start, end)
         == LoggedDays(store, start, end)
  {
    var other := store.(journals := journals, sessions := sessions, transactions := txs);
    assert HasRecordOn(other) == HasRecordOn(store);
  }

  /** With every day of the range logged, the logged count is the calendar length. */
  lemma AllDaysLogged(store: Store, start: Day, end: Day)
    requires start <= end
    requires forall d :: start <= d <= end ==> d in store.metrics || d in store.habits
    ensures LoggedDays(store, start, end) == end - start + 1
  {
    var days := DaysFrom(start, end);
    assert forall i :: 0 <= i < |days| ==> HasRecordOn(store)(days[i]);
    CountIsFilterLength(days, HasRecordOn(store));
  }

  /**
   * The average score is the rounded mean over logged days; with non-negative metrics and
   * goals it lies between 0 and the largest daily score, 106.
   */
  lemma AvgScoreBounds(store: Store, start: Day, end: Day)
    requires forall d :: d in store.metrics ==> Score.NonNegativeMetrics(store.metrics[d])
    requires Score.NonNegativeGoals(store.goals)
    ensures 0 <= AvgScore(store, start, end) <= 106
  {
    var logged := LoggedIn(store, start, end);
    forall d | d in logged
      ensures 0.0 <= DayScores(store)(d) <= 106.0
    {
      Score.ScoreBounds(RecordOn(store.metrics, d), RecordOn(store.habits, d), store.goals, JournalOn(store.journals, d));
    }
    if logged != [] {
      RoundedAverageWithin(logged, DayScores(store), 0, 106);
    }
  }

  /** When every logged day of the range scores the same whole number, that is the average. */
  lemma AvgScoreOfSteadyRange(store: Store, focus: Option<Habit>, start: Day, end: Day, c: int)
    requires start <= end
    requires exists d :: start <= d <= end && HasRecord(store.metrics, store.habits, d)
    requires forall d :: (start <= d <= end && HasRecord(store.metrics, store.habits, d)
      ==> DayScore(store, d) == c as real)
    ensures ReviewStats(store, focus, start, end).avgScore == c
  {
    var logged := LoggedIn(store, start, end);
    var d :| start <= d <= end && HasRecord(store.metrics, store.habits, d);
    InDaysFrom(start, end, d);
    assert d in logged;
    forall e | e in logged
      ensures DayScores(store)(e) == c as real
    {
      InDaysFrom(start, end, e);
    }
    AverageOfConstant(logged, DayScores(store), c as real);
    RoundOfInteger(c);
  }

  /** Extending the range by a day with nothing logged leaves the average score as it was. */
  lemma AvgScoreIgnoresUnloggedDay(store: Store, focus: Option<Habit>, start: Day, end: Day)
    requires start <= end
    requires !HasRecord(store.metrics, store.habits, end + 1)
    ensures ReviewStats(store, focus, start, end + 1).avgScore == ReviewStats(store, focus, start, end).avgScore
  {
    var shorter := DaysFrom(start, end);
    var longer := DaysFrom(start, end + 1);
    assert longer == shorter + [end + 1];
    FilterSnoc(shorter, end + 1, HasRecordOn(store));
    assert LoggedIn(store, start, end + 1) == LoggedIn(store, start, end);
  }

  /**
   * A sparse average is `'n/a'` (`None`) exactly when the metric is zero or missing on
   * every day of the range.
   */
  lemma MetricAverageNone(store: Store, k: Metric, start: Day, end: Day)
    ensures MetricAverage(store, k, start, end).None?
        <==> forall d :: start <= d <= end ==> ValueOr0(RecordOn(store.metrics, d), k) == 0.0
  {
    var days := DaysFrom(start, end);
    var f := MetricValue(store.metrics, k);
    if forall d :: start <= d <= end ==> ValueOr0(RecordOn(store.metrics, d), k) == 0.0 {
      assert forall i :: 0 <= i < |days| ==> f(days[i]) == 0.0;
    } else {
      var d :| start <= d <= end && ValueOr0(RecordOn(store.metrics, d), k) != 0.0;
      DayInRange(start, end, d);
      assert f(days[d - start]) != 0.0;
    }
  }

  /** Averages over non-zero days only: bounds on the non-zero values bound the average. */
  lemma MetricAverageWithin(store: Store, k: Metric, start: Day, end: Day, lo: real, hi: real)
    requires forall d :: start <= d <= end && ValueOr0(RecordOn(store.metrics, d), k) != 0.0 ==>
      lo <= ValueOr0(RecordOn(store.metrics, d), k) <= hi
    ensures MetricAverage(store, k, start, end).Some? ==> lo <= MetricAverage(store, k, start, end).value <= hi
  {
    var days := DaysFrom(start, end);
    var f := MetricValue(store.metrics, k);
    forall d | d in days && f(d) != 0.0
      ensures lo <= f(d) <= hi
    {
      InDaysFrom(start, end, d);
    }
    SparseAverageWithin(days, f, lo, hi);
  }

  /** A day's pages are manual plus session pages, so the total is the sum of the two totals. */
  lemma TotalPagesSplits(store: Store, start: Day, end: Day)
    ensures PagesTotal(store, start, end)
         == MetricTotal(store, Pages, start, end) + Sum(DaysFrom(start, end), SessionPagesOn(store))
  {
    SumSplit(DaysFrom(start, end), PagesOn(store), MetricValue(store.metrics, Pages), SessionPagesOn(store));
  }

  /**
   * Every in-range transaction that is not income counts as an expense, so income plus
   * expenses is the sum of all in-range amounts.
   */
  lemma IncomeExpensesPartition(store: Store, start: Day, end: Day)
    ensures IncomeTotal(store, start, end) + ExpenseTotal(store, start, end)
         == Sum(Filter(store.transactions, InRange(start, end)), AmountOf)
  {
    SumDisjointFilters(store.transactions, AmountOf, IncomeIn(start, end), NotIncomeIn(start, end), InRange(start, end));
  }

  /** The focus percentage is 100 when the focus habit was done every day of the range. */
  lemma FocusPctFull(store: Store, h: Habit, start: Day, end: Day)
    requires start <= end
    requires forall d :: start <= d <= end ==> Done(RecordOn(store.habits, d), h)
    ensures FocusPct(store, Some(h), start, end) == Some(100)
  {
    var days := DaysFrom(start, end);
    assert forall i :: 0 <= i < |days| ==> HabitDone(store.habits, h)(days[i]);
    assert HabitDays(store, h, start, end) == |days|;
    PercentBounds(|days| as real, |days| as real);
  }

  // ---------------------------------------------------------------------------
  // The older review statistics (progress-app.jsx)

  /** The older page scores logged days with the older, unscaled score. */
  function LegacyDayScores(store: Store): Day -> real {
    (d: Day) => LegacyScore.Calculate(RecordOn(store.metrics, d), RecordOn(store.habits, d), store.goals, JournalOn(store.journals, d)).score as real
  }

  /** The older average score: the same logged days, the older score. */
  function LegacyAvgScore(store: Store, start: Day, end: Day): int {
    RoundedAverage(LoggedIn(store, start, end), LegacyDayScores(store))
  }

  /** With non-negative metrics and goals the older average lies in `[0, 105]`. */
  lemma LegacyAvgScoreBounds(store: Store, start: Day, end: Day)
    requires forall d :: d in store.metrics ==> Score.NonNegativeMetrics(store.metrics[d])
    requires Score.NonNegativeGoals(store.goals)
    ensures 0 <= LegacyAvgScore(store, start, end) <= 105
  {
    var logged := LoggedIn(store, start, end);
    forall d | d in logged
      ensures 0.0 <= LegacyDayScores(store)(d) <= 105.0
    {
      var m, h, j := RecordOn(store.metrics, d), RecordOn(store.habits, d), JournalOn(store.journals, d);
      LegacyScore.RawScoreBounds(m, h, store.goals, j);
      RoundWithin(LegacyScore.RawScore(m, h, store.goals, j), 0, 105);
    }
    if logged != [] {
      RoundedAverageWithin(logged, LegacyDayScores(store), 0, 105);
    }
  }

  /** The older page total counts manual pages only (`if (dayMetrics?.pages)`). */
  function LegacyPagesTotal(store: Store, start: Day, end: Day): real {
    MetricTotal(store, Pages, start, end)
  }

  /** The current total exceeds the older one by exactly the session pages of the range. */
  lemma PagesTotalVersusLegacy(store: Store, start: Day, end: Day)
    ensures PagesTotal(store, start, end) - LegacyPagesTotal(store, start, end)
         == Sum(DaysFrom(start, end), SessionPagesOn(store))
  {
    TotalPagesSplits(store, start, end);
  }

  /** The older weekly review starts its week on the Sunday. */
  function LegacyPeriodStart(cal: MonthCalendar, kind: Kind, today: Day): (s: Day)
    requires ValidCalendar(cal)
    ensures s <= today
    ensures kind == Weekly ==> today - s <= 6 && Weekday(s) == Sunday
    ensures kind == Monthly ==> s == PeriodStart(cal, kind, today)
  {
    if kind == Weekly then LegacyWeekStart(today) else MonthStart(cal, today)
  }

  // ---------------------------------------------------------------------------
  // Period, consistency and prompts

  /** The review period: this week from its Monday, or this month from its first day. */
  function PeriodStart(cal: MonthCalendar, kind: Kind, today: Day): (s: Day)
    requires ValidCalendar(cal)
    ensures s <= today
    ensures kind == Weekly ==> today - s <= 6 && Weekday(s) == Monday
    ensures kind == Monthly ==> today - s <= 30 && cal.monthOf(s) == cal.monthOf(today)
  {
    if kind == Weekly then WeekStart(today) else MonthStart(cal, today)
  }

  /** `weeklyStats` and `monthlyStats`: the statistics from the period start to today. */
  function PeriodStats(store: Store, cal: MonthCalendar, focus: Option<Habit>, kind: Kind, today: Day): (s: Stats)
    requires ValidCalendar(cal)
    ensures kind == Weekly ==> 1 <= s.totalDays <= 7
    ensures kind == Monthly ==> 1 <= s.totalDays <= 31
  {
    ReviewStats(store, focus, PeriodStart(cal, kind, today), today)
  }

  /** The fixed denominator of the consistency figure and of the summary's logged share. */
  function FixedDays(kind: Kind): nat {
    if kind == Weekly then 7 else 30
  }

  /** The consistency figure as shown: logged days over a fixed 7 or 30. */
  function ConsistencyAsWritten(kind: Kind, loggedDays: nat): (pct: int)
    ensures pct >= 0
    ensures loggedDays <= FixedDays(kind) ==> pct <= 100
  {
    PercentBounds(loggedDays as real, FixedDays(kind) as real);
    Round(loggedDays as real / FixedDays(kind) as real * 100.0)
  }

  /**
   * On the 31st of a 31-day month with every day logged, the monthly figure reads 103%:
   * 31 logged days over a fixed 30.
   */
  lemma ConsistencyExceeds100(store: Store, start: Day)
    requires forall d :: start <= d <= start + 30 ==> d in store.metrics || d in store.habits
    ensures ConsistencyAsWritten(Monthly, LoggedDays(store, start, start + 30)) == 103
  {
    AllDaysLogged(store, start, start + 30);
    assert 31.0 / 30.0 * 100.0 == 103.0 + 1.0 / 3.0;
  }

  /**
   * The corrected figure divides by the fixed size or by the days elapsed, whichever is
   * larger: it never exceeds 100% and agrees with the figure as shown whenever the period
   * is not longer than the fixed size.
   */
  function Consistency(kind: Kind, loggedDays: nat, totalDays: nat): (pct: int)
    requires loggedDays <= totalDays
    ensures 0 <= pct <= 100
    ensures totalDays <= FixedDays(kind) ==> pct == ConsistencyAsWritten(kind, loggedDays)
    ensures loggedDays == totalDays && totalDays >= FixedDays(kind) ==> pct == 100
  {
    var denominator := MaxInt(FixedDays(kind), totalDays);
    PercentBounds(loggedDays as real, denominator as real);
    Round(loggedDays as real / denominator as real * 100.0)
  }

  datatype Prompt = Blocker | FocusMiss | Spending | Logging | Leverage

  /** The position of each prompt in the suggestion order. */
  function Rank(p: Prompt): nat {
    match p
    case Blocker => 0
    case FocusMiss => 1
    case Spending => 2
    case Logging => 3
    case Leverage => 4
  }

  predicate BlockerFires(s: Stats) { s.avgScore < 60 }
  predicate FocusFires(s: Stats) { s.focusHabitPct.Some? && s.focusHabitPct.value < 50 }
  predicate SpendingFires(s: Stats) { s.net < 0.0 }
  predicate LoggingFires(s: Stats, kind: Kind) { s.loggedDays < (if kind == Weekly then 5 else 20) }

  /** The conditional prompts that fire, in order. */
  function Fired(s: Stats, kind: Kind): seq<Prompt> {
    (if BlockerFires(s) then [Blocker] else [])
    + (if FocusFires(s) then [FocusMiss] else [])
    + (if SpendingFires(s) then [Spending] else [])
    + (if LoggingFires(s, kind) then [Logging] else [])
  }

  /**
   * `promptSuggestions`: the conditional prompts in order, the generic prompt when fewer
   * than three fired, cut to three.
   */
  function Prompts(s: Stats, kind: Kind): (r: seq<Prompt>)
    ensures 1 <= |r| <= 3
  {
    var fired := Fired(s, kind);
    var all := if |fired| < 3 then fired + [Leverage] else fired;
    all[..MinInt(3, |all|)]
  }

  /**
   * Each of the first three conditional prompts is suggested exactly when it fires; the
   * logging prompt only when it fires and is not the fourth; the generic prompt exactly
   * when fewer than three fired; and the suggestions keep the fixed order.
   */
  lemma PromptsContent(s: Stats, kind: Kind)
    ensures Blocker in Prompts(s, kind) <==> BlockerFires(s)
    ensures FocusMiss in Prompts(s, kind) <==> FocusFires(s)
    ensures Spending in Prompts(s, kind) <==> SpendingFires(s)
    ensures Logging in Prompts(s, kind) <==> LoggingFires(s, kind) && !(BlockerFires(s) && FocusFires(s) && SpendingFires(s))
    ensures Leverage in Prompts(s, kind) <==> |Fired(s, kind)| < 3
    ensures forall i, j :: 0 <= i < j < |Prompts(s, kind)| ==> Rank(Prompts(s, kind)[i]) < Rank(Prompts(s, kind)[j])
  {
    var r := Prompts(s, kind);
    if BlockerFires(s) {
      if FocusFires(s) {
        if SpendingFires(s) {
          assert r == [Blocker, FocusMiss, Spending];
        } else if LoggingFires(s, kind) {
          assert r == [Blocker, FocusMiss, Logging];
        } else {
          assert r == [Blocker, FocusMiss, Leverage];
        }
      } else if SpendingFires(s) {
        if LoggingFires(s, kind) {
          assert r == [Blocker, Spending, Logging];
        } else {
          assert r == [Blocker, Spending, Leverage];
        }
      } else if LoggingFires(s, kind) {
        assert r == [Blocker, Logging, Leverage];
      } else {
        assert r == [Blocker, Leverage];
      }
    } else if FocusFires(s) {
      if SpendingFires(s) {
        if LoggingFires(s, kind) {
          assert r == [FocusMiss, Spending, Logging];
        } else {
          assert r == [FocusMiss, Spending, Leverage];
        }
      } else if LoggingFires(s, kind) {
        assert r == [FocusMiss, Logging, Leverage];
      } else {
        assert r == [FocusMiss, Leverage];
      }
    } else if SpendingFires(s) {
      if LoggingFires(s, kind) {
        assert r == [Spending, Logging, Leverage];
      } else {
        assert r == [Spending, Leverage];
      }
    } else if LoggingFires(s, kind) {
      assert r == [Logging, Leverage];
    } else {
      assert r == [Leverage];
    }
  }

  // ---------------------------------------------------------------------------
  // Saving

  /** The form's fields. */
  datatype ReviewForm = ReviewForm(summary: string, win: string, lesson: string, standard: string, yearReflection: string)

  /** A saved review, tagged with its type, period start and the day it was saved. */
  datatype SavedReview = SavedReview(form: ReviewForm, kind: Kind, periodStart: Day, savedAt: Day)

  /** `${type}:${periodStart}`. */
  datatype ReviewKey = ReviewKey(kind: Kind, periodStart: Day)

  type Reviews = map<ReviewKey, SavedReview>

  /** `reviews?.[reviewKey] || null`. */
  function ExistingReview(reviews: Reviews, kind: Kind, periodStart: Day): Option<SavedReview> {
    var key := ReviewKey(kind, periodStart);
    if key in reviews then Some(reviews[key]) else None
  }

  /** The `onSave` update: writes the period's key and nothing else. */
  function SaveReview(reviews: Reviews, kind: Kind, periodStart: Day, form: ReviewForm, today: Day): (r: Reviews)
    ensures r.Keys == reviews.Keys + {ReviewKey(kind, periodStart)}
    ensures forall k :: k in reviews && k != ReviewKey(kind, periodStart) ==> r[k] == reviews[k]
  {
    reviews[ReviewKey(kind, periodStart) := SavedReview(form, kind, periodStart, today)]
  }

  /**
   * After saving, the period's review is the form just saved, tagged with the period, and
   * every other period's review reads as before.
   */
  lemma SaveThenLoad(reviews: Reviews, kind: Kind, periodStart: Day, form: ReviewForm, today: Day, otherKind: Kind, otherStart: Day)
    ensures ExistingReview(SaveReview(reviews, kind, periodStart, form, today), kind, periodStart)
         == Some(SavedReview(form, kind, periodStart, today))
    ensures (otherKind, otherStart) != (kind, periodStart) ==>
      ExistingReview(SaveReview(reviews, kind, periodStart, form, today), otherKind, otherStart)
      == ExistingReview(reviews, otherKind, otherStart)
  {
  }

  /** A saved review's tags always name the key it is stored under. */
  predicate TagsMatchKeys(reviews: Reviews) {
    forall k :: k in reviews ==> reviews[k].kind == k.kind && reviews[k].periodStart == k.periodStart
  }

  lemma SaveKeepsTags(reviews: Reviews, kind: Kind, periodStart: Day, form: ReviewForm, today: Day)
    requires TagsMatchKeys(reviews)
    ensures TagsMatchKeys(SaveReview(reviews, kind, periodStart, form, today))
  {
  }
}

=== FILE: score.dfy ===
/**
 * The daily score (`calculateDailyScore` in src/utils/score.js): two habits, one
 * "workout or run" slot and six metrics make up 78 raw points; a journal bonus of up to
 * 5 points is added on top; the raw score is rescaled so that 78 raw points read 100.
 */
module Score {
  import opened Wrappers
  import opened Numeric
  import opened Folds
  import opened Records

  datatype Grade = S | A | B | C | D | F

  /** The grade ladder: S from 90, A from 80, B from 70, C from 60, D from 50, else F. */
  function GradeOf(s: real): (g: Grade)
    ensures g == S <==> s >= 90.0
    ensures g == A <==> 80.0 <= s < 90.0
    ensures g == B <==> 70.0 <= s < 80.0
    ensures g == C <==> 60.0 <= s < 70.0
    ensures g == D <==> 50.0 <= s < 60.0
    ensures g == F <==> s < 50.0
  {
    if s >= 90.0 then S
    else if s >= 80.0 then A
    else if s >= 70.0 then B
    else if s >= 60.0 then C
    else if s >= 50.0 then D
    else F
  }

  /** Position on the ladder, F lowest. */
  function Rank(g: Grade): nat {
    match g
    case F => 0
    case D => 1
    case C => 2
    case B => 3
    case A => 4
    case S => 5
  }

  /** A higher score never earns a lower grade. */
  lemma GradeMonotone(s: real, t: real)
    requires s <= t
    ensures Rank(GradeOf(s)) <= Rank(GradeOf(t))
  {
  }

  /**
   * One line of the breakdown. Habit lines have no value and no goal, metric lines carry
   * both, and only the journal line is a bonus.
   */
  datatype Item = Item(
    title: string,
    earned: real,
    max: real,
    percent: real,
    value: Option<real>,
    goal: Option<real>,
    isBonus: bool)

  datatype DailyScore = DailyScore(score: int, maxScore: int, percent: int, breakdown: seq<Item>, grade: Grade)

  function EarnedOf(item: Item): real { item.earned }
  function MaxOf(item: Item): real { item.max }

  const HabitPoints := 10.0
  const ActivityPoints := 10.0
  const MetricPoints := 8.0

  /** A scored metric: its key, its label and the goal used when the user's goal is unset or zero. */
  datatype MetricSpec = MetricSpec(key: Metric, title: string, defaultGoal: real)

  /** The six metrics the current score uses, in breakdown order. */
  const ScoredMetrics: seq<MetricSpec> := [
    MetricSpec(Steps, "Steps", 10000.0),
    MetricSpec(Water, "Water", 1.5),
    MetricSpec(Sleep, "Sleep", 7.5),
    MetricSpec(Pages, "Reading", 20.0),
    MetricSpec(Pushups, "Push-ups", 50.0),
    MetricSpec(Squats, "Squats", 50.0)
  ]

  predicate PositiveDefaults(specs: seq<MetricSpec>) {
    forall i :: 0 <= i < |specs| ==> specs[i].defaultGoal > 0.0
  }

  /** `goals?.key || default`: an unset or zero goal falls back to the default. */
  function GoalFor(goals: Goals, spec: MetricSpec): (g: real)
    requires spec.defaultGoal > 0.0
    ensures g != 0.0
    ensures spec.key !in goals || goals[spec.key] == 0.0 ==> g == spec.defaultGoal
    ensures spec.key in goals && goals[spec.key] != 0.0 ==> g == goals[spec.key]
  {
    if spec.key in goals && goals[spec.key] != 0.0 then goals[spec.key] else spec.defaultGoal
  }

  /** `Math.min(100, value / goal * 100)`. */
  function MetricPercent(value: real, goal: real): (p: real)
    requires goal != 0.0
    ensures p <= 100.0
    ensures value >= 0.0 && goal > 0.0 ==> p >= 0.0
    ensures value >= goal > 0.0 ==> p == 100.0
  {
    MinReal(100.0, value / goal * 100.0)
  }

  /** `Math.round(percent / 100 * points * 10) / 10`: points earned, to one decimal. */
  function PointsFor(percent: real, points: real): real {
    Round(percent / 100.0 * points * 10.0) as real / 10.0
  }

  /** A metric earns between 0 and 8 points, and the full 8 exactly at 100 percent. */
  lemma PointsForBounds(percent: real)
    requires 0.0 <= percent <= 100.0
    ensures 0.0 <= PointsFor(percent, MetricPoints) <= MetricPoints
    ensures percent == 100.0 ==> PointsFor(percent, MetricPoints) == MetricPoints
    ensures percent == 0.0 ==> PointsFor(percent, MetricPoints) == 0.0
  {
    RoundWithin(percent / 100.0 * 8.0 * 10.0, 0, 80);
    if percent == 100.0 {
      RoundOfInteger(80);
    }
    if percent == 0.0 {
      RoundOfInteger(0);
    }
  }

  function HabitItem(title: string, done: bool): Item {
    Item(title, if done then HabitPoints else 0.0, HabitPoints, if done then 100.0 else 0.0, None, None, false)
  }

  /** The combined slot: earned once when the day has a workout, a run, or both. */
  predicate DidActivity(h: DayHabits) {
    Done(h, Workout) || Done(h, Run)
  }

  function ActivityItem(h: DayHabits): Item {
    var did := DidActivity(h);
    Item("Workout or Run", if did then ActivityPoints else 0.0, ActivityPoints, if did then 100.0 else 0.0, None, None, false)
  }

  function MetricEarned(m: DayMetrics, goals: Goals, spec: MetricSpec): real
    requires spec.defaultGoal > 0.0
  {
    PointsFor(MetricPercent(ValueOr0(m, spec.key), GoalFor(goals, spec)), MetricPoints)
  }

  function MetricItem(m: DayMetrics, goals: Goals, spec: MetricSpec): Item
    requires spec.defaultGoal > 0.0
  {
    var value := ValueOr0(m, spec.key);
    var goal := GoalFor(goals, spec);
    var percent := MetricPercent(value, goal);
    Item(spec.title, PointsFor(percent, MetricPoints), MetricPoints, Round(percent) as real, Some(value), Some(goal), false)
  }

  function MetricItems(m: DayMetrics, goals: Goals, specs: seq<MetricSpec>): (items: seq<Item>)
    requires PositiveDefaults(specs)
    ensures |items| == |specs|
    ensures forall i :: 0 <= i < |specs| ==> items[i] == MetricItem(m, goals, specs[i])
  {
    if specs == [] then [] else [MetricItem(m, goals, specs[0])] + MetricItems(m, goals, specs[1..])
  }

  /** Sum of the points the metrics earn, accumulated as the score is. */
  function MetricTotal(m: DayMetrics, goals: Goals, specs: seq<MetricSpec>): real
    requires PositiveDefaults(specs)
  {
    if specs == [] then 0.0 else MetricEarned(m, goals, specs[0]) + MetricTotal(m, goals, specs[1..])
  }

  /** Journal bonus: one point per full hundred characters, at most five, and only above 50 characters. */
  function JournalBonus(text: string): (b: int)
    ensures 0 <= b <= 5
    ensures |text| < 100 ==> b == 0
    ensures |text| >= 500 ==> b == 5
    ensures 100 <= |text| ==> b == MinInt(5, |text| / 100)
  {
    if |text| > 50 then MinInt(5, |text| / 100) else 0
  }

  /** The bonus line is added only for a positive bonus. */
  function BonusItems(bonus: int): (items: seq<Item>)
    ensures |items| == if bonus > 0 then 1 else 0
  {
    if bonus > 0 then [Item("Journal Bonus", bonus as real, 5.0, bonus as real / 5.0 * 100.0, None, None, true)] else []
  }

  function HabitItems(h: DayHabits): seq<Item> {
    [HabitItem("NoFap", Done(h, NoFap)), HabitItem("Healthy Eating", Done(h, HealthyEating)), ActivityItem(h)]
  }

  /** The breakdown before scaling, in the order the lines are pushed. */
  function RawBreakdown(m: DayMetrics, h: DayHabits, goals: Goals, j: Journal): seq<Item> {
    HabitItems(h) + MetricItems(m, goals, ScoredMetrics) + BonusItems(JournalBonus(j.text))
  }

  function HabitEarned(done: bool): real { if done then HabitPoints else 0.0 }

  /** The unscaled score, accumulated in the order the source adds to it. */
  function RawScore(m: DayMetrics, h: DayHabits, goals: Goals, j: Journal): real {
    HabitEarned(Done(h, NoFap)) + HabitEarned(Done(h, HealthyEating))
    + (if DidActivity(h) then ActivityPoints else 0.0)
    + MetricTotal(m, goals, ScoredMetrics)
    + JournalBonus(j.text) as real
  }

  /** The raw denominator: 2 habits and the activity slot at 10, six metrics at 8. */
  const RawMax: real := 2.0 * HabitPoints + ActivityPoints + 6.0 * MetricPoints

  /** `100 / (maxScore || 1)`; the denominator is never zero. */
  const Scale: real := 100.0 / RawMax

  /** A breakdown line rescaled to the 100-point scale, to one decimal. */
  function ScaleItem(item: Item): (r: Item)
    ensures r.title == item.title && r.percent == item.percent && r.isBonus == item.isBonus
    ensures r.value == item.value && r.goal == item.goal
  {
    item.(earned := RoundTenth(item.earned * Scale),
          max := if item.max != 0.0 then RoundTenth(item.max * Scale) else item.max)
  }

  function ScaleAll(items: seq<Item>): (r: seq<Item>)
    ensures |r| == |items|
    ensures forall i :: 0 <= i < |items| ==> r[i] == ScaleItem(items[i])
  {
    if items == [] then [] else [ScaleItem(items[0])] + ScaleAll(items[1..])
  }

  /** The result built from the raw score and the raw breakdown. */
  function Assemble(raw: real, items: seq<Item>): (r: DailyScore)
    ensures r.maxScore == 100
    ensures r.grade == GradeOf(r.score as real)
    ensures r.score == Round(raw * Scale)
    ensures r.breakdown == ScaleAll(items)
  {
    var score := Round(raw * Scale);
    DailyScore(score, 100, Round(raw / RawMax * 100.0), ScaleAll(items), GradeOf(score as real))
  }

  /** `calculateDailyScore(dayMetrics, dayHabits, goals, dayJournal)`. */
  function Calculate(m: DayMetrics, h: DayHabits, goals: Goals, j: Journal): (r: DailyScore)
    ensures r.maxScore == 100
    ensures r.score == Round(RawScore(m, h, goals, j) * 100.0 / 78.0)
    ensures r.grade == GradeOf(r.score as real)
    ensures |r.breakdown| == |RawBreakdown(m, h, goals, j)|
  {
    Assemble(RawScore(m, h, goals, j), RawBreakdown(m, h, goals, j))
  }

  // ---------------------------------------------------------------------------
  // Properties

  lemma RawMaxIs78()
    ensures RawMax == 78.0
  {
  }

  /** The breakdown lists the two habits, the activity slot, the six metrics and maybe the bonus. */
  lemma BreakdownShape(m: DayMetrics, h: DayHabits, goals: Goals, j: Journal)
    ensures var items := RawBreakdown(m, h, goals, j);
      && |items| == 9 + (if JournalBonus(j.text) > 0 then 1 else 0)
      && (forall i :: 0 <= i < 9 ==> !items[i].isBonus)
      && (forall i :: 9 <= i < |items| ==> items[i].isBonus)
  {
  }

  /** The maxima of the non-bonus lines add up to the raw denominator 78. */
  lemma {:induction false} NonBonusMaxIsRawMax(m: DayMetrics, h: DayHabits, goals: Goals, j: Journal)
    ensures Sum(RawBreakdown(m, h, goals, j)[..9], MaxOf) == RawMax
  {
    var items := RawBreakdown(m, h, goals, j);
    var metrics := MetricItems(m, goals, ScoredMetrics);
    assert items[..9] == HabitItems(h) + metrics;
    SumAppend(HabitItems(h), metrics, MaxOf);
    HabitItemsSums(h);
    MetricItemsMax(m, goals, ScoredMetrics);
  }

  /** The three habit lines are worth 30 points and earn what the score adds for them. */
  lemma HabitItemsSums(h: DayHabits)
    ensures Sum(HabitItems(h), MaxOf) == 2.0 * HabitPoints + ActivityPoints
    ensures Sum(HabitItems(h), EarnedOf)
         == HabitEarned(Done(h, NoFap)) + HabitEarned(Done(h, HealthyEating)) + (if DidActivity(h) then ActivityPoints else 0.0)
  {
    var s := HabitItems(h);
    SumThree(s[0], s[1], s[2], MaxOf);
    SumThree(s[0], s[1], s[2], EarnedOf);
  }

  lemma {:induction false} MetricItemsMax(m: DayMetrics, goals: Goals, specs: seq<MetricSpec>)
    requires PositiveDefaults(specs)
    ensures Sum(MetricItems(m, goals, specs), MaxOf) == |specs| as real * MetricPoints
  {
    if specs != [] {
      MetricItemsMax(m, goals, specs[1..]);
      assert MetricItems(m, goals, specs)[1..] == MetricItems(m, goals, specs[1..]);
    }
  }

  /** The score is the sum of what the breakdown lines earn (before scaling). */
  lemma {:induction false} RawScoreIsBreakdownSum(m: DayMetrics, h: DayHabits, goals: Goals, j: Journal)
    ensures RawScore(m, h, goals, j) == Sum(RawBreakdown(m, h, goals, j), EarnedOf)
  {
    var metrics := MetricItems(m, goals, ScoredMetrics);
    var bonus := BonusItems(JournalBonus(j.text));
    SumAppend(HabitItems(h) + metrics, bonus, EarnedOf);
    SumAppend(HabitItems(h), metrics, EarnedOf);
    HabitItemsSums(h);
    MetricItemsEarned(m, goals, ScoredMetrics);
    if bonus != [] {
      assert bonus[1..] == [];
    }
  }

  lemma {:induction false} MetricItemsEarned(m: DayMetrics, goals: Goals, specs: seq<MetricSpec>)
    requires PositiveDefaults(specs)
    ensures Sum(MetricItems(m, goals, specs), EarnedOf) == MetricTotal(m, goals, specs)
  {
    if specs != [] {
      MetricItemsEarned(m, goals, specs[1..]);
      assert MetricItems(m, goals, specs)[1..] == MetricItems(m, goals, specs[1..]);
    }
  }

  /** Workout and run share one slot: either alone earns the full 10 points, both together earn it once. */
  lemma ActivitySlot(m: DayMetrics, h: DayHabits, goals: Goals, j: Journal)
    ensures RawBreakdown(m, h, goals, j)[2].earned == (if Done(h, Workout) || Done(h, Run) then 10.0 else 0.0)
    ensures RawScore(m, h[Workout := true][Run := true], goals, j) == RawScore(m, h[Workout := true][Run := false], goals, j)
    ensures RawScore(m, h[Workout := true][Run := true], goals, j) == RawScore(m, h[Workout := false][Run := true], goals, j)
  {
  }

  /** Metric values and goals as the inputs produce them: not negative. */
  predicate NonNegativeMetrics(m: DayMetrics) {
    forall k :: k in m && m[k].Some? ==> m[k].value >= 0.0
  }

  predicate NonNegativeGoals(goals: Goals) {
    forall k :: k in goals ==> goals[k] >= 0.0
  }

  /** With non-negative inputs every metric earns between 0 and 8 raw points. */
  lemma MetricEarnedBounds(m: DayMetrics, goals: Goals, spec: MetricSpec)
    requires spec.defaultGoal > 0.0
    requires NonNegativeMetrics(m) && NonNegativeGoals(goals)
    ensures 0.0 <= MetricEarned(m, goals, spec) <= MetricPoints
  {
    PointsForBounds(MetricPercent(ValueOr0(m, spec.key), GoalFor(goals, spec)));
  }

  lemma {:induction false} MetricTotalBounds(m: DayMetrics, goals: Goals, specs: seq<MetricSpec>)
    requires PositiveDefaults(specs)
    requires NonNegativeMetrics(m) && NonNegativeGoals(goals)
    ensures 0.0 <= MetricTotal(m, goals, specs) <= |specs| as real * MetricPoints
  {
    if specs != [] {
      MetricEarnedBounds(m, goals, specs[0]);
      MetricTotalBounds(m, goals, specs[1..]);
    }
  }

  /** The raw score lies between 0 and 78 plus the bonus. */
  lemma RawScoreBounds(m: DayMetrics, h: DayHabits, goals: Goals, j: Journal)
    requires NonNegativeMetrics(m) && NonNegativeGoals(goals)
    ensures 0.0 <= RawScore(m, h, goals, j) <= RawMax + JournalBonus(j.text) as real
  {
    MetricTotalBounds(m, goals, ScoredMetrics);
  }

  /**
   * With non-negative inputs the score is at least 0; without a journal bonus it is at most
   * 100; the bonus sits outside the denominator, so with it the score can reach 106.
   */
  lemma ScoreBounds(m: DayMetrics, h: DayHabits, goals: Goals, j: Journal)
    requires NonNegativeMetrics(m) && NonNegativeGoals(goals)
    ensures Calculate(m, h, goals, j).score >= 0
    ensures JournalBonus(j.text) == 0 ==> Calculate(m, h, goals, j).score <= 100
    ensures Calculate(m, h, goals, j).score <= 106
  {
    RawScoreBounds(m, h, goals, j);
    ScaledRoundBounds(RawScore(m, h, goals, j), JournalBonus(j.text));
  }

  /** Rounding a scaled raw score of at most 78 plus a bonus of at most 5. */
  lemma ScaledRoundBounds(raw: real, bonus: int)
    requires 0 <= bonus <= 5
    requires 0.0 <= raw <= RawMax + bonus as real
    ensures Round(raw * Scale) >= 0
    ensures bonus == 0 ==> Round(raw * Scale) <= 100
    ensures Round(raw * Scale) <= 106
  {
    RawMaxIs78();
    assert raw * Scale <= 83.0 * Scale < 106.5;
    RoundMonotone(0.0, raw * Scale);
    RoundOfInteger(0);
    if bonus == 0 {
      RoundWithin(raw * Scale, 0, 100);
    }
  }

  /** The percent field equals the score: both are the raw score over 78, in exact arithmetic. */
  lemma PercentIsScore(m: DayMetrics, h: DayHabits, goals: Goals, j: Journal)
    ensures Calculate(m, h, goals, j).percent == Calculate(m, h, goals, j).score
  {
    AssemblePercent(RawScore(m, h, goals, j), RawBreakdown(m, h, goals, j));
  }

  lemma AssemblePercent(raw: real, items: seq<Item>)
    ensures Assemble(raw, items).percent == Assemble(raw, items).score
  {
    assert raw / RawMax * 100.0 == raw * Scale;
  }

  /** Lengths 51 to 99 pass the length test but earn no bonus and no breakdown line. */
  lemma ShortJournalNoBonus(text: string)
    requires 50 < |text| < 100
    ensures JournalBonus(text) == 0 && BonusItems(JournalBonus(text)) == []
  {
  }

  /** No metric of the day holds a value. */
  predicate NothingEntered(m: DayMetrics) {
    forall k :: k in m ==> m[k].None?
  }

  /** No habit of the day is ticked. */
  predicate NothingDone(h: DayHabits) {
    forall k :: k in h ==> !h[k]
  }

  /** A metric never entered earns nothing. */
  lemma UnenteredMetricEarnsNothing(m: DayMetrics, goals: Goals, spec: MetricSpec)
    requires spec.defaultGoal > 0.0 && NothingEntered(m)
    ensures MetricEarned(m, goals, spec) == 0.0
  {
    assert ValueOr0(m, spec.key) == 0.0;
    PointsForBounds(0.0);
  }

  lemma {:induction false} UnenteredMetricsEarnNothing(m: DayMetrics, goals: Goals, specs: seq<MetricSpec>)
    requires PositiveDefaults(specs) && NothingEntered(m)
    ensures MetricTotal(m, goals, specs) == 0.0
    ensures forall i :: 0 <= i < |specs| ==> MetricItems(m, goals, specs)[i].earned == 0.0
  {
    if specs != [] {
      UnenteredMetricEarnsNothing(m, goals, specs[0]);
      UnenteredMetricsEarnNothing(m, goals, specs[1..]);
      assert MetricItems(m, goals, specs)[1..] == MetricItems(m, goals, specs[1..]);
    }
  }

  lemma NoHabitsEarnNothing(h: DayHabits)
    requires NothingDone(h)
    ensures forall i :: 0 <= i < |HabitItems(h)| ==> HabitItems(h)[i].earned == 0.0
  {
    assert !Done(h, NoFap) && !Done(h, HealthyEating) && !DidActivity(h);
  }

  lemma ConcatEarnNothing(a: seq<Item>, b: seq<Item>)
    requires forall i :: 0 <= i < |a| ==> a[i].earned == 0.0
    requires forall i :: 0 <= i < |b| ==> b[i].earned == 0.0
    ensures forall i :: 0 <= i < |a + b| ==> (a + b)[i].earned == 0.0
  {
    forall i | 0 <= i < |a + b|
      ensures (a + b)[i].earned == 0.0
    {
      if i >= |a| {
        assert (a + b)[i] == b[i - |a|];
      }
    }
  }

  /** With nothing entered, nothing ticked and no bonus, the raw score and every raw line are zero. */
  lemma UnloggedDayRaw(m: DayMetrics, h: DayHabits, goals: Goals, j: Journal)
    requires NothingEntered(m) && NothingDone(h) && |j.text| <= 50
    ensures RawScore(m, h, goals, j) == 0.0
    ensures |RawBreakdown(m, h, goals, j)| == 9
    ensures forall i :: 0 <= i < 9 ==> RawBreakdown(m, h, goals, j)[i].earned == 0.0
  {
    var habits := HabitItems(h);
    var metrics := MetricItems(m, goals, ScoredMetrics);
    UnenteredMetricsEarnNothing(m, goals, ScoredMetrics);
    NoHabitsEarnNothing(h);
    ConcatEarnNothing(habits, metrics);
    assert RawBreakdown(m, h, goals, j) == habits + metrics;
  }

  /** A day whose raw lines all earn nothing scores 0 with grade F and zero scaled lines. */
  lemma ZeroRawScore(m: DayMetrics, h: DayHabits, goals: Goals, j: Journal)
    requires RawScore(m, h, goals, j) == 0.0
    requires forall i :: 0 <= i < |RawBreakdown(m, h, goals, j)| ==> RawBreakdown(m, h, goals, j)[i].earned == 0.0
    ensures Calculate(m, h, goals, j).score == 0 && Calculate(m, h, goals, j).grade == F
    ensures forall i :: 0 <= i < |Calculate(m, h, goals, j).breakdown| ==> Calculate(m, h, goals, j).breakdown[i].earned == 0.0
  {
    AssembleZero(RawBreakdown(m, h, goals, j));
  }

  lemma AssembleZero(items: seq<Item>)
    requires forall i :: 0 <= i < |items| ==> items[i].earned == 0.0
    ensures Assemble(0.0, items).score == 0 && Assemble(0.0, items).grade == F
    ensures forall i :: 0 <= i < |items| ==> Assemble(0.0, items).breakdown[i].earned == 0.0
  {
    RoundOfInteger(0);
    var scaled := ScaleAll(items);
    forall i | 0 <= i < |items|
      ensures scaled[i].earned == 0.0
    {
      assert scaled[i] == ScaleItem(items[i]);
    }
  }

  /**
   * A day with no value entered, no habit ticked and a journal of at most 50 characters
   * scores 0, grade F, with nine breakdown lines that all earn nothing.
   */
  lemma UnloggedDay(m: DayMetrics, h: DayHabits, goals: Goals, j: Journal)
    requires NothingEntered(m) && NothingDone(h) && |j.text| <= 50
    ensures var r := Calculate(m, h, goals, j);
      && r.score == 0 && r.grade == F
      && |r.breakdown| == 9
      && forall i :: 0 <= i < 9 ==> r.breakdown[i].earned == 0.0
  {
    UnloggedDayRaw(m, h, goals, j);
    ZeroRawScore(m, h, goals, j);
  }

  /** The empty day of a date with no entries. */
  lemma EmptyDay(goals: Goals)
    ensures var r := Calculate(map[], map[], goals, EmptyJournal);
      && r.score == 0 && r.grade == F
      && |r.breakdown| == 9
      && forall i :: 0 <= i < 9 ==> r.breakdown[i].earned == 0.0
  {
    UnloggedDay(map[], map[], goals, EmptyJournal);
  }

  /** A metric at or above its goal earns the full 8 points. */
  lemma MetricAtGoal(m: DayMetrics, goals: Goals, spec: MetricSpec)
    requires spec.defaultGoal > 0.0 && NonNegativeGoals(goals)
    requires ValueOr0(m, spec.key) >= GoalFor(goals, spec)
    ensures MetricEarned(m, goals, spec) == MetricPoints
  {
    PointsForBounds(100.0);
  }

  lemma {:induction false} MetricTotalAtGoal(m: DayMetrics, goals: Goals, specs: seq<MetricSpec>)
    requires PositiveDefaults(specs) && NonNegativeGoals(goals)
    requires forall i :: 0 <= i < |specs| ==> ValueOr0(m, specs[i].key) >= GoalFor(goals, specs[i])
    ensures MetricTotal(m, goals, specs) == |specs| as real * MetricPoints
  {
    if specs != [] {
      MetricAtGoal(m, goals, specs[0]);
      MetricTotalAtGoal(m, goals, specs[1..]);
    }
  }

  /** A day on which both habits, the activity slot and every metric goal are met. */
  predicate PerfectDay(m: DayMetrics, h: DayHabits, goals: Goals) {
    && Done(h, NoFap) && Done(h, HealthyEating) && DidActivity(h)
    && forall i :: 0 <= i < |ScoredMetrics| ==> ValueOr0(m, ScoredMetrics[i].key) >= GoalFor(goals, ScoredMetrics[i])
  }

  /** A perfect day earns the whole raw denominator, plus whatever journal bonus it has. */
  lemma PerfectDayRaw(m: DayMetrics, h: DayHabits, goals: Goals, j: Journal)
    requires NonNegativeGoals(goals) && PerfectDay(m, h, goals)
    ensures RawScore(m, h, goals, j) == RawMax + JournalBonus(j.text) as real
  {
    MetricTotalAtGoal(m, goals, ScoredMetrics);
  }

  /**
   * A day that earns at least as many raw points scores at least as high and grades at
   * least as well: rescaling and rounding never reorder two days.
   */
  lemma ScoreMonotone(m1: DayMetrics, h1: DayHabits, j1: Journal, m2: DayMetrics, h2: DayHabits, j2: Journal, goals: Goals)
    requires RawScore(m1, h1, goals, j1) <= RawScore(m2, h2, goals, j2)
    ensures Calculate(m1, h1, goals, j1).score <= Calculate(m2, h2, goals, j2).score
    ensures Rank(Calculate(m1, h1, goals, j1).grade) <= Rank(Calculate(m2, h2, goals, j2).grade)
  {
    var r1 := RawScore(m1, h1, goals, j1);
    var r2 := RawScore(m2, h2, goals, j2);
    assert r1 * 100.0 / 78.0 <= r2 * 100.0 / 78.0;
    RoundMonotone(r1 * 100.0 / 78.0, r2 * 100.0 / 78.0);
    GradeMonotone(Calculate(m1, h1, goals, j1).score as real, Calculate(m2, h2, goals, j2).score as real);
  }

  /**
   * The bonus is outside the denominator: a perfect day scores exactly 100 without a
   * journal bonus and 106 with a journal of 500 characters or more.
   */
  lemma PerfectDayScore(m: DayMetrics, h: DayHabits, goals: Goals, j: Journal)
    requires NonNegativeGoals(goals) && PerfectDay(m, h, goals)
    ensures |j.text| < 100 ==> Calculate(m, h, goals, j).score == 100
    ensures |j.text| >= 500 ==> Calculate(m, h, goals, j).score == 106
  {
    PerfectDayRaw(m, h, goals, j);
    if |j.text| < 100 {
      RoundOfInteger(100);
    }
    assert 106.0 < 83.0 * 100.0 / 78.0 < 106.5;
  }

  lemma {:induction false} MetricTotalCongruent(m1: DayMetrics, m2: DayMetrics, goals: Goals, specs: seq<MetricSpec>)
    requires PositiveDefaults(specs)
    requires forall k :: ValueOr0(m1, k) == ValueOr0(m2, k)
    ensures MetricTotal(m1, goals, specs) == MetricTotal(m2, goals, specs)
  {
    if specs != [] {
      MetricTotalCongruent(m1, m2, goals, specs[1..]);
    }
  }

  /**
   * The score reads a day's metrics only through `value || 0`: two metric records that
   * agree on every such value score the same, with the same breakdown.
   */
  lemma CalculateCongruent(m1: DayMetrics, m2: DayMetrics, h: DayHabits, goals: Goals, j: Journal)
    requires forall k :: ValueOr0(m1, k) == ValueOr0(m2, k)
    ensures Calculate(m1, h, goals, j) == Calculate(m2, h, goals, j)
  {
    RawScoreCongruent(m1, m2, h, goals, j);
    MetricItemsCongruent(m1, m2, goals, ScoredMetrics);
    CalculateFromParts(m1, m2, h, goals, j);
  }

  lemma RawScoreCongruent(m1: DayMetrics, m2: DayMetrics, h: DayHabits, goals: Goals, j: Journal)
    requires forall k :: ValueOr0(m1, k) == ValueOr0(m2, k)
    ensures RawScore(m1, h, goals, j) == RawScore(m2, h, goals, j)
  {
    MetricTotalCongruent(m1, m2, goals, ScoredMetrics);
  }

  /** The score depends on the metrics only through the raw score and the raw breakdown. */
  lemma CalculateFromParts(m1: DayMetrics, m2: DayMetrics, h: DayHabits, goals: Goals, j: Journal)
    requires RawScore(m1, h, goals, j) == RawScore(m2, h, goals, j)
    requires MetricItems(m1, goals, ScoredMetrics) == MetricItems(m2, goals, ScoredMetrics)
    ensures Calculate(m1, h, goals, j) == Calculate(m2, h, goals, j)
  {
    assert RawBreakdown(m1, h, goals, j) == RawBreakdown(m2, h, goals, j);
  }

  lemma MetricItemsCongruent(m1: DayMetrics, m2: DayMetrics, goals: Goals, specs: seq<MetricSpec>)
    requires PositiveDefaults(specs)
    requires forall k :: ValueOr0(m1, k) == ValueOr0(m2, k)
    ensures MetricItems(m1, goals, specs) == MetricItems(m2, goals, specs)
  {
    forall i | 0 <= i < |specs|
      ensures MetricItems(m1, goals, specs)[i] == MetricItems(m2, goals, specs)[i]
    {
      assert ValueOr0(m1, specs[i].key) == ValueOr0(m2, specs[i].key);
    }
  }
}

=== FILE: scorecard.dfy ===
/**
 * The score card on the today page and the breakdown dialog behind it
 * (src/components/DailyScoreCard.jsx, src/components/ScoreBreakdownModal.jsx): the
 * message band of a score, the signed week-over-week difference and its colour, the
 * three groups the breakdown is shown in, and the improvement tips.
 */
module ScoreCard {
  import opened Wrappers
  import opened Numeric
  import opened Folds
  import opened Records
  import opened Score

  // ---------------------------------------------------------------------------
  // Message

  /** The six lines `getMessage` can return, from "Legendary day!" down to "Tomorrow is a new day". */
  datatype Message = Legendary | CrushingIt | SolidProgress | GoodEffort | KeepPushing | NewDay

  /** The message that goes with each grade. */
  function MessageOf(g: Grade): Message {
    match g
    case S => Legendary
    case A => CrushingIt
    case B => SolidProgress
    case C => GoodEffort
    case D => KeepPushing
    case F => NewDay
  }

  /**
   * `getMessage(score.score)`. Its bands are the grade ladder, so the card's message
   * always matches its grade.
   */
  function MessageFor(s: int): (msg: Message)
    ensures msg == MessageOf(GradeOf(s as real))
    ensures msg == Legendary <==> s >= 90
    ensures msg == NewDay <==> s < 50
  {
    if s >= 90 then Legendary
    else if s >= 80 then CrushingIt
    else if s >= 70 then SolidProgress
    else if s >= 60 then GoodEffort
    else if s >= 50 then KeepPushing
    else NewDay
  }

  // ---------------------------------------------------------------------------
  // Week-over-week difference

  predicate IsDigit(c: char) { '0' <= c <= '9' }

  function DigitChar(d: int): (c: char)
    requires 0 <= d < 10
    ensures IsDigit(c) && c as int - '0' as int == d
  {
    ('0' as int + d) as char
  }

  /** The decimal digits of a natural number, as `String(n)` writes them. */
  function NatDigits(n: nat): (s: string)
    ensures |s| >= 1
    ensures forall i :: 0 <= i < |s| ==> IsDigit(s[i])
    ensures s[0] == '0' ==> n == 0
    decreases n
  {
    if n < 10 then [DigitChar(n)] else NatDigits(n / 10) + [DigitChar(n % 10)]
  }

  /** The number a string of decimal digits denotes. */
  function DigitsValue(s: string): nat
    requires forall i :: 0 <= i < |s| ==> IsDigit(s[i])
  {
    if s == [] then 0
    else
      var last := s[|s| - 1];
      assert IsDigit(last);
      10 * DigitsValue(s[..|s| - 1]) + (last as int - '0' as int)
  }

  /** Reading the digits back gives the number. */
  lemma {:induction false} DigitsRoundTrip(n: nat)
    ensures DigitsValue(NatDigits(n)) == n
    decreases n
  {
    if n >= 10 {
      DigitsRoundTrip(n / 10);
      var s := NatDigits(n);
      assert s[..|s| - 1] == NatDigits(n / 10);
    }
  }

  /** `diff > 0 ? `+${diff}` : diff.toString()`. */
  function DiffText(weeklyAvg: int, lastWeekAvg: int): (t: string)
    ensures |t| >= 1
    ensures t[0] == '+' <==> weeklyAvg > lastWeekAvg
    ensures t[0] == '-' <==> weeklyAvg < lastWeekAvg
    ensures t == "0" <==> weeklyAvg == lastWeekAvg
  {
    var diff := weeklyAvg - lastWeekAvg;
    if diff > 0 then "+" + NatDigits(diff)
    else if diff < 0 then "-" + NatDigits(-diff)
    else "0"
  }

  /** Reads a signed decimal back: an optional `+` or `-` and digits. */
  function ReadSigned(t: string): int {
    if |t| >= 1 && (t[0] == '+' || t[0] == '-') && forall i :: 1 <= i < |t| ==> IsDigit(t[i]) then
      var magnitude: int := DigitsValue(t[1..]);
      if t[0] == '+' then magnitude else -magnitude
    else if forall i :: 0 <= i < |t| ==> IsDigit(t[i]) then DigitsValue(t)
    else 0
  }

  /** The difference text reads back as the difference: the sign and digits lose nothing. */
  lemma DiffTextReadsBack(weeklyAvg: int, lastWeekAvg: int)
    ensures ReadSigned(DiffText(weeklyAvg, lastWeekAvg)) == weeklyAvg - lastWeekAvg
  {
    var diff := weeklyAvg - lastWeekAvg;
    var t := DiffText(weeklyAvg, lastWeekAvg);
    if diff > 0 {
      DigitsRoundTrip(diff);
      assert t[1..] == NatDigits(diff);
    } else if diff < 0 {
      DigitsRoundTrip(-diff);
      assert t[1..] == NatDigits(-diff);
    } else {
      assert t == ['0'];
      assert IsDigit(t[0]) && t[0] != '+' && t[0] != '-';
      assert DigitsValue(['0']) == 0 by {
        assert ['0'][..0] == [];
      }
    }
  }

  /** `diffColor`: emerald, red or slate. */
  datatype Tone = Up | Down | Flat

  /** The colour follows the sign the difference text shows. */
  function DiffColor(weeklyAvg: int, lastWeekAvg: int): (c: Tone)
    ensures c == Up <==> DiffText(weeklyAvg, lastWeekAvg)[0] == '+'
    ensures c == Down <==> DiffText(weeklyAvg, lastWeekAvg)[0] == '-'
  {
    var diff := weeklyAvg - lastWeekAvg;
    if diff > 0 then Up else if diff < 0 then Down else Flat
  }

  // ---------------------------------------------------------------------------
  // Score ring

  /** The circumference of the score ring. */
  const RingLength: real := 226.0

  /** `(score.percent / 100) * 226`: the drawn part of the ring, full at 100 percent and longer past it. */
  function ArcLength(percent: int): (arc: real)
    ensures 0 <= percent <= 100 ==> 0.0 <= arc <= RingLength
    ensures percent == 100 ==> arc == RingLength
    ensures percent > 100 ==> arc > RingLength
    ensures arc * 100.0 == percent as real * RingLength
  {
    percent as real / 100.0 * RingLength
  }

  // ---------------------------------------------------------------------------
  // Breakdown groups

  /** `!b.goal && !b.isBonus`: the habits section; a goal of 0 counts as no goal. */
  predicate InHabitGroup(i: Item) {
    (i.goal.None? || i.goal.value == 0.0) && !i.isBonus
  }

  /** `b.goal !== undefined`: the metrics section. */
  predicate InMetricGroup(i: Item) {
    i.goal.Some?
  }

  /** `b.isBonus`: the bonus section. */
  predicate InBonusGroup(i: Item) {
    i.isBonus
  }

  /** A habit line, a metric line with a non-zero goal, or a bonus line without a goal. */
  predicate WellFormedLine(i: Item) {
    || (i.goal.None? && !i.isBonus)
    || (i.goal.Some? && i.goal.value != 0.0 && !i.isBonus)
    || (i.goal.None? && i.isBonus)
  }

  /** `bonus.length > 0`: the bonus section is shown exactly when some line is a bonus. */
  function ShowBonus(b: seq<Item>): (show: bool)
    ensures show <==> exists i :: i in b && i.isBonus
  {
    var bonus := Filter(b, InBonusGroup);
    assert bonus != [] ==> bonus[0] in bonus;
    |bonus| > 0
  }

  function HabitGroup(b: seq<Item>): seq<Item> { Filter(b, InHabitGroup) }
  function MetricGroup(b: seq<Item>): seq<Item> { Filter(b, InMetricGroup) }
  function BonusGroup(b: seq<Item>): seq<Item> { Filter(b, InBonusGroup) }

  function InHabitOrMetric(i: Item): bool { InHabitGroup(i) || InMetricGroup(i) }
  function Always(i: Item): bool { true }

  /** The three sections show every well-formed line exactly once between them. */
  lemma GroupsPartition(b: seq<Item>)
    requires forall i :: i in b ==> WellFormedLine(i)
    ensures |HabitGroup(b)| + |MetricGroup(b)| + |BonusGroup(b)| == |b|
    ensures forall i :: i in b ==> (InHabitGroup(i) || InMetricGroup(i) || InBonusGroup(i))
    ensures forall i :: i in b ==> !(InHabitGroup(i) && InMetricGroup(i)) && !(InHabitGroup(i) && InBonusGroup(i))
    ensures forall i :: i in b ==> !(InMetricGroup(i) && InBonusGroup(i))
  {
    FilterLengthDisjoint(b, InHabitGroup, InMetricGroup, InHabitOrMetric);
    FilterLengthDisjoint(b, InHabitOrMetric, InBonusGroup, Always);
    FilterAll(b, Always);
  }

  /** The sections of a breakdown made of habit lines, then metric lines, then bonus lines. */
  lemma {:induction false} GroupCounts(hs: seq<Item>, ms: seq<Item>, bs: seq<Item>)
    requires forall i :: i in hs ==> i.goal.None? && !i.isBonus
    requires forall i :: i in ms ==> i.goal.Some? && i.goal.value != 0.0 && !i.isBonus
    requires forall i :: i in bs ==> i.goal.None? && i.isBonus
    ensures |HabitGroup(hs + ms + bs)| == |hs|
    ensures |MetricGroup(hs + ms + bs)| == |ms|
    ensures |BonusGroup(hs + ms + bs)| == |bs|
  {
    FilterAppend(hs + ms, bs, InHabitGroup);
    FilterAppend(hs, ms, InHabitGroup);
    FilterAppend(hs + ms, bs, InMetricGroup);
    FilterAppend(hs, ms, InMetricGroup);
    FilterAppend(hs + ms, bs, InBonusGroup);
    FilterAppend(hs, ms, InBonusGroup);
    FilterAll(hs, InHabitGroup);
    FilterNone(ms, InHabitGroup);
    FilterNone(bs, InHabitGroup);
    FilterNone(hs, InMetricGroup);
    FilterAll(ms, InMetricGroup);
    FilterNone(bs, InMetricGroup);
    FilterNone(hs, InBonusGroup);
    FilterNone(ms, InBonusGroup);
    FilterAll(bs, InBonusGroup);
  }

  lemma ScaleAllAppend(x: seq<Item>, y: seq<Item>)
    ensures ScaleAll(x + y) == ScaleAll(x) + ScaleAll(y)
  {
    assert forall i :: 0 <= i < |x + y| ==> ScaleAll(x + y)[i] == (ScaleAll(x) + ScaleAll(y))[i];
  }

  /**
   * For a calculated score the dialog shows the three habit lines, the six metric lines,
   * and the bonus section exactly when there is a journal bonus.
   */
  lemma CalculatedGroups(m: DayMetrics, h: DayHabits, goals: Goals, j: Journal)
    ensures |HabitGroup(Calculate(m, h, goals, j).breakdown)| == 3
    ensures |MetricGroup(Calculate(m, h, goals, j).breakdown)| == 6
    ensures |BonusGroup(Calculate(m, h, goals, j).breakdown)| == if JournalBonus(j.text) > 0 then 1 else 0
  {
    var habits := HabitItems(h);
    var metrics := MetricItems(m, goals, ScoredMetrics);
    var bonus := BonusItems(JournalBonus(j.text));
    ScaleAllAppend(habits, metrics);
    ScaleAllAppend(habits + metrics, bonus);
    HabitLines(h);
    MetricLines(m, goals);
    BonusLines(JournalBonus(j.text));
    GroupCounts(ScaleAll(habits), ScaleAll(metrics), ScaleAll(bonus));
  }

  lemma HabitLines(h: DayHabits)
    ensures |ScaleAll(HabitItems(h))| == 3
    ensures forall i :: i in ScaleAll(HabitItems(h)) ==> i.goal.None? && !i.isBonus
  {
    var hs := ScaleAll(HabitItems(h));
    assert forall k :: 0 <= k < 3 ==> hs[k].goal.None? && !hs[k].isBonus;
  }

  lemma MetricLines(m: DayMetrics, goals: Goals)
    ensures |ScaleAll(MetricItems(m, goals, ScoredMetrics))| == 6
    ensures forall i :: i in ScaleAll(MetricItems(m, goals, ScoredMetrics)) ==> i.goal.Some? && i.goal.value != 0.0 && !i.isBonus
  {
    var ms := ScaleAll(MetricItems(m, goals, ScoredMetrics));
    forall i | i in ms
      ensures i.goal.Some? && i.goal.value != 0.0 && !i.isBonus
    {
      var k :| 0 <= k < |ms| && ms[k] == i;
      assert ms[k] == ScaleItem(MetricItem(m, goals, ScoredMetrics[k]));
    }
  }

  lemma BonusLines(bonus: int)
    ensures |ScaleAll(BonusItems(bonus))| == if bonus > 0 then 1 else 0
    ensures forall i :: i in ScaleAll(BonusItems(bonus)) ==> i.goal.None? && i.isBonus
  {
  }

  // ---------------------------------------------------------------------------
  // Tips

  /** A line that earns a tip: not the bonus and below 100 percent. */
  predicate NeedsWork(i: Item) {
    !i.isBonus && i.percent < 100.0
  }

  /** One tip: the line's title, and whether it reads "Not logged or low" (below 50) or "Almost there!". */
  datatype Tip = Tip(title: string, low: bool)

  function TipOf(i: Item): (t: Tip)
    ensures t.title == i.title && (t.low <==> i.percent < 50.0)
  {
    Tip(i.title, i.percent < 50.0)
  }

  /** The first three of the given lines, as tips. */
  function FirstThree(w: seq<Item>): (tips: seq<Tip>)
    ensures |tips| == MinInt(3, |w|)
    ensures forall k :: 0 <= k < |tips| ==> tips[k] == TipOf(w[k])
  {
    var n := MinInt(3, |w|);
    seq(n, (k: int) requires 0 <= k < n => TipOf(w[k]))
  }

  /** The first three lines that need work, as tips, in breakdown order. */
  function Tips(b: seq<Item>): (tips: seq<Tip>)
    ensures |tips| == MinInt(3, |Filter(b, NeedsWork)|)
    ensures tips == [] <==> forall i :: i in b ==> !NeedsWork(i)
    ensures forall k :: 0 <= k < |tips| ==> tips[k] == TipOf(Filter(b, NeedsWork)[k])
  {
    var w := Filter(b, NeedsWork);
    assert w != [] ==> w[0] in w;
    FirstThree(w)
  }

  /** A perfect day leaves nothing to improve: every habit and metric line is at 100 percent. */
  lemma PerfectDayNoTips(m: DayMetrics, h: DayHabits, goals: Goals, j: Journal)
    requires NonNegativeGoals(goals) && PerfectDay(m, h, goals)
    ensures Tips(Calculate(m, h, goals, j).breakdown) == []
  {
    var raw := RawBreakdown(m, h, goals, j);
    var b := Calculate(m, h, goals, j).breakdown;
    RoundOfInteger(100);
    forall k | 0 <= k < |raw| && !raw[k].isBonus
      ensures raw[k].percent >= 100.0
    {
      if 3 <= k < 9 {
        var spec := ScoredMetrics[k - 3];
        assert raw[k] == MetricItem(m, goals, spec);
        assert GoalFor(goals, spec) > 0.0;
      }
    }
    forall i | i in b
      ensures !NeedsWork(i)
    {
      var k :| 0 <= k < |b| && b[k] == i;
      assert b[k] == ScaleItem(raw[k]);
    }
  }
}

=== FILE: srs.dfy ===
/**
 * The spaced-repetition step (`calculateNextReview` in src/utils/srs.js, repeated verbatim
 * in progress-app.jsx): an SM-2-style interval and ease update with an ease floor of 1.3
 * and an interval floor of one day.
 */
module Srs {
  import opened Numeric

  datatype Response = Again | Hard | Good | Easy

  /** A card's schedule: the interval in days and the ease factor. */
  datatype Schedule = Schedule(interval: int, ease: real)

  const MinEase := 1.3

  /** The interval multiplier; good and easy scale by the ease the card had before this review. */
  function Multiplier(ease: real, response: Response): real {
    match response
    case Again => 0.5
    case Hard => 1.2
    case Good => ease
    case Easy => ease * 1.3
  }

  /** The change to the ease before the floor is applied. */
  function EaseDelta(response: Response): real {
    match response
    case Easy => 0.15
    case Again => -0.2
    case Hard => -0.15
    case Good => 0.0
  }

  /** `calculateNextReview(currentInterval, ease, response)`. */
  function NextReview(interval: int, ease: real, response: Response): (s: Schedule)
    ensures s.ease >= MinEase
    ensures s.interval >= 1
    ensures s.ease >= ease + EaseDelta(response)
    ensures s.interval >= Round(interval as real * Multiplier(ease, response))
  {
    Schedule(MaxInt(1, Round(interval as real * Multiplier(ease, response))), MaxReal(MinEase, ease + EaseDelta(response)))
  }

  /**
   * For an ease already at or above the floor: good keeps it, easy adds 0.15, hard and
   * again subtract 0.15 and 0.2 but never go below 1.3 (the floor is applied after the change).
   */
  lemma EaseUpdate(interval: int, ease: real)
    requires ease >= MinEase
    ensures NextReview(interval, ease, Good).ease == ease
    ensures NextReview(interval, ease, Easy).ease == ease + 0.15
    ensures NextReview(interval, ease, Hard).ease == MaxReal(MinEase, ease - 0.15)
    ensures NextReview(interval, ease, Again).ease == MaxReal(MinEase, ease - 0.2)
    ensures ease - 0.15 >= MinEase ==> NextReview(interval, ease, Hard).ease == ease - 0.15
    ensures ease - 0.2 >= MinEase ==> NextReview(interval, ease, Again).ease == ease - 0.2
  {
  }

  /** An ease below the floor (possible only in imported data) is lifted to it by good. */
  lemma EaseFloorLifts(interval: int, ease: real)
    requires ease < MinEase
    ensures NextReview(interval, ease, Good).ease == MinEase
  {
  }

  lemma ProductAtLeast(a: real, b: real)
    requires a >= 1.0 && b >= 1.0
    ensures a * b >= a
  {
    assert a * b - a == a * (b - 1.0);
  }

  /**
   * With interval at least 1 and ease at least 1, hard, good and easy never shrink the
   * interval, and again never grows it.
   */
  lemma IntervalMonotone(interval: int, ease: real)
    requires interval >= 1 && ease >= 1.0
    ensures NextReview(interval, ease, Hard).interval >= interval
    ensures NextReview(interval, ease, Good).interval >= interval
    ensures NextReview(interval, ease, Easy).interval >= interval
    ensures NextReview(interval, ease, Again).interval <= interval
  {
    GrowingResponse(interval, ease, Hard);
    GrowingResponse(interval, ease, Good);
    GrowingResponse(interval, ease, Easy);
    AgainShrinks(interval, ease);
  }

  lemma GrowingResponse(interval: int, ease: real, response: Response)
    requires interval >= 1 && ease >= 1.0 && response != Again
    ensures NextReview(interval, ease, response).interval >= interval
  {
    var factor := Multiplier(ease, response);
    if response == Easy {
      ProductAtLeast(ease, 1.3);
    }
    assert factor >= 1.0;
    ScaledUp(interval, factor);
  }

  lemma AgainShrinks(interval: int, ease: real)
    requires interval >= 1
    ensures NextReview(interval, ease, Again).interval <= interval
  {
    RoundOfInteger(interval);
    RoundMonotone(interval as real * 0.5, interval as real);
  }

  /** Scaling a positive interval by at least 1 and rounding never shrinks it. */
  lemma ScaledUp(interval: int, factor: real)
    requires interval >= 1 && factor >= 1.0
    ensures MaxInt(1, Round(interval as real * factor)) >= interval
  {
    var i := interval as real;
    RoundOfInteger(interval);
    ProductAtLeast(i, factor);
    RoundMonotone(i, i * factor);
  }

  /** Good and easy multiply by the incoming ease, not the updated one. */
  lemma MultiplierUsesIncomingEase(interval: int, ease: real, response: Response)
    requires response == Good || response == Easy
    ensures NextReview(interval, ease, response).interval
         == MaxInt(1, Round(interval as real * (if response == Good then ease else ease * 1.3)))
  {
  }

  /** Ten days at ease 2.0 answered easy: 26 days from 2.0 * 1.3, not 28 from the new ease 2.15. */
  lemma EasyExample()
    ensures NextReview(10, 2.0, Easy) == Schedule(26, 2.15)
  {
    RoundOfInteger(26);
  }

  /** Four days at ease 2.0 answered good: eight days, ease unchanged. */
  lemma GoodExample()
    ensures NextReview(4, 2.0, Good) == Schedule(8, 2.0)
  {
    RoundOfInteger(8);
  }

  /** Again halves the interval and can bottom out at one day. */
  lemma AgainExample()
    ensures NextReview(1, 2.5, Again) == Schedule(1, 2.3)
    ensures NextReview(6, 1.4, Again) == Schedule(3, 1.3)
  {
    RoundOfInteger(3);
  }
}

=== FILE: streaks.dfy ===
/**
 * Habit streaks: the current streak (`calculateStreak` in src/utils/streaks.js, repeated
 * in progress-app.jsx), a backward walk from today that forgives an undecided today, and
 * the best streak (`bestNoFapStreak` in AnalyticsPage.jsx and progress-app.jsx), a fold over
 * the sorted logged dates.
 */
module Streaks {
  import opened Numeric
  import opened Calendar
  import opened Records
  import opened Orders

  /** `habits[date] && habits[date][key] === true`; habit values are booleans. */
  predicate Marked(habits: HabitLog, key: Habit, d: Day) {
    d in habits && Done(habits[d], key)
  }

  /** The marked days up to and including `date`. */
  function MarkedUpTo(habits: HabitLog, key: Habit, date: Day): set<Day> {
    set d | d in habits && d <= date && Marked(habits, key, d)
  }

  /** Every marked day. */
  function MarkedDays(habits: HabitLog, key: Habit): set<Day> {
    set d | d in habits && Marked(habits, key, d)
  }

  /** Stepping `date` back by one day drops `date` from the marked days exactly when it is marked. */
  lemma MarkedUpToStep(habits: HabitLog, key: Habit, date: Day)
    ensures Marked(habits, key, date) ==> MarkedUpTo(habits, key, date) == MarkedUpTo(habits, key, date - 1) + {date}
    ensures !Marked(habits, key, date) ==> MarkedUpTo(habits, key, date) == MarkedUpTo(habits, key, date - 1)
    ensures date !in MarkedUpTo(habits, key, date - 1)
    ensures |MarkedUpTo(habits, key, date)| == |MarkedUpTo(habits, key, date - 1)| + (if Marked(habits, key, date) then 1 else 0)
  {
    if Marked(habits, key, date) {
      assert MarkedUpTo(habits, key, date) == MarkedUpTo(habits, key, date - 1) + {date};
    } else {
      assert MarkedUpTo(habits, key, date) == MarkedUpTo(habits, key, date - 1);
    }
  }

  /** The day the counted run ends on: today if today is marked, else yesterday. */
  function StreakEnd(habits: HabitLog, key: Habit, today: Day): (end: Day)
    ensures end == today || end == today - 1
  {
    if Marked(habits, key, today) then today else today - 1
  }

  /** `n` consecutive marked days end on `end`, and the day before them is not marked. */
  predicate MaximalRun(habits: HabitLog, key: Habit, end: Day, n: nat) {
    && (forall d :: end - n < d <= end ==> Marked(habits, key, d))
    && !Marked(habits, key, end - n)
  }

  /** A maximal run ending on a given day has only one length. */
  lemma MaximalRunUnique(habits: HabitLog, key: Habit, end: Day, n: nat, m: nat)
    requires MaximalRun(habits, key, end, n) && MaximalRun(habits, key, end, m)
    ensures n == m
  {
  }

  /**
   * `calculateStreak(habits, key, today)`: the length of the maximal run of marked days
   * ending today, or ending yesterday when today is not marked yet. The walk ends on a
   * finite map because every counted step passes a marked day.
   */
  method CalculateStreak(habits: HabitLog, key: Habit, today: Day) returns (streak: nat)
    ensures MaximalRun(habits, key, StreakEnd(habits, key, today), streak)
    ensures streak <= |MarkedDays(habits, key)|
    ensures !Marked(habits, key, today) && !Marked(habits, key, today - 1) ==> streak == 0
  {
    streak := 0;
    var date := today;
    ghost var end := StreakEnd(habits, key, today);
    while true
      invariant date <= today
      invariant date == today ==> streak == 0
      invariant date < today ==> date == end - streak
      invariant forall d :: end - streak < d <= end ==> Marked(habits, key, d)
      invariant streak + |MarkedUpTo(habits, key, date)| <= |MarkedUpTo(habits, key, today)|
      decreases |MarkedUpTo(habits, key, date)|, if date == today then 1 else 0
    {
      MarkedUpToStep(habits, key, date);
      if Marked(habits, key, date) {
        streak := streak + 1;
        date := date - 1;
      } else if date == today {
        date := date - 1;
      } else {
        break;
      }
    }
    assert MarkedUpTo(habits, key, today) <= MarkedDays(habits, key);
    SubsetCardinality(MarkedUpTo(habits, key, today), MarkedDays(habits, key));
  }

  lemma SubsetCardinality(a: set<Day>, b: set<Day>)
    requires a <= b
    ensures |a| <= |b|
  {
    assert b == a + (b - a);
  }

  // ---------------------------------------------------------------------------
  // Best streak

  /** The number of `true` flags immediately before position `n`. */
  function RunEnd(flags: seq<bool>, n: nat): (r: nat)
    requires n <= |flags|
    ensures r <= n
  {
    if n == 0 || !flags[n - 1] then 0 else RunEnd(flags, n - 1) + 1
  }

  /** The longest `RunEnd` over positions 0 to `n`. */
  function LongestUpTo(flags: seq<bool>, n: nat): (r: nat)
    requires n <= |flags|
    ensures r <= n
  {
    if n == 0 then 0 else MaxInt(LongestUpTo(flags, n - 1), RunEnd(flags, n))
  }

  /** `flags[lo..hi]` are all `true`. */
  predicate AllTrue(flags: seq<bool>, lo: nat, hi: nat)
    requires lo <= hi <= |flags|
  {
    forall k :: lo <= k < hi ==> flags[k]
  }

  /** `RunEnd` is the longest all-true block ending at `n`. */
  lemma {:induction false} RunEndIsLongestEndingAt(flags: seq<bool>, n: nat)
    requires n <= |flags|
    ensures AllTrue(flags, n - RunEnd(flags, n), n)
    ensures forall lo :: 0 <= lo <= n && AllTrue(flags, lo, n) ==> n - lo <= RunEnd(flags, n)
  {
    if n > 0 && flags[n - 1] {
      RunEndIsLongestEndingAt(flags, n - 1);
      forall lo | 0 <= lo <= n && AllTrue(flags, lo, n)
        ensures n - lo <= RunEnd(flags, n)
      {
        if lo < n {
          assert AllTrue(flags, lo, n - 1);
        }
      }
    }
  }

  /**
   * `LongestUpTo(flags, n)` is the length of the longest all-true block within the first
   * `n` flags: some block has that length and none is longer.
   */
  lemma {:induction false} LongestIsLongestBlock(flags: seq<bool>, n: nat) returns (end: nat)
    requires n <= |flags|
    ensures LongestUpTo(flags, n) <= end <= n && AllTrue(flags, end - LongestUpTo(flags, n), end)
    ensures forall lo, hi :: 0 <= lo <= hi <= n && AllTrue(flags, lo, hi) ==> hi - lo <= LongestUpTo(flags, n)
  {
    if n == 0 {
      end := 0;
    } else {
      end := LongestIsLongestBlock(flags, n - 1);
      RunEndIsLongestEndingAt(flags, n);
      if RunEnd(flags, n) >= LongestUpTo(flags, n - 1) {
        end := n;
      }
      forall lo, hi | 0 <= lo <= hi <= n && AllTrue(flags, lo, hi)
        ensures hi - lo <= LongestUpTo(flags, n)
      {
        if hi == n {
          assert n - lo <= RunEnd(flags, n);
        } else {
          assert hi - lo <= LongestUpTo(flags, n - 1);
        }
      }
    }
  }

  /** The truthiness of `key` on each date of `dates`. */
  function FlagsOf(habits: HabitLog, key: Habit, dates: seq<Day>): (flags: seq<bool>)
    requires forall i :: 0 <= i < |dates| ==> dates[i] in habits
    ensures |flags| == |dates|
    ensures forall i :: 0 <= i < |dates| ==> flags[i] == Done(habits[dates[i]], key)
  {
    if dates == [] then [] else [Done(habits[dates[0]], key)] + FlagsOf(habits, key, dates[1..])
  }

  /** The flags of the logged dates in ascending date order (`Object.keys(habits).sort()`). */
  function LoggedFlags(habits: HabitLog, key: Habit): (flags: seq<bool>)
    ensures |flags| == |habits.Keys|
  {
    FlagsOf(habits, key, SortedAsc(habits.Keys))
  }

  /** The fold of `bestNoFapStreak`: the current run and the best run seen so far. */
  method BestRun(flags: seq<bool>) returns (best: nat)
    ensures best == LongestUpTo(flags, |flags|)
  {
    best := 0;
    var current := 0;
    var i := 0;
    while i < |flags|
      invariant 0 <= i <= |flags|
      invariant current == RunEnd(flags, i)
      invariant best == LongestUpTo(flags, i)
    {
      if flags[i] {
        current := current + 1;
        best := MaxInt(best, current);
      } else {
        current := 0;
      }
      i := i + 1;
    }
  }

  /**
   * `bestNoFapStreak` (for any habit): the longest block of consecutive logged dates on
   * which the habit is done. Dates are consecutive in the sorted key list, not on the
   * calendar.
   */
  method BestStreak(habits: HabitLog, key: Habit) returns (best: nat)
    ensures best == LongestUpTo(LoggedFlags(habits, key), |habits.Keys|)
    ensures best <= |habits.Keys|
  {
    best := BestRun(LoggedFlags(habits, key));
  }

  lemma {:induction false} AllTrueLongest(flags: seq<bool>, n: nat)
    requires n <= |flags|
    requires forall k :: 0 <= k < |flags| ==> flags[k]
    ensures RunEnd(flags, n) == n && LongestUpTo(flags, n) == n
  {
    if n > 0 {
      AllTrueLongest(flags, n - 1);
    }
  }

  /**
   * Calendar gaps do not reset the best streak: when the habit is done on every logged
   * date, the best streak is the number of logged dates, however far apart they are.
   */
  lemma BestStreakIgnoresGaps(habits: HabitLog, key: Habit)
    requires forall d :: d in habits ==> Done(habits[d], key)
    ensures LongestUpTo(LoggedFlags(habits, key), |habits.Keys|) == |habits.Keys|
  {
    AllTrueLongest(LoggedFlags(habits, key), |habits.Keys|);
  }

  /** A logged date without the habit ends every block through it. */
  lemma BestStreakBrokenByLoggedMiss(habits: HabitLog, key: Habit, i: nat, lo: nat, hi: nat)
    requires lo <= i < hi <= |habits.Keys|
    requires !LoggedFlags(habits, key)[i]
    ensures !AllTrue(LoggedFlags(habits, key), lo, hi)
  {
  }
}

=== FILE: text.dfy ===
/**
 * String operations the app applies to user text: `trim`, `split('\n')`, `join`,
 * `split(/\s+/)` word counting, ASCII `toLowerCase` and collapsing runs of characters.
 */
module Text {

  /**
   * White space for `\s` and `trim()`, restricted to a subset of JavaScript's set: the ASCII
   * white space, the no-break space and the byte-order mark. The other Unicode space
   * separators and the line and paragraph separators are not included.
   */
  predicate IsSpace(c: char) {
    c == ' ' || c == '\t' || c == '\n' || c == '\r' || c == '\U{000B}' || c == '\U{000C}'
    || c == '\U{00A0}' || c == '\U{FEFF}'
  }

  predicate IsBlank(s: string) {
    forall i :: 0 <= i < |s| ==> IsSpace(s[i])
  }

  /** The number of leading white-space characters. */
  function LeadingSpaces(s: string): (n: nat)
    ensures n <= |s|
    ensures forall i :: 0 <= i < n ==> IsSpace(s[i])
    ensures n < |s| ==> !IsSpace(s[n])
  {
    if s == [] || !IsSpace(s[0]) then 0 else 1 + LeadingSpaces(s[1..])
  }

  /** The length of `s` without its trailing white space. */
  function KeptLength(s: string): (n: nat)
    ensures n <= |s|
    ensures forall i :: n <= i < |s| ==> IsSpace(s[i])
    ensures n > 0 ==> !IsSpace(s[n - 1])
  {
    if s == [] || !IsSpace(s[|s| - 1]) then |s| else KeptLength(s[..|s| - 1])
  }

  /** Removes leading white space (`trimStart`). */
  function TrimStart(s: string): (r: string)
  {
    s[LeadingSpaces(s)..]
  }

  /** Neither end of `t` is white space. */
  predicate IsTrimmed(t: string) {
    t == [] || (!IsSpace(t[0]) && !IsSpace(t[|t| - 1]))
  }

  /**
   * `s.trim()`: the part of `s` between its leading and its trailing white space. It is
   * empty exactly when `s` is blank, and otherwise begins and ends with a non-space.
   */
  function Trim(s: string): (r: string)
    ensures r == [] <==> IsBlank(s)
    ensures IsTrimmed(r)
    ensures var a := LeadingSpaces(s);
      && a + |r| <= |s| && r == s[a..a + |r|]
      && forall i :: a + |r| <= i < |s| ==> IsSpace(s[i])
  {
    var a := LeadingSpaces(s);
    var t := s[a..];
    assert t != [] ==> t[0] == s[a];
    t[..KeptLength(t)]
  }

  /** Trimming leaves an already trimmed string alone. */
  lemma TrimOfTrimmed(t: string)
    requires IsTrimmed(t)
    ensures Trim(t) == t
  {
    if t != [] {
      assert LeadingSpaces(t) == 0;
      assert t[0..] == t;
      assert KeptLength(t) == |t|;
    }
  }

  lemma TrimIdempotent(s: string)
    ensures Trim(Trim(s)) == Trim(s)
  {
    TrimOfTrimmed(Trim(s));
  }

  /** The index of the first occurrence of `c`. */
  function IndexOf(s: string, c: char): (i: nat)
    requires c in s
    ensures i < |s| && s[i] == c && c !in s[..i]
  {
    if s[0] == c then 0 else 1 + IndexOf(s[1..], c)
  }

  /** `parts.join(sep)`; the empty list joins to the empty string. */
  function Join(parts: seq<string>, sep: string): string
  {
    if |parts| == 0 then ""
    else if |parts| == 1 then parts[0]
    else parts[0] + sep + Join(parts[1..], sep)
  }

  /** `s.split(sep)` for a one-character separator: never empty, and no part holds the separator. */
  function Split(s: string, sep: char): (parts: seq<string>)
    ensures |parts| >= 1
    ensures forall k :: 0 <= k < |parts| ==> sep !in parts[k]
    decreases |s|
  {
    if sep !in s then [s]
    else
      var i := IndexOf(s, sep);
      [s[..i]] + Split(s[i + 1..], sep)
  }

  /** Splitting and joining with the same separator gives back the original string. */
  lemma {:induction false} SplitJoinRoundTrip(s: string, sep: char)
    ensures Join(Split(s, sep), [sep]) == s
    decreases |s|
  {
    if sep in s {
      var i := IndexOf(s, sep);
      var rest := Split(s[i + 1..], sep);
      SplitJoinRoundTrip(s[i + 1..], sep);
      var parts := Split(s, sep);
      assert parts == [s[..i]] + rest;
      assert parts[0] == s[..i] && parts[1..] == rest;
      assert Join(parts, [sep]) == s[..i] + [sep] + Join(rest, [sep]);
      assert s == s[..i] + [sep] + s[i + 1..];
    }
  }

  /** The first occurrence is the only position with `c` and no earlier `c`. */
  lemma {:induction false} IndexOfUnique(s: string, c: char, i: nat)
    requires i < |s| && s[i] == c && c !in s[..i]
    ensures IndexOf(s, c) == i
  {
    if i > 0 {
      assert s[0] in s[..i];
      assert s[1..][..i - 1] == s[1..i];
      assert forall x :: x in s[1..i] ==> x in s[..i];
      IndexOfUnique(s[1..], c, i - 1);
    }
  }

  /** Joining parts free of the separator and splitting again gives back the parts. */
  lemma {:induction false} JoinSplitRoundTrip(parts: seq<string>, sep: char)
    requires |parts| >= 1
    requires forall k :: 0 <= k < |parts| ==> sep !in parts[k]
    ensures Split(Join(parts, [sep]), sep) == parts
  {
    if |parts| > 1 {
      var rest := Join(parts[1..], [sep]);
      var s := parts[0] + [sep] + rest;
      assert s[..|parts[0]|] == parts[0];
      IndexOfUnique(s, sep, |parts[0]|);
      assert s[|parts[0]| + 1..] == rest;
      JoinSplitRoundTrip(parts[1..], sep);
    }
  }

  /** Trims every line and drops the empty ones: `lines.map(l => l.trim()).filter(Boolean)`. */
  function TrimmedNonEmpty(lines: seq<string>): (r: seq<string>)
    ensures |r| <= |lines|
    ensures forall k :: 0 <= k < |r| ==> r[k] != [] && Trim(r[k]) == r[k]
  {
    if lines == [] then []
    else
      var t := Trim(lines[0]);
      TrimIdempotent(lines[0]);
      if t == [] then TrimmedNonEmpty(lines[1..]) else [t] + TrimmedNonEmpty(lines[1..])
  }

  /** One entry per non-blank line of a multi-line draft, trimmed. */
  function NonBlankLines(s: string): (r: seq<string>)
    ensures forall k :: 0 <= k < |r| ==> r[k] != [] && Trim(r[k]) == r[k] && '\n' !in r[k]
  {
    var parts := Split(s, '\n');
    var r := TrimmedNonEmpty(parts);
    TrimmedNoNewline(parts);
    r
  }

  /** Lines that are already trimmed and non-empty pass through unchanged. */
  lemma {:induction false} TrimmedNonEmptyOfClean(lines: seq<string>)
    requires forall k :: 0 <= k < |lines| ==> lines[k] != [] && IsTrimmed(lines[k])
    ensures TrimmedNonEmpty(lines) == lines
  {
    if lines != [] {
      TrimOfTrimmed(lines[0]);
      TrimmedNonEmptyOfClean(lines[1..]);
    }
  }

  /**
   * Lines that are non-empty, trimmed and free of newlines survive joining with `\n` and
   * parsing back: `NonBlankLines(lines.join('\n')) == lines`.
   */
  lemma NonBlankLinesOfJoin(lines: seq<string>)
    requires forall k :: 0 <= k < |lines| ==> lines[k] != [] && IsTrimmed(lines[k]) && '\n' !in lines[k]
    ensures NonBlankLines(Join(lines, "\n")) == lines
  {
    if lines == [] {
      assert Split("", '\n') == [""];
      assert Trim("") == "";
    } else {
      JoinSplitRoundTrip(lines, '\n');
      TrimmedNonEmptyOfClean(lines);
    }
  }

  lemma {:induction false} TrimmedNoNewline(lines: seq<string>)
    requires forall k :: 0 <= k < |lines| ==> '\n' !in lines[k]
    ensures forall k :: 0 <= k < |TrimmedNonEmpty(lines)| ==> '\n' !in TrimmedNonEmpty(lines)[k]
  {
    if lines != [] {
      TrimmedNoNewline(lines[1..]);
    }
  }

  /** A draft yields at least one line exactly when it is not blank (`draft.trim()` is truthy). */
  lemma NonBlankLinesEmptyIffBlank(s: string)
    ensures NonBlankLines(s) == [] <==> IsBlank(s)
  {
    var parts := Split(s, '\n');
    SplitJoinRoundTrip(s, '\n');
    TrimmedEmptyIffAllBlank(parts);
    JoinBlankIffPartsBlank(parts, '\n');
  }

  lemma {:induction false} TrimmedEmptyIffAllBlank(lines: seq<string>)
    ensures TrimmedNonEmpty(lines) == [] <==> forall k :: 0 <= k < |lines| ==> IsBlank(lines[k])
  {
    if lines != [] {
      TrimmedEmptyIffAllBlank(lines[1..]);
      assert forall k :: 1 <= k < |lines| ==> lines[k] == lines[1..][k - 1];
    }
  }

  /** Joining with a white-space separator is blank exactly when every part is. */
  lemma {:induction false} JoinBlankIffPartsBlank(parts: seq<string>, sep: char)
    requires IsSpace(sep)
    ensures IsBlank(Join(parts, [sep])) <==> forall k :: 0 <= k < |parts| ==> IsBlank(parts[k])
  {
    if |parts| > 1 {
      JoinBlankIffPartsBlank(parts[1..], sep);
      var rest := Join(parts[1..], [sep]);
      var whole := parts[0] + [sep] + rest;
      assert forall k :: 1 <= k < |parts| ==> parts[k] == parts[1..][k - 1];
      if IsBlank(whole) {
        assert forall i :: 0 <= i < |parts[0]| ==> parts[0][i] == whole[i];
        assert forall i :: 0 <= i < |rest| ==> rest[i] == whole[|parts[0]| + 1 + i];
      }
    }
  }

  /** The non-blank runs of a string, left to right: `s.split(/\s+/).filter(Boolean)`. */
  function Words(s: string): (ws: seq<string>)
    ensures forall k :: 0 <= k < |ws| ==> ws[k] != [] && forall i :: 0 <= i < |ws[k]| ==> !IsSpace(ws[k][i])
    decreases |s|
  {
    var t := TrimStart(s);
    if t == [] then []
    else
      var n := WordLength(t);
      [t[..n]] + Words(t[n..])
  }

  /** Length of the leading run of non-space characters. */
  function WordLength(s: string): (n: nat)
    ensures n <= |s|
    ensures forall i :: 0 <= i < n ==> !IsSpace(s[i])
    ensures n == |s| || IsSpace(s[n])
  {
    if s == [] || IsSpace(s[0]) then 0 else 1 + WordLength(s[1..])
  }

  /** Reference count of words: positions holding a non-space character preceded by a space or the start. */
  function WordStarts(s: string, afterSpace: bool): nat
  {
    if s == [] then 0
    else (if afterSpace && !IsSpace(s[0]) then 1 else 0) + WordStarts(s[1..], IsSpace(s[0]))
  }

  /** The word count equals the number of places where a word begins. */
  lemma {:induction false} WordCountIsWordStarts(s: string)
    ensures |Words(s)| == WordStarts(s, true)
    decreases |s|
  {
    var t := TrimStart(s);
    SkipSpaces(s, LeadingSpaces(s));
    if t != [] {
      var n := WordLength(t);
      SkipWord(t, n);
      var rest := t[n..];
      if rest != [] {
        assert WordStarts(rest, false) == WordStarts(rest, true);
      }
      WordCountIsWordStarts(rest);
    }
  }

  /** Leading spaces contribute no word starts. */
  lemma {:induction false} SkipSpaces(s: string, k: nat)
    requires k <= |s| && forall i :: 0 <= i < k ==> IsSpace(s[i])
    ensures WordStarts(s, true) == WordStarts(s[k..], true)
  {
    if k > 0 {
      SkipSpaces(s[1..], k - 1);
      assert s[1..][k - 1..] == s[k..];
    }
  }

  /** A word contributes exactly one start, at its first character. */
  lemma {:induction false} SkipWord(s: string, n: nat)
    requires 0 < n <= |s| && forall i :: 0 <= i < n ==> !IsSpace(s[i])
    ensures WordStarts(s, true) == 1 + WordStarts(s[n..], false)
  {
    InsideWord(s[1..], n - 1);
    assert s[1..][n - 1..] == s[n..];
  }

  lemma {:induction false} InsideWord(s: string, n: nat)
    requires n <= |s| && forall i :: 0 <= i < n ==> !IsSpace(s[i])
    ensures WordStarts(s, false) == WordStarts(s[n..], false)
  {
    if n > 0 {
      InsideWord(s[1..], n - 1);
      assert s[1..][n - 1..] == s[n..];
    }
  }

  /** `text.split(/\s+/).filter(Boolean).length`. */
  function WordCount(s: string): (n: nat)
    ensures n == WordStarts(s, true)
    ensures n == 0 <==> IsBlank(s)
  {
    WordCountIsWordStarts(s);
    |Words(s)|
  }

  predicate IsUpper(c: char) { 'A' <= c <= 'Z' }

  function LowerChar(c: char): (d: char)
    ensures !IsUpper(d)
    ensures !IsUpper(c) ==> d == c
    ensures IsSpace(d) <==> IsSpace(c)
    ensures d == '-' <==> c == '-'
  {
    if IsUpper(c) then (c as int + 32) as char else c
  }

  /** `s.toLowerCase()` on the ASCII letters. */
  function ToLower(s: string): (r: string)
    ensures |r| == |s|
    ensures forall i :: 0 <= i < |r| ==> r[i] == LowerChar(s[i])
  {
    if s == [] then [] else [LowerChar(s[0])] + ToLower(s[1..])
  }

  /** Replaces every maximal run of characters satisfying `p` with the single character `r`. */
  function CollapseRuns(s: string, p: char -> bool, r: char): (t: string)
    requires !p(r)
    ensures forall i :: 0 <= i < |t| ==> !p(t[i])
    ensures forall i :: 0 <= i < |t| ==> t[i] == r || t[i] in s
    ensures (forall i :: 0 <= i < |s| ==> !p(s[i])) ==> t == s
    decreases |s|
  {
    if s == [] then []
    else if p(s[0]) then [r] + CollapseRuns(s[RunLength(s, p)..], p, r)
    else [s[0]] + CollapseRuns(s[1..], p, r)
  }

  function RunLength(s: string, p: char -> bool): (n: nat)
    ensures n <= |s|
    ensures s != [] && p(s[0]) ==> n > 0
  {
    if s == [] || !p(s[0]) then 0 else 1 + RunLength(s[1..], p)
  }

  /** A prefix free of the collapsed characters is copied through unchanged. */
  lemma {:induction false} CollapseRunsClean(x: string, y: string, p: char -> bool, r: char)
    requires !p(r)
    requires forall i :: 0 <= i < |x| ==> !p(x[i])
    ensures CollapseRuns(x + y, p, r) == x + CollapseRuns(y, p, r)
  {
    if x != [] {
      TailKeeps(x, p);
      CollapseRunsClean(x[1..], y, p, r);
      ConsSplit(x, y, CollapseRuns(y, p, r));
      CollapseRunsKeep(x[0], x[1..] + y, p, r);
    } else {
      assert x + y == y;
    }
  }

  lemma TailKeeps(x: string, p: char -> bool)
    requires x != [] && forall i :: 0 <= i < |x| ==> !p(x[i])
    ensures !p(x[0]) && forall i :: 0 <= i < |x[1..]| ==> !p(x[1..][i])
  {
    assert forall i :: 0 <= i < |x[1..]| ==> x[1..][i] == x[i + 1];
  }

  lemma ConsSplit(x: string, y: string, u: string)
    requires x != []
    ensures x + y == [x[0]] + (x[1..] + y)
    ensures x + u == [x[0]] + (x[1..] + u)
  {
    assert x == [x[0]] + x[1..];
  }

  /** A character outside the collapsed set is copied through. */
  lemma CollapseRunsKeep(c: char, s: string, p: char -> bool, r: char)
    requires !p(r) && !p(c)
    ensures CollapseRuns([c] + s, p, r) == [c] + CollapseRuns(s, p, r)
  {
    assert ([c] + s)[0] == c;
    assert ([c] + s)[1..] == s;
  }

  /** A run of one collapsed character becomes one replacement character. */
  lemma CollapseRunsSingle(c: char, y: string, p: char -> bool, r: char)
    requires !p(r) && p(c)
    requires y == [] || !p(y[0])
    ensures CollapseRuns([c] + y, p, r) == [r] + CollapseRuns(y, p, r)
  {
    assert ([c] + y)[1..] == y;
    assert RunLength(y, p) == 0;
    assert RunLength([c] + y, p) == 1;
  }

  /** `s.repeat(n)` for a single character. */
  function Repeat(c: char, n: nat): (r: string)
    ensures |r| == n
    ensures forall i :: 0 <= i < n ==> r[i] == c
  {
    if n == 0 then [] else [c] + Repeat(c, n - 1)
  }

  /** JavaScript truthiness of an optional string: present and non-empty. */
  predicate Present(s: string) { |s| > 0 }
}

=== FILE: today.dfy ===
/**
 * The today page (src/pages/TodayPage.jsx): editing today's records, today's money and
 * pages, the score of today with the session pages taking the place of the manual ones,
 * this week's and last week's average score, and the one-paragraph summary of the day.
 */
module Today {
  import opened Wrappers
  import opened Numeric
  import opened Folds
  import opened Calendar
  import opened Records
  import opened Aggregates
  import opened Text
  import Score
  import Review

  // ---------------------------------------------------------------------------
  // Editing today

  /** `updateMetric(key, value)`. */
  function UpdateMetric(metrics: MetricLog, today: Day, k: Metric, v: Option<real>): (r: MetricLog)
    ensures k in RecordOn(r, today) && RecordOn(r, today)[k] == v
    ensures forall k' :: k' != k ==> (k' in RecordOn(r, today) <==> k' in RecordOn(metrics, today))
    ensures forall k' :: k' != k && k' in RecordOn(r, today) ==> RecordOn(r, today)[k'] == RecordOn(metrics, today)[k']
    ensures forall d :: d != today ==> RecordOn(r, d) == RecordOn(metrics, d)
  {
    SetField(metrics, today, k, v)
  }

  /** `updateHabit(key, value)`. */
  function UpdateHabit(habits: HabitLog, today: Day, k: Habit, v: bool): (r: HabitLog)
    ensures Done(RecordOn(r, today), k) == v
    ensures forall k' :: k' != k ==> Done(RecordOn(r, today), k') == Done(RecordOn(habits, today), k')
    ensures forall d :: d != today ==> RecordOn(r, d) == RecordOn(habits, d)
  {
    SetField(habits, today, k, v)
  }

  /**
   * `saveJournal`: today's entry becomes exactly `{ text, til, avoided }`; an `important`
   * field saved elsewhere for today does not survive.
   */
  function SaveJournal(journals: JournalLog, today: Day, text: string, til: string, avoided: string): (r: JournalLog)
    ensures JournalOn(r, today) == Journal(text, til, "", avoided)
    ensures forall d :: d != today ==> (d in r <==> d in journals) && (d in r ==> r[d] == journals[d])
  {
    journals[today := Some(Journal(text, til, "", avoided))]
  }

  // ---------------------------------------------------------------------------
  // Money and pages

  function SpentOn(today: Day): Transaction -> bool {
    (t: Transaction) => t.date == today && t.kind == Expense
  }

  function EarnedOn(today: Day): Transaction -> bool {
    (t: Transaction) => t.date == today && t.kind == Income
  }

  function IncomeOrExpenseOn(today: Day): Transaction -> bool {
    (t: Transaction) => t.date == today && (t.kind == Income || t.kind == Expense)
  }

  function OtherOn(today: Day): Transaction -> bool {
    (t: Transaction) => t.date == today && t.kind.OtherKind?
  }

  function On(today: Day): Transaction -> bool {
    (t: Transaction) => t.date == today
  }

  /** `todaySpend`: the amounts of today's expenses; nothing spent today gives 0. */
  function TodaySpend(txs: seq<Transaction>, today: Day): (r: real)
    ensures (forall t :: t in txs && t.date == today ==> t.kind != Expense) ==> r == 0.0
    ensures (forall t :: t in txs ==> t.amount >= 0.0) ==> r >= 0.0
  {
    var spent := Filter(txs, SpentOn(today));
    assert (forall t :: t in txs && t.date == today ==> t.kind != Expense) ==> spent == [] by {
      if spent != [] {
        assert spent[0] in spent;
      }
    }
    assert (forall t :: t in txs ==> t.amount >= 0.0) ==> Sum(spent, AmountOf) >= 0.0 by {
      if forall t :: t in txs ==> t.amount >= 0.0 {
        SumNonNegative(spent, AmountOf);
      }
    }
    Sum(spent, AmountOf)
  }

  /** `todayIncome`: the amounts of today's income; nothing earned today gives 0. */
  function TodayIncome(txs: seq<Transaction>, today: Day): (r: real)
    ensures (forall t :: t in txs && t.date == today ==> t.kind != Income) ==> r == 0.0
    ensures (forall t :: t in txs ==> t.amount >= 0.0) ==> r >= 0.0
  {
    var earned := Filter(txs, EarnedOn(today));
    assert (forall t :: t in txs && t.date == today ==> t.kind != Income) ==> earned == [] by {
      if earned != [] {
        assert earned[0] in earned;
      }
    }
    assert (forall t :: t in txs ==> t.amount >= 0.0) ==> Sum(earned, AmountOf) >= 0.0 by {
      if forall t :: t in txs ==> t.amount >= 0.0 {
        SumNonNegative(earned, AmountOf);
      }
    }
    Sum(earned, AmountOf)
  }

  /**
   * A new transaction adds its amount to today's spend exactly when it is an expense dated
   * today, and to today's income exactly when it is income dated today.
   */
  lemma TodayMoneySnoc(txs: seq<Transaction>, t: Transaction, today: Day)
    ensures TodaySpend(txs + [t], today) == TodaySpend(txs, today) + (if t.date == today && t.kind == Expense then t.amount else 0.0)
    ensures TodayIncome(txs + [t], today) == TodayIncome(txs, today) + (if t.date == today && t.kind == Income then t.amount else 0.0)
  {
    FilterSnoc(txs, t, SpentOn(today));
    SumAppend(Filter(txs, SpentOn(today)), if SpentOn(today)(t) then [t] else [], AmountOf);
    FilterSnoc(txs, t, EarnedOn(today));
    SumAppend(Filter(txs, EarnedOn(today)), if EarnedOn(today)(t) then [t] else [], AmountOf);
    assert [t][1..] == [];
  }

  /**
   * Today's spend, today's income and today's transactions of any other type together
   * make up every amount dated today.
   */
  lemma TodayMoneyPartition(txs: seq<Transaction>, today: Day)
    ensures TodaySpend(txs, today) + TodayIncome(txs, today) + Sum(Filter(txs, OtherOn(today)), AmountOf)
         == Sum(Filter(txs, On(today)), AmountOf)
  {
    SumDisjointFilters(txs, AmountOf, SpentOn(today), EarnedOn(today), IncomeOrExpenseOn(today));
    SumDisjointFilters(txs, AmountOf, IncomeOrExpenseOn(today), OtherOn(today), On(today));
  }

  /**
   * `{ ...todayMetrics, pages: todayPages || todayMetrics.pages }`: the session pages when
   * they are non-zero, otherwise the manual entry as it stands.
   */
  function ScoredMetrics(m: DayMetrics, sessionPages: real): (r: DayMetrics)
    ensures ValueOr0(r, Pages) == if sessionPages != 0.0 then sessionPages else ValueOr0(m, Pages)
    ensures forall k :: k != Pages ==> (k in r <==> k in m) && (k in r ==> r[k] == m[k])
  {
    if sessionPages != 0.0 then m[Pages := Some(sessionPages)]
    else m[Pages := if Pages in m then m[Pages] else None]
  }

  /**
   * The today page scores pages with `||`, unlike the other pages that add manual and
   * session pages: with both kinds of pages logged, the scored pages fall short of the total.
   */
  lemma ScoredPagesNotSummed(metrics: MetricLog, sessions: seq<ReadingSession>, today: Day)
    requires ValueOr0(RecordOn(metrics, today), Pages) > 0.0 && SessionPages(sessions, today) > 0.0
    ensures ValueOr0(ScoredMetrics(RecordOn(metrics, today), SessionPages(sessions, today)), Pages)
          < TotalPages(metrics, sessions, today)
  {
  }

  /** `dailyScore`: today's score with the scored pages and today's journal. */
  function TodayScore(store: Store, today: Day): (s: Score.DailyScore)
    ensures s.maxScore == 100
  {
    Score.Calculate(ScoredMetrics(RecordOn(store.metrics, today), SessionPages(store.sessions, today)),
      RecordOn(store.habits, today), store.goals, JournalOn(store.journals, today))
  }

  // ---------------------------------------------------------------------------
  // Weekly averages

  /** `getDaysAgo(from), ..., getDaysAgo(from + 6)`. */
  function WeekBack(today: Day, from: nat): (days: seq<Day>)
    ensures |days| == 7
    ensures forall d :: d in days <==> today - from - 6 <= d <= today - from
  {
    DaysBack(today, from, 7)
  }

  function HasEntriesOn(store: Store): Day -> bool {
    (d: Day) => HasEntries(store.metrics, store.habits, d)
  }

  /** The rounded mean score over the week's days with a non-empty metrics or habits record. */
  function WeekAverage(store: Store, today: Day, from: nat): (avg: int)
    ensures (forall d :: today - from - 6 <= d <= today - from ==> !HasEntries(store.metrics, store.habits, d)) ==> avg == 0
  {
    var logged := Filter(WeekBack(today, from), HasEntriesOn(store));
    assert (forall d :: today - from - 6 <= d <= today - from ==> !HasEntries(store.metrics, store.habits, d)) ==> logged == [] by {
      if logged != [] {
        assert logged[0] in logged;
      }
    }
    RoundedAverage(logged, Review.DayScores(store))
  }

  /** `weeklyAvg` covers the last seven days, today included. */
  function WeeklyAvg(store: Store, today: Day): (avg: int)
    ensures (forall d :: today - 6 <= d <= today ==> !HasEntries(store.metrics, store.habits, d)) ==> avg == 0
  {
    WeekAverage(store, today, 0)
  }

  /** `lastWeekAvg` covers the seven days before those. */
  function LastWeekAvg(store: Store, today: Day): (avg: int)
    ensures (forall d :: today - 13 <= d <= today - 7 ==> !HasEntries(store.metrics, store.habits, d)) ==> avg == 0
  {
    WeekAverage(store, today, 7)
  }

  /** A week later, this week's average is the one shown as last week's. */
  lemma LastWeekWasThisWeek(store: Store, today: Day)
    ensures LastWeekAvg(store, today + 7) == WeeklyAvg(store, today)
  {
    assert WeekBack(today + 7, 7) == WeekBack(today, 0) by {
      var a, b := WeekBack(today + 7, 7), WeekBack(today, 0);
      forall i | 0 <= i < 7
        ensures a[i] == b[i]
      {
        assert a[i] == DaysAgo(today + 7, 7 + i);
        assert b[i] == DaysAgo(today, i);
      }
    }
  }

  /** With non-negative metrics and goals, a weekly average lies between 0 and 106. */
  lemma WeekAverageBounds(store: Store, today: Day, from: nat)
    requires forall d :: d in store.metrics ==> Score.NonNegativeMetrics(store.metrics[d])
    requires Score.NonNegativeGoals(store.goals)
    ensures 0 <= WeekAverage(store, today, from) <= 106
  {
    var logged := Filter(WeekBack(today, from), HasEntriesOn(store));
    forall d | d in logged
      ensures 0.0 <= Review.DayScores(store)(d) <= 106.0
    {
      Score.ScoreBounds(RecordOn(store.metrics, d), RecordOn(store.habits, d), store.goals, JournalOn(store.journals, d));
    }
    if logged != [] {
      RoundedAverageWithin(logged, Review.DayScores(store), 0, 106);
    }
  }

  /** When every logged day of the week scores the same, the average is that score. */
  lemma WeekAverageOfSteadyWeek(store: Store, today: Day, from: nat, c: int)
    requires exists d :: today - from - 6 <= d <= today - from && HasEntries(store.metrics, store.habits, d)
    requires forall d :: (today - from - 6 <= d <= today - from && HasEntries(store.metrics, store.habits, d)
      ==> Review.DayScore(store, d) == c as real)
    ensures WeekAverage(store, today, from) == c
  {
    var logged := Filter(WeekBack(today, from), HasEntriesOn(store));
    var d :| today - from - 6 <= d <= today - from && HasEntries(store.metrics, store.habits, d);
    assert d in logged;
    AverageOfConstant(logged, Review.DayScores(store), c as real);
    RoundOfInteger(c);
  }

  // ---------------------------------------------------------------------------
  // Summary

  const NoData := "No data logged yet."

  /** How a number is written; locale formatting is a parameter of the model. */
  datatype Format = Format(plain: real -> string, grouped: real -> string)

  function BodyParts(m: DayMetrics, fmt: Format): (parts: seq<string>)
    ensures parts == [] <==> !Truthy(m, Sleep) && !Truthy(m, Steps) && !Truthy(m, Water)
  {
    (if Truthy(m, Sleep) then [fmt.plain(ValueOr0(m, Sleep)) + "h sleep"] else [])
    + (if Truthy(m, Steps) then [fmt.grouped(ValueOr0(m, Steps)) + " steps"] else [])
    + (if Truthy(m, Water) then [fmt.plain(ValueOr0(m, Water)) + "L water"] else [])
  }

  function MindParts(todayPages: real, til: string, fmt: Format): (parts: seq<string>)
    ensures parts == [] <==> todayPages <= 0.0 && til == ""
  {
    (if todayPages > 0.0 then [fmt.plain(todayPages) + " pages"] else [])
    + (if til != "" then ["learned something"] else [])
  }

  /** The run is reported with its distance when one was logged, and as done otherwise. */
  function RunPart(m: DayMetrics, h: DayHabits, fmt: Format): (parts: seq<string>)
    ensures parts == [] <==> !Done(h, Run)
  {
    if Done(h, Run) && Truthy(m, RunDistance) then ["run " + fmt.plain(ValueOr0(m, RunDistance)) + " km"]
    else if Done(h, Run) then ["run done"]
    else []
  }

  function DisciplineParts(m: DayMetrics, h: DayHabits, noFapStreak: nat, fmt: Format): (parts: seq<string>)
    ensures parts == [] <==> !Done(h, NoFap) && !Done(h, Workout) && !Done(h, Run) && !Done(h, Integrity) && !Done(h, HealthyEating)
  {
    (if Done(h, NoFap) then ["NoFap day " + fmt.plain(noFapStreak as real)] else [])
    + (if Done(h, Workout) then ["workout done"] else [])
    + RunPart(m, h, fmt)
    + (if Done(h, Integrity) then ["integrity kept"] else [])
    + (if Done(h, HealthyEating) then ["ate healthy"] else [])
  }

  /** A section heading followed by its parts joined with commas, or nothing for no parts. */
  function Section(title: string, parts: seq<string>): (s: seq<string>)
    requires |title| > 0
    ensures |s| <= 1
    ensures s == [] <==> parts == []
    ensures s != [] ==> |s[0]| > 0 && s[0][0] == title[0]
  {
    if parts == [] then [] else [title + Join(parts, ", ")]
  }

  /** The three sections in order: body, mind, discipline. */
  function Sections(m: DayMetrics, h: DayHabits, todayPages: real, til: string, noFapStreak: nat, fmt: Format): (s: seq<string>)
    ensures |s| <= 3
    ensures s != [] ==> |s[0]| > 0 && s[0][0] != 'N'
  {
    Section("Body: ", BodyParts(m, fmt))
    + Section("Mind: ", MindParts(todayPages, til, fmt))
    + Section("Discipline: ", DisciplineParts(m, h, noFapStreak, fmt))
  }

  /** `generateSummary`. */
  function Summary(m: DayMetrics, h: DayHabits, todayPages: real, til: string, noFapStreak: nat, fmt: Format): (text: string)
    ensures text != NoData ==> |text| > 0 && text[|text| - 1] == '.'
  {
    var s := Sections(m, h, todayPages, til, noFapStreak, fmt);
    if s == [] then NoData else Join(s, ". ") + "."
  }

  lemma JoinStartsWithFirst(parts: seq<string>, sep: string)
    requires parts != [] && |parts[0]| > 0
    ensures |Join(parts, sep)| > 0 && Join(parts, sep)[0] == parts[0][0]
  {
  }

  /**
   * The summary is the placeholder exactly when nothing of the body, the mind or the
   * discipline sections was logged; otherwise it is the sections joined by `. ` with a
   * closing full stop.
   */
  lemma SummaryPlaceholderIff(m: DayMetrics, h: DayHabits, todayPages: real, til: string, noFapStreak: nat, fmt: Format)
    ensures Summary(m, h, todayPages, til, noFapStreak, fmt) == NoData <==> (
      && !Truthy(m, Sleep) && !Truthy(m, Steps) && !Truthy(m, Water)
      && todayPages <= 0.0 && til == ""
      && !Done(h, NoFap) && !Done(h, Workout) && !Done(h, Run) && !Done(h, Integrity) && !Done(h, HealthyEating))
    ensures Sections(m, h, todayPages, til, noFapStreak, fmt) != [] ==>
      Summary(m, h, todayPages, til, noFapStreak, fmt) == Join(Sections(m, h, todayPages, til, noFapStreak, fmt), ". ") + "."
  {
    var s := Sections(m, h, todayPages, til, noFapStreak, fmt);
    if s != [] {
      JoinStartsWithFirst(s, ". ");
      assert (Join(s, ". ") + ".")[0] != NoData[0];
    }
  }
}

=== FILE: wrappers.dfy ===
/** Optional values: JavaScript's `null`/`undefined` versus a present value. */
module Wrappers {

  datatype Option<+T> = None | Some(value: T) {

    /** The present value, or `default` when there is none (the `??` operator). */
    function GetOr(default: T): T {
      match this
      case Some(v) => v
      case None => default
    }
  }
}
